=== FILE: README.md ===
# Kalakriti CMS in Dafny

A model of the Kalakriti art-competition site, in two halves.

The backend is a FastAPI service. It covers sign-up and sign-in with JWT tokens, paid event registration through Razorpay, and results, including a CSV bulk upload. It also has events, uploaded artworks (assets), contact-form messages, and e-mail through an SMTP or a mock strategy.

The frontend is a React application. Its logic lives in the browser: the forms' validators, the three-step registration dialog and the sign-up page. The admin panels keep published results and reviews in `localStorage`. The public results page searches them, and the participant dashboard edits the profile and looks up certificates.

Every backend service works on one in-memory database, `Schema.Db`, with one sequence of rows per table. A service call returns a `Response(db, body)`. A commit checks the primary-key, unique and foreign-key constraints and replaces the database as a whole. On every error path the database is the one the call started from, as after `db.rollback()`.

Everything outside the program is a function parameter:
- bcrypt, the Razorpay order call and its HMAC signer;
- the SMTP session and the e-mail template renderer;
- `uuid4()` draws and the clock;
- Pydantic's `EmailStr` check and the normal form it gives an address;
- JavaScript's `Math.random()` and `Date` parsing.

The frontend's stored arrays are sequence parameters and results.

One module per source file:

| module | models |
|---|---|
| `Wrappers` | `Option`, `Result` and FastAPI's `HTTPException` |
| `Text` | the string operations both runtimes use: Python `int()` and `str()`, `strip`, `title`, JavaScript `split`, `padStart`, upper- and lower-casing |
| `SqlLike` | SQL `LIKE`/`ILIKE` with `%` and `_` wildcards, as the listing filters use it |
| `KeyedStore` | a table as an ordered sequence of rows: lookup by key, insert, replace, remove, and filtering as successive `query.filter` calls |
| `Ordering` | newest-first ordering by an integer key |
| `Schema` | the tables and the commit with its constraints |
| `Ids` | the `PREFIX<n mod 10^7>` primary keys |
| `Auth` | access and reset tokens, the current-user dependency, the admin guard |
| `Email` | the SMTP and mock e-mail strategies and their factory |
| `UserService`, `RegistrationService`, `PaymentService`, `ResultService`, `EventService`, `AssetService`, `ContactUsService` | the backend services |
| `EventTypes` | the competition table of `lib/utils.ts` |
| `Forms` | the e-mail and phone patterns the browser forms share |
| `EventResults` | the published results kept in the browser |
| `Reviews` | the review form and the moderation panel |
| `ResultUpload`, `NewResults`, `UserDashboard`, `AdminDashboard`, `QueriesManagement` | the result panels, the results page, the participant and admin dashboards and the contact-message view |
| `RegistrationWizard`, `SignUpForm`, `SubmissionForm`, `ContactPage` | the registration dialog, the sign-up page, the artwork submission form and the contact page |

Where the documented design and the code disagree, the model follows the code:
- The documented token subject is a `USER<digits>` identifier, but the code checks only the `USER` prefix.
- The documented receipt is at most 40 characters, but the code's receipt fits only for seasons of at most 22 characters (`PaymentService.Receipt`).
- Every registration is documented to have a positive artwork count, but the paid path does not check it.
- Users are documented as editable by themselves or an admin. The user table has no role column, so only self-service updates and removals succeed (`UserService.UpdateUser`, `UserService.RemoveUser`).
- The result panel is described as keeping one latest result per event type. Its publish handler clears the flags of the event chosen in its select rather than those of the result being published, so it would break the rule (`ResultUpload.PublishAsWrittenBreaksOneLatest`). But the handler is dead code: its button shows only for a preview that is not under edit, and the panel never makes one (`ResultUpload.PublishNeverShown`).

## Model

| member | source | states |
|---|---|---|
| `Schema.Commit` | kalakriti-cms-backend/models/event_registration.py:9-14 | a commit keeps the new state exactly when it meets the primary-key, unique and foreign-key constraints, every `String(n)` value fits its width and every `Integer` value lies in the 32-bit range; otherwise the database is unchanged and the answer is a server error |
| `Auth.Encode` | kalakriti-cms-backend/core/auth_utils.py:46 | the token carries exactly the given claims |
| `Auth.Decode` | kalakriti-cms-backend/core/auth_utils.py:56-57 | a token decodes exactly when its algorithm is allowed, its key matches and its registered claims pass (`iat` an integer, `nbf` an integer not after now, `exp` an integer not before now, where a numeric string counts as an integer, `sub` and `jti` strings, no `aud`, no `at_hash`), and then yields its claims; an expired but otherwise valid token is the distinct expired error; the uncaught error needs a null, list or object time claim |
| `Auth.ClaimsError` | kalakriti-cms-backend/core/auth_utils.py:67 | the ordered claim checks find no failure exactly when every registered claim passes, and report expiry exactly when the checks before `exp` pass and `exp` is an integer in the past |
| `Auth.AccessLifetime` | kalakriti-cms-backend/core/auth_utils.py:43 | a missing delta and a zero delta (falsy in Python) both give the 30-minute default; any other delta is used as given |
| `Auth.ResetLifetime` | kalakriti-cms-backend/core/auth_utils.py:48 | no delta gives the 30-minute default; any given delta, zero included, is used as given |
| `Auth.CreateAccessToken` | kalakriti-cms-backend/core/auth_utils.py:33-46 | an id not starting with `USER` is refused; otherwise the token holds exactly `sub` and `exp = now + lifetime`, and the role is dropped |
| `Auth.CreateResetPasswordToken` | kalakriti-cms-backend/core/auth_utils.py:48-54 | the token is signed with the server key and algorithm and holds exactly `sub` = the given id, `type = password_reset` and `exp = now + delta`, with 30 minutes when no delta is given; the id is not checked |
| `Auth.DecodeResetPasswordToken` | kalakriti-cms-backend/core/auth_utils.py:56-57 | a token decodes exactly when it is a signed token under the server key and algorithm whose registered claims pass, and then yields its own claims; an expired one is the expired error |
| `Auth.GetCurrentUser` | kalakriti-cms-backend/core/auth_utils.py:60-85 | success exactly when the token decodes, its subject is a `USER…` id and that id is stored, and then it is that user; 401 "expired" exactly for an expired token; every other JWT error the generic 401; a decoded token without a `USER…` subject the payload 401; 404 exactly for a valid token whose subject is not stored; 500 exactly when the decoder raises a TypeError it does not catch |
| `Auth.LoginRequired` | kalakriti-cms-backend/core/auth_utils.py:96-105 | no token is a 401 before decoding; otherwise the answer is the current-user dependency's |
| `Auth.GetCurrentAdminUserAsWritten` | kalakriti-cms-backend/core/auth_utils.py:88-93 | reading `role`, which the User model lacks, always ends in a server error |
| `Auth.GetCurrentAdminUser` | kalakriti-cms-backend/core/auth_utils.py:88-93 | the user passes exactly when the role is `admin`; anyone else gets 403 "Admin access required" |
| `Auth.AccessTokenLifetime` | kalakriti-cms-backend/core/auth_utils.py:43-46 | an issued access token authenticates its stored user up to issue time plus lifetime and is refused as expired afterwards |
| `Auth.DeactivatedUserStillAuthenticates` | kalakriti-cms-backend/core/auth_utils.py:75-79 | a soft-deleted user's unexpired token still authenticates, since the lookup ignores `status` |
| `Auth.ResetTokenAuthenticates` | kalakriti-cms-backend/core/auth_utils.py:67-79 | an unexpired password-reset token authenticates its subject like an access token, since `type` is never read |
| `Auth.ResetTokenLifetime` | kalakriti-cms-backend/core/auth_utils.py:48-57 | a reset token decodes, with its subject and `type = password_reset`, up to its issue time plus lifetime, and is refused as expired afterwards |
| `Auth.EncodeDecode` | kalakriti-cms-backend/core/auth_utils.py:46-57 | decoding a token the server encoded gives back its claims whenever they pass the registered-claim checks |
| `Auth.ForeignKeyRefused` | kalakriti-cms-backend/core/auth_utils.py:83-85 | a token signed with another key gets the generic 401, whatever its claims |
| `Auth.ForeignAlgorithmRefused` | kalakriti-cms-backend/core/auth_utils.py:67 | a token whose header names another algorithm gets the generic 401, whatever its claims |
| `Auth.NumericStringExpiry` | kalakriti-cms-backend/core/auth_utils.py:67 | an `exp` sent as the decimal text of an integer decodes and expires exactly as that integer does |
| `Auth.AudienceRefused` | kalakriti-cms-backend/core/auth_utils.py:67-85 | a token under the server key that carries any audience gets the generic 401 |
| `Auth.FutureNotBeforeRefused` | kalakriti-cms-backend/core/auth_utils.py:67-85 | a token under the server key whose `nbf` lies in the future gets the generic 401 |
| `Auth.NonIntegerIssuedAtRefused` | kalakriti-cms-backend/core/auth_utils.py:67-85 | a token under the server key whose `iat` is text `int()` refuses gets the generic 401, whatever its other claims |
| `Auth.NonStringIdRefused` | kalakriti-cms-backend/core/auth_utils.py:67-85 | a token under the server key whose `jti` is a number gets the generic 401 |
| `UserService.NewUser` | kalakriti-cms-backend/models/user.py:23-38 | the stored row has a fresh `USER` id, the normalised e-mail, the hashed password, every other request field as given, and is active; it fits its columns exactly when e-mail, name and hash are at most 255 characters and the phone number at most 20 |
| `UserService.Signup` | kalakriti-cms-backend/Resources/User/UserService.py:17-52 | an address `EmailStr` refuses is 422; a normalised e-mail already on file, active or not, is 400 with nothing written; otherwise exactly the new user, with the normalised e-mail, is appended and a bearer token for it returned; success iff the drawn id is new and the new row fits its columns, a too-long value being a 500; consistency, well-formed ids and normalised stored addresses are preserved |
| `UserService.AppendUserConsistent` | kalakriti-cms-backend/models/user.py:9-10 | appending a user keeps the database consistent exactly when its id and its e-mail are new and its values fit their columns |
| `UserService.ActiveByEmail` | kalakriti-cms-backend/Resources/User/UserService.py:129 | finds an active row with that e-mail, or reports that none exists |
| `UserService.ActiveBy` | kalakriti-cms-backend/Resources/User/UserService.py:129 | the first active user whose column equals the value, and none exactly when no active user has it |
| `UserService.Signin` | kalakriti-cms-backend/Resources/User/UserService.py:126-145 | an address `EmailStr` refuses is 422; otherwise success iff some active user has the normalised e-mail and the password verifies against its hash; every other failure is the same 401; success returns that user and its token |
| `UserService.UserConditionsMatch` | kalakriti-cms-backend/Resources/User/UserService.py:56-68 | chaining the query filters in order is the conjunction of the given conditions |
| `UserService.GetUsers` | kalakriti-cms-backend/Resources/User/UserService.py:54-71 | lists, in table order, exactly the active users meeting every given filter |
| `UserService.ApplyUserPatch` | kalakriti-cms-backend/Resources/User/UserService.py:85-99 | every supplied field is set, the password hashed; id, address and status are kept |
| `UserService.ActiveById` | kalakriti-cms-backend/Resources/User/UserService.py:76 | finds an active row with that id, or reports that none exists |
| `UserService.CheckedPatch` | kalakriti-cms-backend/schemas/user.py:18-26 | the patch is refused exactly when it supplies an address `EmailStr` refuses; otherwise only the e-mail changes, to its normal form |
| `UserService.UpdateUser` | kalakriti-cms-backend/Resources/User/UserService.py:73-107 | a new address `EmailStr` refuses is 422; then 404 for a missing or inactive user, 403 for another caller; then a failure exactly when a changed normalised e-mail is already on file or the patched row does not fit its columns; otherwise only that row changes, to the patched user with the normalised e-mail; errors write nothing; normalised stored addresses stay normalised |
| `UserService.ReplaceUserConsistent` | kalakriti-cms-backend/models/user.py:9-10 | replacing a row by one with the same id, whose e-mail is its own or unused, keeps the database consistent exactly when the new row fits its columns |
| `UserService.RemoveUser` | kalakriti-cms-backend/Resources/User/UserService.py:109-124 | 404 for a missing or inactive user, 403 for another caller; otherwise only that row's status turns false |
| `UserService.SignupThenSignin` | kalakriti-cms-backend/Resources/User/UserService.py:17-45 | after a successful sign-up the password signs the new user in under any address with the same normal form |
| `UserService.RemoveThenSignin` | kalakriti-cms-backend/Resources/User/UserService.py:109-131 | after a removal every sign-in under an address normalising to the user's is 401, and a second removal is 404 |
| `UserService.RemovedEmailStaysRegistered` | kalakriti-cms-backend/Resources/User/UserService.py:20-22 | a soft-deleted user's e-mail still blocks a new sign-up under any address normalising to it |
| `UserService.PasswordChangeThenSignin` | kalakriti-cms-backend/Resources/User/UserService.py:88-89 | when stored addresses are in normal form, after a password change whose new values fit their columns the new password signs the user in |
| `RegistrationService.NewRegistration` | kalakriti-cms-backend/models/event_registration.py:18-28 | the new row has a fresh `REG` id, the request's user, event, season and count, and status `pending`; it fits its columns exactly when user id, event name and season fit 20, 255 and 100 characters and the count is a 32-bit integer |
| `RegistrationService.AppendRegistrationConsistent` | kalakriti-cms-backend/models/event_registration.py:9-10 | adding a registration keeps the database consistent exactly when its user exists, its id is new and its values fit their columns |
| `RegistrationService.ReplaceRegistrationConsistent` | kalakriti-cms-backend/models/event_registration.py:9-10 | a patch that keeps id and owner keeps the database consistent exactly when the patched row fits its columns |
| `RegistrationService.RemoveRegistrationConsistent` | kalakriti-cms-backend/models/event_registration.py:9 | deleting a registration keeps the database consistent exactly when no asset refers to it |
| `RegistrationService.RegistrationContext` | kalakriti-cms-backend/Resources/EventRegistration/EventRegistrationService.py:43-51 | the template variables: the full name or else the e-mail, the registration's fields, the date, the title-cased status |
| `RegistrationService.RegistrationMail` | kalakriti-cms-backend/Resources/EventRegistration/EventRegistrationService.py:34-67 | no mail when the owner is not stored; otherwise a mail to the owner's address with subject `Registration Successful - <event>` exactly when the template renders |
| `RegistrationService.CreateRegistration` | kalakriti-cms-backend/Resources/EventRegistration/EventRegistrationService.py:13-32 | a non-positive count is 422; success appends exactly the new row and then attempts the mail; success iff the user exists, the id is new and the row fits its columns (a count above 2147483647 is a 500); a failure writes and sends nothing |
| `RegistrationService.CountBeyondColumnIsServerError` | kalakriti-cms-backend/models/event_registration.py:13 | a positive count above 2147483647 passes the request check but fails at commit: a 500, with nothing written and no mail |
| `RegistrationService.RegistrationConditionsMatch` | kalakriti-cms-backend/Resources/EventRegistration/EventRegistrationService.py:71-81 | chaining the query filters in order is the conjunction of the given conditions |
| `RegistrationService.GetRegistrations` | kalakriti-cms-backend/Resources/EventRegistration/EventRegistrationService.py:69-84 | lists, in table order, exactly the registrations matching every given filter |
| `RegistrationService.NoRegistrationFilterListsAll` | kalakriti-cms-backend/Resources/EventRegistration/EventRegistrationService.py:74-83 | with no filter every registration is listed, in order |
| `RegistrationService.GetRegistration` | kalakriti-cms-backend/Resources/EventRegistration/EventRegistrationService.py:86-95 | found exactly when the id is stored, and then it is that row; otherwise 404 |
| `RegistrationService.ApplyRegistrationPatch` | kalakriti-cms-backend/Resources/EventRegistration/EventRegistrationService.py:107-110 | every supplied field is set; id and owner are kept |
| `RegistrationService.UpdateRegistration` | kalakriti-cms-backend/Resources/EventRegistration/EventRegistrationService.py:97-118 | a non-positive count is 422 before the lookup, an unknown id 404; otherwise success iff the patched row fits its columns, and then only that row changes, to the patched row; errors write nothing |
| `RegistrationService.DeleteRegistration` | kalakriti-cms-backend/Resources/EventRegistration/EventRegistrationService.py:120-132 | an unknown id is 404; the delete succeeds exactly when no asset refers to the row, and then removes only that row |
| `RegistrationService.CreateThenGet` | kalakriti-cms-backend/Resources/EventRegistration/EventRegistrationService.py:13-32 | a created registration is read back by its id |
| `RegistrationService.MailNeverAffectsRegistration` | kalakriti-cms-backend/Resources/EventRegistration/EventRegistrationService.py:65-67 | the answer and the stored data do not depend on the template or the clock; a stored registration's mail goes out exactly when the template renders |
| `RegistrationService.DeleteThenGet` | kalakriti-cms-backend/Resources/EventRegistration/EventRegistrationService.py:120-132 | after a delete the id is 404 |
| `RegistrationService.EmptyPatchChangesNothing` | kalakriti-cms-backend/Resources/EventRegistration/EventRegistrationService.py:107-113 | a patch with no fields leaves the database as it was and returns the stored row |
| `PaymentService.Receipt` | kalakriti-cms-backend/Resources/Payment/PaymentService.py:29 | the receipt's length is the prefix, at most ten characters of the user id, the separator and the whole season |
| `PaymentService.NewOrderData` | kalakriti-cms-backend/Resources/Payment/PaymentService.py:26-36 | the order asks for `amount * 100` paise in INR with that receipt and notes carrying the user, event, season and the count as text |
| `PaymentService.OrderDataRecoverable` | kalakriti-cms-backend/Resources/Payment/PaymentService.py:26-36 | the receipt splits back into the prefix, the first ten characters of the user id and the whole season; the notes' count parses back to the count; the paise amount divides back to the amount |
| `PaymentService.CreateOrder` | kalakriti-cms-backend/Resources/Payment/PaymentService.py:18-53 | success exactly when the gateway creates the order, answering its id, amount, currency and the public key; any gateway error becomes a 500 naming it |
| `PaymentService.ExceptionText` | kalakriti-cms-backend/Resources/Payment/__init__.py:45-47 | an HTTP exception prints as its status, a colon and its detail |
| `PaymentService.CreatePaymentOrder` | kalakriti-cms-backend/Resources/Payment/__init__.py:29-47 | the route succeeds exactly when the service does; a service error is re-raised as a 500 whose detail begins with `500: ` |
| `PaymentService.PaidRegistration` | kalakriti-cms-backend/Resources/Payment/PaymentService.py:68-74 | the stored row is the plain registration row with status `success`; it fits its columns exactly when user id, event name and season fit and the count is a 32-bit integer |
| `PaymentService.SignatureValid` | kalakriti-cms-backend/Resources/Payment/PaymentService.py:58-65 | a payment is genuine exactly when the gateway's keyed HMAC of `order_id|payment_id` equals the signature; `PaymentService.VerifyPayment` answers 400 otherwise |
| `PaymentService.VerifyPayment` | kalakriti-cms-backend/Resources/Payment/PaymentService.py:55-94 | a bad signature is 400 with nothing stored; success appends exactly the paid registration and answers its id and the payment id, then attempts the mail; with a valid signature success iff the user exists, the id is new and the row fits its columns, any failure being a rolled-back 500 |
| `PaymentService.ReplayStoresTwice` | kalakriti-cms-backend/Resources/Payment/PaymentService.py:55-88 | replaying the same signed payment whose values fit their columns stores a second paid registration with another id |
| `ResultService.CreateResultAsWritten` | kalakriti-cms-backend/Resources/Results/ResultService.py:11-31 | a rank below 1 is 422; every other request fails with a 500 and writes nothing, because `event_name` and `season` are read from a request model without them |
| `ResultService.NewResult` | kalakriti-cms-backend/Resources/Results/ResultService.py:13-22 | the row has a fresh `RES` id and every request field, event and season as given; it fits its columns exactly when name and category fit 255 characters, the user id 20, and score and rank are 32-bit integers |
| `ResultService.CreateResult` | kalakriti-cms-backend/Resources/Results/ResultService.py:11-31 | a rank below 1 is 422; success appends exactly the new row; success iff the drawn id is new and the row fits its columns; errors write nothing |
| `ResultService.CreateResultThenGet` | kalakriti-cms-backend/Resources/Results/ResultService.py:86-93 | a created result whose values fit their columns is read back by its id |
| `ResultService.LastIndexOf` | kalakriti-cms-backend/Resources/Results/ResultService.py:40 | with a repeated column name the last such column is the one a row reads |
| `ResultService.Header` | kalakriti-cms-backend/Resources/Results/ResultService.py:40 | the reader's field names are the first line of the file, and an empty file has none |
| `ResultService.FieldOf` | kalakriti-cms-backend/Resources/Results/ResultService.py:47-51 | a field is missing exactly when no header column has that name; a present value is the cell under a column of that name |
| `ResultService.ParseRecord` | kalakriti-cms-backend/Resources/Results/ResultService.py:44-59 | a row is taken exactly when `name`, `user_id` and `category` columns exist and `score` and `rank` parse as integers; then it carries those integers and the optional remarks |
| `ResultService.ParseAll` | kalakriti-cms-backend/Resources/Results/ResultService.py:44-59 | the loop either takes every row, in order, or stops at the first row it cannot take, all earlier rows having parsed |
| `ResultService.DataRecords` | kalakriti-cms-backend/Resources/Results/ResultService.py:40-44 | the reader yields no empty record |
| `ResultService.Materialize` | kalakriti-cms-backend/Resources/Results/ResultService.py:46-57 | one row per parsed record, in order, with the `i`-th id draw and the upload's event and season |
| `ResultService.StoreRows` | kalakriti-cms-backend/Resources/Results/ResultService.py:61-66 | the commit fails when a required text is missing; success appends exactly the pending rows in order and answers their number; success iff the ids stay unique and every row fits its columns |
| `ResultService.UploadResultsCsv` | kalakriti-cms-backend/Resources/Results/ResultService.py:33-66 | a name not ending in `.csv` is 400; the upload is all or nothing; a 400 names the first rejected row's error; success stores one row per data record, in file order, with the upload's event and season; a consistent database stays consistent, so every stored row fits its columns |
| `ResultService.CsvRecordRoundTrip` | kalakriti-cms-backend/Resources/Results/ResultService.py:44-55 | a row written under the columns the upload reads parses back to the result it came from |
| `ResultService.CsvRecord` | kalakriti-cms-backend/Resources/Results/ResultService.py:44-55 | a result written as a record has one field per header column, and reads back through `ResultService.ParseRecord` |
| `ResultService.CsvTable` | kalakriti-cms-backend/Resources/Results/ResultService.py:40 | the file is the header line, then one record per result |
| `ResultService.ParseExport` | kalakriti-cms-backend/Resources/Results/ResultService.py:44-59 | such a file's data rows all parse, in order, back to the results |
| `ResultService.FreshDrawsKeepKey` | kalakriti-cms-backend/Resources/Results/ResultService.py:46-61 | distinct id draws not yet in the table keep the primary key unique |
| `ResultService.UploadOfExportCommits` | kalakriti-cms-backend/Resources/Results/ResultService.py:33-61 | uploading such a file under a `.csv` name reaches the commit with exactly those rows |
| `ResultService.ExportThenUpload` | kalakriti-cms-backend/Resources/Results/ResultService.py:33-66 | uploading such a file, whose rows fit their columns, with distinct fresh id draws stores every result again, in order, under the upload's event, season and new ids |
| `ResultService.ResultConditionsMatch` | kalakriti-cms-backend/Resources/Results/ResultService.py:70-81 | chaining the query filters in order is the conjunction of the given conditions |
| `ResultService.GetResults` | kalakriti-cms-backend/Resources/Results/ResultService.py:68-84 | a rank or score filter that is not an integer fails with a 500; otherwise lists, in table order, exactly the results matching every given filter |
| `ResultService.GetResult` | kalakriti-cms-backend/Resources/Results/ResultService.py:86-93 | found exactly when the id is stored, and then it is that row; otherwise 404 |
| `ResultService.ApplyResultPatch` | kalakriti-cms-backend/Resources/Results/ResultService.py:102-105 | every supplied field is set; id, event and season are kept |
| `ResultService.UpdateResult` | kalakriti-cms-backend/Resources/Results/ResultService.py:95-113 | a rank below 1 is 422 before the lookup, an unknown id 404; otherwise success iff the patched row fits its columns, and then only that row changes, to the patched row |
| `ResultService.DeleteResult` | kalakriti-cms-backend/Resources/Results/ResultService.py:115-125 | an unknown id is 404; otherwise exactly that row is removed |
| `EventService.NewEvent` | kalakriti-cms-backend/Resources/Events/EventService.py:11-16 | the row has a fresh `EVT` id and the request's name, season and dates; it fits its columns exactly when name and season fit 255 and 100 characters |
| `EventService.CreateEvent` | kalakriti-cms-backend/Resources/Events/EventService.py:9-25 | success appends exactly the new event, iff its drawn id is new and its name and season fit their columns; errors write nothing |
| `EventService.BackwardsEventAccepted` | kalakriti-cms-backend/Resources/Events/EventService.py:9-25 | an event ending before it starts, with a name and season that fit, is stored and read back like any other |
| `EventService.EventConditionsMatch` | kalakriti-cms-backend/Resources/Events/EventService.py:29-36 | chaining the query filters in order is the conjunction of the given conditions |
| `EventService.GetEvents` | kalakriti-cms-backend/Resources/Events/EventService.py:27-39 | lists, in table order, exactly the events matching every given filter |
| `EventService.FilterByIdIsLookup` | kalakriti-cms-backend/Resources/Events/EventService.py:35-36 | filtering on a stored id lists that event alone, the one the by-id read returns |
| `EventService.GetEvent` | kalakriti-cms-backend/Resources/Events/EventService.py:41-48 | found exactly when the id is stored, and then it is that row; otherwise 404 |
| `EventService.ApplyEventPatch` | kalakriti-cms-backend/Resources/Events/EventService.py:57-60 | every supplied field is set; the id is kept |
| `EventService.UpdateEvent` | kalakriti-cms-backend/Resources/Events/EventService.py:50-68 | an unknown id is 404; otherwise success iff the patched row fits its columns, and then only that row changes, to the patched row |
| `EventService.DeleteEvent` | kalakriti-cms-backend/Resources/Events/EventService.py:70-80 | an unknown id is 404; otherwise exactly that row is removed |
| `AssetService.NewAsset` | kalakriti-cms-backend/Resources/Assets/AssetService.py:11-15 | the row has a fresh `AST` id and the request's registration, url and name; it fits its columns exactly when registration id, url and name fit 20, 500 and 255 characters |
| `AssetService.AppendAssetConsistent` | kalakriti-cms-backend/Resources/Assets/AssetService.py:17-18 | adding an asset keeps the database consistent exactly when its registration exists, its id is new and its values fit their columns |
| `AssetService.ReplaceAssetConsistent` | kalakriti-cms-backend/Resources/Assets/AssetService.py:56-59 | a patch that keeps id and registration keeps the database consistent exactly when the patched row fits its columns |
| `AssetService.RemoveAssetConsistent` | kalakriti-cms-backend/Resources/Assets/AssetService.py:74-75 | removing an asset keeps the database consistent |
| `AssetService.CreateAsset` | kalakriti-cms-backend/Resources/Assets/AssetService.py:9-24 | success appends exactly the new asset, iff its registration exists, its drawn id is new and its values fit their columns; errors write nothing |
| `AssetService.AssetConditionsMatch` | kalakriti-cms-backend/Resources/Assets/AssetService.py:28-33 | chaining the query filters in order is the conjunction of the given conditions |
| `AssetService.GetAssets` | kalakriti-cms-backend/Resources/Assets/AssetService.py:26-36 | lists, in table order, exactly the assets matching every given filter |
| `AssetService.DeletableIffNoAssets` | kalakriti-cms-backend/Resources/Assets/AssetService.py:30-31 | a registration can be deleted exactly when listing its assets gives nothing |
| `AssetService.GetAsset` | kalakriti-cms-backend/Resources/Assets/AssetService.py:38-45 | found exactly when the id is stored, and then it is that row; otherwise 404 |
| `AssetService.ApplyAssetPatch` | kalakriti-cms-backend/Resources/Assets/AssetService.py:54-57 | url and name are set when supplied; id and registration are kept |
| `AssetService.UpdateAsset` | kalakriti-cms-backend/Resources/Assets/AssetService.py:47-65 | an unknown id is 404; otherwise success iff the patched row fits its columns, and then only that row changes, to the patched row |
| `AssetService.DeleteAsset` | kalakriti-cms-backend/Resources/Assets/AssetService.py:67-77 | an unknown id is 404; otherwise exactly that row is removed |
| `ContactUsService.CreateContact` | kalakriti-cms-backend/Resources/ContactUs/ContactUsService.py:9-26 | an address `EmailStr` refuses is 422 with nothing drawn; otherwise exactly one row is appended, with the normalised address, the other four fields as given, the next sequence id and the current time; on a consistent database success iff the address is accepted and the row fits its columns; a failed commit is a 500 that still uses up the sequence value |
| `ContactUsService.NewContact` | kalakriti-cms-backend/Resources/ContactUs/ContactUsService.py:11-17 | the row carries the next sequence value, the given address and time and the request's other fields; it fits its columns exactly when name and address fit 255 characters, the subject 500 and a given phone number 20 |
| `ContactUsService.ContactIdsIncrease` | kalakriti-cms-backend/Resources/ContactUs/ContactUsService.py:9-26 | two accepted messages get different ids, the later the larger, never one already stored |
| `ContactUsService.ContactConditionsMatch` | kalakriti-cms-backend/Resources/ContactUs/ContactUsService.py:30-38 | chaining the query filters in order is the conjunction of the given conditions |
| `ContactUsService.GetContacts` | kalakriti-cms-backend/Resources/ContactUs/ContactUsService.py:28-41 | the list is newest first and holds exactly the messages matching every given filter, each as often as stored |
| `ContactUsService.NewestSortsFirst` | kalakriti-cms-backend/Resources/ContactUs/ContactUsService.py:40 | sorting newest first puts a row strictly newer than all others at the head |
| `ContactUsService.NewestContactFirst` | kalakriti-cms-backend/Resources/ContactUs/ContactUsService.py:40 | a message sent later than every stored one heads the unfiltered list |
| `ContactUsService.GetContact` | kalakriti-cms-backend/Resources/ContactUs/ContactUsService.py:43-49 | found exactly when the id is stored, and then it is that row; otherwise 404 |
| `ContactUsService.ApplyContactPatch` | kalakriti-cms-backend/Resources/ContactUs/ContactUsService.py:58-61 | every supplied field is set; id and creation time are kept |
| `ContactUsService.UpdateContact` | kalakriti-cms-backend/Resources/ContactUs/ContactUsService.py:51-69 | a new address `EmailStr` refuses is 422 before the lookup, an unknown id 404; otherwise success iff the patched row fits its columns, and then only that row changes, to the patched row with the normalised address |
| `Schema.CheckedEmail` | kalakriti-cms-backend/schemas/contact_us.py:12-17 | an optional address field is refused exactly when it is given and `EmailStr` refuses it; otherwise it holds the normal form |
| `ContactUsService.DeleteContact` | kalakriti-cms-backend/Resources/ContactUs/ContactUsService.py:71-80 | an unknown id is 404; otherwise exactly that row is removed and the id is no longer stored |
| `ContactUsService.DeletedIdNotReused` | kalakriti-cms-backend/Resources/ContactUs/ContactUsService.py:71-80 | after a delete, the next message gets a different id |
| `Email.NewSmtp` | kalakriti-cms-backend/Bizlayer/EmailStrategy/EmailStrategy.py:55-83 | server, port, account and sender are the fixed Gmail settings; only `use_tls` comes from the caller |
| `Email.CreateMessage` | kalakriti-cms-backend/Bizlayer/EmailStrategy/EmailStrategy.py:85-107 | the message is from the strategy's sender to the recipient, with the subject and body, as `html` or `plain` by the flag |
| `Email.SmtpSend` | kalakriti-cms-backend/Bizlayer/EmailStrategy/EmailStrategy.py:109-133 | true exactly when the transport delivers the built message; a failure is reported, not raised |
| `Email.Outgoing` | kalakriti-cms-backend/Bizlayer/EmailStrategy/EmailStrategy.py:150-151 | one message per recipient, in list order |
| `Email.SmtpSendBulk` | kalakriti-cms-backend/Bizlayer/EmailStrategy/EmailStrategy.py:135-153 | the answer has one key per distinct recipient, each holding that recipient's send result |
| `Email.NewMock` | kalakriti-cms-backend/Bizlayer/EmailStrategy/EmailStrategy.py:161-162 | a new mock has an empty log |
| `Email.MockSend` | kalakriti-cms-backend/Bizlayer/EmailStrategy/EmailStrategy.py:164-184 | always succeeds and appends exactly one log entry with the arguments |
| `Email.MockSendBulk` | kalakriti-cms-backend/Bizlayer/EmailStrategy/EmailStrategy.py:186-204 | the log grows by one entry per recipient in order, earlier entries kept; one key per distinct recipient, every answer true |
| `Email.ClearSentEmails` | kalakriti-cms-backend/Bizlayer/EmailStrategy/EmailStrategy.py:215-219 | the log is empty afterwards |
| `Email.GetSentEmails` | kalakriti-cms-backend/Bizlayer/EmailStrategy/EmailStrategy.py:206-213 | the log of every message the mock strategy recorded since it was created or cleared |
| `Email.CreateEmailStrategy` | kalakriti-cms-backend/Bizlayer/EmailStrategy/EmailStrategy.py:223-239 | the type is matched ignoring case: `smtp` builds the SMTP strategy unless an undeclared argument is passed, `mock` a fresh mock, anything else is an error naming the type |
| `Email.SmtpIgnoresConfiguration` | kalakriti-cms-backend/Bizlayer/EmailStrategy/EmailStrategy.py:75-80 | whatever server settings are passed, every SMTP strategy differs at most in `use_tls` |
| `SqlLike.SurroundIsContains` | kalakriti-cms-backend/Resources/User/UserService.py:62 | the `%value%` pattern matches exactly the columns containing a wildcard-free value |
| `SqlLike.Like` | kalakriti-cms-backend/Resources/User/UserService.py:62 | `LIKE` with `%` for any run of characters and `_` for one; `SqlLike.TrailingPercentIsPrefix` and `SqlLike.SurroundIsContains` give the prefix and substring meaning |
| `SqlLike.TrailingPercentIsPrefix` | kalakriti-cms-backend/Resources/User/UserService.py:62 | `v%` matches exactly the strings that start with a wildcard-free `v` |
| `SqlLike.ILike` | kalakriti-cms-backend/Resources/ContactUs/ContactUsService.py:33-38 | `ILIKE` is `LIKE` after lower-casing both sides; `SqlLike.IContainsIsContainsIgnoreCase` gives its substring meaning |
| `SqlLike.IContainsIsContainsIgnoreCase` | kalakriti-cms-backend/Resources/ContactUs/ContactUsService.py:33-38 | for a value without `%` or `_`, the `ilike` filter is a case-insensitive substring test |
| `SqlLike.UnderscoreMatchesAnyNonEmpty` | kalakriti-cms-backend/Resources/Events/EventService.py:31-32 | a filter value `_` is a wildcard and matches every non-empty column |
| `Ordering.SortDesc` | kalakriti-cms-backend/Resources/ContactUs/ContactUsService.py:40 | the result is a permutation of the input ordered by key, largest first |
| `Text.ParseInt` | kalakriti-cms-backend/Resources/Results/ResultService.py:49-52 | Python's `int()` on text: an optional sign and ASCII digits between white space, anything else refused |
| `Text.ParseIntOfIntToString` | kalakriti-cms-backend/Resources/Results/ResultService.py:49-52 | `int(str(i)) == i` for every integer |
| `Text.Title` | kalakriti-cms-backend/Resources/EventRegistration/EventRegistrationService.py:50 | `str.title()` keeps the length; `Text.TitleOfLowerWord` shows a lower-case word gets only its first letter upper-cased |
| `Text.TitleOfLowerWord` | kalakriti-cms-backend/Resources/EventRegistration/EventRegistrationService.py:50 | a lower-case word such as `pending` becomes `Pending` |
| `Text.Split` | kalakriti-cms-frontend/src/components/forms/ParticipantRegistration.tsx:90 | JavaScript `split` always yields at least one piece; `Text.SplitJoin` gives back the joined pieces |
| `Text.SplitJoin` | kalakriti-cms-frontend/src/pages/admin/Dashboard.tsx:187-203 | splitting lines joined by a separator none of them contains gives the lines back |
| `Text.PadStart` | kalakriti-cms-frontend/src/components/admin/ResultUpload.tsx:130 | `padStart` lengthens to the width and never shortens |
| `Text.PaddedValue` | kalakriti-cms-frontend/src/components/admin/ResultUpload.tsx:130 | zero padding keeps a digit string all digits and keeps its value |
| `Text.Utf16Length` | kalakriti-cms-frontend/src/pages/auth/SignUp.tsx:49 | JavaScript `length`: between one and two units per character, exactly one each when no character lies above U+FFFF |
| `Text.Utf16LengthConcat` | kalakriti-cms-frontend/src/pages/auth/SignUp.tsx:49 | code units add up over concatenation |
| `Ids.GenerateId` | kalakriti-cms-backend/models/user.py:35-38 | an id is the prefix followed by one to seven decimal digits |
| `Ids.GenerateIdSuffix` | kalakriti-cms-backend/models/event_registration.py:25-28 | the digits read back as the uuid modulo 10^7 |
| `Ids.GenerateIdCollision` | kalakriti-cms-backend/models/event_registration.py:25-28 | two draws give the same id exactly when they agree modulo 10^7 |
| `EventTypes.GetEventDetails` | kalakriti-cms-frontend/src/lib/utils.ts:48-50 | an entry is found exactly for the six type keys, and it is the table's entry with that key |
| `EventTypes.DetailsOfEveryEntry` | kalakriti-cms-frontend/src/lib/utils.ts:9-50 | looking up any entry's key finds that entry |
| `EventTypes.TitleOf` | kalakriti-cms-frontend/src/lib/utils.ts:9-50 | a known type's title is its table entry's title, which starts with `Kalakriti `; an unknown type gives the empty title |
| `Reviews.EditsKeepRating` | kalakriti-cms-frontend/src/components/reviews/ReviewSubmissionForm.tsx:93-97 | whatever the user types or clicks, the rating stays between one and five stars |
| `Reviews.SubmitReview` | kalakriti-cms-frontend/src/components/reviews/ReviewSubmissionForm.tsx:19-51 | a form missing its name or text stores nothing and is kept; otherwise exactly one pending review is appended after the stored ones and the form is cleared |
| `Reviews.SubmittedRatingInRange` | kalakriti-cms-frontend/src/components/reviews/ReviewSubmissionForm.tsx:12-51 | every review the form stores has one to five stars and is pending |
| `Reviews.SetStatus` | kalakriti-cms-frontend/src/components/admin/ReviewsManagement.tsx:31-47 | the list keeps its length and order; every review with that id takes the new status, the others are unchanged |
| `Reviews.Approve` | kalakriti-cms-frontend/src/components/admin/ReviewsManagement.tsx:31-38 | every review with that id becomes approved; the list keeps its length and every other field and review |
| `Reviews.Reject` | kalakriti-cms-frontend/src/components/admin/ReviewsManagement.tsx:40-47 | every review with that id becomes rejected; the list keeps its length and every other field and review |
| `Reviews.LastDecisionWins` | kalakriti-cms-frontend/src/components/admin/ReviewsManagement.tsx:31-47 | of two decisions on a review, the later one stands |
| `Reviews.DeleteReview` | kalakriti-cms-frontend/src/components/admin/ReviewsManagement.tsx:49-54 | the list left is exactly the reviews with other ids, in their order, duplicates included |
| `Reviews.DecideThenDelete` | kalakriti-cms-frontend/src/components/admin/ReviewsManagement.tsx:31-54 | a decision on a review that is then deleted leaves no trace |
| `Reviews.FilteredReviews` | kalakriti-cms-frontend/src/components/admin/ReviewsManagement.tsx:56-58 | the `all` tab shows every review; a status tab shows exactly the reviews with that status, in order |
| `Reviews.TabCountsAddUp` | kalakriti-cms-frontend/src/components/admin/ReviewsManagement.tsx:71-92 | the three status tabs' counts add up to the `all` count |
| `Reviews.ApprovedTabShowsApproved` | kalakriti-cms-frontend/src/components/admin/ReviewsManagement.tsx:31-38 | after approving an id the approved tab shows every review with that id |
| `Reviews.Offered` | kalakriti-cms-frontend/src/components/admin/ReviewsManagement.tsx:144-187 | delete is always offered; approve exactly when not approved; reject exactly when not rejected |
| `Reviews.Perform` | kalakriti-cms-frontend/src/components/admin/ReviewsManagement.tsx:31-54 | a delete leaves no review with that id and only stored reviews; a decision keeps the length and sets exactly the reviews with that id to the chosen status |
| `Reviews.OfferedActionsChangeStatus` | kalakriti-cms-frontend/src/components/admin/ReviewsManagement.tsx:144-187 | every status button a card shows moves its review to a different status, and never back to pending |
| `QueriesManagement.LoadQueries` | kalakriti-cms-frontend/src/components/admin/QueriesManagement.tsx:32-43 | the loaded list is a permutation of the fetched messages ordered newest first |
| `QueriesManagement.LoadKeepsEveryQuery` | kalakriti-cms-frontend/src/components/admin/QueriesManagement.tsx:35-38 | loading neither drops nor adds a message |
| `QueriesManagement.FilteredQueries` | kalakriti-cms-frontend/src/components/admin/QueriesManagement.tsx:56-61 | the shown list keeps the original order and holds exactly the messages whose name, e-mail or subject contains the term ignoring case, or whose id's digits contain it |
| `QueriesManagement.SearchById` | kalakriti-cms-frontend/src/components/admin/QueriesManagement.tsx:56-61 | searching a message's number finds it, and an empty search shows every message |
| `QueriesManagement.DeleteQuery` | kalakriti-cms-frontend/src/components/admin/QueriesManagement.tsx:45-54 | a failed request leaves the list as it was; after a successful one the list is exactly the messages with other ids, in order, duplicates included |
| `QueriesManagement.Stats` | kalakriti-cms-frontend/src/components/admin/QueriesManagement.tsx:63-99 | the total is the number of messages; the month card counts exactly the messages of the current calendar month, of any year, and the seven-day card exactly those newer than a week before now |
| `QueriesManagement.StatsAppend` | kalakriti-cms-frontend/src/components/admin/QueriesManagement.tsx:63-99 | no messages give three zeros; one more message adds one to the total, and one to each card exactly when it is of this month or of the last seven days |
| `ContactPage.HandleInputChange` | kalakriti-cms-frontend/src/pages/Contact.tsx:24-27 | the named field takes the typed value; every other field and the loading flag are unchanged |
| `ContactPage.HandleSubmit` | kalakriti-cms-frontend/src/pages/Contact.tsx:29-46 | missing name, e-mail or message is refused first; sending starts exactly when those are present and the address matches the pattern; a refused form is left exactly as it was |
| `ContactPage.FinishSending` | kalakriti-cms-frontend/src/pages/Contact.tsx:48-58 | after the send every one of the five fields is empty and loading is off |
| `ContactPage.OptionalFieldsIgnored` | kalakriti-cms-frontend/src/pages/Contact.tsx:33-43 | what is typed as phone or subject never changes the verdict |
| `ContactPage.AcceptedEmailShape` | kalakriti-cms-frontend/src/pages/Contact.tsx:39-43 | an accepted address has no white space, exactly one `@` with something before it, and a dot strictly inside the part after it |
| `ContactPage.FillingRequiredFieldsSends` | kalakriti-cms-frontend/src/pages/Contact.tsx:14-45 | on the blank page, typing a name, a well-formed address and a message is enough to send, with phone and subject still empty |
| `Forms.EmailCheckIsPattern` | kalakriti-cms-frontend/src/pages/Contact.tsx:39 | the pattern `^[^\s@]+@[^\s@]+\.[^\s@]+$` accepts exactly the addresses with no white space, one `@` not first, and a dot with something on both sides after it |
| `Forms.EmailPattern` | kalakriti-cms-frontend/src/pages/Contact.tsx:39 | `^[^\s@]+@[^\s@]+\.[^\s@]+$`: some `@` and a later `.` split the text into three non-empty parts free of white space and `@` |
| `Forms.TenDigits` | kalakriti-cms-frontend/src/components/forms/ParticipantRegistration.tsx:132 | `^[0-9]{10}$`: exactly ten ASCII digits |
| `SubmissionForm.FileTypeFor` | kalakriti-cms-frontend/src/components/forms/SubmissionForm.tsx:274 | the picker asks for video exactly for dance and singing, for images otherwise |
| `SubmissionForm.PickedFileFitsCompetition` | kalakriti-cms-frontend/src/components/forms/SubmissionForm.tsx:50-68 | a file that reaches a slot is at most 10 MiB and is a video exactly when the competition is dance or singing |
| `SubmissionForm.HandleFileSelect` | kalakriti-cms-frontend/src/components/forms/SubmissionForm.tsx:194-198 | the chosen slot holds the file; the spread copy keeps every other file and turns every old hole into an explicit `undefined`; slots past the old end become holes |
| `SubmissionForm.CheckFields` | kalakriti-cms-frontend/src/components/forms/SubmissionForm.tsx:200-219 | the field checks pass exactly when both names are given, the address matches the e-mail pattern and the phone is ten digits; an empty field is reported before anything else |
| `SubmissionForm.ValidateFormAsWritten` | kalakriti-cms-frontend/src/components/forms/SubmissionForm.tsx:200-228 | after the field checks, the form passes exactly when the file array is at least as long as the number of artworks paid for |
| `SubmissionForm.ValidateForm` | kalakriti-cms-frontend/src/components/forms/SubmissionForm.tsx:200-228 | after the field checks, the form passes exactly when each of the paid-for slots holds a file |
| `SubmissionForm.ArtworkFields` | kalakriti-cms-frontend/src/components/forms/SubmissionForm.tsx:247-249 | the k-th field sent is the k-th non-hole slot, in ascending slot order, under `artwork<slot+1>`: its file, or the text "undefined" for an explicit `undefined`; holes are skipped and every filled or `undefined` slot is sent |
| `SubmissionForm.SentSlots` | kalakriti-cms-frontend/src/components/forms/SubmissionForm.tsx:247 | `forEach` visits exactly the slots that are not holes, each once and in ascending order |
| `SubmissionForm.ArtworkKeyInjective` | kalakriti-cms-frontend/src/components/forms/SubmissionForm.tsx:248 | different slots get different `artwork<n>` keys |
| `SubmissionForm.ArtworkKeysDistinct` | kalakriti-cms-frontend/src/components/forms/SubmissionForm.tsx:247-249 | no key is sent twice |
| `SubmissionForm.SentValue` | kalakriti-cms-frontend/src/components/forms/SubmissionForm.tsx:247-249 | a visited entry is sent as a file exactly when it holds one, and `undefined` as the text "undefined" |
| `SubmissionForm.FilledCountSplit` | kalakriti-cms-frontend/src/components/forms/SubmissionForm.tsx:247-249 | the files sent from a slot array are those sent from its two halves |
| `SubmissionForm.ValidFormSendsEveryArtwork` | kalakriti-cms-frontend/src/components/forms/SubmissionForm.tsx:221-249 | a form the corrected check accepts sends at least as many files as were paid for, one under each slot's name |
| `SubmissionForm.HoleSlipsThrough` | kalakriti-cms-frontend/src/components/forms/SubmissionForm.tsx:194-228 | choosing only the second of two artworks passes the written check while one file is sent, and the corrected check refuses it |
| `SubmissionForm.UndefinedArtworkSent` | kalakriti-cms-frontend/src/components/forms/SubmissionForm.tsx:194-249 | paying for three artworks and choosing the second, then the third, passes the written check and sends `artwork1` as the text "undefined"; the corrected check refuses it |
| `RegistrationWizard.EventDetailsOf` | kalakriti-cms-frontend/src/components/forms/ParticipantRegistration.tsx:20-27 | details exist exactly for the six competitions, each with a fee of 150 |
| `RegistrationWizard.GetAssetType` | kalakriti-cms-frontend/src/components/forms/ParticipantRegistration.tsx:89-100 | an upload is a video exactly when its lower-cased last extension is a video extension; everything else, unknown extensions included, is an image |
| `RegistrationWizard.SplitLastPiece` | kalakriti-cms-frontend/src/components/forms/ParticipantRegistration.tsx:90 | splitting a name at a separator, the last piece is whatever follows the last separator |
| `RegistrationWizard.VideoByExtension` | kalakriti-cms-frontend/src/components/forms/ParticipantRegistration.tsx:89-100 | a name ending in a dot and a video extension, in any letter case, is sent as a video |
| `RegistrationWizard.HandleFileChange` | kalakriti-cms-frontend/src/components/forms/ParticipantRegistration.tsx:102-115 | no file or a file over 50 MiB leaves the form unchanged; any other file becomes the submission |
| `RegistrationWizard.ValidateStep1` | kalakriti-cms-frontend/src/components/forms/ParticipantRegistration.tsx:117-149 | the details step passes exactly when all five fields are given, the e-mail and phone match their patterns, and the password is at least eight UTF-16 code units long and confirmed; missing fields are reported first |
| `RegistrationWizard.InitialStep` | kalakriti-cms-frontend/src/components/forms/ParticipantRegistration.tsx:39 | a logged-in user starts at the submission step, anyone else at the details step |
| `RegistrationWizard.NextStep` | kalakriti-cms-frontend/src/components/forms/ParticipantRegistration.tsx:151-165 | the dialog moves one step forward exactly when step 1 validates or step 2 has a submission file, and otherwise stays; the payment step is reached only with a file |
| `RegistrationWizard.ParticipantId` | kalakriti-cms-frontend/src/components/forms/ParticipantRegistration.tsx:262-278 | an id starts with the season `S1`, the competition code and the year `25` |
| `RegistrationWizard.GenerateParticipantIdAsWritten` | kalakriti-cms-frontend/src/components/forms/ParticipantRegistration.tsx:262-278 | the generator, which the dialog defines but never calls, keeps the season, code and year prefix for a number drawn from 1 to 9999 |
| `SignUpForm.CheckSignUp` | kalakriti-cms-frontend/src/pages/auth/SignUp.tsx:30-58 | sign-up goes ahead exactly when the id matches `^S1[APMDRS]\d{5}$` and the password is at least eight UTF-16 code units long and confirmed; each error names the first check that fails |
| `SignUpForm.AstralPasswordLongEnough` | kalakriti-cms-frontend/src/pages/auth/SignUp.tsx:49 | a password of four emoji is eight code units long and passes the length check |
| `SignUpForm.PaddedNumberLength` | kalakriti-cms-frontend/src/components/forms/ParticipantRegistration.tsx:275 | a number padded to three digits is all digits and is three long exactly when it is below 1000 |
| `SignUpForm.ParticipantIdAccepted` | kalakriti-cms-frontend/src/pages/auth/SignUp.tsx:30-34 | a generated id passes the sign-up pattern exactly when the competition is known and the number is below 1000 |
| `SignUpForm.GeneratedIdRejected` | kalakriti-cms-frontend/src/components/forms/ParticipantRegistration.tsx:275 | draw 999 of the unused generator gives `S1A251000`, which the sign-up pattern refuses; no participant sees it, since the dialog shows the account's user id |
| `NewResults.LexIrreflexive` | kalakriti-cms-frontend/src/pages/NewResults.tsx:49 | the order the seasons are sorted by never places a season before itself |
| `NewResults.LexTotal` | kalakriti-cms-frontend/src/pages/NewResults.tsx:49 | any two different seasons are ordered one way or the other |
| `NewResults.LexTransitive` | kalakriti-cms-frontend/src/pages/NewResults.tsx:49 | the season order is transitive, so sorting by it is well defined |
| `NewResults.InsertSeason` | kalakriti-cms-frontend/src/pages/NewResults.tsx:48-51 | inserting a new season into a strictly descending list keeps it strictly descending and adds exactly that season |
| `NewResults.AvailableSeasons` | kalakriti-cms-frontend/src/pages/NewResults.tsx:48-51 | the season list has no duplicates, is newest first, and holds exactly the seasons of the published results |
| `NewResults.DefaultSeason` | kalakriti-cms-frontend/src/pages/NewResults.tsx:59-70 | with no published results the page shows 2024; otherwise it shows a season some result was published for |
| `NewResults.DefaultSeasonIsNewest` | kalakriti-cms-frontend/src/pages/NewResults.tsx:64-70 | no published result has a season newer than the one shown first |
| `NewResults.CurrentResult` | kalakriti-cms-frontend/src/pages/NewResults.tsx:73-75 | a result is shown exactly when one is published for the chosen competition and season, and it is the first of those in stored order |
| `NewResults.EntryHits` | kalakriti-cms-frontend/src/pages/NewResults.tsx:92-106 | the hits from a list are exactly its entries whose id or name contains the query ignoring case, labelled with the result they come from |
| `NewResults.SearchAll` | kalakriti-cms-frontend/src/pages/NewResults.tsx:90-124 | the hits are exactly those found in the top positions or the top 100 of some published result |
| `NewResults.Search` | kalakriti-cms-frontend/src/pages/NewResults.tsx:77-134 | a blank query finds nothing and is refused; any other query finds exactly the hits of every published result |
| `NewResults.HitIsStoredEntry` | kalakriti-cms-frontend/src/pages/NewResults.tsx:88-124 | every hit is a published entry that matches the query, labelled with its own result's competition and season |
| `NewResults.SearchByIdFinds` | kalakriti-cms-frontend/src/pages/NewResults.tsx:88-124 | searching for a published entry's contestant id always finds that entry |
| `NewResults.PositionIcon` | kalakriti-cms-frontend/src/pages/NewResults.tsx:137-150 | the crown goes exactly to the first twenty of the top 100 and the star to the rest of them; among the top positions the trophy goes exactly to first, the medal to second and the award to third place |
| `NewResults.PositionText` | kalakriti-cms-frontend/src/pages/NewResults.tsx:152-161 | a top-100 position is written with a leading `#`, and a top-position place never is |
| `NewResults.IntToStringInjective` | kalakriti-cms-frontend/src/pages/NewResults.tsx:153-159 | different numbers are written differently |
| `NewResults.PositionTextInjective` | kalakriti-cms-frontend/src/pages/NewResults.tsx:152-161 | different positions, or the same position in different lists, never share a label |
| `UserDashboard.OrEmpty` | kalakriti-cms-frontend/src/components/dashboard/UserDashboard.tsx:88 | a truthy value is sent as it is, and any falsy value as the empty string |
| `UserDashboard.Diff` | kalakriti-cms-frontend/src/components/dashboard/UserDashboard.tsx:83-90 | the update holds exactly the editable fields whose value differs from the loaded one, each with the typed value or the empty string |
| `UserDashboard.DiffLeavesIdentityAlone` | kalakriti-cms-frontend/src/components/dashboard/UserDashboard.tsx:84 | the update never carries the e-mail or the user id |
| `UserDashboard.DiffRestoresEdits` | kalakriti-cms-frontend/src/components/dashboard/UserDashboard.tsx:83-90 | merging the update into the loaded record gives every non-empty edited field the typed value and leaves every non-editable field as loaded |
| `UserDashboard.SaveProfile` | kalakriti-cms-frontend/src/components/dashboard/UserDashboard.tsx:82-119 | no request is made exactly when no editable field changed, and then edit mode ends; otherwise the request goes to the record's own user id and carries exactly the changed editable fields |
| `UserDashboard.CancelEdit` | kalakriti-cms-frontend/src/components/dashboard/UserDashboard.tsx:121-124 | cancelling shows the loaded record again and leaves edit mode |
| `UserDashboard.FindInLists` | kalakriti-cms-frontend/src/components/dashboard/UserDashboard.tsx:134-142 | a placing is found exactly when some list holds an entry with the participant's contestant id, and what is found is such an entry from the first list that holds one |
| `UserDashboard.FindFirst` | kalakriti-cms-frontend/src/components/dashboard/UserDashboard.tsx:135 | an entry is found exactly when the list holds one with the contestant id, and it is one of the list's entries |
| `UserDashboard.CertificateFrom` | kalakriti-cms-frontend/src/components/dashboard/UserDashboard.tsx:126-149 | a certificate is issued exactly when some stored result lists the participant, and it names the first such result, in stored order, with the category and position found there |
| `UserDashboard.CertificateAsWrittenNeverIssued` | kalakriti-cms-frontend/src/components/dashboard/UserDashboard.tsx:133-149 | walking `result.results`, which published results never carry, no participant ever gets a certificate |
| `UserDashboard.CertificateForWinners` | kalakriti-cms-frontend/src/components/dashboard/UserDashboard.tsx:126-149 | walking the top positions instead, a certificate is issued exactly when the participant is placed in some stored result |
| `ResultUpload.UploadRequest` | kalakriti-cms-frontend/src/components/admin/ResultUpload.tsx:65-78 | a request is made exactly for a file whose name ends in `.csv`, carrying the file with the selected event and season |
| `ResultUpload.TemplateHeaderRejected` | kalakriti-cms-frontend/src/components/admin/ResultUpload.tsx:106-140 | any data row under the template's column names is refused by the backend's row parser for the missing `name` column |
| `ResultUpload.FilledTemplateUploadRejected` | kalakriti-cms-frontend/src/components/admin/ResultUpload.tsx:65-99 | uploading a filled-in template saved as CSV is refused as a whole with 400 and the missing column, and nothing is stored |
| `ResultUpload.SeasonNumber` | kalakriti-cms-frontend/src/components/admin/ResultUpload.tsx:103 | the season number is the second space-separated word of the season, or `1` when there is none, and is never empty |
| `ResultUpload.EventPrefix` | kalakriti-cms-frontend/src/components/admin/ResultUpload.tsx:104 | the id prefix is the first three characters of the event, upper-cased, or all of it when shorter |
| `ResultUpload.TemplateSuffix` | kalakriti-cms-frontend/src/components/admin/ResultUpload.tsx:108-131 | every template id ends in a four-character number |
| `ResultUpload.SuffixValue` | kalakriti-cms-frontend/src/components/admin/ResultUpload.tsx:108-131 | the top-position rows are numbered group·1000 + rank, and the top-100 rows `T` followed by their rank padded to three digits |
| `ResultUpload.TemplateRowAt` | kalakriti-cms-frontend/src/components/admin/ResultUpload.tsx:106-135 | row `k` is rank `k mod 5 + 1` of the adult, children or preschool group for the first fifteen rows and top-100 rank `k - 14` after them, under the event prefix and season number |
| `ResultUpload.Template` | kalakriti-cms-frontend/src/components/admin/ResultUpload.tsx:101-135 | the template has 25 rows: five for each age group, then ten top-100 rows |
| `ResultUpload.TemplateIdsDistinct` | kalakriti-cms-frontend/src/components/admin/ResultUpload.tsx:106-135 | the 25 template ids are pairwise different whatever event and season are selected |
| `ResultUpload.TemplateFileName` | kalakriti-cms-frontend/src/components/admin/ResultUpload.tsx:155 | the file name starts with the event and a dash, ends in `-results-template.xlsx`, and has the season, with its first space made a dash, in between |
| `ResultUpload.ClearLatest` | kalakriti-cms-frontend/src/components/admin/ResultUpload.tsx:163-169 | only the results of the given event type lose the latest flag; every other result and the order are unchanged |
| `ResultUpload.PublishAsWritten` | kalakriti-cms-frontend/src/components/admin/ResultUpload.tsx:158-188 | with a preview, the results of the event chosen in the select lose the latest flag when the box is ticked, and the preview is appended as published; without one nothing changes |
| `ResultUpload.PublishAsWrittenBreaksOneLatest` | kalakriti-cms-frontend/src/components/admin/ResultUpload.tsx:163-169 | from a preview that is not under edit, re-publishing an art result as latest with no event selected would leave two latest art results; the panel never reaches such a state |
| `ResultUpload.DeleteResult` | kalakriti-cms-frontend/src/components/admin/ResultUpload.tsx:190-195 | an index in range removes exactly that row, and any other index removes nothing; the preview and the remembered edit index stay as they were |
| `ResultUpload.StartEditing` | kalakriti-cms-frontend/src/components/admin/ResultUpload.tsx:197-201 | the chosen stored result becomes the preview, its index is remembered, and the stored list is untouched |
| `ResultUpload.SaveEdited` | kalakriti-cms-frontend/src/components/admin/ResultUpload.tsx:203-217 | without a preview or an edit in progress nothing happens; otherwise the preview is written at the remembered index, replacing that row or, at the end of the list, appending; every other row is kept and the edit ends; an index past the end is refused |
| `ResultUpload.EditWithoutChangesIsNoOp` | kalakriti-cms-frontend/src/components/admin/ResultUpload.tsx:197-217 | editing a stored row and saving it unchanged gives back the stored list |
| `ResultUpload.SaveEditedKeepsOneLatest` | kalakriti-cms-frontend/src/components/admin/ResultUpload.tsx:203-217 | a save whose preview is not flagged latest keeps at most one latest result per type |
| `ResultUpload.CancelEditing` | kalakriti-cms-frontend/src/components/admin/ResultUpload.tsx:219-223 | cancelling drops the preview and the edit index and leaves the stored list alone |
| `ResultUpload.PanelNeverWritesResultsKey` | kalakriti-cms-frontend/src/components/admin/ResultUpload.tsx:158-217 | publishing, deleting and saving never give a stored result the `results` key the certificate lookup reads |
| `ResultUpload.Mounted` | kalakriti-cms-frontend/src/components/admin/ResultUpload.tsx:190-223 | after mounting the panel holds the stored results, with nothing previewed or under edit |
| `ResultUpload.Click` | kalakriti-cms-frontend/src/components/admin/ResultUpload.tsx:340-380 | every on-screen button keeps a preview only while a row is under edit; the only click that fails is a save whose index lies past the end |
| `ResultUpload.ClicksKeepPreviewWithEdit` | kalakriti-cms-frontend/src/components/admin/ResultUpload.tsx:197-223 | any run of clicks keeps a preview only while a row is under edit |
| `ResultUpload.PublishNeverShown` | kalakriti-cms-frontend/src/components/admin/ResultUpload.tsx:357-380 | whatever is clicked after mounting, the Publish button is never on screen, so `publishResults` never runs |
| `ResultUpload.DeleteWhileEditingDuplicates` | kalakriti-cms-frontend/src/components/admin/ResultUpload.tsx:190-217 | editing the second of two rows, deleting the first and saving keeps that row and appends a second copy of it |
| `ResultUpload.DeleteResultTracked` | kalakriti-cms-frontend/src/components/admin/ResultUpload.tsx:190-195 | removes the same rows as `deleteResult` and keeps the remembered index on the same row: shifted down past a deleted earlier row, or the edit ended when its row goes |
| `ResultUpload.TrackedDeleteThenSaveReplaces` | kalakriti-cms-frontend/src/components/admin/ResultUpload.tsx:190-217 | with the tracked delete, a later save always succeeds, keeps the list length and replaces only the row under edit |
| `AdminDashboard.FilteredParticipants` | kalakriti-cms-frontend/src/pages/admin/Dashboard.tsx:107-114 | the table keeps, in stored order, exactly the participants whose name, e-mail or id contains the search ignoring case and who match the event and season filters |
| `AdminDashboard.NoFiltersShowEveryone` | kalakriti-cms-frontend/src/pages/admin/Dashboard.tsx:107-114 | with the filters as the page opens, every participant is shown in stored order |
| `AdminDashboard.GetEventStats` | kalakriti-cms-frontend/src/pages/admin/Dashboard.tsx:145-153 | one entry per competition, in the shared order, counting exactly that competition's participants and published results |
| `AdminDashboard.KnownCountAll` | kalakriti-cms-frontend/src/pages/admin/Dashboard.tsx:145-153 | when every participant's competition is one of the listed ones, counting per listed competition counts everyone |
| `AdminDashboard.SumIsKnownCount` | kalakriti-cms-frontend/src/pages/admin/Dashboard.tsx:145-153 | the participant counts of the statistics add up to the participants of those competitions |
| `AdminDashboard.StatsCoverEveryone` | kalakriti-cms-frontend/src/pages/admin/Dashboard.tsx:145-153 | when every participant entered a known competition, the per-competition counts add up to the total shown on the dashboard |
| `AdminDashboard.PublishResult` | kalakriti-cms-frontend/src/pages/admin/Dashboard.tsx:155-185 | a form without an id or a type, or naming nobody registered, changes nothing; otherwise exactly one result with the form's values and the time is appended and the form is cleared; the dashboard binds the handler to no control, so nothing on screen runs it |
| `AdminDashboard.ExportFileName` | kalakriti-cms-frontend/src/pages/admin/Dashboard.tsx:116-143 | nothing is exported exactly when the table is empty; otherwise the file is named after both filters and ends in `.xlsx` |
| `AdminDashboard.HeaderSingleLine` | kalakriti-cms-frontend/src/pages/admin/Dashboard.tsx:189-194 | the CSV header is one line |
| `AdminDashboard.CsvLines` | kalakriti-cms-frontend/src/pages/admin/Dashboard.tsx:189-194 | the file has the header first and then one line per participant, in order |
| `AdminDashboard.ParticipantCsv` | kalakriti-cms-frontend/src/pages/admin/Dashboard.tsx:187-203 | the export joins one line per participant of the chosen competition under the header; `AdminDashboard.ParticipantCsvLines` splits it back into those lines |
| `AdminDashboard.ParticipantCsvLines` | kalakriti-cms-frontend/src/pages/admin/Dashboard.tsx:187-203 | read back line by line, the download holds the header and then exactly that competition's participants in stored order |

## Left out

- Network, crypto and storage: the Razorpay client, HMAC signatures, JWT signing, bcrypt, the SMTP session and Jinja rendering are parameters. Only their results enter the model.
- S3 and local file storage of uploads (`core/UploadToS3.py`) is not part of this model. An asset is the URL and name it is stored under.
- HTTP wiring: the routers, `api.py`, `app/main.py`, CORS and the migrations are not part of this model. The one router behaviour kept is the payment router's re-raise, which wraps the service's error text as a new 500 (`PaymentService.CreatePaymentOrder`).
- The request models (`schemas/*`) are not modelled as types of their own. Their 422 checks that the services depend on are written into the services: a rank below 1, an artwork count of 0 or less, and `EmailStr` as the parameter `emailStr`, which answers the normal form of an address or refuses it.
- Concurrency and sessions: every call runs alone on the database it is given.
- Explicit JSON `null` in a patch: a patch field is absent or a value. A client sending `null` for a NOT NULL column gets a 500 at commit in the source, and the model has no such input.
- CSV decoding: the upload is given as an already tokenised table of UTF-8 text. Byte decoding, quoting and the CSV dialect are left out.
- `Text.ParseInt`: accepts an optional sign and ASCII digits between ASCII white space. Python's `int()` also accepts `_` separators and non-ASCII digits, and also strips non-ASCII white space (U+001C–U+001F, U+0085, U+00A0, U+1680, U+2000–U+200A, U+2028, U+2029, U+202F, U+205F and U+3000); these are left out.
- `ResultService.ValueErrorText`: the quoting of `repr` is modelled for values without a single quote. Python puts a value holding `'` in double quotes, which the model does not.
- `Text.Lower`, `Text.Upper`: ASCII-only case mapping. Python, SQL `lower()` and JavaScript map the whole of Unicode.
- `SqlLike`: the backslash escape of `LIKE` is left out. Filter values are spliced in unescaped, as the services do.
- `Auth.DecodeResetPasswordToken`: the reset token's `type` claim is never checked by the source, and the model does not check it either. So a reset token is also accepted as an access token (`Auth.ResetTokenAuthenticates`).
- Deactivated users still authenticate through `Auth.GetCurrentUser`. This is the source's behaviour, stated by `Auth.DeactivatedUserStillAuthenticates`.
- Logout and token revocation do not exist in the source.
- User-facing message strings are kept only where a contract mentions them. Toasts, `console.log` and navigation are left out.
- `ContactUsService.GetContacts`: rows with equal `created_at` are ordered in some way. The database's tie order is not modelled.
- `PaymentService.VerifyPayment`: the artwork count of a paid registration is stored as sent, without the positive-count check. See `PaymentService.PaidCountNotValidated`.
- `PaymentService.Receipt`: the gateway's 40-character receipt limit is not enforced. A longer receipt would be refused by Razorpay, which is a parameter here.
- The competition table's on-screen column widths, images and descriptions, and all rendering, are left out.
- `ContactUsService.UpdateContact`: `updated_at` is set by the database's `onupdate` hook and is not modelled.
- Floating-point scores in the browser's result entries and in the template, and the template's Score column, are left out. Backend scores are integers.
- `NewResults.LexLess`: `localeCompare` is approximated by code-unit order. The two agree on seasons made of digits and ASCII letters of one case.
- `NewResults.SearchAll`: the contract states which hits are found, not their order. The order (result by result, top positions before the top 100) follows from the definition.
- `ResultUpload.SaveEdited`: a save more than one past the end pads the JavaScript array with holes. The model answers `None` there and does not follow the array further.
- `Schema.Commit`: PostgreSQL stores a value too long for its `varchar(n)` column when every character past the width is a space, cutting the spaces off. The model refuses it like any other over-long value.
- `Schema.Commit`: the 32-bit limit of the `contact_us.id` sequence and the range of PostgreSQL's `date` type for event dates are not modelled.
- `Auth.Decode`: a claim value is a JSON string, a JSON integer or a composite value. A float or boolean claim, which `int()` truncates or reads as 0 or 1, is not modelled, and the reason texts of the errors are only approximate for `aud`.
- `ContactPage.HandleSubmit`: the browser's own form validation runs first in the source. The `required` fields and `type="email"` block the submit event, and the browser trims an e-mail field, none of which is modelled. The handler is modelled as if it were always reached.
- `ContactPage.FillingRequiredFieldsSends`: states what the handler does. A browser may still refuse an address the pattern accepts, such as `a@b_c.com`, before the handler runs.
- `SubmissionForm.CheckFields`: the `required` attributes on age, address, city, state, pincode, title and description are checked by the browser, not by the handler, and are not modelled.
- `SubmissionForm.ValidateForm`: states the handler's checks only. The browser's `required` and `type="email"` checks that come before it are not modelled.
- Timers: `setTimeout` delays are left out, and only their callbacks are modelled. The contact page's send is simulated by such a timer (`ContactPage.FinishSending`), and nothing is sent to the backend.
- PDF and XLSX generation (jsPDF, SheetJS) is left out, apart from the file names and the template's rows.
- `ResultUpload.PublishAsWritten`: the source reads the stored list back from `localStorage`. The model takes the panel's list, which the panel keeps equal to it.
- `UserDashboard.SaveProfile`: the profile refetch after a successful update is left out. The model stops at the request it sends.
- The admin table's Competition column and `toLocaleDateString` are left out. Locale date formatting is the parameter `localeDate`.
- `QueriesManagement.LoadQueries`: dates are parsed by the parameter `parseTime`. An unparsable date (`NaN`) and the order of equal times are not modelled.
- `UserDashboard.CertificateFrom`: the contestant id is compared as the JSON value stored for the user, and the certificate's position is the entry's `position` field. The `rank || position` fallback is left out because stored entries have no `rank`.
- `RegistrationWizard.ParticipantId`, `RegistrationWizard.GenerateParticipantIdAsWritten`: the contracts state the prefix only. The shape of the number is stated by `SignUpForm.ParticipantIdAccepted` and `SignUpForm.GeneratedIdRejected`. The dialog never calls the generator, so no generated id reaches a participant.
- `AdminDashboard.ExportFileName`: the date part of the name comes from `isoNow` and is not constrained.
- `UserDashboard.HasParticipated` is a predicate with no contract of its own: a truthy `user_id` or the stored flag.
- The legacy `app/models/*`, the commented-out payment model, the unrouted demo pages, marketing components, the login redirects, configuration files and one-off scripts are not part of this model.
- The result, event and asset id generators use the same `PREFIX<n mod 10^7>` scheme as users and registrations. They are modelled once, in `Ids`.

## Findings

| source | as written | input that shows it | evidently intended | confidence | as-written member | corrected member |
|---|---|---|---|---|---|---|
| kalakriti-cms-backend/core/auth_utils.py:88-93 | the admin guard reads `user.role`, but the User model has no role column | any authenticated user: the attribute access fails and the request ends in a 500 | admins pass and everyone else gets 403 | high, not executed | `Auth.GetCurrentAdminUserAsWritten`, `Auth.AdminGuardAsWrittenFails` | `Auth.GetCurrentAdminUser` |
| kalakriti-cms-backend/Resources/Results/ResultService.py:11-31 | `create_result` reads `event_name` and `season` from a request model that does not declare them | any valid request with rank ≥ 1: the attribute error becomes a 500 and nothing is stored | the row is stored with the request's event and season | high, not executed | `ResultService.CreateResultAsWritten`, `ResultService.CreateResultAsWrittenNeverStores` | `ResultService.CreateResult`, `ResultService.CreateResultThenGet` |
| kalakriti-cms-frontend/src/components/admin/ResultUpload.tsx:190-195 | deleting a row leaves the remembered edit index as it was, and the delete buttons stay live during an edit | rows A and B: edit B, delete A, save; the index 1 is now the end of the list, so a second copy of B is appended and the list is B, B | the edit follows its row: the index moves down past a deleted earlier row, and deleting the row under edit ends the edit | medium, not executed | `ResultUpload.DeleteResult`, `ResultUpload.DeleteWhileEditingDuplicates` | `ResultUpload.DeleteResultTracked`, `ResultUpload.TrackedDeleteThenSaveReplaces` |
| kalakriti-cms-frontend/src/components/dashboard/UserDashboard.tsx:134 | the certificate lookup walks `result.results`, which the published results never carry | any placed participant: no certificate is found | walk the result's top positions | high, not executed | `UserDashboard.CertificateAsWritten`, `UserDashboard.CertificateAsWrittenNeverIssued` | `UserDashboard.CertificateFor`, `UserDashboard.CertificateForWinners` |
| kalakriti-cms-frontend/src/components/forms/SubmissionForm.tsx:222 | the file check compares the array's length, and slots are assigned by index | paying for two artworks and picking only the second passes, and one file is sent; paying for three and picking the second, then the third, passes and sends `artwork1` as the text "undefined" | a file in every paid-for slot | high, not executed | `SubmissionForm.ValidateFormAsWritten`, `SubmissionForm.HoleSlipsThrough`, `SubmissionForm.UndefinedArtworkSent` | `SubmissionForm.ValidateForm`, `SubmissionForm.ValidFormSendsEveryArtwork` |

=== FILE: admin_dashboard.dfy ===
/** pages/admin/Dashboard.tsx: the admin's participant table, per-event statistics, the
    one-by-one result form and the exports. Participants and results are the arrays kept in
    the browser under `kalakriti-participants` and `kalakriti-results`. */
module AdminDashboard {
  import opened Wrappers
  import opened Text
  import opened KeyedStore
  import EventTypes

  datatype Participant = Participant(
    participantId: string, fullName: string, email: string, phone: string, city: string, state: string,
    eventType: string, eventName: string, registrationDate: string, status: string,
    paymentStatus: string, submissionFileName: string)

  /** The dashboard's own list of competitions. */
  const ADMIN_EVENT_TYPES: seq<string> := ["art", "photography", "mehndi", "rangoli", "dance", "singing"]

  /** The select value that turns a filter off. */
  const ALL := "all"

  // ---------------------------------------------------------------- participant table

  datatype TableFilters = TableFilters(searchTerm: string, selectedEvent: string, selectedSeason: string)

  predicate Shown(p: Participant, f: TableFilters) {
    && (ContainsIgnoreCase(p.fullName, f.searchTerm) || ContainsIgnoreCase(p.email, f.searchTerm)
        || ContainsIgnoreCase(p.participantId, f.searchTerm))
    && (f.selectedEvent == ALL || p.eventType == f.selectedEvent)
    && (f.selectedSeason == ALL || Contains(p.registrationDate, f.selectedSeason))
  }

  function ShownBy(f: TableFilters): Participant -> bool { (p: Participant) => Shown(p, f) }

  /** `filteredParticipants`: the participants the three filters let through, in stored order. */
  function FilteredParticipants(ps: seq<Participant>, f: TableFilters): (r: seq<Participant>)
    ensures Subsequence(r, ps)
    ensures forall i :: 0 <= i < |r| ==> Shown(r[i], f)
    ensures forall i :: 0 <= i < |ps| && Shown(ps[i], f) ==> ps[i] in r
  {
    WhereIsSubsequence(ps, ShownBy(f));
    Where(ps, ShownBy(f))
  }

  /** With an empty search and both selects on "all", the table shows everyone. */
  lemma NoFiltersShowEveryone(ps: seq<Participant>)
    ensures FilteredParticipants(ps, TableFilters("", ALL, ALL)) == ps
  {
    var f := TableFilters("", ALL, ALL);
    forall p: Participant ensures Shown(p, f) {
      ContainsEmpty(Lower(p.fullName));
      assert Lower("") == [];
    }
    WhereAll(ps, ShownBy(f));
  }

  // ---------------------------------------------------------------- statistics

  datatype EventStat = EventStat(eventType: string, participantCount: nat, resultsPublished: nat)

  datatype AdminResult = AdminResult(participantId: string, eventType: string, position: int, score: int,
                                     remarks: string, publishedDate: string)

  function OfType(t: string): Participant -> bool { (p: Participant) => p.eventType == t }

  function ResultOfType(t: string): AdminResult -> bool { (r: AdminResult) => r.eventType == t }

  /** `getEventStats`: one entry per competition of the shared table, in its order, counting that
      competition's participants and results. */
  function GetEventStats(ps: seq<Participant>, results: seq<AdminResult>): (r: seq<EventStat>)
    ensures |r| == |EventTypes.TYPE_KEYS|
    ensures forall i :: 0 <= i < |r| ==>
              && r[i].eventType == EventTypes.TYPE_KEYS[i]
              && r[i].participantCount == Count(ps, OfType(r[i].eventType))
              && r[i].resultsPublished == Count(results, ResultOfType(r[i].eventType))
  {
    seq(|ADMIN_EVENT_TYPES|, (i: int) requires 0 <= i < |ADMIN_EVENT_TYPES| =>
      EventStat(ADMIN_EVENT_TYPES[i], Count(ps, OfType(ADMIN_EVENT_TYPES[i])),
                Count(results, ResultOfType(ADMIN_EVENT_TYPES[i]))))
  }

  function SumParticipants(stats: seq<EventStat>): nat
    decreases |stats|
  {
    if |stats| == 0 then 0 else stats[0].participantCount + SumParticipants(stats[1..])
  }

  /** The number of participants whose type is one of `types`. */
  function KnownCount(ps: seq<Participant>, types: seq<string>): nat
    decreases |types|
  {
    if |types| == 0 then 0 else Count(ps, OfType(types[0])) + KnownCount(ps, types[1..])
  }

  lemma {:induction false} KnownCountAll(ps: seq<Participant>, types: seq<string>)
    requires forall a, b :: 0 <= a < b < |types| ==> types[a] != types[b]
    requires forall i :: 0 <= i < |ps| ==> ps[i].eventType in types
    ensures KnownCount(ps, types) == |ps|
    decreases |ps|
  {
    if |ps| > 0 {
      KnownCountAll(ps[1..], types);
      KnownCountStep(ps, types);
    } else {
      KnownCountNone(ps, types);
    }
  }

  lemma {:induction false} KnownCountNone(ps: seq<Participant>, types: seq<string>)
    requires |ps| == 0
    ensures KnownCount(ps, types) == 0
    decreases |types|
  {
    if |types| > 0 {
      KnownCountNone(ps, types[1..]);
    }
  }

  /** Removing the first participant takes one off exactly one type's count. */
  lemma {:induction false} KnownCountStep(ps: seq<Participant>, types: seq<string>)
    requires |ps| > 0
    requires forall a, b :: 0 <= a < b < |types| ==> types[a] != types[b]
    ensures KnownCount(ps, types) == KnownCount(ps[1..], types) + (if ps[0].eventType in types then 1 else 0)
    decreases |types|
  {
    if |types| > 0 {
      KnownCountStep(ps, types[1..]);
      assert ps == [ps[0]] + ps[1..];
      WhereConcat([ps[0]], ps[1..], OfType(types[0]));
      assert ps[0].eventType in types <==> ps[0].eventType == types[0] || ps[0].eventType in types[1..];
    }
  }

  lemma {:induction false} SumIsKnownCount(ps: seq<Participant>, results: seq<AdminResult>, k: nat)
    requires k <= |ADMIN_EVENT_TYPES|
    ensures SumParticipants(GetEventStats(ps, results)[k..]) == KnownCount(ps, ADMIN_EVENT_TYPES[k..])
    decreases |ADMIN_EVENT_TYPES| - k
  {
    var stats := GetEventStats(ps, results);
    if k < |ADMIN_EVENT_TYPES| {
      SumIsKnownCount(ps, results, k + 1);
      assert stats[k..][1..] == stats[k + 1..];
      assert ADMIN_EVENT_TYPES[k..][1..] == ADMIN_EVENT_TYPES[k + 1..];
    }
  }

  /** When every participant is registered for one of the six competitions, the per-event
      counts add up to the number of participants. */
  lemma StatsCoverEveryone(ps: seq<Participant>, results: seq<AdminResult>)
    requires forall i :: 0 <= i < |ps| ==> ps[i].eventType in EventTypes.TYPE_KEYS
    ensures SumParticipants(GetEventStats(ps, results)) == |ps|
  {
    SumIsKnownCount(ps, results, 0);
    assert GetEventStats(ps, results)[0..] == GetEventStats(ps, results);
    assert ADMIN_EVENT_TYPES[0..] == ADMIN_EVENT_TYPES;
    AdminTypesDistinct();
    assert ADMIN_EVENT_TYPES == EventTypes.TYPE_KEYS;
    KnownCountAll(ps, ADMIN_EVENT_TYPES);
  }

  /** The six competitions of the table are six different names. */
  lemma AdminTypesDistinct()
    ensures forall a, b :: 0 <= a < b < |ADMIN_EVENT_TYPES| ==> ADMIN_EVENT_TYPES[a] != ADMIN_EVENT_TYPES[b]
  {
    var ts := ADMIN_EVENT_TYPES;
    assert ts[0][0] == 'a' && ts[1][0] == 'p' && ts[2][0] == 'm' && ts[3][0] == 'r' && ts[4][0] == 'd';
    assert ts[5][0] == 's';
  }

  // ---------------------------------------------------------------- one result at a time

  datatype ResultForm = ResultForm(participantId: string, eventType: string, position: int, score: int, remarks: string)

  const BLANK_RESULT_FORM := ResultForm("", "", 1, 0, "")

  datatype Published = Published(results: seq<AdminResult>, form: ResultForm)

  predicate Registered(ps: seq<Participant>, id: string) {
    exists i :: 0 <= i < |ps| && ps[i].participantId == id
  }

  /** `handlePublishResult`: a form without an id or a type, or naming nobody registered, changes
      nothing; otherwise one result is appended and the form is cleared. The dashboard binds the
      handler to no control, so nothing on screen runs it. */
  function PublishResult(ps: seq<Participant>, results: seq<AdminResult>, form: ResultForm, now: string): (r: Published)
    ensures (form.participantId == "" || form.eventType == "" || !Registered(ps, form.participantId))
            ==> r == Published(results, form)
    ensures (form.participantId != "" && form.eventType != "" && Registered(ps, form.participantId)) ==>
            && r.results == results + [AdminResult(form.participantId, form.eventType, form.position, form.score, form.remarks, now)]
            && r.form == BLANK_RESULT_FORM
  {
    if form.participantId == "" || form.eventType == "" then Published(results, form)
    else match FindFirst(ps, (p: Participant) => p.participantId == form.participantId)
      case None => Published(results, form)
      case Some(_) =>
        Published(results + [AdminResult(form.participantId, form.eventType, form.position, form.score, form.remarks, now)],
                  BLANK_RESULT_FORM)
  }

  // ---------------------------------------------------------------- exports

  /** `exportToExcel` up to the file name: nothing is written when the table is empty.
      `isoNow` is `new Date().toISOString()`. */
  function ExportFileName(shown: seq<Participant>, f: TableFilters, isoNow: string): (r: Option<string>)
    ensures r.None? <==> |shown| == 0
    ensures r.Some? ==> StartsWith(r.value, "participants_" + f.selectedEvent + "_" + f.selectedSeason + "_")
                        && EndsWith(r.value, ".xlsx")
  {
    if |shown| == 0 then None
    else
      var name := "participants_" + f.selectedEvent + "_" + f.selectedSeason + "_" + Split(isoNow, 'T')[0] + ".xlsx";
      assert name[..|"participants_" + f.selectedEvent + "_" + f.selectedSeason + "_"|]
             == "participants_" + f.selectedEvent + "_" + f.selectedSeason + "_";
      assert name[|name| - 5..] == ".xlsx";
      Some(name)
  }

  const CSV_HEADER_LINE := "Participant ID,Name,Email," + "Phone,City,State," + "Registration Date,Status"

  lemma HeaderSingleLine()
    ensures '\n' !in CSV_HEADER_LINE
  {
    assert '\n' !in "Participant ID,Name,Email," && '\n' !in "Phone,City,State," && '\n' !in "Registration Date,Status";
  }

  /** One CSV line; `localeDate` is `new Date(d).toLocaleDateString()`. */
  function CsvLine(p: Participant, localeDate: string -> string): string {
    p.participantId + "," + p.fullName + "," + p.email + "," + p.phone + "," + p.city + "," + p.state
    + "," + localeDate(p.registrationDate) + "," + p.status
  }

  function CsvLines(ps: seq<Participant>, localeDate: string -> string): (ls: seq<string>)
    ensures |ls| == |ps| + 1 && ls[0] == CSV_HEADER_LINE
    ensures forall i :: 0 <= i < |ps| ==> ls[i + 1] == CsvLine(ps[i], localeDate)
  {
    [CSV_HEADER_LINE] + seq(|ps|, (i: int) requires 0 <= i < |ps| => CsvLine(ps[i], localeDate))
  }

  /** `downloadParticipantData`: the header and one line per participant of that competition. */
  function ParticipantCsv(ps: seq<Participant>, eventType: string, localeDate: string -> string): string {
    Join(CsvLines(Where(ps, OfType(eventType)), localeDate), '\n')
  }

  /** No field holds a line break. */
  predicate SingleLine(p: Participant, localeDate: string -> string) {
    '\n' !in CsvLine(p, localeDate)
  }

  /** Read back line by line, the file has the header and then exactly the competition's
      participants, in stored order. */
  lemma ParticipantCsvLines(ps: seq<Participant>, eventType: string, localeDate: string -> string)
    requires forall i :: 0 <= i < |ps| ==> SingleLine(ps[i], localeDate)
    ensures var lines := Split(ParticipantCsv(ps, eventType, localeDate), '\n');
            && |lines| == 1 + Count(ps, OfType(eventType))
            && lines[0] == CSV_HEADER_LINE
            && forall i :: 0 <= i < Count(ps, OfType(eventType)) ==>
                 lines[i + 1] == CsvLine(Where(ps, OfType(eventType))[i], localeDate)
  {
    var shown := Where(ps, OfType(eventType));
    var ls := CsvLines(shown, localeDate);
    forall i | 0 <= i < |ls| ensures '\n' !in ls[i] {
      if i > 0 {
        assert shown[i - 1] in ps;
        var j :| 0 <= j < |ps| && ps[j] == shown[i - 1];
        assert SingleLine(ps[j], localeDate);
      } else {
        HeaderSingleLine();
      }
    }
    SplitJoin(ls, '\n');
  }
}

=== FILE: assets.dfy ===
/** Resources/Assets/AssetService.py: the artworks (stored files) attached to a registration. */
module AssetService {
  import opened Wrappers
  import opened KeyedStore
  import opened SqlLike
  import opened Schema
  import opened Ids
  import opened RegistrationService

  const ASSET_PREFIX := "AST"
  const ASSET_NOT_FOUND := "Asset not found"

  /** The body of a POST (AssetCreate). */
  datatype AssetCreate = AssetCreate(registrationId: string, url: string, name: string)

  function NewAsset(req: AssetCreate, uuid: nat): (a: Asset)
    ensures a.assetId == GenerateId(ASSET_PREFIX, uuid)
    ensures a.registrationId == req.registrationId && a.url == req.url && a.name == req.name
    ensures AssetFits(a) <==> Fits(req.registrationId, 20) && Fits(req.url, 500) && Fits(req.name, 255)
  {
    Asset(GenerateId(ASSET_PREFIX, uuid), req.registrationId, req.url, req.name)
  }

  /** Adding an asset keeps the database consistent exactly when its registration exists, its
      id is new and it fits its columns. */
  lemma AppendAssetConsistent(db: Db, a: Asset)
    ensures Consistent(db) ==>
      (Consistent(db.(assets := db.assets + [a])) <==>
         && HasKey(db.registrations, RegistrationKey, a.registrationId)
         && !HasKey(db.assets, AssetKey, a.assetId)
         && AssetFits(a))
  {
    var after := db.(assets := db.assets + [a]);
    UniqueAppend(db.assets, AssetKey, a);
    EveryAppend(db.assets, AssetFits, a);
    if !Consistent(db) {
      return;
    }
    if HasKey(db.registrations, RegistrationKey, a.registrationId) {
      forall i | 0 <= i < |after.assets|
        ensures HasKey(after.registrations, RegistrationKey, AssetOwner(after.assets[i]))
      {
        if i < |db.assets| {
          assert after.assets[i] == db.assets[i];
        }
      }
    } else {
      assert after.assets[|db.assets|] == a;
    }
  }

  /** Changing an asset's url or name keeps the database consistent exactly when the new row
      fits its columns; removing an asset keeps it consistent. */
  lemma ReplaceAssetConsistent(db: Db, i: nat, v: Asset)
    requires i < |db.assets|
    requires v.assetId == db.assets[i].assetId && v.registrationId == db.assets[i].registrationId
    ensures Consistent(db) ==> (Consistent(db.(assets := db.assets[i := v])) <==> AssetFits(v))
  {
    EveryReplace(db.assets, AssetFits, i, v);
    if Consistent(db) && AssetFits(v) {
      ReplaceKeepsUnique(db.assets, AssetKey, i, v);
      var after := db.(assets := db.assets[i := v]);
      forall k | 0 <= k < |after.assets|
        ensures HasKey(after.registrations, RegistrationKey, AssetOwner(after.assets[k]))
      {
        assert AssetOwner(after.assets[k]) == AssetOwner(db.assets[k]);
      }
    }
  }

  lemma RemoveAssetConsistent(db: Db, i: nat)
    requires i < |db.assets|
    ensures Consistent(db) ==> Consistent(db.(assets := RemoveAt(db.assets, i)))
  {
    if Consistent(db) {
      EveryRemove(db.assets, AssetFits, i);
      UniqueRemove(db.assets, AssetKey, i);
    }
  }

  /** `create_asset`: appended, unless the registration does not exist, the id is taken or the
      url or name is too long for its column (all 500 at commit). */
  function CreateAsset(db: Db, req: AssetCreate, uuid: nat): (r: Response<Asset>)
    ensures r.body.Err? ==> r.db == db
    ensures r.body.Ok? ==> r.body.value == NewAsset(req, uuid) && r.db == db.(assets := db.assets + [r.body.value])
    ensures Consistent(db) ==>
      (r.body.Ok? <==> && HasKey(db.registrations, RegistrationKey, req.registrationId)
                       && !HasKey(db.assets, AssetKey, GenerateId(ASSET_PREFIX, uuid))
                       && AssetFits(NewAsset(req, uuid)))
    ensures Consistent(db) ==> Consistent(r.db)
  {
    var a := NewAsset(req, uuid);
    AppendAssetConsistent(db, a);
    Commit(db, db.(assets := db.assets + [a]), a)
  }

  /** The query parameters `get_assets` looks at. */
  datatype AssetFilters = AssetFilters(registrationId: Option<string>, name: Option<string>)

  predicate AssetMatches(a: Asset, f: AssetFilters) {
    && (!Given(f.registrationId) || a.registrationId == f.registrationId.value)
    && (!Given(f.name) || IContains(a.name, f.name.value))
  }

  function AssetFilter(f: AssetFilters): Asset -> bool {
    (a: Asset) => AssetMatches(a, f)
  }

  function AssetConditions(f: AssetFilters): seq<Asset -> bool> {
    [ (a: Asset) => !Given(f.registrationId) || a.registrationId == f.registrationId.value,
      (a: Asset) => !Given(f.name) || IContains(a.name, f.name.value) ]
  }

  lemma AssetConditionsMatch(a: Asset, f: AssetFilters)
    ensures Conj(AssetConditions(f))(a) == AssetFilter(f)(a)
  {
    var cs := AssetConditions(f);
    assert cs[0](a) && cs[1](a) <==> AssetMatches(a, f);
  }

  /** `get_assets`: exactly the assets matching every given filter, in table order. */
  function GetAssets(db: Db, f: AssetFilters): (r: seq<Asset>)
    ensures r == Where(db.assets, AssetFilter(f))
    ensures forall i :: 0 <= i < |r| ==> r[i] in db.assets && AssetMatches(r[i], f)
    ensures forall i :: 0 <= i < |db.assets| && AssetMatches(db.assets[i], f) ==> db.assets[i] in r
  {
    NarrowIsWhere(db.assets, AssetConditions(f));
    forall i | 0 <= i < |db.assets|
      ensures Conj(AssetConditions(f))(db.assets[i]) == AssetFilter(f)(db.assets[i])
    {
      AssetConditionsMatch(db.assets[i], f);
    }
    WhereExt(db.assets, Conj(AssetConditions(f)), AssetFilter(f));
    Narrow(db.assets, AssetConditions(f))
  }

  /** A registration can be deleted exactly when listing its assets gives nothing. */
  lemma DeletableIffNoAssets(db: Db, id: string)
    requires Consistent(db) && HasKey(db.registrations, RegistrationKey, id) && |id| > 0
    ensures DeleteRegistration(db, id).body.Ok? <==> GetAssets(db, AssetFilters(Some(id), None)) == []
  {
    var f := AssetFilters(Some(id), None);
    var listed := GetAssets(db, f);
    if HasKey(db.assets, AssetOwner, id) {
      var k :| 0 <= k < |db.assets| && AssetOwner(db.assets[k]) == id;
      assert AssetMatches(db.assets[k], f);
      assert db.assets[k] in listed;
    } else {
      forall x | x in db.assets ensures !AssetFilter(f)(x) {
        var k :| 0 <= k < |db.assets| && db.assets[k] == x;
        assert AssetOwner(db.assets[k]) != id;
      }
      WhereNone(db.assets, AssetFilter(f));
    }
  }

  /** `get_asset_by_id`. */
  function GetAsset(db: Db, id: string): (r: Result<Asset, HttpError>)
    ensures r.Ok? <==> HasKey(db.assets, AssetKey, id)
    ensures r.Ok? ==> r.value in db.assets && r.value.assetId == id
    ensures r.Err? ==> r.error == HttpError(NOT_FOUND, ASSET_NOT_FOUND)
  {
    match Lookup(db.assets, AssetKey, id)
    case None => Err(HttpError(NOT_FOUND, ASSET_NOT_FOUND))
    case Some(a) => Ok(a)
  }

  /** The fields a PATCH may carry (AssetUpdate): the registration cannot be changed. */
  datatype AssetPatch = AssetPatch(url: Option<string>, name: Option<string>)

  function ApplyAssetPatch(a: Asset, p: AssetPatch): (v: Asset)
    ensures v.assetId == a.assetId && v.registrationId == a.registrationId
    ensures v.url == p.url.GetOr(a.url) && v.name == p.name.GetOr(a.name)
  {
    a.(url := p.url.GetOr(a.url), name := p.name.GetOr(a.name))
  }

  /** `update_asset`: 404 for an unknown id; otherwise exactly the supplied fields change, and a
      url or name too long for its column fails the commit with a 500. */
  function UpdateAsset(db: Db, id: string, p: AssetPatch): (r: Response<Asset>)
    ensures r.body.Err? ==> r.db == db
    ensures !HasKey(db.assets, AssetKey, id) ==> r == Fail(db, NOT_FOUND, ASSET_NOT_FOUND)
    ensures r.body.Ok? ==>
      var i := IndexOf(db.assets, AssetKey, id).value;
      && r.body.value == ApplyAssetPatch(db.assets[i], p)
      && r.db == db.(assets := db.assets[i := r.body.value])
    ensures Consistent(db) ==>
      (r.body.Ok? <==> HasKey(db.assets, AssetKey, id)
                       && AssetFits(ApplyAssetPatch(db.assets[IndexOf(db.assets, AssetKey, id).value], p)))
    ensures Consistent(db) ==> Consistent(r.db)
  {
    match IndexOf(db.assets, AssetKey, id)
    case None => Fail(db, NOT_FOUND, ASSET_NOT_FOUND)
    case Some(i) =>
      var v := ApplyAssetPatch(db.assets[i], p);
      ReplaceAssetConsistent(db, i, v);
      Commit(db, db.(assets := db.assets[i := v]), v)
  }

  /** `delete_asset`: 404 for an unknown id; otherwise the row goes and the delete commits. */
  function DeleteAsset(db: Db, id: string): (r: Response<string>)
    ensures r.body.Err? ==> r.db == db
    ensures !HasKey(db.assets, AssetKey, id) ==> r == Fail(db, NOT_FOUND, ASSET_NOT_FOUND)
    ensures Consistent(db) && HasKey(db.assets, AssetKey, id) ==>
      && r.body.Ok?
      && r.db == db.(assets := RemoveAt(db.assets, IndexOf(db.assets, AssetKey, id).value))
      && !HasKey(r.db.assets, AssetKey, id)
    ensures Consistent(db) ==> Consistent(r.db)
  {
    match IndexOf(db.assets, AssetKey, id)
    case None => Fail(db, NOT_FOUND, ASSET_NOT_FOUND)
    case Some(i) =>
      RemoveAssetConsistent(db, i);
      assert Consistent(db) ==> !HasKey(RemoveAt(db.assets, i), AssetKey, id) by {
        if Consistent(db) { HasKeyRemove(db.assets, AssetKey, i, id); }
      }
      Commit(db, db.(assets := RemoveAt(db.assets, i)), "Asset deleted successfully")
  }
}

=== FILE: auth.dfy ===
/** core/auth_utils.py: access and password-reset tokens (python-jose HS256 JWTs), the
    current-user dependency and the admin guard. A token is modelled by the claims it carries
    and the key and algorithm it was signed with; a string that does not parse as a JWS is
    `Malformed`. Times are seconds on the server clock. */
module Auth {
  import opened Wrappers
  import opened Text
  import opened KeyedStore
  import opened Schema

  const SECRET_KEY := "JWT232445ASF234"
  const ALGORITHM := "HS256"
  const ACCESS_TOKEN_EXPIRE_MINUTES := 30
  /** The default lifetime of both kinds of token, in seconds. */
  const DEFAULT_LIFETIME := ACCESS_TOKEN_EXPIRE_MINUTES * 60
  const USER_PREFIX := "USER"
  const RESET_TYPE := "password_reset"

  /** A claim's JSON value: a string, an integer, or a value `int()` cannot take at all (null, a
      list or an object). */
  datatype Claim = Str(s: string) | Num(n: int) | Composite
  type Claims = map<string, Claim>

  datatype Token = Malformed | Jws(claims: Claims, key: string, alg: string)

  /** `jwt.encode(claims, SECRET_KEY, algorithm=ALGORITHM)`. */
  function Encode(claims: Claims): (t: Token)
    ensures t.Jws? && t.claims == claims
  {
    Jws(claims, SECRET_KEY, ALGORITHM)
  }

  /** The decoder's outcomes the backend distinguishes: ExpiredSignatureError, any other JWTError,
      and the TypeError of `int()` on a null, list or object time claim, which python-jose does not
      catch and which therefore leaves the decoder as it is. */
  datatype JwtError = Expired | Invalid(reason: string) | Uncaught

  /** What `int(value)` gives for a time claim: the integer, a ValueError for a string that is not
      one, a TypeError for a composite value. */
  datatype IntCast = Integer(n: int) | ValueError | TypeError

  function IntOf(v: Claim): IntCast {
    match v
    case Num(n) => Integer(n)
    case Str(s) => if ParseInt(s).Some? then Integer(ParseInt(s).value) else ValueError
    case Composite => TypeError
  }

  /** The claim, when present, is an integer under `int()`. */
  predicate IntegerIfPresent(c: Claims, name: string) {
    name in c ==> IntOf(c[name]).Integer?
  }

  /** The claim, when present, is a string. */
  predicate StringIfPresent(c: Claims, name: string) {
    name in c ==> c[name].Str?
  }

  /** `iat` and `nbf` pass: both are integers when present, and `nbf` is not after `now`. */
  predicate StartOk(c: Claims, now: int) {
    && IntegerIfPresent(c, "iat")
    && IntegerIfPresent(c, "nbf") && ("nbf" in c ==> IntOf(c["nbf"]).n <= now)
  }

  /** Every registered claim python-jose checks passes at `now`, given that the backend passes it no
      audience, issuer, subject or access token: `iat` and `nbf` as in `StartOk`, `exp` an integer
      not before `now`, `sub` and `jti` strings, no `aud` (no audience is in a claim's list) and no
      `at_hash` (there is no access token to compare it with). */
  predicate ClaimsValid(c: Claims, now: int) {
    && StartOk(c, now)
    && IntegerIfPresent(c, "exp") && ("exp" in c ==> IntOf(c["exp"]).n >= now)
    && "aud" !in c
    && StringIfPresent(c, "sub") && StringIfPresent(c, "jti")
    && "at_hash" !in c
  }

  /** The checks before `exp` pass, and `exp` is present, an integer, and in the past. */
  predicate ExpiredAt(c: Claims, now: int) {
    StartOk(c, now) && "exp" in c && IntOf(c["exp"]).Integer? && IntOf(c["exp"]).n < now
  }

  /** Some time claim is a value `int()` refuses with a TypeError. */
  predicate UncastableTime(c: Claims) {
    || ("iat" in c && c["iat"].Composite?)
    || ("nbf" in c && c["nbf"].Composite?)
    || ("exp" in c && c["exp"].Composite?)
  }

  /** A time claim `int()` refused: a TypeError escapes, a ValueError becomes the claim's error. */
  function CastFailure(v: Claim, reason: string): JwtError {
    if v.Composite? then Uncaught else Invalid(reason)
  }

  /** python-jose's claim validation with its default options: the first check that fails, in the
      order iat, nbf, exp, aud, iss, sub, jti, at_hash, with no leeway (iss is checked only against
      an issuer, and none is passed). The reason texts are only logged; for `aud` the text is
      "Invalid claim format in token" when the value is neither a string nor a list of strings. */
  function ClaimsError(c: Claims, now: int): (e: Option<JwtError>)
    ensures e.None? <==> ClaimsValid(c, now)
    ensures e == Some(Expired) <==> ExpiredAt(c, now)
    ensures e == Some(Uncaught) ==> UncastableTime(c)
  {
    if "iat" in c && !IntOf(c["iat"]).Integer? then
      Some(CastFailure(c["iat"], "Issued At claim (iat) must be an integer."))
    else if "nbf" in c && !IntOf(c["nbf"]).Integer? then
      Some(CastFailure(c["nbf"], "Not Before claim (nbf) must be an integer."))
    else if "nbf" in c && IntOf(c["nbf"]).n > now then Some(Invalid("The token is not yet valid (nbf)"))
    else if "exp" in c && !IntOf(c["exp"]).Integer? then
      Some(CastFailure(c["exp"], "Expiration Time claim (exp) must be an integer."))
    else if "exp" in c && IntOf(c["exp"]).n < now then Some(Expired)
    else if "aud" in c then Some(Invalid("Invalid audience"))
    else if "sub" in c && !c["sub"].Str? then Some(Invalid("Subject must be a string."))
    else if "jti" in c && !c["jti"].Str? then Some(Invalid("JWT ID must be a string."))
    else if "at_hash" in c then Some(Invalid("No access_token provided to compare against at_hash claim."))
    else None
  }

  /** `jwt.decode(token, key, algorithms=algorithms)` at time `now`: the header's algorithm must be
      allowed and the signature must match before the claims are validated. */
  function Decode(t: Token, key: string, algorithms: seq<string>, now: int): (r: Result<Claims, JwtError>)
    ensures r.Ok? <==> t.Jws? && t.alg in algorithms && t.key == key && ClaimsValid(t.claims, now)
    ensures r.Ok? ==> r.value == t.claims
    ensures r == Err(Expired) <==> t.Jws? && t.alg in algorithms && t.key == key
                                    && ExpiredAt(t.claims, now)
    ensures r == Err(Uncaught) ==> t.Jws? && UncastableTime(t.claims)
  {
    if t.Malformed? then Err(Invalid("Not enough segments"))
    else if t.alg !in algorithms then Err(Invalid("The specified alg value is not allowed"))
    else if t.key != key then Err(Invalid("Signature verification failed."))
    else match ClaimsError(t.claims, now)
      case Some(e) => Err(e)
      case None => Ok(t.claims)
  }

  /** `expires_delta or timedelta(minutes=30)`: a missing or zero delta is falsy and gives the
      default. */
  function AccessLifetime(delta: Option<int>): (s: int)
    ensures delta.None? || delta == Some(0) ==> s == DEFAULT_LIFETIME
    ensures delta.Some? && delta.value != 0 ==> s == delta.value
  {
    if delta.Some? && delta.value != 0 then delta.value else DEFAULT_LIFETIME
  }

  /** `create_access_token`: the role argument is accepted and dropped. */
  function CreateAccessToken(userId: string, role: string, delta: Option<int>, now: int): (r: Result<Token, string>)
    ensures r.Err? <==> !StartsWith(userId, USER_PREFIX)
    ensures r.Ok? ==> r.value.Jws? && r.value.claims.Keys == {"sub", "exp"}
    ensures r.Ok? ==> r.value.claims["sub"] == Str(userId)
                      && r.value.claims["exp"] == Num(now + AccessLifetime(delta))
  {
    if !StartsWith(userId, USER_PREFIX) then
      Err("User ID must be a string in the format 'USER1234567'")
    else
      Ok(Encode(map["sub" := Str(userId), "exp" := Num(now + AccessLifetime(delta))]))
  }

  /** The reset token's lifetime: the argument's default of thirty minutes when the caller
      passes none; a delta that is passed is used as given, zero included. */
  function ResetLifetime(delta: Option<int>): (s: int)
    ensures delta.None? ==> s == DEFAULT_LIFETIME
    ensures delta.Some? ==> s == delta.value
  {
    delta.GetOr(DEFAULT_LIFETIME)
  }

  /** `create_reset_password_token`: no check of the id. */
  function CreateResetPasswordToken(userId: string, delta: Option<int>, now: int): (t: Token)
    ensures t.Jws? && t.key == SECRET_KEY && t.alg == ALGORITHM
    ensures t.claims.Keys == {"sub", "type", "exp"}
    ensures t.claims["sub"] == Str(userId) && t.claims["type"] == Str(RESET_TYPE)
    ensures t.claims["exp"] == Num(now + ResetLifetime(delta))
  {
    Encode(map["sub" := Str(userId), "type" := Str(RESET_TYPE), "exp" := Num(now + ResetLifetime(delta))])
  }

  /** `decode_reset_password_token`: the plain decoder under the server's key and algorithm. */
  function DecodeResetPasswordToken(t: Token, now: int): (r: Result<Claims, JwtError>)
    ensures r.Ok? <==> t.Jws? && t.alg == ALGORITHM && t.key == SECRET_KEY && ClaimsValid(t.claims, now)
    ensures r.Ok? ==> r.value == t.claims
    ensures r == Err(Expired) <==> t.Jws? && t.alg == ALGORITHM && t.key == SECRET_KEY && ExpiredAt(t.claims, now)
    ensures r == Err(Uncaught) ==> t.Jws? && UncastableTime(t.claims)
  {
    Decode(t, SECRET_KEY, [ALGORITHM], now)
  }

  const TOKEN_EXPIRED := "Token has expired"
  const TOKEN_INVALID := "Invalid or expired token"
  const BAD_PAYLOAD := "Invalid token payload (invalid user_id)"
  const USER_NOT_FOUND := "User not found"

  /** The `sub` claim names a user id. */
  predicate HasUserSubject(c: Claims) {
    "sub" in c && c["sub"].Str? && StartsWith(c["sub"].s, USER_PREFIX)
  }

  /** `get_current_user`: the user named by the token's subject, whatever its status. The expired
      error and every other JWTError are caught; a TypeError from the decoder is not, and FastAPI
      answers 500. */
  function GetCurrentUser(db: Db, t: Token, now: int): (r: Result<User, HttpError>)
    ensures var d := Decode(t, SECRET_KEY, [ALGORITHM], now);
      r.Ok? <==> d.Ok? && HasUserSubject(t.claims) && HasKey(db.users, UserKey, t.claims["sub"].s)
    ensures r.Ok? ==> t.Jws? && HasUserSubject(t.claims) && r.value in db.users
                      && r.value.userId == t.claims["sub"].s
    ensures r.Err? ==> r.error.status in {UNAUTHORIZED, NOT_FOUND, SERVER_ERROR}
    ensures r == Err(HttpError(UNAUTHORIZED, TOKEN_EXPIRED))
            <==> Decode(t, SECRET_KEY, [ALGORITHM], now) == Err(Expired)
    ensures var d := Decode(t, SECRET_KEY, [ALGORITHM], now);
      d.Err? && d.error.Invalid? ==> r == Err(HttpError(UNAUTHORIZED, TOKEN_INVALID))
    ensures var d := Decode(t, SECRET_KEY, [ALGORITHM], now);
      d.Ok? && !HasUserSubject(t.claims) ==> r == Err(HttpError(UNAUTHORIZED, BAD_PAYLOAD))
    ensures r.Err? && r.error.status == SERVER_ERROR
            <==> Decode(t, SECRET_KEY, [ALGORITHM], now) == Err(Uncaught)
    ensures r.Err? && r.error.status == NOT_FOUND <==>
            Decode(t, SECRET_KEY, [ALGORITHM], now).Ok? && HasUserSubject(t.claims)
            && !HasKey(db.users, UserKey, t.claims["sub"].s)
  {
    match Decode(t, SECRET_KEY, [ALGORITHM], now)
    case Err(Expired) => Err(HttpError(UNAUTHORIZED, TOKEN_EXPIRED))
    case Err(Invalid(_)) => Err(HttpError(UNAUTHORIZED, TOKEN_INVALID))
    case Err(Uncaught) => Err(HttpError(SERVER_ERROR, INTERNAL_ERROR))
    case Ok(claims) =>
      if !HasUserSubject(claims) then Err(HttpError(UNAUTHORIZED, BAD_PAYLOAD))
      else match Lookup(db.users, UserKey, claims["sub"].s)
        case None => Err(HttpError(NOT_FOUND, USER_NOT_FOUND))
        case Some(u) => Ok(u)
  }

  /** `login_required`: a missing token is refused before it is decoded. */
  function LoginRequired(db: Db, token: Option<Token>, now: int): (r: Result<User, HttpError>)
    ensures token.None? ==> r == Err(HttpError(UNAUTHORIZED, "Token missing"))
    ensures token.Some? ==> r == GetCurrentUser(db, token.value, now)
  {
    if token.None? then Err(HttpError(UNAUTHORIZED, "Token missing"))
    else GetCurrentUser(db, token.value, now)
  }

  // ---------------------------------------------------------------- the admin guard

  const ROLE_ATTRIBUTE_ERROR := "AttributeError: 'User' object has no attribute 'role'"
  const ADMIN_REQUIRED := "Admin access required"

  /** `get_current_admin_user` as written: it reads `user.role`, which the User model does not
      have, so the dependency raises AttributeError and FastAPI answers 500. */
  function GetCurrentAdminUserAsWritten(u: User): (r: Result<User, HttpError>)
    ensures r.Err? && r.error.status == SERVER_ERROR
  {
    Err(HttpError(SERVER_ERROR, ROLE_ATTRIBUTE_ERROR))
  }

  /** `getattr(user, 'role', 'user')`, the reading the services use: the role attribute when the
      user carries one, "user" otherwise. The User model carries none, so `None` is what every
      stored user gives. */
  function RoleOf(role: Option<string>): string { role.GetOr("user") }

  /** The guard as intended: the user passes only with the "admin" role, anyone else gets 403. */
  function GetCurrentAdminUser(u: User, role: Option<string>): (r: Result<User, HttpError>)
    ensures r.Ok? <==> role == Some("admin")
    ensures r.Ok? ==> r.value == u
    ensures r.Err? ==> r.error == HttpError(FORBIDDEN, ADMIN_REQUIRED)
  {
    if RoleOf(role) != "admin" then Err(HttpError(FORBIDDEN, ADMIN_REQUIRED)) else Ok(u)
  }

  /** As written, an authenticated user never gets past the admin guard and never receives the
      intended 403 either: the answer is a server error. With the model's users, who carry no
      role, the intended guard answers 403. */
  lemma AdminGuardAsWrittenFails(db: Db, t: Token, now: int)
    requires GetCurrentUser(db, t, now).Ok?
    ensures GetCurrentAdminUserAsWritten(GetCurrentUser(db, t, now).value).error.status == SERVER_ERROR
    ensures GetCurrentAdminUser(GetCurrentUser(db, t, now).value, None).error.status == FORBIDDEN
  {
  }

  // ---------------------------------------------------------------- properties

  /** Decoding what was encoded returns the claims while they are unexpired. */
  lemma EncodeDecode(c: Claims, now: int)
    requires ClaimsValid(c, now)
    ensures Decode(Encode(c), SECRET_KEY, [ALGORITHM], now) == Ok(c)
  {
  }

  /** A token issued at `t0` for a stored user authenticates that user until `t0` plus its lifetime,
      and is refused as expired afterwards. */
  lemma AccessTokenLifetime(db: Db, u: User, role: string, delta: Option<int>, t0: int, now: int)
    requires UniqueKeys(db.users, UserKey) && u in db.users
    requires StartsWith(u.userId, USER_PREFIX)
    ensures var t := CreateAccessToken(u.userId, role, delta, t0).value;
      && (now <= t0 + AccessLifetime(delta) ==> GetCurrentUser(db, t, now) == Ok(u))
      && (now > t0 + AccessLifetime(delta) ==> GetCurrentUser(db, t, now) == Err(HttpError(UNAUTHORIZED, TOKEN_EXPIRED)))
  {
    var t := CreateAccessToken(u.userId, role, delta, t0).value;
    if now <= t0 + AccessLifetime(delta) {
      assert ClaimsValid(t.claims, now);
      var i :| 0 <= i < |db.users| && db.users[i] == u;
      assert HasKey(db.users, UserKey, u.userId);
      var found := Lookup(db.users, UserKey, u.userId).value;
      var j :| 0 <= j < |db.users| && db.users[j] == found;
      assert UserKey(db.users[i]) == UserKey(db.users[j]);
    }
  }

  /** The current-user dependency does not look at `status`: a soft-deleted user's token still
      authenticates. */
  lemma DeactivatedUserStillAuthenticates(db: Db, u: User, t0: int, now: int)
    requires UniqueKeys(db.users, UserKey) && u in db.users && !u.active
    requires StartsWith(u.userId, USER_PREFIX)
    requires t0 <= now <= t0 + DEFAULT_LIFETIME
    ensures GetCurrentUser(db, CreateAccessToken(u.userId, "user", None, t0).value, now) == Ok(u)
  {
    AccessTokenLifetime(db, u, "user", None, t0, now);
  }

  /** A reset token decodes, with its subject and type, until it expires, and is refused as
      expired afterwards. */
  lemma ResetTokenLifetime(userId: string, delta: Option<int>, t0: int, now: int)
    ensures var r := DecodeResetPasswordToken(CreateResetPasswordToken(userId, delta, t0), now);
      && (now <= t0 + ResetLifetime(delta) ==> r.Ok? && r.value["type"] == Str(RESET_TYPE) && r.value["sub"] == Str(userId))
      && (now > t0 + ResetLifetime(delta) ==> r == Err(Expired))
  {
    var t := CreateResetPasswordToken(userId, delta, t0);
    assert StartOk(t.claims, now);
  }

  /** Neither decoder looks at the `type` claim: an unexpired password-reset token authenticates
      its subject exactly like an access token. */
  lemma ResetTokenAuthenticates(db: Db, u: User, delta: Option<int>, t0: int, now: int)
    requires UniqueKeys(db.users, UserKey) && u in db.users
    requires StartsWith(u.userId, USER_PREFIX)
    requires now <= t0 + ResetLifetime(delta)
    ensures GetCurrentUser(db, CreateResetPasswordToken(u.userId, delta, t0), now) == Ok(u)
  {
    assert ClaimsValid(CreateResetPasswordToken(u.userId, delta, t0).claims, now);
    var i :| 0 <= i < |db.users| && db.users[i] == u;
    assert HasKey(db.users, UserKey, u.userId);
    var found := Lookup(db.users, UserKey, u.userId).value;
    var j :| 0 <= j < |db.users| && db.users[j] == found;
    assert UserKey(db.users[i]) == UserKey(db.users[j]);
  }

  /** A token signed with another key is refused with the generic 401, expired or not. */
  lemma ForeignKeyRefused(db: Db, c: Claims, key: string, now: int)
    requires key != SECRET_KEY
    ensures GetCurrentUser(db, Jws(c, key, ALGORITHM), now) == Err(HttpError(UNAUTHORIZED, TOKEN_INVALID))
  {
  }

  /** A token whose header names another algorithm is refused with the generic 401. */
  lemma ForeignAlgorithmRefused(db: Db, c: Claims, alg: string, now: int)
    requires alg != ALGORITHM
    ensures GetCurrentUser(db, Jws(c, SECRET_KEY, alg), now) == Err(HttpError(UNAUTHORIZED, TOKEN_INVALID))
  {
  }

  /** `int()` accepts the decimal text of an integer, so an `exp` sent as that text decodes and
      expires exactly like the integer itself. */
  lemma {:induction false} NumericStringExpiry(c: Claims, n: int, now: int)
    ensures var asText := Decode(Encode(c["exp" := Str(IntToString(n))]), SECRET_KEY, [ALGORITHM], now);
            var asNumber := Decode(Encode(c["exp" := Num(n)]), SECRET_KEY, [ALGORITHM], now);
            (asText.Ok? <==> asNumber.Ok?) && (asText == Err(Expired) <==> asNumber == Err(Expired))
  {
    ParseIntOfIntToString(n);
    var a := c["exp" := Str(IntToString(n))];
    var b := c["exp" := Num(n)];
    assert IntOf(a["exp"]) == IntOf(b["exp"]);
    assert StartOk(a, now) <==> StartOk(b, now);
  }

  /** A token under the server's key that carries an audience is refused with the generic 401:
      the backend names no audience, and none is in the claim. */
  lemma AudienceRefused(db: Db, c: Claims, aud: Claim, now: int)
    requires "iat" !in c && "nbf" !in c && "exp" !in c
    ensures GetCurrentUser(db, Encode(c["aud" := aud]), now) == Err(HttpError(UNAUTHORIZED, TOKEN_INVALID))
  {
    assert ClaimsError(c["aud" := aud], now) == Some(Invalid("Invalid audience"));
  }

  /** A token under the server's key that is not valid before a later time is refused with the
      generic 401 until then. */
  lemma FutureNotBeforeRefused(db: Db, c: Claims, nbf: int, now: int)
    requires "iat" !in c && nbf > now
    ensures GetCurrentUser(db, Encode(c["nbf" := Num(nbf)]), now) == Err(HttpError(UNAUTHORIZED, TOKEN_INVALID))
  {
    assert ClaimsError(c["nbf" := Num(nbf)], now) == Some(Invalid("The token is not yet valid (nbf)"));
  }

  /** A token under the server's key whose `iat` is text `int()` refuses is refused with the
      generic 401, whatever its other claims. */
  lemma NonIntegerIssuedAtRefused(db: Db, c: Claims, now: int)
    ensures GetCurrentUser(db, Encode(c["iat" := Str("soon")]), now) == Err(HttpError(UNAUTHORIZED, TOKEN_INVALID))
  {
    assert ParseInt("soon").None? by {
      assert StripLeft("soon") == "soon" && StripRight("soon") == "soon";
    }
    assert ClaimsError(c["iat" := Str("soon")], now).value.Invalid?;
  }

  /** A token under the server's key whose `jti` is not a string is refused with the generic 401. */
  lemma NonStringIdRefused(db: Db, c: Claims, jti: int, now: int)
    requires "iat" !in c && "nbf" !in c && "exp" !in c && "aud" !in c
    ensures GetCurrentUser(db, Encode(c["jti" := Num(jti)]), now) == Err(HttpError(UNAUTHORIZED, TOKEN_INVALID))
  {
    var d := c["jti" := Num(jti)];
    if "sub" in d && !d["sub"].Str? {
      assert ClaimsError(d, now) == Some(Invalid("Subject must be a string."));
    } else {
      assert ClaimsError(d, now) == Some(Invalid("JWT ID must be a string."));
    }
  }
}

=== FILE: contact_page.dfy ===
/** pages/Contact.tsx: the public contact form. Sending is simulated by a timer in the page
    itself; the timer firing is modelled as a separate step, `FinishSending`. */
module ContactPage {
  import opened Text
  import opened Forms

  datatype ContactFields = ContactFields(name: string, email: string, phone: string, subject: string, message: string)

  const BLANK: ContactFields := ContactFields("", "", "", "", "")

  datatype ContactPageState = ContactPageState(fields: ContactFields, loading: bool)

  const INITIAL: ContactPageState := ContactPageState(BLANK, false)

  /** The `name` attributes of the five inputs. */
  datatype FieldName = Name | Email | Phone | Subject | Message

  /** `handleInputChange`: the named field takes the typed value. */
  function HandleInputChange(s: ContactPageState, field: FieldName, value: string): (r: ContactPageState)
    ensures r.loading == s.loading
    ensures Get(r.fields, field) == value
    ensures forall g: FieldName :: g != field ==> Get(r.fields, g) == Get(s.fields, g)
  {
    var f := s.fields;
    var nf := match field
      case Name => f.(name := value)
      case Email => f.(email := value)
      case Phone => f.(phone := value)
      case Subject => f.(subject := value)
      case Message => f.(message := value);
    s.(fields := nf)
  }

  function Get(f: ContactFields, field: FieldName): string {
    match field
    case Name => f.name
    case Email => f.email
    case Phone => f.phone
    case Subject => f.subject
    case Message => f.message
  }

  datatype SubmitOutcome = MissingRequired | InvalidEmail | Sending

  /** `handleSubmit`: the required fields, then the e-mail pattern; an accepted form starts the
      simulated send, a rejected one is left as it is. */
  function HandleSubmit(s: ContactPageState): (r: (ContactPageState, SubmitOutcome))
    ensures r.1 == MissingRequired <==> s.fields.name == "" || s.fields.email == "" || s.fields.message == ""
    ensures r.1 == Sending <==> s.fields.name != "" && s.fields.message != "" && EmailPattern(s.fields.email)
    ensures r.1 != Sending ==> r.0 == s
    ensures r.1 == Sending ==> r.0 == s.(loading := true)
  {
    var f := s.fields;
    if f.name == "" || f.email == "" || f.message == "" then (s, MissingRequired)
    else if !EmailPattern(f.email) then (s, InvalidEmail)
    else (s.(loading := true), Sending)
  }

  /** The timer's callback: every field is cleared and the button is enabled again. */
  function FinishSending(s: ContactPageState): (r: ContactPageState)
    ensures r == INITIAL
    ensures forall g: FieldName :: Get(r.fields, g) == ""
  {
    ContactPageState(BLANK, false)
  }

  /** Phone and subject are optional: what is typed in them never changes the verdict. */
  lemma {:induction false} OptionalFieldsIgnored(s: ContactPageState, phone: string, subject: string)
    ensures var t := HandleInputChange(HandleInputChange(s, Phone, phone), Subject, subject);
            HandleSubmit(t).1 == HandleSubmit(s).1
  {
    var t := HandleInputChange(HandleInputChange(s, Phone, phone), Subject, subject);
    assert t.fields.name == s.fields.name && t.fields.email == s.fields.email
           && t.fields.message == s.fields.message;
  }

  /** An accepted address has no white space, exactly one `@` with something before it, and a
      dot strictly inside the part after it. */
  lemma AcceptedEmailShape(s: ContactPageState)
    requires HandleSubmit(s).1 == Sending
    ensures EmailCheck(s.fields.email)
    ensures var e := s.fields.email;
            var i := FirstIndex(e, '@');
            0 < i && '@' !in e[i + 1..]
  {
    EmailCheckIsPattern(s.fields.email);
  }

  /** A complete round: after an accepted submission and the timer, the page is back where it
      started whatever was typed; a rejected submission keeps every field for the user to fix. */
  lemma SubmitRound(s: ContactPageState)
    ensures HandleSubmit(s).1 == Sending ==> FinishSending(HandleSubmit(s).0) == INITIAL
    ensures HandleSubmit(s).1 != Sending ==>
              forall g: FieldName :: Get(HandleSubmit(s).0.fields, g) == Get(s.fields, g)
  {
  }

  /** Filling the three required fields with a well-formed address on the empty page is enough. */
  lemma {:induction false} FillingRequiredFieldsSends(name: string, email: string, message: string)
    requires name != "" && message != "" && EmailCheck(email)
    ensures var s := HandleInputChange(HandleInputChange(HandleInputChange(INITIAL, Name, name), Email, email),
                                       Message, message);
            HandleSubmit(s).1 == Sending && s.fields == ContactFields(name, email, "", "", message)
  {
    EmailCheckIsPattern(email);
    var s := HandleInputChange(HandleInputChange(HandleInputChange(INITIAL, Name, name), Email, email),
                               Message, message);
    assert s.fields == ContactFields(name, email, "", "", message);
  }
}

=== FILE: contact_us.dfy ===
/** Resources/ContactUs/ContactUsService.py: messages left through the contact form. Ids come
    from an auto-increment sequence, and `created_at` is the server clock, passed in as `now`.
    Pydantic's EmailStr check is the parameter `emailStr`: a refused address is 422 before the
    service runs, and the service stores the normal form. */
module ContactUsService {
  import opened Wrappers
  import opened KeyedStore
  import opened SqlLike
  import opened Schema
  import opened Ordering

  const CONTACT_NOT_FOUND := "Contact us entry not found"

  /** The body of a POST (ContactUsCreate). */
  datatype ContactCreate = ContactCreate(name: string, email: string, phoneNumber: Option<string>, subject: string, message: string)

  function CreatedAt(c: Contact): int { c.createdAt }

  /** The row a message is stored as: the next sequence value, the normalised address and the
      current time. */
  function NewContact(db: Db, req: ContactCreate, email: string, now: int): (c: Contact)
    ensures c.id == db.contactSeq + 1 && c.email == email && c.createdAt == now
    ensures c.name == req.name && c.phoneNumber == req.phoneNumber
    ensures c.subject == req.subject && c.message == req.message
    ensures ContactFits(c) <==>
      && Fits(req.name, 255) && Fits(email, 255) && Fits(req.subject, 500)
      && (req.phoneNumber.Some? ==> Fits(req.phoneNumber.value, 20))
  {
    Contact(db.contactSeq + 1, req.name, email, req.phoneNumber, req.subject, req.message, now)
  }

  /** `create_contact_us`: an address EmailStr rejects is 422 before the service runs;
      otherwise the row is inserted, and its commit fails (500) exactly when a value is too
      long for its column. The failed insert has already drawn its sequence value, which the
      rollback does not return. */
  function CreateContact(db: Db, req: ContactCreate, now: int, emailStr: EmailStr): (r: Response<Contact>)
    ensures emailStr(req.email).None? ==> r == Fail(db, UNPROCESSABLE, INVALID_EMAIL)
    ensures r.body.Err? && emailStr(req.email).Some? ==>
              r.db == db.(contactSeq := db.contactSeq + 1) && r.body.error.status == SERVER_ERROR
    ensures r.body.Ok? ==> emailStr(req.email).Some?
    ensures r.body.Ok? ==>
      && r.body.value == NewContact(db, req, emailStr(req.email).value, now)
      && r.db == db.(contacts := db.contacts + [r.body.value], contactSeq := db.contactSeq + 1)
    ensures Consistent(db) ==>
      (r.body.Ok? <==> emailStr(req.email).Some? && ContactFits(NewContact(db, req, emailStr(req.email).value, now)))
    ensures Consistent(db) ==> Consistent(r.db)
  {
    match emailStr(req.email)
    case None => Fail(db, UNPROCESSABLE, INVALID_EMAIL)
    case Some(email) =>
      var c := NewContact(db, req, email, now);
      var drawn := db.(contactSeq := db.contactSeq + 1);
      var after := db.(contacts := db.contacts + [c], contactSeq := db.contactSeq + 1);
      EveryAppend(db.contacts, ContactFits, c);
      assert Consistent(db) ==> Consistent(drawn) by {
        if Consistent(db) {
          forall i | 0 <= i < |drawn.contacts| ensures drawn.contacts[i].id <= drawn.contactSeq {
            assert db.contacts[i].id <= db.contactSeq;
          }
        }
      }
      assert Consistent(db) ==> (Consistent(after) <==> ContactFits(c)) by {
        if Consistent(db) && ContactFits(c) {
          forall i | 0 <= i < |db.contacts| ensures ContactKey(db.contacts[i]) != c.id {
            assert db.contacts[i].id <= db.contactSeq;
          }
          UniqueAppend(db.contacts, ContactKey, c);
          forall i | 0 <= i < |after.contacts| ensures after.contacts[i].id <= after.contactSeq {
            if i < |db.contacts| {
              assert after.contacts[i] == db.contacts[i];
            }
          }
        }
      }
      Commit(drawn, after, c)
  }

  /** Two accepted messages get different ids, the later one the larger. */
  lemma ContactIdsIncrease(db: Db, a: ContactCreate, b: ContactCreate, t1: int, t2: int, emailStr: EmailStr)
    requires Consistent(db) && emailStr(a.email).Some? && emailStr(b.email).Some?
    requires ContactFits(NewContact(db, a, emailStr(a.email).value, t1))
    requires ContactFits(NewContact(db, b, emailStr(b.email).value, t2))
    ensures var first := CreateContact(db, a, t1, emailStr);
            var second := CreateContact(first.db, b, t2, emailStr);
            && first.body.Ok? && second.body.Ok?
            && first.body.value.id < second.body.value.id
            && !HasKey(db.contacts, ContactKey, second.body.value.id)
  {
    var first := CreateContact(db, a, t1, emailStr);
    var id := first.db.contactSeq + 1;
    forall i | 0 <= i < |db.contacts| ensures ContactKey(db.contacts[i]) != id {
      assert db.contacts[i].id <= db.contactSeq;
    }
  }

  /** The query parameters `get_contact_us_list` looks at. */
  datatype ContactFilters = ContactFilters(email: Option<string>, name: Option<string>, subject: Option<string>)

  predicate ContactMatches(c: Contact, f: ContactFilters) {
    && (!Given(f.email) || IContains(c.email, f.email.value))
    && (!Given(f.name) || IContains(c.name, f.name.value))
    && (!Given(f.subject) || IContains(c.subject, f.subject.value))
  }

  function ContactFilter(f: ContactFilters): Contact -> bool {
    (c: Contact) => ContactMatches(c, f)
  }

  function ContactConditions(f: ContactFilters): seq<Contact -> bool> {
    [ (c: Contact) => !Given(f.email) || IContains(c.email, f.email.value),
      (c: Contact) => !Given(f.name) || IContains(c.name, f.name.value),
      (c: Contact) => !Given(f.subject) || IContains(c.subject, f.subject.value) ]
  }

  lemma ContactConditionsMatch(c: Contact, f: ContactFilters)
    ensures Conj(ContactConditions(f))(c) == ContactFilter(f)(c)
  {
    var cs := ContactConditions(f);
    assert cs[0](c) && cs[1](c) && cs[2](c) <==> ContactMatches(c, f);
  }

  /** The rows the filters keep, in table order. */
  function MatchingContacts(db: Db, f: ContactFilters): (r: seq<Contact>)
    ensures r == Where(db.contacts, ContactFilter(f))
  {
    NarrowIsWhere(db.contacts, ContactConditions(f));
    forall i | 0 <= i < |db.contacts|
      ensures Conj(ContactConditions(f))(db.contacts[i]) == ContactFilter(f)(db.contacts[i])
    {
      ContactConditionsMatch(db.contacts[i], f);
    }
    WhereExt(db.contacts, Conj(ContactConditions(f)), ContactFilter(f));
    Narrow(db.contacts, ContactConditions(f))
  }

  /** `get_contact_us_list`: the matching messages, newest first. The order among messages
      with the same `created_at` is not fixed by the query and is not promised here. */
  function GetContacts(db: Db, f: ContactFilters): (r: seq<Contact>)
    ensures SortedDesc(r, CreatedAt)
    ensures multiset(r) == multiset(Where(db.contacts, ContactFilter(f)))
    ensures forall c :: c in r <==> c in db.contacts && ContactMatches(c, f)
  {
    var rows := MatchingContacts(db, f);
    var r := SortDesc(rows, CreatedAt);
    assert forall c :: c in r <==> c in rows by {
      forall c ensures c in r <==> c in rows {
        assert c in r <==> c in multiset(r);
        assert c in rows <==> c in multiset(rows);
      }
    }
    r
  }

  /** Sorting newest first puts a row strictly newer than all the others at the head. */
  lemma NewestSortsFirst(rows: seq<Contact>, c: Contact)
    requires forall i :: 0 <= i < |rows| ==> rows[i].createdAt < c.createdAt
    ensures var s := SortDesc(rows + [c], CreatedAt); |s| == |rows| + 1 && s[0] == c
  {
    var all := rows + [c];
    var s := SortDesc(all, CreatedAt);
    assert |s| == |all| by {
      assert |multiset(s)| == |multiset(all)|;
    }
    assert all[|rows|] == c;
    assert c in multiset(s);
    forall x | x in s && x != c ensures CreatedAt(x) < CreatedAt(c) {
      assert x in multiset(all);
      var j :| 0 <= j < |all| && all[j] == x;
      if j < |rows| {
        assert rows[j] == x;
      }
    }
    UniqueMaxFirst(s, CreatedAt, c);
  }

  /** A message sent later than every stored one, and fitting its columns, heads the unfiltered
      list. */
  lemma NewestContactFirst(db: Db, req: ContactCreate, now: int, emailStr: EmailStr)
    requires Consistent(db) && emailStr(req.email).Some?
    requires ContactFits(NewContact(db, req, emailStr(req.email).value, now))
    requires forall i :: 0 <= i < |db.contacts| ==> db.contacts[i].createdAt < now
    ensures var created := CreateContact(db, req, now, emailStr);
            var listed := GetContacts(created.db, ContactFilters(None, None, None));
            |listed| == |db.contacts| + 1 && listed[0] == created.body.value
  {
    var created := CreateContact(db, req, now, emailStr);
    CreatedContactAppended(db, req, now, emailStr);
    NewestHeadsListing(created.db, db.contacts, created.body.value);
  }

  lemma CreatedContactAppended(db: Db, req: ContactCreate, now: int, emailStr: EmailStr)
    requires Consistent(db) && emailStr(req.email).Some?
    requires ContactFits(NewContact(db, req, emailStr(req.email).value, now))
    ensures var created := CreateContact(db, req, now, emailStr);
            && created.body.Ok? && created.body.value.createdAt == now
            && created.db.contacts == db.contacts + [created.body.value]
  {
  }

  /** A table whose last row is strictly newer than the rest lists that row first. */
  lemma NewestHeadsListing(db: Db, rows: seq<Contact>, c: Contact)
    requires db.contacts == rows + [c]
    requires forall i :: 0 <= i < |rows| ==> rows[i].createdAt < c.createdAt
    ensures var listed := GetContacts(db, ContactFilters(None, None, None));
            |listed| == |rows| + 1 && listed[0] == c
  {
    NoFiltersListAll(db);
    NewestSortsFirst(rows, c);
  }

  /** Without filters the list is every message, newest first. */
  lemma NoFiltersListAll(db: Db)
    ensures GetContacts(db, ContactFilters(None, None, None)) == SortDesc(db.contacts, CreatedAt)
  {
    var f := ContactFilters(None, None, None);
    WhereAll(db.contacts, ContactFilter(f));
    assert MatchingContacts(db, f) == db.contacts;
  }

  /** `get_contact_us_by_id`. */
  function GetContact(db: Db, id: int): (r: Result<Contact, HttpError>)
    ensures r.Ok? <==> HasKey(db.contacts, ContactKey, id)
    ensures r.Ok? ==> r.value in db.contacts && r.value.id == id
    ensures r.Err? ==> r.error == HttpError(NOT_FOUND, CONTACT_NOT_FOUND)
  {
    match Lookup(db.contacts, ContactKey, id)
    case None => Err(HttpError(NOT_FOUND, CONTACT_NOT_FOUND))
    case Some(c) => Ok(c)
  }

  /** The fields a PATCH may carry (ContactUsUpdate). */
  datatype ContactPatch = ContactPatch(name: Option<string>, email: Option<string>, phoneNumber: Option<string>,
                                       subject: Option<string>, message: Option<string>)

  function ApplyContactPatch(c: Contact, p: ContactPatch): (v: Contact)
    ensures v.id == c.id && v.createdAt == c.createdAt
    ensures v.name == p.name.GetOr(c.name) && v.email == p.email.GetOr(c.email)
    ensures v.subject == p.subject.GetOr(c.subject) && v.message == p.message.GetOr(c.message)
    ensures v.phoneNumber == (if p.phoneNumber.Some? then p.phoneNumber else c.phoneNumber)
  {
    c.(name := p.name.GetOr(c.name), email := p.email.GetOr(c.email),
       phoneNumber := if p.phoneNumber.Some? then p.phoneNumber else c.phoneNumber,
       subject := p.subject.GetOr(c.subject), message := p.message.GetOr(c.message))
  }

  /** `update_contact_us`: a new address EmailStr rejects is 422 before the lookup; an unknown
      id is 404; otherwise exactly the supplied fields change, the address to its normal form,
      and a value too long for its column fails the commit with a 500. */
  function UpdateContact(db: Db, id: int, p: ContactPatch, emailStr: EmailStr): (r: Response<Contact>)
    ensures r.body.Err? ==> r.db == db
    ensures CheckedEmail(p.email, emailStr).None? ==> r == Fail(db, UNPROCESSABLE, INVALID_EMAIL)
    ensures CheckedEmail(p.email, emailStr).Some? && !HasKey(db.contacts, ContactKey, id) ==>
              r == Fail(db, NOT_FOUND, CONTACT_NOT_FOUND)
    ensures r.body.Ok? ==> CheckedEmail(p.email, emailStr).Some? && IndexOf(db.contacts, ContactKey, id).Some?
    ensures r.body.Ok? ==>
      var i := IndexOf(db.contacts, ContactKey, id).value;
      && r.body.value == ApplyContactPatch(db.contacts[i], p.(email := CheckedEmail(p.email, emailStr).value))
      && r.db == db.(contacts := db.contacts[i := r.body.value])
    ensures r.body.Ok? && p.email.Some? ==> emailStr(p.email.value) == Some(r.body.value.email)
    ensures Consistent(db) ==>
      (r.body.Ok? <==> && CheckedEmail(p.email, emailStr).Some?
                       && HasKey(db.contacts, ContactKey, id)
                       && ContactFits(ApplyContactPatch(db.contacts[IndexOf(db.contacts, ContactKey, id).value],
                                                        p.(email := CheckedEmail(p.email, emailStr).value))))
    ensures Consistent(db) ==> Consistent(r.db)
  {
    match CheckedEmail(p.email, emailStr)
    case None => Fail(db, UNPROCESSABLE, INVALID_EMAIL)
    case Some(email) =>
      match IndexOf(db.contacts, ContactKey, id)
      case None => Fail(db, NOT_FOUND, CONTACT_NOT_FOUND)
      case Some(i) =>
        var v := ApplyContactPatch(db.contacts[i], p.(email := email));
        var after := db.(contacts := db.contacts[i := v]);
        EveryReplace(db.contacts, ContactFits, i, v);
        assert Consistent(db) ==> (Consistent(after) <==> ContactFits(v)) by {
          if Consistent(db) && ContactFits(v) {
            ReplaceKeepsUnique(db.contacts, ContactKey, i, v);
            forall k | 0 <= k < |after.contacts| ensures after.contacts[k].id <= after.contactSeq {
              assert after.contacts[k].id == db.contacts[k].id;
            }
          }
        }
        Commit(db, after, v)
  }

  /** `delete_contact_us`: 404 for an unknown id; otherwise the row goes. The sequence does not
      step back, so the id is never handed out again. */
  function DeleteContact(db: Db, id: int): (r: Response<string>)
    ensures r.body.Err? ==> r.db == db
    ensures !HasKey(db.contacts, ContactKey, id) ==> r == Fail(db, NOT_FOUND, CONTACT_NOT_FOUND)
    ensures Consistent(db) && HasKey(db.contacts, ContactKey, id) ==>
      && r.body.Ok?
      && r.db == db.(contacts := RemoveAt(db.contacts, IndexOf(db.contacts, ContactKey, id).value))
      && !HasKey(r.db.contacts, ContactKey, id)
    ensures Consistent(db) ==> Consistent(r.db)
  {
    match IndexOf(db.contacts, ContactKey, id)
    case None => Fail(db, NOT_FOUND, CONTACT_NOT_FOUND)
    case Some(i) =>
      var after := db.(contacts := RemoveAt(db.contacts, i));
      assert Consistent(db) ==> Consistent(after) && !HasKey(after.contacts, ContactKey, id) by {
        if Consistent(db) {
          EveryRemove(db.contacts, ContactFits, i);
          UniqueRemove(db.contacts, ContactKey, i);
          HasKeyRemove(db.contacts, ContactKey, i, id);
          forall k | 0 <= k < |after.contacts| ensures after.contacts[k].id <= after.contactSeq {
            assert after.contacts[k] == db.contacts[if k < i then k else k + 1];
          }
        }
      }
      Commit(db, after, "Contact us entry deleted successfully")
  }

  /** A deleted id stays unused: the next message gets a fresh one. */
  lemma DeletedIdNotReused(db: Db, id: int, req: ContactCreate, now: int, emailStr: EmailStr)
    requires Consistent(db) && HasKey(db.contacts, ContactKey, id) && emailStr(req.email).Some?
    requires ContactFits(NewContact(db, req, emailStr(req.email).value, now))
    ensures var deleted := DeleteContact(db, id);
            CreateContact(deleted.db, req, now, emailStr).body.value.id != id
  {
    var i :| 0 <= i < |db.contacts| && ContactKey(db.contacts[i]) == id;
    assert db.contacts[i].id <= db.contactSeq;
  }
}

=== FILE: email.dfy ===
/** Bizlayer/EmailStrategy/EmailStrategy.py: the SMTP and mock strategies and their factory.
    The network is a parameter: `transport(m)` says whether the SMTP session that delivers `m`
    (connect, STARTTLS, login, send) completes without raising. */
module Email {
  import opened Wrappers
  import opened Text

  const SMTP_SERVER := "smtp.gmail.com"
  const SMTP_PORT := 587
  const SENDER := "kalakritievents07@gmail.com"

  /** The configuration the SMTP strategy actually uses. */
  datatype SmtpStrategy = SmtpStrategy(server: string, port: int, username: string, fromEmail: string, useTls: bool)

  /** A MIME message: sender, recipient, subject and one text part of subtype "html" or "plain". */
  datatype Message = Message(from: string, to: string, subject: string, subtype: string, body: string)

  /** The arguments the SMTP constructor accepts. */
  const SMTP_PARAMETERS: set<string> :=
    {"smtp_server", "smtp_port", "smtp_username", "smtp_password", "from_email", "use_tls"}

  /** `SMTPEmailStrategy(...)`: server, port, account and sender are fixed; only `use_tls` is
      taken from the caller. */
  function NewSmtp(useTls: bool): (s: SmtpStrategy)
    ensures s.server == SMTP_SERVER && s.port == SMTP_PORT
    ensures s.username == SENDER && s.fromEmail == SENDER && s.useTls == useTls
  {
    SmtpStrategy(SMTP_SERVER, SMTP_PORT, SENDER, SENDER, useTls)
  }

  function CreateMessage(s: SmtpStrategy, to: string, subject: string, body: string, html: bool): (m: Message)
    ensures m.from == s.fromEmail && m.to == to && m.subject == subject && m.body == body
    ensures m.subtype == (if html then "html" else "plain")
  {
    Message(s.fromEmail, to, subject, if html then "html" else "plain", body)
  }

  /** `send_email`: True when the transport delivers the message; a failure is reported, never
      raised. */
  function SmtpSend(s: SmtpStrategy, transport: Message -> bool, to: string, subject: string, body: string, html: bool): (ok: bool)
    ensures ok <==> transport(CreateMessage(s, to, subject, body, html))
  {
    transport(CreateMessage(s, to, subject, body, html))
  }

  /** The messages the strategy hands to SMTP, one per recipient, in list order. */
  function Outgoing(s: SmtpStrategy, tos: seq<string>, subject: string, body: string, html: bool): (ms: seq<Message>)
    ensures |ms| == |tos|
    ensures forall i :: 0 <= i < |tos| ==> ms[i] == CreateMessage(s, tos[i], subject, body, html)
  {
    seq(|tos|, i requires 0 <= i < |tos| => CreateMessage(s, tos[i], subject, body, html))
  }

  /** `results[email] = ...` for each recipient in turn: a repeated address keeps the last answer. */
  function SmtpSendBulk(s: SmtpStrategy, transport: Message -> bool, tos: seq<string>, subject: string, body: string, html: bool): (r: map<string, bool>)
    ensures r.Keys == set x | x in tos
    ensures forall e :: e in r ==> r[e] == SmtpSend(s, transport, e, subject, body, html)
    decreases |tos|
  {
    if |tos| == 0 then map[]
    else
      var rest := SmtpSendBulk(s, transport, tos[..|tos| - 1], subject, body, html);
      var e := tos[|tos| - 1];
      assert tos == tos[..|tos| - 1] + [e];
      rest[e := SmtpSend(s, transport, e, subject, body, html)]
  }

  /** One entry of the mock's log. */
  datatype SentEmail = SentEmail(to: string, subject: string, body: string, html: bool)

  /** `MockEmailStrategy`: remembers every message instead of sending it. */
  datatype MockStrategy = MockStrategy(sentEmails: seq<SentEmail>)

  function NewMock(): (m: MockStrategy)
    ensures |m.sentEmails| == 0
  {
    MockStrategy([])
  }

  /** The mock's `send_email`: appends to the log and always succeeds. */
  function MockSend(m: MockStrategy, to: string, subject: string, body: string, html: bool): (r: (MockStrategy, bool))
    ensures r.1
    ensures r.0.sentEmails == m.sentEmails + [SentEmail(to, subject, body, html)]
  {
    (MockStrategy(m.sentEmails + [SentEmail(to, subject, body, html)]), true)
  }

  /** The mock's `send_bulk_email`: one log entry per recipient in order, every answer True. */
  function MockSendBulk(m: MockStrategy, tos: seq<string>, subject: string, body: string, html: bool): (r: (MockStrategy, map<string, bool>))
    ensures |r.0.sentEmails| == |m.sentEmails| + |tos|
    ensures r.0.sentEmails[..|m.sentEmails|] == m.sentEmails
    ensures forall i :: 0 <= i < |tos| ==>
              r.0.sentEmails[|m.sentEmails| + i] == SentEmail(tos[i], subject, body, html)
    ensures r.1.Keys == set x | x in tos
    ensures forall e :: e in r.1 ==> r.1[e]
    decreases |tos|
  {
    if |tos| == 0 then (m, map[])
    else
      var (m', results) := MockSendBulk(m, tos[..|tos| - 1], subject, body, html);
      var e := tos[|tos| - 1];
      var (m'', ok) := MockSend(m', e, subject, body, html);
      assert tos == tos[..|tos| - 1] + [e];
      (m'', results[e := ok])
  }

  function GetSentEmails(m: MockStrategy): (r: seq<SentEmail>)
    ensures r == m.sentEmails
  {
    m.sentEmails
  }

  function ClearSentEmails(m: MockStrategy): (r: MockStrategy)
    ensures |r.sentEmails| == 0
  {
    MockStrategy([])
  }

  /** The mock records exactly what the SMTP strategy would have put on the wire, minus the
      sender. */
  lemma MockLogsWhatSmtpSends(s: SmtpStrategy, m: MockStrategy, tos: seq<string>, subject: string, body: string, html: bool)
    ensures var log := MockSendBulk(m, tos, subject, body, html).0.sentEmails[|m.sentEmails|..];
            var wire := Outgoing(s, tos, subject, body, html);
            |log| == |wire|
            && forall i :: 0 <= i < |log| ==>
                 log[i].to == wire[i].to && log[i].subject == wire[i].subject && log[i].body == wire[i].body
                 && (log[i].html <==> wire[i].subtype == "html")
  {
  }

  /** What `create_email_strategy` returns. */
  datatype Strategy = Smtp(smtp: SmtpStrategy) | Mock(mock: MockStrategy)

  /** `create_email_strategy(strategy_type, **kwargs)`: the type is matched case-insensitively;
      the SMTP constructor rejects an argument it does not declare (TypeError), the mock
      ignores them all, and any other type is a ValueError. `useTls` is the `use_tls` argument
      when given (True otherwise). */
  function CreateEmailStrategy(strategyType: string, kwargNames: set<string>, useTls: bool): (r: Result<Strategy, string>)
    ensures Lower(strategyType) == "smtp" && kwargNames <= SMTP_PARAMETERS ==> r == Ok(Smtp(NewSmtp(useTls)))
    ensures Lower(strategyType) == "smtp" && !(kwargNames <= SMTP_PARAMETERS) ==> r.Err?
    ensures Lower(strategyType) == "mock" ==> r == Ok(Mock(NewMock()))
    ensures Lower(strategyType) != "smtp" && Lower(strategyType) != "mock" ==>
              r == Err("Unknown email strategy type: " + strategyType)
  {
    if Lower(strategyType) == "smtp" then
      if kwargNames <= SMTP_PARAMETERS then Ok(Smtp(NewSmtp(useTls)))
      else Err("TypeError: unexpected keyword argument")
    else if Lower(strategyType) == "mock" then Ok(Mock(NewMock()))
    else Err("Unknown email strategy type: " + strategyType)
  }

  /** Whatever server settings a caller passes, every SMTP strategy sends from the same
      account through the same server. */
  lemma SmtpIgnoresConfiguration(kwargNames: set<string>, a: bool, b: bool)
    requires kwargNames <= SMTP_PARAMETERS
    ensures CreateEmailStrategy("SMTP", kwargNames, a).value.smtp.(useTls := b)
            == CreateEmailStrategy("smtp", kwargNames, b).value.smtp
  {
    assert Lower("SMTP") == "smtp";
  }
}

=== FILE: event_results.dfy ===
/** The published results the browser keeps under `kalakriti-event-results`: written by the
    admin upload panel (components/admin/ResultUpload.tsx) and read by the results page and the
    user dashboard. Scores are floating point there and are not modelled. */
module EventResults {

  datatype AgeCategory = Adult | Children | Preschool

  datatype ResultEntry = ResultEntry(participantId: string, name: string, ageCategory: AgeCategory,
                                     position: int, remarks: string)

  /** `topPositions`, whose keys are written in the order adult, children, preschool. */
  datatype TopPositions = TopPositions(adult: seq<ResultEntry>, children: seq<ResultEntry>, preschool: seq<ResultEntry>)

  /** A named list of entries under the `results` key that some stored records may carry. */
  datatype NamedEntries = NamedEntries(category: string, entries: seq<ResultEntry>)

  /** One stored record. `isLatest` absent is `false`; `results` absent is the empty list. */
  datatype EventResult = EventResult(
    eventType: string,
    season: string,
    topPositions: TopPositions,
    top100: seq<ResultEntry>,
    publishedDate: string,
    isPublished: bool,
    isLatest: bool,
    results: seq<NamedEntries>)

  /** The categories of `topPositions` in `Object.values` order. */
  function Categories(t: TopPositions): (r: seq<seq<ResultEntry>>)
    ensures |r| == 3 && r[0] == t.adult && r[1] == t.children && r[2] == t.preschool
  {
    [t.adult, t.children, t.preschool]
  }

  /** At most one stored record per event type is flagged as the latest. */
  predicate OneLatestPerType(rs: seq<EventResult>) {
    forall i, j :: 0 <= i < j < |rs| && rs[i].isLatest && rs[j].isLatest ==> rs[i].eventType != rs[j].eventType
  }

  /** No stored record carries the `results` key. */
  predicate NoResultsKey(rs: seq<EventResult>) {
    forall i :: 0 <= i < |rs| ==> rs[i].results == []
  }
}

=== FILE: event_types.dfy ===
/** lib/utils.ts: the table of competitions the pages are built from. */
module EventTypes {
  import opened Wrappers
  import opened Text
  import opened KeyedStore

  datatype EventType = EventType(key: string, title: string)

  function TypeKey(e: EventType): string { e.key }

  const EVENT_TYPES: seq<EventType> := [
    EventType("art", "Kalakriti Art Competition"),
    EventType("photography", "Kalakriti Photography Contest"),
    EventType("mehndi", "Kalakriti Mehndi Championship"),
    EventType("rangoli", "Kalakriti Rangoli Festival"),
    EventType("dance", "Kalakriti Dance Competition"),
    EventType("singing", "Kalakriti Singing Contest")
  ]

  /** The type keys, in table order. */
  const TYPE_KEYS: seq<string> := ["art", "photography", "mehndi", "rangoli", "dance", "singing"]

  const TITLE_PREFIX := "Kalakriti "

  lemma TableKeys()
    ensures |EVENT_TYPES| == |TYPE_KEYS| == 6
    ensures forall i :: 0 <= i < 6 ==> EVENT_TYPES[i].key == TYPE_KEYS[i]
    ensures UniqueKeys(EVENT_TYPES, TypeKey)
    ensures forall i :: 0 <= i < 6 ==> StartsWith(EVENT_TYPES[i].title, TITLE_PREFIX)
  {
  }

  /** `getEventDetails`: the entry with that type, or `undefined`. */
  function GetEventDetails(t: string): (r: Option<EventType>)
    ensures r.Some? <==> t in TYPE_KEYS
    ensures r.Some? ==> r.value in EVENT_TYPES && r.value.key == t
  {
    TableKeys();
    match FindFirst(EVENT_TYPES, (e: EventType) => e.key == t)
    case None => None
    case Some(i) => Some(EVENT_TYPES[i])
  }

  /** Looking up the key of any entry finds that entry. */
  lemma DetailsOfEveryEntry(i: nat)
    requires i < |EVENT_TYPES|
    ensures GetEventDetails(EVENT_TYPES[i].key) == Some(EVENT_TYPES[i])
  {
    TableKeys();
    var r := GetEventDetails(EVENT_TYPES[i].key);
    var j :| 0 <= j < |EVENT_TYPES| && EVENT_TYPES[j] == r.value;
    assert TypeKey(EVENT_TYPES[j]) == TypeKey(EVENT_TYPES[i]);
  }

  /** `eventTypes.find(e => e.type === t)?.title || ''`, as the results page names an event. */
  function TitleOf(t: string): (r: string)
    ensures t in TYPE_KEYS ==> StartsWith(r, TITLE_PREFIX)
    ensures forall i :: 0 <= i < |EVENT_TYPES| && EVENT_TYPES[i].key == t ==> r == EVENT_TYPES[i].title
    ensures t !in TYPE_KEYS ==> r == ""
  {
    TableKeys();
    match GetEventDetails(t)
    case None => ""
    case Some(e) =>
      assert forall i :: 0 <= i < |EVENT_TYPES| && EVENT_TYPES[i].key == t ==> EVENT_TYPES[i] == e by {
        forall i | 0 <= i < |EVENT_TYPES| && EVENT_TYPES[i].key == t ensures EVENT_TYPES[i] == e {
          var j :| 0 <= j < |EVENT_TYPES| && EVENT_TYPES[j] == e;
          assert TypeKey(EVENT_TYPES[i]) == TypeKey(EVENT_TYPES[j]);
        }
      }
      e.title
  }
}

=== FILE: events.dfy ===
/** Resources/Events/EventService.py: the catalogue of events. Dates are day numbers. */
module EventService {
  import opened Wrappers
  import opened KeyedStore
  import opened SqlLike
  import opened Schema
  import opened Ids

  const EVENT_PREFIX := "EVT"
  const EVENT_NOT_FOUND := "Event not found"

  /** The body of a POST (EventCreate). */
  datatype EventCreate = EventCreate(eventName: string, season: string, startDate: int, endDate: int)

  function NewEvent(req: EventCreate, uuid: nat): (e: Event)
    ensures e.eventId == GenerateId(EVENT_PREFIX, uuid)
    ensures e.eventName == req.eventName && e.season == req.season
    ensures e.startDate == req.startDate && e.endDate == req.endDate
    ensures EventFits(e) <==> Fits(req.eventName, 255) && Fits(req.season, 100)
  {
    Event(GenerateId(EVENT_PREFIX, uuid), req.eventName, req.season, req.startDate, req.endDate)
  }

  /** `create_event`: the new row is appended unless its generated id is taken or the name or
      season is too long for its column (500). Nothing relates the two dates. */
  function CreateEvent(db: Db, req: EventCreate, uuid: nat): (r: Response<Event>)
    ensures r.body.Err? ==> r.db == db
    ensures r.body.Ok? ==> r.body.value == NewEvent(req, uuid) && r.db == db.(events := db.events + [r.body.value])
    ensures Consistent(db) ==>
      (r.body.Ok? <==> !HasKey(db.events, EventKey, GenerateId(EVENT_PREFIX, uuid)) && EventFits(NewEvent(req, uuid)))
    ensures Consistent(db) ==> Consistent(r.db)
  {
    var e := NewEvent(req, uuid);
    EventsNeedOnlyUniqueKeys(db, db.events + [e]);
    UniqueAppend(db.events, EventKey, e);
    EveryAppend(db.events, EventFits, e);
    Commit(db, db.(events := db.events + [e]), e)
  }

  /** An event that ends before it starts is accepted like any other. */
  lemma BackwardsEventAccepted(db: Db, req: EventCreate, uuid: nat)
    requires Consistent(db) && !HasKey(db.events, EventKey, GenerateId(EVENT_PREFIX, uuid))
    requires Fits(req.eventName, 255) && Fits(req.season, 100)
    requires req.endDate < req.startDate
    ensures CreateEvent(db, req, uuid).body.Ok?
    ensures GetEvent(CreateEvent(db, req, uuid).db, GenerateId(EVENT_PREFIX, uuid)) == Ok(NewEvent(req, uuid))
  {
    var r := CreateEvent(db, req, uuid);
    var rows := r.db.events;
    assert rows[|rows| - 1] == NewEvent(req, uuid);
    assert IndexOf(rows, EventKey, GenerateId(EVENT_PREFIX, uuid)).value == |rows| - 1;
  }

  /** The query parameters `get_events` looks at. */
  datatype EventFilters = EventFilters(eventName: Option<string>, season: Option<string>, eventId: Option<string>)

  predicate EventMatches(e: Event, f: EventFilters) {
    && (!Given(f.eventName) || IContains(e.eventName, f.eventName.value))
    && (!Given(f.season) || IContains(e.season, f.season.value))
    && (!Given(f.eventId) || e.eventId == f.eventId.value)
  }

  function EventFilter(f: EventFilters): Event -> bool {
    (e: Event) => EventMatches(e, f)
  }

  function EventConditions(f: EventFilters): seq<Event -> bool> {
    [ (e: Event) => !Given(f.eventName) || IContains(e.eventName, f.eventName.value),
      (e: Event) => !Given(f.season) || IContains(e.season, f.season.value),
      (e: Event) => !Given(f.eventId) || e.eventId == f.eventId.value ]
  }

  lemma EventConditionsMatch(e: Event, f: EventFilters)
    ensures Conj(EventConditions(f))(e) == EventFilter(f)(e)
  {
    var cs := EventConditions(f);
    assert cs[0](e) && cs[1](e) && cs[2](e) <==> EventMatches(e, f);
  }

  /** `get_events`: exactly the events matching every given filter, in table order. */
  function GetEvents(db: Db, f: EventFilters): (r: seq<Event>)
    ensures r == Where(db.events, EventFilter(f))
    ensures forall i :: 0 <= i < |r| ==> r[i] in db.events && EventMatches(r[i], f)
    ensures forall i :: 0 <= i < |db.events| && EventMatches(db.events[i], f) ==> db.events[i] in r
  {
    NarrowIsWhere(db.events, EventConditions(f));
    forall i | 0 <= i < |db.events|
      ensures Conj(EventConditions(f))(db.events[i]) == EventFilter(f)(db.events[i])
    {
      EventConditionsMatch(db.events[i], f);
    }
    WhereExt(db.events, Conj(EventConditions(f)), EventFilter(f));
    Narrow(db.events, EventConditions(f))
  }

  /** Filtering on an existing (non-empty) event id lists that event alone. */
  lemma FilterByIdIsLookup(db: Db, id: string)
    requires Consistent(db) && HasKey(db.events, EventKey, id) && |id| > 0
    ensures GetEvents(db, EventFilters(None, None, Some(id))) == [GetEvent(db, id).value]
  {
    var f := EventFilters(None, None, Some(id));
    var i := IndexOf(db.events, EventKey, id).value;
    forall j | 0 <= j < |db.events| && j != i ensures !EventFilter(f)(db.events[j]) {
      assert EventKey(db.events[j]) != EventKey(db.events[i]);
    }
    WhereOnlyOne(db.events, i, EventFilter(f));
  }

  /** `get_event_by_id`. */
  function GetEvent(db: Db, id: string): (r: Result<Event, HttpError>)
    ensures r.Ok? <==> HasKey(db.events, EventKey, id)
    ensures r.Ok? ==> r.value in db.events && r.value.eventId == id
    ensures r.Err? ==> r.error == HttpError(NOT_FOUND, EVENT_NOT_FOUND)
  {
    match Lookup(db.events, EventKey, id)
    case None => Err(HttpError(NOT_FOUND, EVENT_NOT_FOUND))
    case Some(e) => Ok(e)
  }

  /** The fields a PATCH may carry (EventUpdate). */
  datatype EventPatch = EventPatch(eventName: Option<string>, season: Option<string>, startDate: Option<int>, endDate: Option<int>)

  function ApplyEventPatch(e: Event, p: EventPatch): (v: Event)
    ensures v.eventId == e.eventId
    ensures v.eventName == p.eventName.GetOr(e.eventName) && v.season == p.season.GetOr(e.season)
    ensures v.startDate == p.startDate.GetOr(e.startDate) && v.endDate == p.endDate.GetOr(e.endDate)
  {
    Event(e.eventId, p.eventName.GetOr(e.eventName), p.season.GetOr(e.season),
          p.startDate.GetOr(e.startDate), p.endDate.GetOr(e.endDate))
  }

  /** `update_event`: 404 for an unknown id; otherwise exactly the supplied fields change, and a
      name or season too long for its column fails the commit with a 500. */
  function UpdateEvent(db: Db, id: string, p: EventPatch): (r: Response<Event>)
    ensures r.body.Err? ==> r.db == db
    ensures !HasKey(db.events, EventKey, id) ==> r == Fail(db, NOT_FOUND, EVENT_NOT_FOUND)
    ensures r.body.Ok? ==>
      var i := IndexOf(db.events, EventKey, id).value;
      && r.body.value == ApplyEventPatch(db.events[i], p)
      && r.db == db.(events := db.events[i := r.body.value])
    ensures Consistent(db) ==>
      (r.body.Ok? <==> HasKey(db.events, EventKey, id)
                       && EventFits(ApplyEventPatch(db.events[IndexOf(db.events, EventKey, id).value], p)))
    ensures Consistent(db) ==> Consistent(r.db)
  {
    match IndexOf(db.events, EventKey, id)
    case None => Fail(db, NOT_FOUND, EVENT_NOT_FOUND)
    case Some(i) =>
      var v := ApplyEventPatch(db.events[i], p);
      EventsNeedOnlyUniqueKeys(db, db.events[i := v]);
      EveryReplace(db.events, EventFits, i, v);
      assert Consistent(db) ==> UniqueKeys(db.events[i := v], EventKey) by {
        if Consistent(db) { ReplaceKeepsUnique(db.events, EventKey, i, v); }
      }
      Commit(db, db.(events := db.events[i := v]), v)
  }

  /** `delete_event`: 404 for an unknown id; nothing refers to an event, so the delete always
      commits. */
  function DeleteEvent(db: Db, id: string): (r: Response<string>)
    ensures r.body.Err? ==> r.db == db
    ensures !HasKey(db.events, EventKey, id) ==> r == Fail(db, NOT_FOUND, EVENT_NOT_FOUND)
    ensures Consistent(db) && HasKey(db.events, EventKey, id) ==>
      && r.body.Ok?
      && r.db == db.(events := RemoveAt(db.events, IndexOf(db.events, EventKey, id).value))
      && !HasKey(r.db.events, EventKey, id)
    ensures Consistent(db) ==> Consistent(r.db)
  {
    match IndexOf(db.events, EventKey, id)
    case None => Fail(db, NOT_FOUND, EVENT_NOT_FOUND)
    case Some(i) =>
      var after := db.(events := RemoveAt(db.events, i));
      EventsNeedOnlyUniqueKeys(db, after.events);
      assert Consistent(db) ==> UniqueKeys(after.events, EventKey) && !HasKey(after.events, EventKey, id) by {
        if Consistent(db) {
          EveryRemove(db.events, EventFits, i);
          UniqueRemove(db.events, EventKey, i);
          HasKeyRemove(db.events, EventKey, i, id);
        }
      }
      Commit(db, after, "Event deleted successfully")
  }
}

=== FILE: front_forms.dfy ===
/** The input checks the browser forms share: the e-mail pattern `^[^\s@]+@[^\s@]+\.[^\s@]+$`
    (registration, submission and contact forms) and the ten-digit phone pattern. */
module Forms {
  import opened Text

  /** One `[^\s@]+` run: non-empty, no white space, no `@`. */
  predicate Plain(t: string) {
    |t| > 0 && forall k :: 0 <= k < |t| ==> !IsJsSpace(t[k]) && t[k] != '@'
  }

  /** What the regular expression accepts: a run, `@`, a run, `.`, a run. */
  predicate EmailPattern(s: string) {
    exists i, j :: 0 <= i < j < |s| && s[i] == '@' && s[j] == '.' &&
                   Plain(s[..i]) && Plain(s[i + 1..j]) && Plain(s[j + 1..])
  }

  /** The position of the first `c` in `s`. */
  function FirstIndex(s: string, c: char): (r: nat)
    requires c in s
    ensures r < |s| && s[r] == c && c !in s[..r]
  {
    if s[0] == c then 0
    else
      assert c in s[1..] by { var k :| 0 <= k < |s| && s[k] == c; assert s[1..][k - 1] == c; }
      var r := 1 + FirstIndex(s[1..], c);
      assert s[..r] == [s[0]] + s[1..][..r - 1];
      r
  }

  /** The same test written as a scan: no white space, exactly one `@`, not first, and a dot in
      the domain with something on both sides of it. */
  predicate EmailCheck(s: string) {
    && (forall k :: 0 <= k < |s| ==> !IsJsSpace(s[k]))
    && '@' in s
    && var i := FirstIndex(s, '@');
       var d := s[i + 1..];
       && i > 0
       && '@' !in d
       && |d| >= 3
       && '.' in d[1..|d| - 1]
  }

  lemma PatternImpliesCheck(s: string, i: int, j: int)
    requires 0 <= i < j < |s| && s[i] == '@' && s[j] == '.'
    requires Plain(s[..i]) && Plain(s[i + 1..j]) && Plain(s[j + 1..])
    ensures EmailCheck(s)
  {
    forall k | 0 <= k < |s| ensures !IsJsSpace(s[k]) {
      if k < i { assert s[k] == s[..i][k]; }
      else if i < k < j { assert s[k] == s[i + 1..j][k - i - 1]; }
      else if j < k { assert s[k] == s[j + 1..][k - j - 1]; }
    }
    assert '@' in s by { assert s[i] == '@'; }
    assert '@' !in s[..i] by {
      forall k | 0 <= k < i ensures s[..i][k] != '@' { }
    }
    var f := FirstIndex(s, '@');
    assert f == i;
    var d := s[i + 1..];
    assert '@' !in d by {
      forall k | 0 <= k < |d| ensures d[k] != '@' {
        if k < j - i - 1 { assert d[k] == s[i + 1..j][k]; }
        else if k > j - i - 1 { assert d[k] == s[j + 1..][k - (j - i)]; }
      }
    }
    assert d[1..|d| - 1][j - i - 2] == '.';
  }

  lemma CheckImpliesPattern(s: string)
    requires EmailCheck(s)
    ensures EmailPattern(s)
  {
    var i := FirstIndex(s, '@');
    var d := s[i + 1..];
    var m := d[1..|d| - 1];
    var k :| 0 <= k < |m| && m[k] == '.';
    var j := i + 2 + k;
    assert s[j] == '.';
    assert forall t :: 0 <= t < |d| ==> d[t] != '@' && !IsJsSpace(d[t]) by {
      forall t | 0 <= t < |d| ensures d[t] != '@' && !IsJsSpace(d[t]) {
        assert d[t] == s[i + 1 + t];
      }
    }
    assert s[i + 1..j] == d[..k + 1];
    assert s[j + 1..] == d[k + 2..];
    assert Plain(s[..i]);
    assert Plain(d[..k + 1]);
    assert Plain(d[k + 2..]);
  }

  /** The scan and the pattern accept the same addresses. */
  lemma EmailCheckIsPattern(s: string)
    ensures EmailCheck(s) <==> EmailPattern(s)
  {
    if EmailPattern(s) {
      var i, j :| 0 <= i < j < |s| && s[i] == '@' && s[j] == '.' &&
                  Plain(s[..i]) && Plain(s[i + 1..j]) && Plain(s[j + 1..]);
      PatternImpliesCheck(s, i, j);
    }
    if EmailCheck(s) {
      CheckImpliesPattern(s);
    }
  }

  /** `^[0-9]{10}$` and `^\d{10}$`: exactly ten ASCII digits. */
  predicate TenDigits(s: string) { |s| == 10 && AllDigits(s) }
}

=== FILE: ids.dfy ===
/** Primary keys of the form `PREFIX<n>` with `n = uuid4().int % 10000000`
    (USER, REG, RES, EVT, AST). The uuid is random; here it is a parameter. */
module Ids {
  import opened Text

  const ID_MODULUS: nat := 10000000

  function GenerateId(prefix: string, uuid: nat): (r: string)
    ensures StartsWith(r, prefix)
    ensures |prefix| + 1 <= |r| <= |prefix| + 7
    ensures AllDigits(r[|prefix|..])
  {
    DecimalLength(uuid % ID_MODULUS, 7);
    prefix + Decimal(uuid % ID_MODULUS)
  }

  /** The numeric suffix of a generated id reads back as the uuid reduced modulo 10^7. */
  lemma GenerateIdSuffix(prefix: string, uuid: nat)
    ensures DigitsValue(GenerateId(prefix, uuid)[|prefix|..]) == uuid % ID_MODULUS
  {
    assert GenerateId(prefix, uuid)[|prefix|..] == Decimal(uuid % ID_MODULUS);
    DecimalRoundTrip(uuid % ID_MODULUS);
  }

  /** Two uuids give the same id exactly when they agree modulo 10^7: a collision is possible
      and is left to the database's primary-key check. */
  lemma GenerateIdCollision(prefix: string, a: nat, b: nat)
    ensures GenerateId(prefix, a) == GenerateId(prefix, b) <==> a % ID_MODULUS == b % ID_MODULUS
  {
    if GenerateId(prefix, a) == GenerateId(prefix, b) {
      GenerateIdSuffix(prefix, a);
      GenerateIdSuffix(prefix, b);
    }
  }
}

=== FILE: keyed_store.dfy ===
/** A database table as an ordered sequence of rows with a primary-key projection.
    Every service's `db.query(T).filter(T.id == x).first()`, `db.add`, `db.delete` and
    `query.filter(...).all()` is one of the operations below. */
module KeyedStore {
  import opened Wrappers

  /** The primary key holds: no two rows share a key. */
  predicate UniqueKeys<K(==), V>(rows: seq<V>, key: V -> K) {
    forall i, j :: 0 <= i < j < |rows| ==> key(rows[i]) != key(rows[j])
  }

  predicate HasKey<K(==), V>(rows: seq<V>, key: V -> K, id: K) {
    exists i :: 0 <= i < |rows| && key(rows[i]) == id
  }

  /** Position of the first row whose key is `id`. */
  function IndexOf<K(==), V>(rows: seq<V>, key: V -> K, id: K): (r: Option<nat>)
    ensures r.Some? ==> r.value < |rows| && key(rows[r.value]) == id
    ensures r.Some? ==> forall j :: 0 <= j < r.value ==> key(rows[j]) != id
    ensures r.None? ==> forall j :: 0 <= j < |rows| ==> key(rows[j]) != id
  {
    if |rows| == 0 then None
    else if key(rows[0]) == id then Some(0)
    else match IndexOf(rows[1..], key, id)
      case None => None
      case Some(i) => Some(i + 1)
  }

  /** `.filter(T.id == id).first()`. */
  function Lookup<K(==), V>(rows: seq<V>, key: V -> K, id: K): (r: Option<V>)
    ensures r.Some? <==> HasKey(rows, key, id)
    ensures r.Some? ==> r.value in rows && key(r.value) == id
  {
    match IndexOf(rows, key, id)
    case None => None
    case Some(i) => Some(rows[i])
  }

  /** `db.add(row); db.commit()`: the commit fails when the primary key is already taken. */
  function Insert<K(==), V>(rows: seq<V>, key: V -> K, row: V): (r: Option<seq<V>>)
    ensures r.None? <==> HasKey(rows, key, key(row))
    ensures r.Some? ==> r.value == rows + [row]
    ensures r.Some? && UniqueKeys(rows, key) ==> UniqueKeys(r.value, key)
  {
    if IndexOf(rows, key, key(row)).Some? then None else Some(rows + [row])
  }

  function RemoveAt<V>(rows: seq<V>, i: nat): (r: seq<V>)
    requires i < |rows|
    ensures |r| == |rows| - 1
    ensures forall j :: 0 <= j < |r| ==> r[j] == (if j < i then rows[j] else rows[j + 1])
  {
    rows[..i] + rows[i + 1..]
  }

  /** `query.filter(cond).all()` / `array.filter(cond)`: the rows satisfying `keep`, in order. */
  function Where<V>(rows: seq<V>, keep: V -> bool): (r: seq<V>)
    ensures |r| <= |rows|
    ensures forall i :: 0 <= i < |r| ==> r[i] in rows && keep(r[i])
    ensures forall i :: 0 <= i < |rows| && keep(rows[i]) ==> rows[i] in r
  {
    if |rows| == 0 then []
    else (if keep(rows[0]) then [rows[0]] else []) + Where(rows[1..], keep)
  }

  /** Filtering is order preserving: it distributes over concatenation. */
  lemma {:induction false} WhereConcat<V>(a: seq<V>, b: seq<V>, keep: V -> bool)
    ensures Where(a + b, keep) == Where(a, keep) + Where(b, keep)
    decreases |a|
  {
    if |a| > 0 {
      assert (a + b)[1..] == a[1..] + b;
      WhereConcat(a[1..], b, keep);
    } else {
      assert a + b == b;
    }
  }

  /** A filter that keeps everything returns the table unchanged. */
  lemma {:induction false} WhereAll<V>(rows: seq<V>, keep: V -> bool)
    requires forall x :: x in rows ==> keep(x)
    ensures Where(rows, keep) == rows
    decreases |rows|
  {
    if |rows| > 0 {
      WhereAll(rows[1..], keep);
    }
  }

  /** The conjunction of two conditions. */
  function And<V>(p: V -> bool, q: V -> bool): V -> bool {
    x => p(x) && q(x)
  }

  /** Two filters applied one after the other equal one filter on the conjunction. */
  lemma {:induction false} WhereWhere<V>(rows: seq<V>, p: V -> bool, q: V -> bool)
    ensures Where(Where(rows, p), q) == Where(rows, And(p, q))
    decreases |rows|
  {
    if |rows| > 0 {
      WhereWhere(rows[1..], p, q);
      var head := if p(rows[0]) then [rows[0]] else [];
      WhereConcat(head, Where(rows[1..], p), q);
    }
  }

  /** Position of the first row satisfying `p`: `query.filter(...).first()` on several columns. */
  function FindFirst<V>(rows: seq<V>, p: V -> bool): (r: Option<nat>)
    ensures r.Some? ==> r.value < |rows| && p(rows[r.value])
    ensures r.Some? ==> forall j :: 0 <= j < r.value ==> !p(rows[j])
    ensures r.None? ==> forall j :: 0 <= j < |rows| ==> !p(rows[j])
  {
    if |rows| == 0 then None
    else if p(rows[0]) then Some(0)
    else match FindFirst(rows[1..], p)
      case None => None
      case Some(i) => Some(i + 1)
  }

  /** If exactly one row passes a filter, the filter lists that row alone. */
  lemma {:induction false} WhereOnlyOne<V>(rows: seq<V>, i: nat, p: V -> bool)
    requires i < |rows| && p(rows[i])
    requires forall j :: 0 <= j < |rows| && j != i ==> !p(rows[j])
    ensures Where(rows, p) == [rows[i]]
    decreases |rows|
  {
    if i == 0 {
      assert forall x :: x in rows[1..] ==> !p(x);
      WhereNone(rows[1..], p);
    } else {
      WhereOnlyOne(rows[1..], i - 1, p);
    }
  }

  lemma {:induction false} WhereNone<V>(rows: seq<V>, p: V -> bool)
    requires forall x :: x in rows ==> !p(x)
    ensures Where(rows, p) == []
    decreases |rows|
  {
    if |rows| > 0 {
      WhereNone(rows[1..], p);
    }
  }

  /** Two filters that agree on every row select the same rows. */
  lemma {:induction false} WhereExt<V>(rows: seq<V>, p: V -> bool, q: V -> bool)
    requires forall i :: 0 <= i < |rows| ==> p(rows[i]) == q(rows[i])
    ensures Where(rows, p) == Where(rows, q)
    decreases |rows|
  {
    if |rows| > 0 {
      WhereExt(rows[1..], p, q);
    }
  }

  /** Every condition holds of `x`. */
  predicate AllHold<V>(conds: seq<V -> bool>, x: V) {
    forall i :: 0 <= i < |conds| ==> conds[i](x)
  }

  /** The conjunction of a list of conditions. */
  function Conj<V>(conds: seq<V -> bool>): V -> bool {
    x => AllHold(conds, x)
  }

  /** `query = query.filter(c)` for each condition in turn. */
  function Narrow<V>(rows: seq<V>, conds: seq<V -> bool>): (r: seq<V>)
    decreases |conds|
  {
    if |conds| == 0 then rows else Where(Narrow(rows, conds[..|conds| - 1]), conds[|conds| - 1])
  }

  /** A chain of filters is one order-preserving filter on the conjunction of its conditions. */
  lemma {:induction false} NarrowIsWhere<V>(rows: seq<V>, conds: seq<V -> bool>)
    ensures Narrow(rows, conds) == Where(rows, Conj(conds))
    decreases |conds|
  {
    if |conds| == 0 {
      WhereAll(rows, Conj(conds));
    } else {
      var init := conds[..|conds| - 1];
      var last := conds[|conds| - 1];
      NarrowIsWhere(rows, init);
      WhereWhere(rows, Conj(init), last);
      forall i | 0 <= i < |rows|
        ensures And(Conj(init), last)(rows[i]) == Conj(conds)(rows[i])
      {
        if AllHold(init, rows[i]) && last(rows[i]) {
          forall k | 0 <= k < |conds| ensures conds[k](rows[i]) {
            if k < |conds| - 1 { assert conds[k] == init[k]; }
          }
        }
        if AllHold(conds, rows[i]) {
          forall k | 0 <= k < |init| ensures init[k](rows[i]) {
            assert init[k] == conds[k];
          }
        }
      }
      WhereExt(rows, And(Conj(init), last), Conj(conds));
    }
  }

  /** `a` is `b` with some rows left out, the others in their order. */
  predicate Subsequence<V(==)>(a: seq<V>, b: seq<V>)
    decreases |b|
  {
    |a| == 0 || (|b| > 0 && ((a[0] == b[0] && Subsequence(a[1..], b[1..])) || Subsequence(a, b[1..])))
  }

  /** Filtering keeps the surviving rows in their original order. */
  lemma {:induction false} WhereIsSubsequence<V>(rows: seq<V>, keep: V -> bool)
    ensures Subsequence(Where(rows, keep), rows)
    decreases |rows|
  {
    if |rows| > 0 {
      WhereIsSubsequence(rows[1..], keep);
      var w := Where(rows, keep);
      if keep(rows[0]) {
        assert w[0] == rows[0] && w[1..] == Where(rows[1..], keep);
      } else {
        assert w == Where(rows[1..], keep);
      }
    }
  }

  /** Number of rows satisfying `p`. */
  function Count<V>(rows: seq<V>, p: V -> bool): nat {
    |Where(rows, p)|
  }

  /** A row and its complement partition the table. */
  lemma {:induction false} CountSplit<V>(rows: seq<V>, p: V -> bool)
    ensures Count(rows, p) + Count(rows, x => !p(x)) == |rows|
    decreases |rows|
  {
    if |rows| > 0 {
      CountSplit(rows[1..], p);
    }
  }

  /** The rows whose key is not `id`. */
  function KeyIsNot<K(==), V>(key: V -> K, id: K): V -> bool {
    x => key(x) != id
  }

  lemma TailUniqueKeys<K, V>(rows: seq<V>, key: V -> K)
    requires |rows| > 0 && UniqueKeys(rows, key)
    ensures UniqueKeys(rows[1..], key)
  {
    var tail := rows[1..];
    forall a, b | 0 <= a < b < |tail| ensures key(tail[a]) != key(tail[b]) {
      assert tail[a] == rows[a + 1] && tail[b] == rows[b + 1];
    }
  }

  /** With unique keys, the row holding `id` in front is the only one. */
  lemma FirstFoundIsOnly<K, V>(rows: seq<V>, key: V -> K, id: K)
    requires |rows| > 0 && UniqueKeys(rows, key) && key(rows[0]) == id
    ensures Where(rows, KeyIsNot(key, id)) == rows[1..]
  {
    var tail := rows[1..];
    forall x | x in tail ensures KeyIsNot(key, id)(x) {
      var j :| 0 <= j < |tail| && tail[j] == x;
      assert tail[j] == rows[j + 1];
    }
    WhereAll(tail, KeyIsNot(key, id));
  }

  lemma RemoveAtTail<V>(rows: seq<V>, i: nat)
    requires 0 < i < |rows|
    ensures RemoveAt(rows, i) == [rows[0]] + RemoveAt(rows[1..], i - 1)
  {
    assert rows[..i] == [rows[0]] + rows[1..][..i - 1];
    assert rows[i + 1..] == rows[1..][i..];
  }

  /** Deleting the row found by key removes exactly the rows with that key, keeping the others
      in order. */
  lemma {:induction false} RemoveFoundIsWhere<K, V>(rows: seq<V>, key: V -> K, id: K)
    requires UniqueKeys(rows, key)
    requires IndexOf(rows, key, id).Some?
    ensures RemoveAt(rows, IndexOf(rows, key, id).value) == Where(rows, KeyIsNot(key, id))
    decreases |rows|
  {
    var i := IndexOf(rows, key, id).value;
    if i == 0 {
      FirstFoundIsOnly(rows, key, id);
    } else {
      TailUniqueKeys(rows, key);
      assert IndexOf(rows[1..], key, id) == Some(i - 1);
      RemoveFoundIsWhere(rows[1..], key, id);
      RemoveAtTail(rows, i);
      assert Where(rows, KeyIsNot(key, id)) == [rows[0]] + Where(rows[1..], KeyIsNot(key, id));
    }
  }

  /** After deleting the row with key `id`, no row has that key and the key stays unique. */
  lemma RemoveFoundDropsKey<K, V>(rows: seq<V>, key: V -> K, id: K)
    requires UniqueKeys(rows, key)
    requires IndexOf(rows, key, id).Some?
    ensures !HasKey(RemoveAt(rows, IndexOf(rows, key, id).value), key, id)
    ensures UniqueKeys(RemoveAt(rows, IndexOf(rows, key, id).value), key)
  {
    var i := IndexOf(rows, key, id).value;
    var r := RemoveAt(rows, i);
    forall j | 0 <= j < |r| ensures key(r[j]) != id {
      if j < i { assert r[j] == rows[j]; } else { assert r[j] == rows[j + 1]; }
    }
    forall a, b | 0 <= a < b < |r| ensures key(r[a]) != key(r[b]) {
      var a' := if a < i then a else a + 1;
      var b' := if b < i then b else b + 1;
      assert r[a] == rows[a'] && r[b] == rows[b'];
    }
  }

  /** Replacing one row by a row with the same key keeps the key unique. */
  lemma ReplaceKeepsUnique<K, V>(rows: seq<V>, key: V -> K, i: nat, v: V)
    requires UniqueKeys(rows, key)
    requires i < |rows| && key(v) == key(rows[i])
    ensures UniqueKeys(rows[i := v], key)
  {
  }

  // ---------------------------------------------------------------- keys under insertion, replacement and removal

  lemma HasKeyAppend<K, V>(rows: seq<V>, key: V -> K, v: V, k: K)
    ensures HasKey(rows + [v], key, k) <==> HasKey(rows, key, k) || key(v) == k
  {
    if HasKey(rows, key, k) {
      var i :| 0 <= i < |rows| && key(rows[i]) == k;
      assert (rows + [v])[i] == rows[i];
    }
    if key(v) == k {
      assert (rows + [v])[|rows|] == v;
    }
  }

  /** Two tables with unique keys and no key in common concatenate to one with unique keys. */
  lemma UniqueConcat<K, V>(a: seq<V>, b: seq<V>, key: V -> K)
    requires UniqueKeys(a, key) && UniqueKeys(b, key)
    requires forall j :: 0 <= j < |b| ==> !HasKey(a, key, key(b[j]))
    ensures UniqueKeys(a + b, key)
  {
    var all := a + b;
    forall i, j | 0 <= i < j < |all| ensures key(all[i]) != key(all[j]) {
      if j < |a| {
        assert all[i] == a[i] && all[j] == a[j];
      } else if i < |a| {
        assert all[i] == a[i] && all[j] == b[j - |a|];
      } else {
        assert all[i] == b[i - |a|] && all[j] == b[j - |a|];
      }
    }
  }

  lemma UniqueAppend<K, V>(rows: seq<V>, key: V -> K, v: V)
    ensures UniqueKeys(rows + [v], key) <==> UniqueKeys(rows, key) && !HasKey(rows, key, key(v))
  {
    var r := rows + [v];
    if UniqueKeys(r, key) {
      forall i, j | 0 <= i < j < |rows| ensures key(rows[i]) != key(rows[j]) {
        assert r[i] == rows[i] && r[j] == rows[j];
      }
      forall i | 0 <= i < |rows| ensures key(rows[i]) != key(v) {
        assert r[i] == rows[i] && r[|rows|] == v;
      }
    }
  }

  lemma HasKeyReplace<K, V>(rows: seq<V>, key: V -> K, i: nat, v: V, k: K)
    requires i < |rows| && key(v) == key(rows[i])
    ensures HasKey(rows[i := v], key, k) <==> HasKey(rows, key, k)
  {
    if HasKey(rows, key, k) {
      var j :| 0 <= j < |rows| && key(rows[j]) == k;
      assert key(rows[i := v][j]) == k;
    }
    if HasKey(rows[i := v], key, k) {
      var j :| 0 <= j < |rows| && key(rows[i := v][j]) == k;
      assert key(rows[j]) == k;
    }
  }

  lemma HasKeyRemove<K, V>(rows: seq<V>, key: V -> K, i: nat, k: K)
    requires i < |rows| && UniqueKeys(rows, key)
    ensures HasKey(RemoveAt(rows, i), key, k) <==> HasKey(rows, key, k) && k != key(rows[i])
  {
    var r := RemoveAt(rows, i);
    if HasKey(r, key, k) {
      var j :| 0 <= j < |r| && key(r[j]) == k;
      if j < i { assert r[j] == rows[j]; } else { assert r[j] == rows[j + 1]; }
    }
    if HasKey(rows, key, k) && k != key(rows[i]) {
      var j :| 0 <= j < |rows| && key(rows[j]) == k;
      if j < i { assert r[j] == rows[j]; } else { assert r[j - 1] == rows[j]; }
    }
  }

  lemma UniqueRemove<K, V>(rows: seq<V>, key: V -> K, i: nat)
    requires i < |rows| && UniqueKeys(rows, key)
    ensures UniqueKeys(RemoveAt(rows, i), key)
  {
    var r := RemoveAt(rows, i);
    forall a, b | 0 <= a < b < |r| ensures key(r[a]) != key(r[b]) {
      var a' := if a < i then a else a + 1;
      var b' := if b < i then b else b + 1;
      assert r[a] == rows[a'] && r[b] == rows[b'];
    }
  }

  /** Every row satisfies `p`. */
  predicate Every<V>(rows: seq<V>, p: V -> bool) {
    forall i :: 0 <= i < |rows| ==> p(rows[i])
  }

  lemma EveryAppend<V>(rows: seq<V>, p: V -> bool, v: V)
    ensures Every(rows + [v], p) <==> Every(rows, p) && p(v)
  {
    if Every(rows, p) && p(v) {
      forall i | 0 <= i < |rows + [v]| ensures p((rows + [v])[i]) {
        if i < |rows| { assert (rows + [v])[i] == rows[i]; }
      }
    }
    if Every(rows + [v], p) {
      assert (rows + [v])[|rows|] == v;
      forall i | 0 <= i < |rows| ensures p(rows[i]) {
        assert (rows + [v])[i] == rows[i];
      }
    }
  }

  lemma EveryConcat<V>(a: seq<V>, b: seq<V>, p: V -> bool)
    ensures Every(a + b, p) <==> Every(a, p) && Every(b, p)
  {
    if Every(a + b, p) {
      forall i | 0 <= i < |a| ensures p(a[i]) { assert (a + b)[i] == a[i]; }
      forall i | 0 <= i < |b| ensures p(b[i]) { assert (a + b)[|a| + i] == b[i]; }
    }
  }

  lemma EveryReplace<V>(rows: seq<V>, p: V -> bool, i: nat, v: V)
    requires i < |rows|
    ensures Every(rows, p) ==> (Every(rows[i := v], p) <==> p(v))
  {
    if Every(rows, p) && !p(v) {
      assert rows[i := v][i] == v;
    }
  }

  lemma EveryRemove<V>(rows: seq<V>, p: V -> bool, i: nat)
    requires i < |rows|
    ensures Every(rows, p) ==> Every(RemoveAt(rows, i), p)
  {
    if Every(rows, p) {
      var r := RemoveAt(rows, i);
      forall j | 0 <= j < |r| ensures p(r[j]) {
        assert r[j] == rows[if j < i then j else j + 1];
      }
    }
  }
}

=== FILE: new_results.dfy ===
/** pages/NewResults.tsx: the public results page. It reads the stored results, lists the
    seasons, shows one event's result, and searches every stored result by contestant id or
    name. */
module NewResults {
  import opened Wrappers
  import opened Text
  import opened KeyedStore
  import opened EventTypes
  import opened EventResults

  // ---------------------------------------------------------------- seasons

  /** Code-unit order on strings, standing in for `localeCompare`. */
  predicate LexLess(a: string, b: string)
    decreases |a|
  {
    if |a| == 0 then |b| > 0
    else if |b| == 0 then false
    else if a[0] != b[0] then a[0] < b[0]
    else LexLess(a[1..], b[1..])
  }

  lemma {:induction false} LexIrreflexive(a: string)
    ensures !LexLess(a, a)
    decreases |a|
  {
    if |a| > 0 {
      LexIrreflexive(a[1..]);
    }
  }

  lemma {:induction false} LexTotal(a: string, b: string)
    ensures a == b || LexLess(a, b) || LexLess(b, a)
    decreases |a|
  {
    if |a| > 0 && |b| > 0 && a[0] == b[0] {
      LexTotal(a[1..], b[1..]);
      if a[1..] == b[1..] {
        assert a == [a[0]] + a[1..] && b == [b[0]] + b[1..];
      }
    }
  }

  lemma {:induction false} LexTransitive(a: string, b: string, c: string)
    requires LexLess(a, b) && LexLess(b, c)
    ensures LexLess(a, c)
    decreases |a|
  {
    if |a| > 0 && a[0] == b[0] && b[0] == c[0] {
      LexTransitive(a[1..], b[1..], c[1..]);
    }
  }

  /** Every later season sorts before every earlier one: newest first, no repeats. */
  predicate StrictlyDescending(s: seq<string>) {
    forall i, j :: 0 <= i < j < |s| ==> LexLess(s[j], s[i])
  }

  function InsertSeason(x: string, s: seq<string>): (r: seq<string>)
    requires StrictlyDescending(s) && x !in s
    ensures StrictlyDescending(r)
    ensures |r| == |s| + 1
    ensures forall y :: y in r <==> y == x || y in s
    decreases |s|
  {
    if |s| == 0 then [x]
    else if LexLess(s[0], x) then
      forall j | 0 <= j < |s| ensures LexLess(s[j], x) {
        if j > 0 { LexTransitive(s[j], s[0], x); }
      }
      [x] + s
    else
      LexTotal(s[0], x);
      var tail := InsertSeason(x, s[1..]);
      forall j | 0 <= j < |tail| ensures LexLess(tail[j], s[0]) {
        if tail[j] != x {
          assert tail[j] in tail;
          assert tail[j] in s[1..];
          var k :| 0 <= k < |s[1..]| && s[1..][k] == tail[j];
          assert s[k + 1] == tail[j];
        }
      }
      [s[0]] + tail
  }

  /** `Array.from(new Set(results.map(r => r.season))).sort((a, b) => b.localeCompare(a))`. */
  function AvailableSeasons(rs: seq<EventResult>): (r: seq<string>)
    ensures StrictlyDescending(r)
    ensures forall y :: y in r <==> exists i :: 0 <= i < |rs| && rs[i].season == y
    decreases |rs|
  {
    if |rs| == 0 then []
    else
      var front := rs[..|rs| - 1];
      var earlier := AvailableSeasons(front);
      var last := rs[|rs| - 1].season;
      assert forall i :: 0 <= i < |front| ==> front[i] == rs[i];
      if last in earlier then earlier else InsertSeason(last, earlier)
  }

  /** The season first selected: the newest stored one, or "2024" when nothing is stored. */
  function DefaultSeason(rs: seq<EventResult>): (r: string)
    ensures |rs| == 0 ==> r == "2024"
    ensures |rs| > 0 ==> exists i :: 0 <= i < |rs| && rs[i].season == r
  {
    var seasons := AvailableSeasons(rs);
    if |seasons| > 0 then
      assert seasons[0] in seasons;
      seasons[0]
    else
      assert |rs| > 0 ==> rs[0].season in seasons;
      "2024"
  }

  /** No stored season sorts after the default one. */
  lemma DefaultSeasonIsNewest(rs: seq<EventResult>, i: nat)
    requires i < |rs|
    ensures rs[i].season == DefaultSeason(rs) || LexLess(rs[i].season, DefaultSeason(rs))
  {
    var seasons := AvailableSeasons(rs);
    assert rs[i].season in seasons;
    var k :| 0 <= k < |seasons| && seasons[k] == rs[i].season;
  }

  /** `getCurrentResult`: the first stored result for the chosen event and season. */
  function CurrentResult(rs: seq<EventResult>, ev: string, season: string): (r: Option<EventResult>)
    ensures r.None? <==> forall i :: 0 <= i < |rs| ==> !(rs[i].eventType == ev && rs[i].season == season)
    ensures r.Some? ==> exists i :: 0 <= i < |rs| && rs[i] == r.value && r.value.eventType == ev
                          && r.value.season == season
                          && forall j :: 0 <= j < i ==> !(rs[j].eventType == ev && rs[j].season == season)
  {
    match FindFirst(rs, (x: EventResult) => x.eventType == ev && x.season == season)
    case None => None
    case Some(i) => Some(rs[i])
  }

  // ---------------------------------------------------------------- search

  /** `ageCategoryNames`. */
  function CategoryName(c: AgeCategory): string {
    match c
    case Adult => "Adult (16yr-80yr)"
    case Children => "Children (7yr-15yr)"
    case Preschool => "Pre-school (2yr-6yr)"
  }

  const TOP_100_NAME := "Top 100"

  /** One row of the search results: the entry with the result it came from. */
  datatype Hit = Hit(entry: ResultEntry, eventType: string, season: string, eventName: string,
                     categoryName: string, isTop100: bool)

  function HitOf(r: EventResult, e: ResultEntry, top100: bool): Hit {
    Hit(e, r.eventType, r.season, TitleOf(r.eventType),
        if top100 then TOP_100_NAME else CategoryName(e.ageCategory), top100)
  }

  /** The id or the name contains the query, ignoring case. The query is not trimmed. */
  predicate Matches(e: ResultEntry, q: string) {
    ContainsIgnoreCase(e.participantId, q) || ContainsIgnoreCase(e.name, q)
  }

  function EntryHits(r: EventResult, es: seq<ResultEntry>, q: string, top100: bool): (hs: seq<Hit>)
    ensures |hs| <= |es|
    ensures forall h :: h in hs <==> exists e :: e in es && Matches(e, q) && h == HitOf(r, e, top100)
    decreases |es|
  {
    if |es| == 0 then []
    else
      var rest := EntryHits(r, es[1..], q, top100);
      assert forall e :: e in es <==> e == es[0] || e in es[1..];
      if Matches(es[0], q) then [HitOf(r, es[0], top100)] + rest else rest
  }

  /** The hits of one stored result: its adult, children and preschool lists, then its top 100. */
  function ResultHits(r: EventResult, q: string): seq<Hit> {
    EntryHits(r, r.topPositions.adult, q, false) + EntryHits(r, r.topPositions.children, q, false)
    + EntryHits(r, r.topPositions.preschool, q, false) + EntryHits(r, r.top100, q, true)
  }

  predicate InTopPositions(r: EventResult, e: ResultEntry) {
    e in r.topPositions.adult || e in r.topPositions.children || e in r.topPositions.preschool
  }

  /** The lists one after another. */
  function Flatten<T(!new)>(ss: seq<seq<T>>): (r: seq<T>)
    ensures forall x :: x in r <==> exists i :: 0 <= i < |ss| && x in ss[i]
    decreases |ss|
  {
    if |ss| == 0 then []
    else
      var rest := Flatten(ss[1..]);
      assert forall i :: 0 < i < |ss| ==> ss[i] == ss[1..][i - 1];
      ss[0] + rest
  }

  /** Each stored result's hits, in stored order. */
  function HitsPer(rs: seq<EventResult>, q: string): (ss: seq<seq<Hit>>)
    ensures |ss| == |rs| && forall i :: 0 <= i < |rs| ==> ss[i] == ResultHits(rs[i], q)
  {
    seq(|rs|, (i: int) requires 0 <= i < |rs| => ResultHits(rs[i], q))
  }

  function SearchAll(rs: seq<EventResult>, q: string): (hs: seq<Hit>)
    ensures forall h :: h in hs <==> exists i :: 0 <= i < |rs| && h in ResultHits(rs[i], q)
  {
    Flatten(HitsPer(rs, q))
  }

  /** `handleSearch`: a blank query is refused; otherwise every matching entry of every stored
      result, in stored order. */
  function Search(rs: seq<EventResult>, q: string): (r: Option<seq<Hit>>)
    ensures r.None? <==> IsBlank(q)
    ensures r.Some? ==> forall h :: h in r.value <==> exists i :: 0 <= i < |rs| && h in ResultHits(rs[i], q)
  {
    if IsBlank(q) then None else Some(SearchAll(rs, q))
  }

  /** What a hit says about where it came from. */
  lemma HitIsStoredEntry(rs: seq<EventResult>, q: string, h: Hit)
    requires Search(rs, q).Some? && h in Search(rs, q).value
    ensures Matches(h.entry, q)
    ensures exists i :: (0 <= i < |rs| && h == HitOf(rs[i], h.entry, h.isTop100)
                         && (if h.isTop100 then h.entry in rs[i].top100 else InTopPositions(rs[i], h.entry)))
  {
    var i :| 0 <= i < |rs| && h in ResultHits(rs[i], q);
    ResultHitSource(rs[i], q, h);
  }

  /** A hit of one stored result is one of its matching entries, from the list its flag names. */
  lemma ResultHitSource(r: EventResult, q: string, h: Hit)
    requires h in ResultHits(r, q)
    ensures Matches(h.entry, q) && h == HitOf(r, h.entry, h.isTop100)
    ensures if h.isTop100 then h.entry in r.top100 else InTopPositions(r, h.entry)
  {
    var a := EntryHits(r, r.topPositions.adult, q, false);
    var c := EntryHits(r, r.topPositions.children, q, false);
    var p := EntryHits(r, r.topPositions.preschool, q, false);
    var t := EntryHits(r, r.top100, q, true);
    assert ResultHits(r, q) == a + c + p + t;
    if h in a {
      var e :| e in r.topPositions.adult && Matches(e, q) && h == HitOf(r, e, false);
    } else if h in c {
      var e :| e in r.topPositions.children && Matches(e, q) && h == HitOf(r, e, false);
    } else if h in p {
      var e :| e in r.topPositions.preschool && Matches(e, q) && h == HitOf(r, e, false);
    } else {
      assert h in t;
      var e :| e in r.top100 && Matches(e, q) && h == HitOf(r, e, true);
    }
  }

  /** Searching for an entry's own id finds it, wherever it is stored. */
  lemma SearchByIdFinds(rs: seq<EventResult>, i: nat, e: ResultEntry, top100: bool)
    requires i < |rs| && !IsBlank(e.participantId)
    requires if top100 then e in rs[i].top100 else InTopPositions(rs[i], e)
    ensures Search(rs, e.participantId).Some?
    ensures HitOf(rs[i], e, top100) in Search(rs, e.participantId).value
  {
    ContainsSelf(Lower(e.participantId));
    assert Matches(e, e.participantId);
    assert HitOf(rs[i], e, top100) in ResultHits(rs[i], e.participantId);
  }

  // ---------------------------------------------------------------- display

  datatype Icon = Crown | Trophy | Medal | Award | Star

  /** `getPositionIcon`: in the top 100 a crown for the first twenty; otherwise a trophy, medal
      or award for the podium. */
  function PositionIcon(position: int, isTop100: bool): (r: Icon)
    ensures r == Crown <==> isTop100 && position <= 20
    ensures r in {Trophy, Medal, Award} <==> !isTop100 && 1 <= position <= 3
    ensures !isTop100 ==> (r == Trophy <==> position == 1) && (r == Medal <==> position == 2)
                          && (r == Award <==> position == 3)
    ensures isTop100 ==> r in {Crown, Star}
  {
    if isTop100 then (if position <= 20 then Crown else Star)
    else if position == 1 then Trophy
    else if position == 2 then Medal
    else if position == 3 then Award
    else Star
  }

  /** `getPositionText`. */
  function PositionText(position: int, isTop100: bool): (r: string)
    ensures isTop100 <==> |r| > 0 && r[0] == '#'
  {
    if isTop100 then "#" + IntToString(position)
    else if position == 1 then "1st Place"
    else if position == 2 then "2nd Place"
    else if position == 3 then "3rd Place"
    else IntToString(position) + "th Place"
  }

  lemma IntToStringInjective(a: int, b: int)
    requires IntToString(a) == IntToString(b)
    ensures a == b
  {
    ParseIntOfIntToString(a);
    ParseIntOfIntToString(b);
  }

  lemma IntToStringStart(i: int)
    ensures |IntToString(i)| > 0 && (IntToString(i)[0] == '-' || IsDigit(IntToString(i)[0]))
  {
  }

  /** Different places never read the same. */
  lemma PositionTextInjective(p1: int, t1: bool, p2: int, t2: bool)
    requires PositionText(p1, t1) == PositionText(p2, t2)
    ensures p1 == p2 && t1 == t2
  {
    var s := PositionText(p1, t1);
    if t1 {
      assert IntToString(p1) == s[1..] == IntToString(p2);
      IntToStringInjective(p1, p2);
    } else {
      var n := |s| - 8;
      assert s[n] == 't' || (p1 in {1, 2, 3} && p1 == p2);
      if s[n] == 't' && !(p1 in {1, 2, 3}) && !(p2 in {1, 2, 3}) {
        assert IntToString(p1) == s[..n] == IntToString(p2);
        IntToStringInjective(p1, p2);
      }
    }
  }
}

=== FILE: ordering.dfy ===
/** Ordering by an integer key, newest (largest) first: `ORDER BY created_at DESC` in the
    backend and `sort((a, b) => b.t - a.t)` in the frontend. */
module Ordering {

  predicate SortedDesc<T>(xs: seq<T>, key: T -> int) {
    forall i, j :: 0 <= i < j < |xs| ==> key(xs[i]) >= key(xs[j])
  }

  /** Inserts `x` before the first element whose key is not larger than its own. */
  function InsertDesc<T>(x: T, ys: seq<T>, key: T -> int): (r: seq<T>)
    requires SortedDesc(ys, key)
    ensures SortedDesc(r, key)
    ensures multiset(r) == multiset(ys) + multiset{x}
    ensures forall k :: 0 <= k < |r| ==> r[k] == x || r[k] in ys
    decreases |ys|
  {
    if |ys| == 0 || key(ys[0]) <= key(x) then [x] + ys
    else
      var rest := InsertDesc(x, ys[1..], key);
      assert ys == [ys[0]] + ys[1..];
      HeadIsLargest(ys, key);
      ConsSorted(ys[0], rest, key);
      [ys[0]] + rest
  }

  /** Nothing in a list sorted newest first is newer than its head. */
  lemma HeadIsLargest<T>(ys: seq<T>, key: T -> int)
    requires |ys| > 0 && SortedDesc(ys, key)
    ensures forall y :: y in ys ==> key(y) <= key(ys[0])
  {
    forall y | y in ys ensures key(y) <= key(ys[0]) {
      var j :| 0 <= j < |ys| && ys[j] == y;
      if j > 0 {
        assert key(ys[0]) >= key(ys[j]);
      }
    }
  }

  /** A head at least as new as everything after it keeps a sorted list sorted. */
  lemma ConsSorted<T>(h: T, rest: seq<T>, key: T -> int)
    requires SortedDesc(rest, key)
    requires forall k :: 0 <= k < |rest| ==> key(rest[k]) <= key(h)
    ensures SortedDesc([h] + rest, key)
  {
    var r := [h] + rest;
    forall i, j | 0 <= i < j < |r| ensures key(r[i]) >= key(r[j]) {
      assert r[j] == rest[j - 1];
      if i > 0 {
        assert r[i] == rest[i - 1];
      }
    }
  }

  function SortDesc<T>(xs: seq<T>, key: T -> int): (r: seq<T>)
    ensures SortedDesc(r, key)
    ensures multiset(r) == multiset(xs)
    decreases |xs|
  {
    if |xs| == 0 then []
    else
      assert xs == [xs[0]] + xs[1..];
      InsertDesc(xs[0], SortDesc(xs[1..], key), key)
  }

  /** In a list sorted newest first, an element strictly newer than all others comes first. */
  lemma UniqueMaxFirst<T>(r: seq<T>, key: T -> int, x: T)
    requires SortedDesc(r, key) && x in r
    requires forall y :: y in r && y != x ==> key(y) < key(x)
    ensures r[0] == x
  {
    var k :| 0 <= k < |r| && r[k] == x;
    if k > 0 {
      assert key(r[0]) >= key(r[k]);
    }
  }
}

=== FILE: participant_registration.dfy ===
/** components/forms/ParticipantRegistration.tsx: the three-step registration dialog (details,
    submission file, payment), its file checks and its participant-id generator. */
module RegistrationWizard {
  import opened Wrappers
  import opened Text
  import opened Forms
  import EventTypes

  // ---------------------------------------------------------------- competitions

  datatype EventDetails = EventDetails(name: string, fee: nat, acceptedFiles: string)

  /** `eventDetails`, keyed by competition. */
  function EventDetailsOf(t: string): (r: Option<EventDetails>)
    ensures r.Some? <==> t in EventTypes.TYPE_KEYS
    ensures r.Some? ==> r.value.fee == 150
  {
    match t
    case "art" => Some(EventDetails("Art Competition", 150, "image/*"))
    case "photography" => Some(EventDetails("Photography Competition", 150, "image/*"))
    case "mehndi" => Some(EventDetails("Mehndi Competition", 150, "image/*"))
    case "rangoli" => Some(EventDetails("Rangoli Competition", 150, "image/*"))
    case "dance" => Some(EventDetails("Dance Competition", 150, "video/*"))
    case "singing" => Some(EventDetails("Singing Competition", 150, "audio/*,video/*"))
    case _ => None
  }

  // ---------------------------------------------------------------- files

  datatype File = File(name: string, size: nat)

  datatype AssetType = Image | Video

  const IMAGE_EXTENSIONS: seq<string> := ["jpg", "jpeg", "png", "gif", "bmp", "webp"]
  const VIDEO_EXTENSIONS: seq<string> := ["mp4", "avi", "mov", "wmv", "flv", "webm", "mkv"]

  /** `file.name.split('.').pop().toLowerCase()`: the text after the last dot, or the whole
      name when there is none. */
  function Extension(name: string): string {
    var parts := Split(name, '.');
    Lower(parts[|parts| - 1])
  }

  /** `getAssetType`: video for a video extension, image for everything else. */
  function GetAssetType(f: File): (r: AssetType)
    ensures r == Video <==> Extension(f.name) in VIDEO_EXTENSIONS
  {
    var ext := Extension(f.name);
    if ext in IMAGE_EXTENSIONS then Image
    else if ext in VIDEO_EXTENSIONS then Video
    else Image
  }

  lemma {:induction false} SplitLastPiece(a: string, sep: char, b: string)
    requires sep !in b
    ensures var parts := Split(a + [sep] + b, sep);
            |parts| >= 2 && parts[|parts| - 1] == b
    decreases |a|
  {
    var parts := Split(a + [sep] + b, sep);
    if |a| == 0 {
      SplitAfterPlainPrefix(b, sep, []);
      assert b + [] == b;
      assert (a + [sep] + b)[1..] == b;
    } else {
      SplitLastPiece(a[1..], sep, b);
      assert (a + [sep] + b)[1..] == a[1..] + [sep] + b;
    }
  }

  /** A name ending in a dot and a video extension, in any case, is a video. */
  lemma VideoByExtension(stem: string, ext: string)
    requires Lower(ext) in VIDEO_EXTENSIONS && '.' !in ext
    ensures GetAssetType(File(stem + "." + ext, 0)) == Video
  {
    SplitLastPiece(stem, '.', ext);
  }

  /** The largest submission the dialog takes: 50 MiB. */
  const MAX_SUBMISSION_SIZE: nat := 50 * 1024 * 1024

  // ---------------------------------------------------------------- the form

  datatype RegistrationForm = RegistrationForm(
    fullName: string, email: string, phoneNumber: string, password: string, confirmPassword: string,
    submission: Option<File>)

  /** `handleFileChange`: no file or one over the limit leaves the form as it is. */
  function HandleFileChange(form: RegistrationForm, chosen: Option<File>): (r: RegistrationForm)
    ensures chosen.None? || chosen.value.size > MAX_SUBMISSION_SIZE ==> r == form
    ensures chosen.Some? && chosen.value.size <= MAX_SUBMISSION_SIZE ==> r == form.(submission := chosen)
  {
    match chosen
    case None => form
    case Some(f) => if f.size > MAX_SUBMISSION_SIZE then form else form.(submission := Some(f))
  }

  /** The dialog never holds a file over the limit. */
  lemma FileChangeKeepsLimit(form: RegistrationForm, chosen: Option<File>)
    requires form.submission.Some? ==> form.submission.value.size <= MAX_SUBMISSION_SIZE
    ensures var r := HandleFileChange(form, chosen);
            r.submission.Some? ==> r.submission.value.size <= MAX_SUBMISSION_SIZE
  {
  }

  datatype Step1Error = MissingFields | InvalidEmail | InvalidPhone | ShortPassword | PasswordMismatch

  /** `validateStep1`: the first failing check, in the order the dialog makes them. */
  function ValidateStep1(form: RegistrationForm): (r: Option<Step1Error>)
    ensures r == Some(MissingFields) <==>
              form.fullName == "" || form.email == "" || form.phoneNumber == "" || form.password == ""
              || form.confirmPassword == ""
    ensures r == Some(InvalidEmail) ==> !EmailPattern(form.email)
    ensures r == Some(InvalidPhone) ==> EmailPattern(form.email) && !TenDigits(form.phoneNumber)
    ensures r == Some(ShortPassword) ==> EmailPattern(form.email) && TenDigits(form.phoneNumber) && Utf16Length(form.password) < 8
    ensures r.None? <==>
              && form.fullName != "" && EmailPattern(form.email) && TenDigits(form.phoneNumber)
              && Utf16Length(form.password) >= 8 && form.password == form.confirmPassword
  {
    if form.fullName == "" || form.email == "" || form.phoneNumber == "" || form.password == ""
       || form.confirmPassword == "" then Some(MissingFields)
    else if !EmailPattern(form.email) then Some(InvalidEmail)
    else if !TenDigits(form.phoneNumber) then Some(InvalidPhone)
    else if Utf16Length(form.password) < 8 then Some(ShortPassword)
    else if form.password != form.confirmPassword then Some(PasswordMismatch)
    else None
  }

  /** `validateStep2`. */
  predicate ValidateStep2(form: RegistrationForm) { form.submission.Some? }

  /** A logged-in user skips the details step. */
  function InitialStep(isLoggedIn: bool): (step: nat)
    ensures step == if isLoggedIn then 2 else 1
  {
    if isLoggedIn then 2 else 1
  }

  /** `handleNextStep`: the dialog moves one step forward exactly when the current step
      validates, and stays put otherwise; the payment step is reached only with a submission
      file. */
  function NextStep(step: nat, form: RegistrationForm): (next: nat)
    ensures next == step + 1 <==>
              (step == 1 && ValidateStep1(form).None?) || (step == 2 && form.submission.Some?)
    ensures next != step + 1 ==> next == step
    ensures next == 3 ==> form.submission.Some? || step == 3
  {
    if step == 1 && ValidateStep1(form).None? then 2
    else if step == 2 && ValidateStep2(form) then 3
    else step
  }

  // ---------------------------------------------------------------- participant ids

  function EventCode(t: string): Option<char>
    ensures EventCode(t).Some? <==> t in EventTypes.TYPE_KEYS
  {
    match t
    case "art" => Some('A')
    case "photography" => Some('P')
    case "mehndi" => Some('M')
    case "rangoli" => Some('R')
    case "dance" => Some('D')
    case "singing" => Some('S')
    case _ => None
  }

  /** An unknown competition's code is written out as `undefined`. */
  function CodeText(t: string): string {
    match EventCode(t)
    case Some(c) => [c]
    case None => "undefined"
  }

  /** The id for draw number `n`: season, code, year, and `n` padded to three digits. */
  function ParticipantId(t: string, n: nat): (id: string)
    ensures StartsWith(id, "S1" + CodeText(t) + "25")
  {
    var id := "S1" + CodeText(t) + "25" + PadStart(Decimal(n), 3, '0');
    assert id[..|"S1" + CodeText(t) + "25"|] == "S1" + CodeText(t) + "25";
    id
  }

  /** `generateParticipantId`: `draw` is `Math.floor(Math.random() * 9999)`, so the number is
      1 to 9999. The wizard defines this generator but never calls it: the id it shows is the
      user's `user_id`. */
  function GenerateParticipantIdAsWritten(t: string, draw: nat): (id: string)
    requires draw < 9999
    ensures StartsWith(id, "S1" + CodeText(t) + "25")
  {
    ParticipantId(t, draw + 1)
  }
}

=== FILE: payment.dfy ===
/** Resources/Payment/PaymentService.py: creating a Razorpay order and, once the payment's
    signature checks out, storing a paid registration. The gateway's order call and its
    HMAC-SHA256 signer are parameters. */
module PaymentService {
  import opened Wrappers
  import opened Text
  import opened KeyedStore
  import opened Schema
  import opened Ids
  import opened Email
  import opened RegistrationService

  const KEY_ID := "rzp_test_Rs9tddKgc6tDB2"
  const CURRENCY := "INR"
  const PAID := "success"
  const INVALID_SIGNATURE := "Invalid payment signature"
  const RECEIPT_PREFIX := "order_"

  datatype OrderNotes = OrderNotes(userId: string, eventName: string, season: string, artworkCount: string)

  /** The `order_data` sent to the gateway; `amount` is in paise. */
  datatype OrderData = OrderData(amount: int, currency: string, receipt: string, notes: OrderNotes)

  /** The gateway's answer to a successful `order.create`. */
  datatype Order = Order(id: string, amount: int, currency: string)

  datatype OrderReply = OrderReply(orderId: string, amount: int, currency: string, key: string)

  /** `f"order_{user_id[:10]}_{season}"`. */
  function Receipt(userId: string, season: string): (s: string)
    ensures |s| == |RECEIPT_PREFIX| + (if |userId| < 10 then |userId| else 10) + 1 + |season|
  {
    RECEIPT_PREFIX + Take(userId, 10) + "_" + season
  }

  function NewOrderData(userId: string, eventName: string, season: string, artworkCount: int, amount: int): (d: OrderData)
    ensures d.amount == amount * 100 && d.currency == CURRENCY && d.receipt == Receipt(userId, season)
    ensures d.notes == OrderNotes(userId, eventName, season, IntToString(artworkCount))
  {
    OrderData(amount * 100, CURRENCY, Receipt(userId, season), OrderNotes(userId, eventName, season, IntToString(artworkCount)))
  }

  /** The receipt splits back into its prefix, the cut user id and the season. */
  lemma ReceiptSplits(userId: string, season: string)
    ensures var s := Receipt(userId, season);
            var cut := |RECEIPT_PREFIX| + |Take(userId, 10)| + 1;
            && s[..|RECEIPT_PREFIX|] == RECEIPT_PREFIX
            && s[|RECEIPT_PREFIX|..cut - 1] == Take(userId, 10)
            && s[cut..] == season
  {
    var t := Take(userId, 10);
    var s := Receipt(userId, season);
    assert s == RECEIPT_PREFIX + t + "_" + season;
    assert s[..|RECEIPT_PREFIX|] == RECEIPT_PREFIX;
    assert s[|RECEIPT_PREFIX|..|RECEIPT_PREFIX| + |t|] == t;
  }

  /** The receipt keeps the season verbatim after the first ten characters of the user id, and
      the notes give the artwork count back exactly. */
  lemma OrderDataRecoverable(userId: string, eventName: string, season: string, artworkCount: int, amount: int)
    ensures var d := NewOrderData(userId, eventName, season, artworkCount, amount);
            var cut := |RECEIPT_PREFIX| + |Take(userId, 10)| + 1;
            && d.receipt[..|RECEIPT_PREFIX|] == RECEIPT_PREFIX
            && d.receipt[|RECEIPT_PREFIX|..cut - 1] == Take(userId, 10)
            && d.receipt[cut..] == season
            && ParseInt(d.notes.artworkCount) == Some(artworkCount)
            && d.amount / 100 == amount
  {
    ReceiptSplits(userId, season);
    ParseIntOfIntToString(artworkCount);
  }

  /** `create_order`: whatever the gateway raises becomes a 500 naming the error. `gateway`
      answers an order request with the created order or the error's text. */
  function CreateOrder(userId: string, eventName: string, season: string, artworkCount: int, amount: int,
                       gateway: OrderData -> Result<Order, string>): (r: Result<OrderReply, HttpError>)
    ensures var sent := gateway(NewOrderData(userId, eventName, season, artworkCount, amount));
            && (r.Ok? <==> sent.Ok?)
            && (r.Ok? ==> r.value == OrderReply(sent.value.id, sent.value.amount, sent.value.currency, KEY_ID))
            && (r.Err? ==> r.error == HttpError(SERVER_ERROR, "Failed to create order: " + sent.error))
  {
    match gateway(NewOrderData(userId, eventName, season, artworkCount, amount))
    case Ok(order) => Ok(OrderReply(order.id, order.amount, order.currency, KEY_ID))
    case Err(e) => Err(HttpError(SERVER_ERROR, "Failed to create order: " + e))
  }

  /** `str(HTTPException)` in Starlette: the status code, a colon and the detail. */
  function ExceptionText(e: HttpError): (s: string)
    ensures s == IntToString(e.status) + ": " + e.detail
  {
    IntToString(e.status) + ": " + e.detail
  }

  /** The `/payment/create-order` route catches the service's HTTPException and raises a new 500
      whose detail is the old exception's text, so the client sees the status twice. */
  function CreatePaymentOrder(current: User, eventName: string, season: string, artworkCount: int, amount: int,
                              gateway: OrderData -> Result<Order, string>): (r: Result<OrderReply, HttpError>)
    ensures r.Ok? <==> CreateOrder(current.userId, eventName, season, artworkCount, amount, gateway).Ok?
    ensures r.Ok? ==> r == CreateOrder(current.userId, eventName, season, artworkCount, amount, gateway)
    ensures r.Err? ==>
              r.error.status == SERVER_ERROR && r.error.detail == "500: " + CreateOrder(current.userId, eventName, season, artworkCount, amount, gateway).error.detail
  {
    match CreateOrder(current.userId, eventName, season, artworkCount, amount, gateway)
    case Ok(reply) => Ok(reply)
    case Err(e) => Err(HttpError(SERVER_ERROR, ExceptionText(e)))
  }

  // ---------------------------------------------------------------- verification

  /** `verify_payment_signature`: the signature must be the HMAC of `order_id|payment_id` under
      the account secret; `hmac` is that keyed hash. */
  predicate SignatureValid(hmac: string -> string, orderId: string, paymentId: string, signature: string) {
    hmac(orderId + "|" + paymentId) == signature
  }

  datatype PaymentReply = PaymentReply(registrationId: string, paymentId: string)

  datatype Paid = Paid(response: Response<PaymentReply>, mail: Option<Message>)

  /** The registration a verified payment stores: a fresh `REG` id, status "success", and the
      artwork count as sent (this route does not check that it is positive). */
  function PaidRegistration(userId: string, eventName: string, season: string, artworkCount: int, uuid: nat): (reg: Registration)
    ensures reg == NewRegistration(RegistrationCreate(userId, eventName, season, artworkCount), uuid).(status := PAID)
    ensures RegistrationFits(reg) <==>
      Fits(userId, 20) && Fits(eventName, 255) && Fits(season, 100) && IsInt32(artworkCount)
  {
    NewRegistration(RegistrationCreate(userId, eventName, season, artworkCount), uuid).(status := PAID)
  }

  /** `verify_payment`: a bad signature is 400 with nothing stored; a failing commit (a missing
      user, a taken id, a value too long or too large for its column) is rolled back and
      reported as 500 with the detail "Payment verification failed: " followed by `str(e)`, for
      which `INTEGRITY_ERROR` stands in; otherwise the paid registration is stored and the
      confirmation mail attempted. */
  function VerifyPayment(db: Db, hmac: string -> string, paymentId: string, orderId: string, signature: string,
                         userId: string, eventName: string, season: string, artworkCount: int, uuid: nat,
                         render: MailContext -> Option<string>, date: string): (r: Paid)
    ensures !SignatureValid(hmac, orderId, paymentId, signature) ==>
              r == Paid(Fail(db, BAD_REQUEST, INVALID_SIGNATURE), None)
    ensures r.response.body.Err? ==> r.response.db == db && r.mail.None?
    ensures r.response.body.Ok? ==>
      var reg := PaidRegistration(userId, eventName, season, artworkCount, uuid);
      && SignatureValid(hmac, orderId, paymentId, signature)
      && r.response.body.value == PaymentReply(reg.registrationId, paymentId)
      && r.response.db == db.(registrations := db.registrations + [reg])
      && r.mail == RegistrationMail(r.response.db, reg, render, date)
    ensures Consistent(db) && SignatureValid(hmac, orderId, paymentId, signature) ==>
      (r.response.body.Ok? <==> && HasKey(db.users, UserKey, userId)
                                 && !HasKey(db.registrations, RegistrationKey, GenerateId(REGISTRATION_PREFIX, uuid))
                                 && RegistrationFits(PaidRegistration(userId, eventName, season, artworkCount, uuid)))
    ensures SignatureValid(hmac, orderId, paymentId, signature) && r.response.body.Err? ==>
      r.response.body.error == HttpError(SERVER_ERROR, "Payment verification failed: " + INTEGRITY_ERROR)
    ensures Consistent(db) ==> Consistent(r.response.db)
  {
    if !SignatureValid(hmac, orderId, paymentId, signature) then Paid(Fail(db, BAD_REQUEST, INVALID_SIGNATURE), None)
    else
      var reg := PaidRegistration(userId, eventName, season, artworkCount, uuid);
      var after := db.(registrations := db.registrations + [reg]);
      AppendRegistrationConsistent(db, reg);
      if Consistent(after) then
        Paid(Response(after, Ok(PaymentReply(reg.registrationId, paymentId))), RegistrationMail(after, reg, render, date))
      else
        Paid(Fail(db, SERVER_ERROR, "Payment verification failed: " + INTEGRITY_ERROR), None)
  }

  // ---------------------------------------------------------------- properties

  /** Nothing makes a verification idempotent: replaying the same signed payment with a fresh
      id stores a second paid registration. */
  lemma ReplayStoresTwice(db: Db, hmac: string -> string, paymentId: string, orderId: string, signature: string,
                          userId: string, eventName: string, season: string, artworkCount: int, uuid: nat, uuid': nat,
                          render: MailContext -> Option<string>, date: string)
    requires Consistent(db) && SignatureValid(hmac, orderId, paymentId, signature)
    requires HasKey(db.users, UserKey, userId)
    requires Fits(eventName, 255) && Fits(season, 100) && IsInt32(artworkCount)
    requires !HasKey(db.registrations, RegistrationKey, GenerateId(REGISTRATION_PREFIX, uuid))
    requires !HasKey(db.registrations, RegistrationKey, GenerateId(REGISTRATION_PREFIX, uuid'))
    requires uuid % ID_MODULUS != uuid' % ID_MODULUS
    ensures var first := VerifyPayment(db, hmac, paymentId, orderId, signature, userId, eventName, season, artworkCount, uuid, render, date).response;
            var second := VerifyPayment(first.db, hmac, paymentId, orderId, signature, userId, eventName, season, artworkCount, uuid', render, date).response;
            && first.body.Ok? && second.body.Ok?
            && |second.db.registrations| == |db.registrations| + 2
            && second.body.value.paymentId == first.body.value.paymentId
            && second.body.value.registrationId != first.body.value.registrationId
  {
    var first := VerifyPayment(db, hmac, paymentId, orderId, signature, userId, eventName, season, artworkCount, uuid, render, date).response;
    GenerateIdCollision(REGISTRATION_PREFIX, uuid, uuid');
    HasKeyAppend(db.registrations, RegistrationKey, PaidRegistration(userId, eventName, season, artworkCount, uuid),
                 GenerateId(REGISTRATION_PREFIX, uuid'));
  }

  /** Unlike a plain registration (422), a paid one is stored whatever artwork count it names. */
  lemma PaidCountNotValidated(db: Db, hmac: string -> string, paymentId: string, orderId: string, signature: string,
                              userId: string, eventName: string, season: string, artworkCount: int, uuid: nat,
                              render: MailContext -> Option<string>, date: string)
    requires Consistent(db) && SignatureValid(hmac, orderId, paymentId, signature)
    requires HasKey(db.users, UserKey, userId)
    requires !HasKey(db.registrations, RegistrationKey, GenerateId(REGISTRATION_PREFIX, uuid))
    requires Fits(eventName, 255) && Fits(season, 100) && INT32_MIN <= artworkCount <= 0
    ensures VerifyPayment(db, hmac, paymentId, orderId, signature, userId, eventName, season, artworkCount, uuid, render, date).response.body.Ok?
    ensures CreateRegistration(db, RegistrationCreate(userId, eventName, season, artworkCount), uuid, render, date).response.body.Err?
  {
  }
}

=== FILE: queries.dfy ===
/** components/admin/QueriesManagement.tsx: the admin's view of contact-form messages fetched
    from the backend. Date parsing and the clock are parameters: `parseTime` is
    `new Date(s).getTime()` and `monthOf` is `new Date(s).getMonth()`. */
module QueriesManagement {
  import opened Wrappers
  import opened Text
  import opened KeyedStore
  import opened Ordering

  datatype Query = Query(id: int, name: string, email: string, phoneNumber: string, subject: string,
                         message: string, createdAt: string, updatedAt: Option<string>)

  function CreatedTime(parseTime: string -> int): Query -> int {
    (q: Query) => parseTime(q.createdAt)
  }

  /** `loadQueries`: the fetched messages, newest first. */
  function LoadQueries(fetched: seq<Query>, parseTime: string -> int): (r: seq<Query>)
    ensures SortedDesc(r, CreatedTime(parseTime))
    ensures multiset(r) == multiset(fetched)
  {
    SortDesc(fetched, CreatedTime(parseTime))
  }

  /** Loading is a pure reordering: nothing is dropped or added. */
  lemma LoadKeepsEveryQuery(fetched: seq<Query>, parseTime: string -> int, q: Query)
    ensures q in LoadQueries(fetched, parseTime) <==> q in fetched
    ensures |LoadQueries(fetched, parseTime)| == |fetched|
  {
    var r := LoadQueries(fetched, parseTime);
    assert q in r <==> q in multiset(r);
    assert q in fetched <==> q in multiset(fetched);
    assert |r| == |multiset(r)| == |multiset(fetched)| == |fetched|;
  }

  /** `filteredQueries`: the term in the name, e-mail or subject ignoring case, or in the id's
      decimal digits as typed. */
  predicate QueryShown(q: Query, term: string) {
    ContainsIgnoreCase(q.name, term) || ContainsIgnoreCase(q.email, term)
    || ContainsIgnoreCase(q.subject, term) || Contains(IntToString(q.id), term)
  }

  function ShownBy(term: string): Query -> bool { (q: Query) => QueryShown(q, term) }

  function FilteredQueries(qs: seq<Query>, term: string): (r: seq<Query>)
    ensures Subsequence(r, qs)
    ensures forall i :: 0 <= i < |r| ==> QueryShown(r[i], term)
    ensures forall i :: 0 <= i < |qs| && QueryShown(qs[i], term) ==> qs[i] in r
  {
    WhereIsSubsequence(qs, ShownBy(term));
    Where(qs, ShownBy(term))
  }

  /** Searching for a message's number finds it, and an empty search shows everything. */
  lemma SearchById(qs: seq<Query>, i: nat)
    requires i < |qs|
    ensures qs[i] in FilteredQueries(qs, IntToString(qs[i].id))
    ensures FilteredQueries(qs, "") == qs
  {
    ContainsSelf(IntToString(qs[i].id));
    forall q: Query ensures QueryShown(q, "") {
      ContainsEmpty(IntToString(q.id));
    }
    WhereAll(qs, ShownBy(""));
  }

  /** `deleteQuery`: the message leaves the list only once the backend has deleted it. */
  function DeleteQuery(qs: seq<Query>, id: int, apiSucceeded: bool): (r: seq<Query>)
    ensures !apiSucceeded ==> r == qs
    ensures apiSucceeded ==> Subsequence(r, qs) && (forall i :: 0 <= i < |r| ==> r[i].id != id)
    ensures apiSucceeded ==> forall i :: 0 <= i < |qs| && qs[i].id != id ==> qs[i] in r
    ensures apiSucceeded ==> r == Where(qs, IdIsNot(id))
  {
    if apiSucceeded then
      WhereIsSubsequence(qs, IdIsNot(id));
      Where(qs, IdIsNot(id))
    else qs
  }

  function IdIsNot(id: int): Query -> bool { (q: Query) => q.id != id }

  datatype QueryStats = QueryStats(total: nat, thisMonth: nat, recent: nat)

  const WEEK_MS := 7 * 24 * 60 * 60 * 1000

  function InMonth(monthOf: string -> int, nowMonth: int): Query -> bool {
    (q: Query) => monthOf(q.createdAt) == nowMonth
  }

  function Recent(parseTime: string -> int, nowMs: int): Query -> bool {
    (q: Query) => parseTime(q.createdAt) > nowMs - WEEK_MS
  }

  /** The three cards: every message, those from the current calendar month (of any year), and
      those newer than seven days. Both narrower cards count a selection of the messages, so
      neither exceeds the total, and a message dated now is in both. */
  function Stats(qs: seq<Query>, monthOf: string -> int, nowMonth: int, parseTime: string -> int, nowMs: int): (s: QueryStats)
    ensures s.total == |qs|
    ensures s.thisMonth == Count(qs, InMonth(monthOf, nowMonth))
    ensures s.recent == Count(qs, Recent(parseTime, nowMs))
    ensures s.thisMonth <= s.total && s.recent <= s.total
    ensures (forall i :: 0 <= i < |qs| ==> monthOf(qs[i].createdAt) == nowMonth) ==> s.thisMonth == s.total
    ensures (forall i :: 0 <= i < |qs| ==> parseTime(qs[i].createdAt) == nowMs) ==> s.recent == s.total
  {
    assert (forall i :: 0 <= i < |qs| ==> monthOf(qs[i].createdAt) == nowMonth) ==>
           Count(qs, InMonth(monthOf, nowMonth)) == |qs| by {
      if forall i :: 0 <= i < |qs| ==> monthOf(qs[i].createdAt) == nowMonth {
        WhereAll(qs, InMonth(monthOf, nowMonth));
      }
    }
    assert (forall i :: 0 <= i < |qs| ==> parseTime(qs[i].createdAt) == nowMs) ==>
           Count(qs, Recent(parseTime, nowMs)) == |qs| by {
      if forall i :: 0 <= i < |qs| ==> parseTime(qs[i].createdAt) == nowMs {
        WhereAll(qs, Recent(parseTime, nowMs));
      }
    }
    QueryStats(|qs|, Count(qs, InMonth(monthOf, nowMonth)), Count(qs, Recent(parseTime, nowMs)))
  }

  /** The cards start at zero, and one more message adds one to the total and one to each
      narrower card exactly when it falls in that card's window; so the cards count, message
      by message, those of the current month and those newer than seven days. */
  lemma StatsAppend(qs: seq<Query>, q: Query, monthOf: string -> int, nowMonth: int, parseTime: string -> int, nowMs: int)
    ensures Stats([], monthOf, nowMonth, parseTime, nowMs) == QueryStats(0, 0, 0)
    ensures var a := Stats(qs, monthOf, nowMonth, parseTime, nowMs);
            var b := Stats(qs + [q], monthOf, nowMonth, parseTime, nowMs);
            && b.total == a.total + 1
            && b.thisMonth == a.thisMonth + (if monthOf(q.createdAt) == nowMonth then 1 else 0)
            && b.recent == a.recent + (if parseTime(q.createdAt) > nowMs - WEEK_MS then 1 else 0)
  {
    WhereConcat(qs, [q], InMonth(monthOf, nowMonth));
    WhereConcat(qs, [q], Recent(parseTime, nowMs));
  }
}

=== FILE: registrations.dfy ===
/** Resources/EventRegistration/EventRegistrationService.py: creating, listing, reading, patching
    and deleting event registrations, and the confirmation mail sent after a registration is
    stored. The template renderer and the creation date are parameters. */
module RegistrationService {
  import opened Wrappers
  import opened Text
  import opened KeyedStore
  import opened SqlLike
  import opened Schema
  import opened Ids
  import opened Email

  const REGISTRATION_PREFIX := "REG"
  const PENDING := "pending"
  const REGISTRATION_NOT_FOUND := "Event registration not found"
  /** The field's description, used here as the 422's detail. Pydantic's own 422 body is a list
      of errors with its message "Input should be greater than 0", so only the status matches. */
  const ARTWORK_COUNT_INVALID := "Number of artworks must be greater than 0"

  /** The body of a POST (EventRegistrationCreate). */
  datatype RegistrationCreate = RegistrationCreate(userId: string, eventName: string, season: string, artworkCount: int)

  /** The row the EventRegistration constructor builds: a fresh `REG` id, status "pending". */
  function NewRegistration(req: RegistrationCreate, uuid: nat): (reg: Registration)
    ensures reg.registrationId == GenerateId(REGISTRATION_PREFIX, uuid)
    ensures reg.userId == req.userId && reg.eventName == req.eventName && reg.season == req.season
    ensures reg.artworkCount == req.artworkCount && reg.status == PENDING
    ensures RegistrationFits(reg) <==>
      Fits(req.userId, 20) && Fits(req.eventName, 255) && Fits(req.season, 100) && IsInt32(req.artworkCount)
  {
    Registration(GenerateId(REGISTRATION_PREFIX, uuid), req.userId, req.eventName, req.season, req.artworkCount, PENDING)
  }

  // ---------------------------------------------------------------- constraints

  /** Adding a registration keeps the database consistent exactly when its owner exists, its
      id is new and it fits its columns. */
  lemma AppendRegistrationConsistent(db: Db, reg: Registration)
    ensures Consistent(db) ==>
      (Consistent(db.(registrations := db.registrations + [reg])) <==>
         && HasKey(db.users, UserKey, reg.userId)
         && !HasKey(db.registrations, RegistrationKey, reg.registrationId)
         && RegistrationFits(reg))
  {
    var after := db.(registrations := db.registrations + [reg]);
    UniqueAppend(db.registrations, RegistrationKey, reg);
    EveryAppend(db.registrations, RegistrationFits, reg);
    if !Consistent(db) {
      return;
    }
    forall i | 0 <= i < |after.assets|
      ensures HasKey(after.registrations, RegistrationKey, AssetOwner(after.assets[i]))
    {
      HasKeyAppend(db.registrations, RegistrationKey, reg, AssetOwner(db.assets[i]));
    }
    if HasKey(db.users, UserKey, reg.userId) {
      forall i | 0 <= i < |after.registrations|
        ensures HasKey(after.users, UserKey, after.registrations[i].userId)
      {
        if i < |db.registrations| {
          assert after.registrations[i] == db.registrations[i];
        }
      }
    } else {
      assert after.registrations[|db.registrations|] == reg;
    }
  }

  /** Patching a registration without touching its id or owner keeps the database consistent
      exactly when the new row fits its columns. */
  lemma ReplaceRegistrationConsistent(db: Db, i: nat, v: Registration)
    requires i < |db.registrations|
    requires v.registrationId == db.registrations[i].registrationId && v.userId == db.registrations[i].userId
    ensures Consistent(db) ==> (Consistent(db.(registrations := db.registrations[i := v])) <==> RegistrationFits(v))
  {
    var after := db.(registrations := db.registrations[i := v]);
    EveryReplace(db.registrations, RegistrationFits, i, v);
    if !Consistent(db) || !RegistrationFits(v) {
      return;
    }
    ReplaceKeepsUnique(db.registrations, RegistrationKey, i, v);
    forall k | 0 <= k < |after.assets|
      ensures HasKey(after.registrations, RegistrationKey, AssetOwner(after.assets[k]))
    {
      HasKeyReplace(db.registrations, RegistrationKey, i, v, AssetOwner(db.assets[k]));
    }
    forall k | 0 <= k < |after.registrations|
      ensures HasKey(after.users, UserKey, after.registrations[k].userId)
    {
      assert after.registrations[k].userId == db.registrations[k].userId;
    }
  }

  /** Deleting a registration keeps the database consistent exactly when no asset refers to it. */
  lemma RemoveRegistrationConsistent(db: Db, i: nat)
    requires i < |db.registrations|
    ensures Consistent(db) ==>
      (Consistent(db.(registrations := RemoveAt(db.registrations, i))) <==>
         !HasKey(db.assets, AssetOwner, db.registrations[i].registrationId))
  {
    var id := db.registrations[i].registrationId;
    var after := db.(registrations := RemoveAt(db.registrations, i));
    if !Consistent(db) {
      return;
    }
    EveryRemove(db.registrations, RegistrationFits, i);
    UniqueRemove(db.registrations, RegistrationKey, i);
    forall k | 0 <= k < |after.assets|
      ensures HasKey(after.registrations, RegistrationKey, AssetOwner(after.assets[k])) <==>
              AssetOwner(after.assets[k]) != id
    {
      HasKeyRemove(db.registrations, RegistrationKey, i, AssetOwner(db.assets[k]));
    }
    if HasKey(db.assets, AssetOwner, id) {
      var k :| 0 <= k < |db.assets| && AssetOwner(db.assets[k]) == id;
      assert !HasKey(after.registrations, RegistrationKey, AssetOwner(after.assets[k]));
    }
  }

  // ---------------------------------------------------------------- confirmation mail

  /** The variables `successful_registration.html` is rendered with. */
  datatype MailContext = MailContext(
    userName: string,
    registrationId: string,
    eventName: string,
    season: string,
    artworkCount: int,
    registrationDate: string,
    registrationStatus: string)

  function RegistrationContext(u: User, reg: Registration, date: string): (c: MailContext)
    ensures c.userName == (if |u.fullName| > 0 then u.fullName else u.email)
    ensures c.registrationId == reg.registrationId && c.eventName == reg.eventName
    ensures c.season == reg.season && c.artworkCount == reg.artworkCount
    ensures c.registrationDate == date && c.registrationStatus == Title(reg.status)
  {
    MailContext(if |u.fullName| > 0 then u.fullName else u.email,
                reg.registrationId, reg.eventName, reg.season, reg.artworkCount, date, Title(reg.status))
  }

  /** `_send_registration_email`: the message handed to the SMTP strategy, if any. Nothing is
      sent when the owner is not stored or the template fails to render; either failure is
      swallowed. `render` is the template engine, `date` the formatted creation date. */
  function RegistrationMail(db: Db, reg: Registration, render: MailContext -> Option<string>, date: string): (m: Option<Message>)
    ensures !HasKey(db.users, UserKey, reg.userId) ==> m.None?
    ensures HasKey(db.users, UserKey, reg.userId) ==>
      var u := Lookup(db.users, UserKey, reg.userId).value;
      var body := render(RegistrationContext(u, reg, date));
      && (m.Some? <==> body.Some?)
      && (m.Some? ==> m.value == Message(SENDER, u.email, "Registration Successful - " + reg.eventName, "html", body.value))
  {
    match Lookup(db.users, UserKey, reg.userId)
    case None => None
    case Some(u) =>
      match render(RegistrationContext(u, reg, date))
      case None => None
      case Some(body) =>
        Some(CreateMessage(NewSmtp(true), u.email, "Registration Successful - " + reg.eventName, body, true))
  }

  /** A create answer together with the mail it handed to SMTP. */
  datatype Created = Created(response: Response<Registration>, mail: Option<Message>)

  /** `create_registration`: validation (422) comes first; the insert fails at commit (500)
      when the owner is missing, the id is taken, a text is too long for its column or the
      artwork count exceeds 32 bits; the mail is attempted only after a successful commit. */
  function CreateRegistration(db: Db, req: RegistrationCreate, uuid: nat,
                              render: MailContext -> Option<string>, date: string): (r: Created)
    ensures req.artworkCount <= 0 ==> r.response == Fail(db, UNPROCESSABLE, ARTWORK_COUNT_INVALID)
    ensures r.response.body.Err? ==> r.response.db == db && r.mail.None?
    ensures r.response.body.Ok? ==>
      var reg := NewRegistration(req, uuid);
      && r.response.body.value == reg
      && r.response.db == db.(registrations := db.registrations + [reg])
      && r.mail == RegistrationMail(r.response.db, reg, render, date)
    ensures Consistent(db) && req.artworkCount > 0 ==>
      (r.response.body.Ok? <==> && HasKey(db.users, UserKey, req.userId)
                                 && !HasKey(db.registrations, RegistrationKey, GenerateId(REGISTRATION_PREFIX, uuid))
                                 && RegistrationFits(NewRegistration(req, uuid)))
    ensures Consistent(db) ==> Consistent(r.response.db)
  {
    if req.artworkCount <= 0 then Created(Fail(db, UNPROCESSABLE, ARTWORK_COUNT_INVALID), None)
    else
      var reg := NewRegistration(req, uuid);
      AppendRegistrationConsistent(db, reg);
      var resp := Commit(db, db.(registrations := db.registrations + [reg]), reg);
      if resp.body.Ok? then Created(resp, RegistrationMail(resp.db, reg, render, date))
      else Created(resp, None)
  }

  /** A count the request model accepts but the `Integer` column cannot hold fails at commit: the
      answer is a 500, nothing is written and no mail is sent. */
  lemma CountBeyondColumnIsServerError(db: Db, req: RegistrationCreate, uuid: nat,
                                       render: MailContext -> Option<string>, date: string)
    requires Consistent(db) && req.artworkCount > INT32_MAX
    ensures var r := CreateRegistration(db, req, uuid, render, date);
      && r.response.body.Err? && r.response.body.error.status == SERVER_ERROR
      && r.response.db == db && r.mail.None?
  {
  }

  // ---------------------------------------------------------------- listing

  /** The query parameters `get_registrations` looks at. */
  datatype RegistrationFilters = RegistrationFilters(
    userId: Option<string>, eventName: Option<string>, season: Option<string>, status: Option<string>)

  /** Exact match on user and status, case-insensitive substring on event name and season;
      an absent or empty parameter does not filter. */
  predicate RegistrationMatches(reg: Registration, f: RegistrationFilters) {
    && (!Given(f.userId) || reg.userId == f.userId.value)
    && (!Given(f.eventName) || IContains(reg.eventName, f.eventName.value))
    && (!Given(f.season) || IContains(reg.season, f.season.value))
    && (!Given(f.status) || reg.status == f.status.value)
  }

  function RegistrationFilter(f: RegistrationFilters): Registration -> bool {
    (reg: Registration) => RegistrationMatches(reg, f)
  }

  /** One `query.filter` per parameter, in the order the service applies them. */
  function RegistrationConditions(f: RegistrationFilters): seq<Registration -> bool> {
    [ (reg: Registration) => !Given(f.userId) || reg.userId == f.userId.value,
      (reg: Registration) => !Given(f.eventName) || IContains(reg.eventName, f.eventName.value),
      (reg: Registration) => !Given(f.season) || IContains(reg.season, f.season.value),
      (reg: Registration) => !Given(f.status) || reg.status == f.status.value ]
  }

  lemma RegistrationConditionsMatch(reg: Registration, f: RegistrationFilters)
    ensures Conj(RegistrationConditions(f))(reg) == RegistrationFilter(f)(reg)
  {
    var cs := RegistrationConditions(f);
    assert cs[0](reg) && cs[1](reg) && cs[2](reg) && cs[3](reg) <==> RegistrationMatches(reg, f);
  }

  /** `get_registrations`: exactly the registrations matching every given filter, in table order. */
  function GetRegistrations(db: Db, f: RegistrationFilters): (r: seq<Registration>)
    ensures r == Where(db.registrations, RegistrationFilter(f))
    ensures forall i :: 0 <= i < |r| ==> r[i] in db.registrations && RegistrationMatches(r[i], f)
    ensures forall i :: 0 <= i < |db.registrations| && RegistrationMatches(db.registrations[i], f) ==>
              db.registrations[i] in r
  {
    NarrowIsWhere(db.registrations, RegistrationConditions(f));
    forall i | 0 <= i < |db.registrations|
      ensures Conj(RegistrationConditions(f))(db.registrations[i]) == RegistrationFilter(f)(db.registrations[i])
    {
      RegistrationConditionsMatch(db.registrations[i], f);
    }
    WhereExt(db.registrations, Conj(RegistrationConditions(f)), RegistrationFilter(f));
    Narrow(db.registrations, RegistrationConditions(f))
  }

  /** With no filter given every registration is listed. */
  lemma NoRegistrationFilterListsAll(db: Db)
    ensures GetRegistrations(db, RegistrationFilters(None, None, None, None)) == db.registrations
  {
    var f := RegistrationFilters(None, None, None, None);
    assert forall reg :: reg in db.registrations ==> RegistrationFilter(f)(reg);
    WhereAll(db.registrations, RegistrationFilter(f));
  }

  // ---------------------------------------------------------------- by id

  /** `get_registration_by_id`. */
  function GetRegistration(db: Db, id: string): (r: Result<Registration, HttpError>)
    ensures r.Ok? <==> HasKey(db.registrations, RegistrationKey, id)
    ensures r.Ok? ==> r.value in db.registrations && r.value.registrationId == id
    ensures r.Err? ==> r.error == HttpError(NOT_FOUND, REGISTRATION_NOT_FOUND)
  {
    match Lookup(db.registrations, RegistrationKey, id)
    case None => Err(HttpError(NOT_FOUND, REGISTRATION_NOT_FOUND))
    case Some(reg) => Ok(reg)
  }

  /** The fields a PATCH may carry (EventRegistrationUpdate). */
  datatype RegistrationPatch = RegistrationPatch(
    eventName: Option<string>, season: Option<string>, artworkCount: Option<int>, status: Option<string>)

  function ApplyRegistrationPatch(reg: Registration, p: RegistrationPatch): (v: Registration)
    ensures v.registrationId == reg.registrationId && v.userId == reg.userId
    ensures v.eventName == p.eventName.GetOr(reg.eventName) && v.season == p.season.GetOr(reg.season)
    ensures v.artworkCount == p.artworkCount.GetOr(reg.artworkCount) && v.status == p.status.GetOr(reg.status)
  {
    Registration(reg.registrationId, reg.userId, p.eventName.GetOr(reg.eventName), p.season.GetOr(reg.season),
                 p.artworkCount.GetOr(reg.artworkCount), p.status.GetOr(reg.status))
  }

  /** `update_registration`: a supplied artwork count must be positive (422, checked before the
      lookup); an unknown id is 404; otherwise exactly the supplied fields of that row change,
      and a value too long or too large for its column fails the commit with a 500. */
  function UpdateRegistration(db: Db, id: string, p: RegistrationPatch): (r: Response<Registration>)
    ensures r.body.Err? ==> r.db == db
    ensures p.artworkCount.Some? && p.artworkCount.value <= 0 ==> r == Fail(db, UNPROCESSABLE, ARTWORK_COUNT_INVALID)
    ensures (p.artworkCount.None? || p.artworkCount.value > 0) && !HasKey(db.registrations, RegistrationKey, id) ==>
              r == Fail(db, NOT_FOUND, REGISTRATION_NOT_FOUND)
    ensures r.body.Ok? ==>
      var i := IndexOf(db.registrations, RegistrationKey, id).value;
      && r.body.value == ApplyRegistrationPatch(db.registrations[i], p)
      && r.db == db.(registrations := db.registrations[i := r.body.value])
    ensures Consistent(db) ==>
      (r.body.Ok? <==> && (p.artworkCount.None? || p.artworkCount.value > 0)
                       && HasKey(db.registrations, RegistrationKey, id)
                       && RegistrationFits(ApplyRegistrationPatch(db.registrations[IndexOf(db.registrations, RegistrationKey, id).value], p)))
    ensures Consistent(db) ==> Consistent(r.db)
  {
    if p.artworkCount.Some? && p.artworkCount.value <= 0 then Fail(db, UNPROCESSABLE, ARTWORK_COUNT_INVALID)
    else
      match IndexOf(db.registrations, RegistrationKey, id)
      case None => Fail(db, NOT_FOUND, REGISTRATION_NOT_FOUND)
      case Some(i) =>
        var v := ApplyRegistrationPatch(db.registrations[i], p);
        ReplaceRegistrationConsistent(db, i, v);
        Commit(db, db.(registrations := db.registrations[i := v]), v)
  }

  /** `delete_registration`: 404 for an unknown id; the delete is refused at commit (500) while
      an asset still refers to the registration. */
  function DeleteRegistration(db: Db, id: string): (r: Response<string>)
    ensures r.body.Err? ==> r.db == db
    ensures !HasKey(db.registrations, RegistrationKey, id) ==> r == Fail(db, NOT_FOUND, REGISTRATION_NOT_FOUND)
    ensures Consistent(db) && HasKey(db.registrations, RegistrationKey, id) ==>
              (r.body.Ok? <==> !HasKey(db.assets, AssetOwner, id))
    ensures r.body.Ok? ==>
      r.db == db.(registrations := RemoveAt(db.registrations, IndexOf(db.registrations, RegistrationKey, id).value))
    ensures Consistent(db) ==> Consistent(r.db)
  {
    match IndexOf(db.registrations, RegistrationKey, id)
    case None => Fail(db, NOT_FOUND, REGISTRATION_NOT_FOUND)
    case Some(i) =>
      RemoveRegistrationConsistent(db, i);
      Commit(db, db.(registrations := RemoveAt(db.registrations, i)), "Event registration deleted successfully")
  }

  // ---------------------------------------------------------------- properties

  /** A stored registration can be read back by its id. */
  lemma CreateThenGet(db: Db, req: RegistrationCreate, uuid: nat, render: MailContext -> Option<string>, date: string)
    requires Consistent(db)
    requires CreateRegistration(db, req, uuid, render, date).response.body.Ok?
    ensures var r := CreateRegistration(db, req, uuid, render, date).response;
            GetRegistration(r.db, r.body.value.registrationId) == Ok(r.body.value)
  {
    var r := CreateRegistration(db, req, uuid, render, date).response;
    var reg := r.body.value;
    var regs := r.db.registrations;
    assert regs[|regs| - 1] == reg;
    var i := IndexOf(regs, RegistrationKey, reg.registrationId).value;
    assert UniqueKeys(regs, RegistrationKey);
    assert i == |regs| - 1;
  }

  /** Whatever the template engine or the clock does, a registration's fate does not depend on
      its confirmation mail; and once stored, the mail is sent exactly when the template renders. */
  lemma MailNeverAffectsRegistration(db: Db, req: RegistrationCreate, uuid: nat,
                                     render: MailContext -> Option<string>, date: string,
                                     render': MailContext -> Option<string>, date': string)
    ensures CreateRegistration(db, req, uuid, render, date).response
            == CreateRegistration(db, req, uuid, render', date').response
    ensures var c := CreateRegistration(db, req, uuid, render, date);
            var reg := NewRegistration(req, uuid);
            Consistent(db) && c.response.body.Ok? ==>
              var u := Lookup(db.users, UserKey, req.userId).value;
              (c.mail.Some? <==> render(RegistrationContext(u, reg, date)).Some?)
  {
    var c := CreateRegistration(db, req, uuid, render, date);
    var reg := NewRegistration(req, uuid);
    if Consistent(db) && c.response.body.Ok? {
      assert c.response.db.users == db.users;
    }
  }

  /** A deleted registration is gone. */
  lemma DeleteThenGet(db: Db, id: string)
    requires Consistent(db)
    requires DeleteRegistration(db, id).body.Ok?
    ensures GetRegistration(DeleteRegistration(db, id).db, id) == Err(HttpError(NOT_FOUND, REGISTRATION_NOT_FOUND))
  {
    RemoveFoundDropsKey(db.registrations, RegistrationKey, id);
  }

  /** A patch that supplies nothing leaves a stored registration as it was. */
  lemma EmptyPatchChangesNothing(db: Db, id: string)
    requires Consistent(db) && HasKey(db.registrations, RegistrationKey, id)
    ensures UpdateRegistration(db, id, RegistrationPatch(None, None, None, None)) == Response(db, Ok(GetRegistration(db, id).value))
  {
    var i := IndexOf(db.registrations, RegistrationKey, id).value;
    assert RegistrationFits(db.registrations[i]);
    assert db.registrations[i := db.registrations[i]] == db.registrations;
  }
}

=== FILE: result_upload.dfy ===
/** components/admin/ResultUpload.tsx: the admin panel that uploads a results CSV to the backend,
    offers a template, and edits and publishes the results kept in the browser. */
module ResultUpload {
  import opened Wrappers
  import opened Text
  import opened KeyedStore
  import opened EventResults
  import ResultService
  import Schema

  // ---------------------------------------------------------------- upload

  /** The multipart form `handleFileUpload` posts. */
  datatype UploadForm = UploadForm(fileName: string, eventName: string, season: string)

  /** A file whose name does not end in `.csv` is refused before any request. */
  function UploadRequest(fileName: string, selectedEvent: string, selectedSeason: string): (r: Option<UploadForm>)
    ensures r.Some? <==> EndsWith(fileName, ".csv")
    ensures r.Some? ==> r.value == UploadForm(fileName, selectedEvent, selectedSeason)
  {
    if EndsWith(fileName, ".csv") then Some(UploadForm(fileName, selectedEvent, selectedSeason)) else None
  }

  // ---------------------------------------------------------------- template

  /** The columns of the downloaded template, in the order `json_to_sheet` writes them. */
  const TEMPLATE_HEADER: seq<string> := ["Participant ID", "Name", "Category", "Rank", "Score", "Remarks"]

  /** A filled-in template saved as CSV is refused by the backend at its first data row: the
      backend reads lower-case `name`, `user_id`, ... columns the template does not have. */
  lemma TemplateHeaderRejected(record: seq<string>)
    ensures ResultService.ParseRecord(TEMPLATE_HEADER, record) == ResultService.Rejected(ResultService.KeyErrorText("name"))
  {
    assert forall j :: 0 <= j < |TEMPLATE_HEADER| ==> TEMPLATE_HEADER[j] != "name";
  }

  /** Uploading the template's rows as a CSV file is refused as a whole with 400 and the
      missing column's name, and the database is unchanged. */
  lemma FilledTemplateUploadRejected(db: Schema.Db, fileName: string, table: seq<seq<string>>, ev: string,
                                     season: string, uuids: nat -> nat)
    requires UploadRequest(fileName, ev, season).Some?
    requires |table| > 0 && table[0] == TEMPLATE_HEADER && |ResultService.DataRecords(table)| > 0
    ensures var r := ResultService.UploadResultsCsv(db, fileName, table, ev, season, uuids);
            r.db == db && r.body == Err(HttpError(BAD_REQUEST, ResultService.INVALID_CSV + ResultService.KeyErrorText("name")))
  {
    var recs := ResultService.DataRecords(table);
    TemplateHeaderRejected(recs[0]);
    assert ResultService.Header(table) == TEMPLATE_HEADER;
  }

  /** `selectedSeason.split(' ')[1] || '1'`. */
  function SeasonNumber(season: string): (r: string)
    ensures |r| > 0
    ensures var parts := Split(season, ' ');
            r == if |parts| > 1 && |parts[1]| > 0 then parts[1] else "1"
  {
    var parts := Split(season, ' ');
    if |parts| > 1 && |parts[1]| > 0 then parts[1] else "1"
  }

  /** `selectedEvent.toUpperCase().substring(0, 3)`. */
  function EventPrefix(ev: string): (r: string)
    ensures |r| == if |ev| < 3 then |ev| else 3
    ensures forall i :: 0 <= i < |r| ==> r[i] == UpperChar(ev[i])
  {
    Take(Upper(ev), 3)
  }

  datatype TemplateRow = TemplateRow(participantId: string, category: string, rank: int)

  /** The number after the dash: `1001`..`1005`, `2001`..`2005`, `3001`..`3005` for the three
      age groups, then `T001`..`T010` for the top 100. */
  function TemplateSuffix(k: nat): (r: string)
    requires k < 25
    ensures |r| == 4
  {
    if k < 15 then
      FourDigits(1000 * (k / 5 + 1) + k % 5 + 1);
      Decimal(1000 * (k / 5 + 1) + k % 5 + 1)
    else
      DecimalLength(k - 14, 3);
      "T" + PadStart(Decimal(k - 14), 3, '0')
  }

  lemma FourDigits(n: nat)
    requires 1000 <= n < 10000
    ensures |Decimal(n)| == 4
  {
    assert |Decimal(n / 1000)| == 1;
    assert |Decimal(n / 100)| == 2;
    assert |Decimal(n / 10)| == 3;
  }

  const TEMPLATE_CATEGORIES: seq<string> := ["Adult", "Children", "Preschool"]

  function TemplateRowAt(prefix: string, seasonNum: string, k: nat): (row: TemplateRow)
    requires k < 25
    ensures row.category == if k < 15 then TEMPLATE_CATEGORIES[k / 5] else "Top100"
    ensures row.rank == if k < 15 then k % 5 + 1 else k - 14
    ensures row.participantId == prefix + "S" + seasonNum + "-" + TemplateSuffix(k)
  {
    var id := prefix + "S" + seasonNum + "-" + TemplateSuffix(k);
    if k < 15 then TemplateRow(id, TEMPLATE_CATEGORIES[k / 5], k % 5 + 1)
    else TemplateRow(id, "Top100", k - 14)
  }

  /** `downloadTemplate`: five rows for each age group, then ten top-100 rows. */
  function Template(selectedEvent: string, selectedSeason: string): (rows: seq<TemplateRow>)
    ensures |rows| == 25
    ensures forall k :: 0 <= k < 25 ==>
              rows[k] == TemplateRowAt(EventPrefix(selectedEvent), SeasonNumber(selectedSeason), k)
  {
    seq(25, (k: int) requires 0 <= k < 25 => TemplateRowAt(EventPrefix(selectedEvent), SeasonNumber(selectedSeason), k))
  }

  lemma SuffixValue(k: nat)
    requires k < 25
    ensures k < 15 ==> AllDigits(TemplateSuffix(k)) && DigitsValue(TemplateSuffix(k)) == 1000 * (k / 5 + 1) + k % 5 + 1
    ensures k >= 15 ==> TemplateSuffix(k)[0] == 'T' && AllDigits(TemplateSuffix(k)[1..])
                        && DigitsValue(TemplateSuffix(k)[1..]) == k - 14
  {
    if k < 15 {
      DecimalRoundTrip(1000 * (k / 5 + 1) + k % 5 + 1);
    } else {
      DecimalRoundTrip(k - 14);
      PaddedValue(Decimal(k - 14), 3);
      assert TemplateSuffix(k)[1..] == PadStart(Decimal(k - 14), 3, '0');
    }
  }

  /** No two template rows share a suffix: the numbers differ within the age groups, and only
      the top-100 suffixes start with a letter. */
  lemma SuffixesDistinct(a: nat, b: nat)
    requires a < b < 25
    ensures TemplateSuffix(a) != TemplateSuffix(b)
  {
    SuffixValue(a);
    SuffixValue(b);
    var sa := TemplateSuffix(a);
    var sb := TemplateSuffix(b);
    if a < 15 && b < 15 {
      assert a / 5 < b / 5 || (a / 5 == b / 5 && a % 5 < b % 5);
      assert DigitsValue(sa) < DigitsValue(sb);
    } else if a < 15 {
      assert !IsDigit(sb[0]);
      assert IsDigit(sa[0]);
    } else {
      assert DigitsValue(sa[1..]) != DigitsValue(sb[1..]);
    }
  }

  /** The same text in front keeps different suffixes apart. */
  lemma SharedPrefixKeepsApart(head: string, x: string, y: string)
    requires x != y
    ensures head + x != head + y
  {
    assert (head + x)[|head|..] == x && (head + y)[|head|..] == y;
  }

  /** The 25 template ids are pairwise different, whatever event and season are selected. */
  lemma TemplateIdsDistinct(selectedEvent: string, selectedSeason: string)
    ensures var rows := Template(selectedEvent, selectedSeason);
            forall a, b :: 0 <= a < b < 25 ==> rows[a].participantId != rows[b].participantId
  {
    var rows := Template(selectedEvent, selectedSeason);
    var head := EventPrefix(selectedEvent) + "S" + SeasonNumber(selectedSeason) + "-";
    forall a, b | 0 <= a < b < 25 ensures rows[a].participantId != rows[b].participantId {
      SuffixesDistinct(a, b);
      SharedPrefixKeepsApart(head, TemplateSuffix(a), TemplateSuffix(b));
    }
  }

  /** `${selectedEvent}-${selectedSeason.replace(' ', '-')}-results-template.xlsx`. */
  function TemplateFileName(selectedEvent: string, selectedSeason: string): (r: string)
    ensures StartsWith(r, selectedEvent + "-") && EndsWith(r, "-results-template.xlsx")
    ensures |r| == |selectedEvent| + 1 + |selectedSeason| + |"-results-template.xlsx"|
  {
    var r := selectedEvent + "-" + ReplaceFirst(selectedSeason, ' ', '-') + "-results-template.xlsx";
    assert r[..|selectedEvent| + 1] == selectedEvent + "-";
    assert r[|r| - |"-results-template.xlsx"|..] == "-results-template.xlsx";
    r
  }

  // ---------------------------------------------------------------- publishing and editing

  /** The panel's state: the stored results (kept equal to `localStorage`), the result being
      previewed or edited, the event select, the "latest" box and the index under edit. */
  datatype Panel = Panel(stored: seq<EventResult>, preview: Option<EventResult>, selectedEvent: string,
                         isLatest: bool, editing: Option<nat>)

  /** Clears the latest flag on the stored results of one event type. */
  function ClearLatest(rs: seq<EventResult>, eventType: string): (r: seq<EventResult>)
    ensures |r| == |rs|
    ensures forall i :: 0 <= i < |rs| ==>
              r[i] == if rs[i].eventType == eventType then rs[i].(isLatest := false) else rs[i]
  {
    seq(|rs|, (i: int) requires 0 <= i < |rs| =>
      if rs[i].eventType == eventType then rs[i].(isLatest := false) else rs[i])
  }

  function Published(preview: EventResult, isLatest: bool, now: string): EventResult {
    preview.(isPublished := true, publishedDate := now, isLatest := isLatest)
  }

  /** `publishResults` as written: the flags it clears are those of the event chosen in the
      select, not of the result being published. */
  function PublishAsWritten(p: Panel, now: string): (q: Panel)
    ensures p.preview.None? ==> q == p
    ensures p.preview.Some? ==>
      && q.stored == (if p.isLatest then ClearLatest(p.stored, p.selectedEvent) else p.stored)
                     + [Published(p.preview.value, p.isLatest, now)]
      && q.preview.None? && !q.isLatest
  {
    if p.preview.None? then p
    else
      var kept := if p.isLatest then ClearLatest(p.stored, p.selectedEvent) else p.stored;
      p.(stored := kept + [Published(p.preview.value, p.isLatest, now)], preview := None, isLatest := false)
  }

  /** The clearing keys on the select, not on the result: publishing a stored latest result as
      latest with no event selected leaves two latest results of one type. The panel never gets
      here, because the Publish button shows only for a preview not under edit
      (`PublishNeverShown`). */
  lemma PublishAsWrittenBreaksOneLatest()
    ensures var art := EventResult("art", "Season 1", TopPositions([], [], []), [], "", true, true, []);
            var p := Panel([art], Some(art), "", true, None);
            OneLatestPerType(p.stored) && !OneLatestPerType(PublishAsWritten(p, "").stored)
  {
    var art := EventResult("art", "Season 1", TopPositions([], [], []), [], "", true, true, []);
    var p := Panel([art], Some(art), "", true, None);
    var q := PublishAsWritten(p, "");
    assert q.stored[0] == art;
    assert q.stored[1].isLatest && q.stored[1].eventType == "art";
  }

  /** `deleteResult`: the row at that index goes, the others keep their order. The preview and
      the remembered edit index are left as they were. */
  function DeleteResult(p: Panel, index: int): (q: Panel)
    ensures 0 <= index < |p.stored| ==> q == p.(stored := RemoveAt(p.stored, index))
    ensures !(0 <= index < |p.stored|) ==> q == p
  {
    if 0 <= index < |p.stored| then p.(stored := RemoveAt(p.stored, index)) else p
  }

  /** `startEditingResult`: a copy of the stored result becomes the preview. */
  function StartEditing(p: Panel, index: nat): (q: Panel)
    requires index < |p.stored|
    ensures q.preview == Some(p.stored[index]) && q.editing == Some(index) && q.stored == p.stored
  {
    p.(editing := Some(index), preview := Some(p.stored[index]))
  }

  /** `saveEditedResult`: the preview is written at the remembered index of a copy of the list.
      The delete buttons stay live during an edit, so that index may by now be the end of the
      list, where the write appends, or lie beyond it, where JavaScript pads the array with
      holes; a list of results has no holes, and the model answers `None` there. Without an
      edit in progress nothing happens. */
  function SaveEdited(p: Panel): (q: Option<Panel>)
    ensures p.preview.None? || p.editing.None? ==> q == Some(p)
    ensures p.preview.Some? && p.editing.Some? ==> (q.Some? <==> p.editing.value <= |p.stored|)
    ensures p.preview.Some? && p.editing.Some? && q.Some? ==>
      var k := p.editing.value;
      && |q.value.stored| == (if k < |p.stored| then |p.stored| else k + 1)
      && q.value.stored[k] == p.preview.value
      && (forall i :: 0 <= i < |p.stored| && i != k ==> q.value.stored[i] == p.stored[i])
      && q.value.preview.None? && q.value.editing.None?
      && q.value.selectedEvent == p.selectedEvent && q.value.isLatest == p.isLatest
  {
    if p.preview.None? || p.editing.None? then Some(p)
    else
      var k := p.editing.value;
      if k < |p.stored| then Some(p.(stored := p.stored[k := p.preview.value], preview := None, editing := None))
      else if k == |p.stored| then Some(p.(stored := p.stored + [p.preview.value], preview := None, editing := None))
      else None
  }

  /** Editing a result and saving it unchanged gives back the stored list. */
  lemma EditWithoutChangesIsNoOp(p: Panel, index: nat)
    requires index < |p.stored|
    ensures var q := SaveEdited(StartEditing(p, index)); q.Some? && q.value.stored == p.stored
  {
  }

  /** Saving an edit keeps at most one latest result per type when the edit does not set the
      flag. */
  lemma SaveEditedKeepsOneLatest(p: Panel)
    requires OneLatestPerType(p.stored)
    requires p.preview.Some? ==> !p.preview.value.isLatest
    ensures SaveEdited(p).Some? ==> OneLatestPerType(SaveEdited(p).value.stored)
  {
  }

  /** `cancelEditing`. */
  function CancelEditing(p: Panel): (q: Panel)
    ensures q.stored == p.stored && q.preview.None? && q.editing.None?
  {
    p.(preview := None, editing := None)
  }

  /** None of the panel's writes introduces the `results` key. */
  lemma PanelNeverWritesResultsKey(p: Panel, now: string, index: int)
    requires NoResultsKey(p.stored) && (p.preview.Some? ==> p.preview.value.results == [])
    ensures NoResultsKey(PublishAsWritten(p, now).stored) && NoResultsKey(DeleteResult(p, index).stored)
    ensures SaveEdited(p).Some? ==> NoResultsKey(SaveEdited(p).value.stored)
  {
    if 0 <= index < |p.stored| {
      var r := RemoveAt(p.stored, index);
      forall i | 0 <= i < |r| ensures r[i].results == [] {
        assert r[i] == p.stored[if i < index then i else i + 1];
      }
    }
  }

  // ---------------------------------------------------------------- the buttons

  /** The panel after mounting: the stored results, nothing previewed or under edit. */
  function Mounted(stored: seq<EventResult>): (p: Panel)
    ensures p.stored == stored && p.preview.None? && p.editing.None? && !p.isLatest && p.selectedEvent == ""
  {
    Panel(stored, None, "", false, None)
  }

  /** What the admin can do to the panel's state. The preview's own "Edit" button only flips a
      flag that is read for nothing but that button's label, and no control calls
      `editResultEntry`, so neither is an action:
      the preview is always a copy of the stored row it was taken from. */
  datatype PanelAction =
    | EditRow(row: nat)            // a stored row's edit button
    | DeleteRow(at: int)           // a stored row's delete button, on screen at all times
    | SaveChanges                  // shown while a row is under edit
    | CancelEdit                   // shown while a row is under edit
    | PublishButton(now: string)   // shown for a preview that is not under edit
    | ChooseEvent(ev: string)      // the event select; a finished upload resets it to ""
    | TickLatest(latest: bool)     // the "latest" box

  /** The Publish button is on screen: a preview that is not under edit. */
  predicate PublishShown(p: Panel) {
    p.preview.Some? && p.editing.None?
  }

  /** A preview exists only while a row is under edit. */
  predicate PreviewOnlyWhileEditing(p: Panel) {
    p.preview.Some? ==> p.editing.Some?
  }

  /** One click; a click on a button that is not on screen changes nothing. `None` when a save
      leaves the array with holes. */
  function Click(p: Panel, a: PanelAction): (r: Option<Panel>)
    ensures PreviewOnlyWhileEditing(p) && r.Some? ==> PreviewOnlyWhileEditing(r.value)
    ensures r.None? <==> a.SaveChanges? && p.preview.Some? && p.editing.Some? && p.editing.value > |p.stored|
  {
    match a
    case EditRow(i) => if i < |p.stored| then Some(StartEditing(p, i)) else Some(p)
    case DeleteRow(i) => Some(DeleteResult(p, i))
    case SaveChanges => if p.preview.Some? && p.editing.Some? then SaveEdited(p) else Some(p)
    case CancelEdit => if p.preview.Some? && p.editing.Some? then Some(CancelEditing(p)) else Some(p)
    case PublishButton(now) => if PublishShown(p) then Some(PublishAsWritten(p, now)) else Some(p)
    case ChooseEvent(ev) => Some(p.(selectedEvent := ev))
    case TickLatest(b) => Some(p.(isLatest := b))
  }

  /** A run of clicks, stopping at a save that leaves holes. */
  function Clicks(p: Panel, acts: seq<PanelAction>): Option<Panel>
    decreases |acts|
  {
    if |acts| == 0 then Some(p)
    else
      match Click(p, acts[0])
      case None => None
      case Some(q) => Clicks(q, acts[1..])
  }

  lemma {:induction false} ClicksKeepPreviewWithEdit(p: Panel, acts: seq<PanelAction>)
    requires PreviewOnlyWhileEditing(p)
    ensures Clicks(p, acts).Some? ==> PreviewOnlyWhileEditing(Clicks(p, acts).value)
    decreases |acts|
  {
    if |acts| > 0 {
      match Click(p, acts[0])
      case None =>
      case Some(q) => ClicksKeepPreviewWithEdit(q, acts[1..]);
    }
  }

  /** Whatever the admin clicks after mounting, the Publish button never shows, so
      `publishResults` never runs. */
  lemma PublishNeverShown(stored: seq<EventResult>, acts: seq<PanelAction>)
    ensures var q := Clicks(Mounted(stored), acts); q.Some? ==> !PublishShown(q.value)
  {
    ClicksKeepPreviewWithEdit(Mounted(stored), acts);
  }

  /** Editing the second of two results, deleting the first and saving: the remembered index
      now lies at the end of the list, so a second copy of the second result is appended. */
  lemma DeleteWhileEditingDuplicates(a: EventResult, b: EventResult)
    ensures Clicks(Mounted([a, b]), [EditRow(1), DeleteRow(0), SaveChanges]) == Some(Mounted([b, b]))
  {
    var p0 := Mounted([a, b]);
    var p1 := StartEditing(p0, 1);
    var p2 := DeleteResult(p1, 0);
    assert p2.stored == [b];
    var acts := [EditRow(1), DeleteRow(0), SaveChanges];
    assert Click(p0, acts[0]) == Some(p1);
    assert Click(p1, acts[1]) == Some(p2);
    assert [b] + [b] == [b, b];
    assert Click(p2, acts[2]) == Some(Mounted([b, b]));
    assert Clicks(p2, acts[2..]) == Clicks(Mounted([b, b]), []);
    assert Clicks(p1, acts[1..]) == Clicks(p2, acts[2..]);
  }

  /** The remembered index names a stored row. */
  predicate EditInRange(p: Panel) {
    p.editing.Some? ==> p.editing.value < |p.stored|
  }

  /** `deleteResult` keeping the edit on its row: deleting a row before it moves the index
      down, and deleting the row under edit ends the edit. */
  function DeleteResultTracked(p: Panel, index: int): (q: Panel)
    ensures q.stored == DeleteResult(p, index).stored
    ensures q.selectedEvent == p.selectedEvent && q.isLatest == p.isLatest
    ensures EditInRange(p) ==> EditInRange(q)
    ensures EditInRange(p) && q.editing.Some? ==>
              p.editing.Some? && q.preview == p.preview && q.stored[q.editing.value] == p.stored[p.editing.value]
    ensures q.editing.None? ==> q.preview.None? || q.preview == p.preview
  {
    if !(0 <= index < |p.stored|) then p
    else
      var q := p.(stored := RemoveAt(p.stored, index));
      match p.editing
      case None => q
      case Some(k) =>
        if k == index then q.(editing := None, preview := None)
        else if k > index then q.(editing := Some(k - 1))
        else q
  }

  /** With the tracked delete, a save after any deletes replaces the row under edit in place:
      the list keeps its length and every other row. */
  lemma TrackedDeleteThenSaveReplaces(p: Panel, index: int)
    requires EditInRange(p)
    ensures var q := DeleteResultTracked(p, index);
            var s := SaveEdited(q);
            && s.Some?
            && |s.value.stored| == |q.stored|
            && (q.editing.Some? && q.preview.Some? ==>
                  && s.value.stored[q.editing.value] == q.preview.value
                  && forall i :: 0 <= i < |q.stored| && i != q.editing.value ==> s.value.stored[i] == q.stored[i])
  {
  }
}

=== FILE: results.dfy ===
/** Resources/Results/ResultService.py: results entered one at a time or uploaded as a CSV file,
    then listed, read, patched and deleted. */
module ResultService {
  import opened Wrappers
  import opened Text
  import opened KeyedStore
  import opened SqlLike
  import opened Schema
  import opened Ids

  const RESULT_PREFIX := "RES"
  const RESULT_NOT_FOUND := "Result not found"
  /** The field's description, used here as the 422's detail. Pydantic's own 422 body is a list
      of errors with its message "Input should be greater than 0", so only the status matches. */
  const RANK_INVALID := "Rank must be greater than 0"
  const NOT_CSV := "File must be a CSV"
  const INVALID_CSV := "Invalid CSV format: "

  // ---------------------------------------------------------------- single results

  /** The body of a POST as the schema declares it (ResultCreate): no event name, no season. */
  datatype ResultCreate = ResultCreate(name: string, userId: string, score: int, remarks: Option<string>, category: string, rank: int)

  /** `create_result` as written: after validation (rank > 0, 422) it reads `event_name` from
      a request model that has no such field, and the AttributeError is a 500. */
  function CreateResultAsWritten(db: Db, req: ResultCreate, uuid: nat): (r: Response<ResultRow>)
    ensures req.rank <= 0 ==> r == Fail(db, UNPROCESSABLE, RANK_INVALID)
    ensures req.rank > 0 ==> r == Fail(db, SERVER_ERROR, INTERNAL_ERROR)
  {
    if req.rank <= 0 then Fail(db, UNPROCESSABLE, RANK_INVALID)
    else Fail(db, SERVER_ERROR, INTERNAL_ERROR)
  }

  /** No request ever stores a result through the endpoint as written. */
  lemma CreateResultAsWrittenNeverStores(db: Db, req: ResultCreate, uuid: nat)
    ensures CreateResultAsWritten(db, req, uuid).body.Err?
    ensures CreateResultAsWritten(db, req, uuid).db == db
  {
  }

  /** The request the service evidently expects: the schema's fields plus the event and season
      the Result model requires. */
  datatype ResultCreateFull = ResultCreateFull(fields: ResultCreate, eventName: string, season: string)

  function NewResult(req: ResultCreateFull, uuid: nat): (row: ResultRow)
    ensures row.resultId == GenerateId(RESULT_PREFIX, uuid)
    ensures row.name == req.fields.name && row.userId == req.fields.userId && row.score == req.fields.score
    ensures row.remarks == req.fields.remarks && row.category == req.fields.category && row.rank == req.fields.rank
    ensures row.eventName == req.eventName && row.season == req.season
    ensures ResultFits(row) <==>
      && Fits(req.fields.name, 255) && Fits(req.fields.userId, 20) && IsInt32(req.fields.score)
      && Fits(req.fields.category, 255) && IsInt32(req.fields.rank)
  {
    ResultRow(GenerateId(RESULT_PREFIX, uuid), req.fields.name, req.fields.userId, req.fields.score,
              req.fields.remarks, req.fields.category, req.fields.rank, req.eventName, req.season)
  }

  /** `create_result` with the event and season supplied: 422 for a rank below 1, 500 when the
      generated id is taken or a value is too long or too large for its column, otherwise the
      new row is appended. */
  function CreateResult(db: Db, req: ResultCreateFull, uuid: nat): (r: Response<ResultRow>)
    ensures req.fields.rank <= 0 ==> r == Fail(db, UNPROCESSABLE, RANK_INVALID)
    ensures r.body.Err? ==> r.db == db
    ensures r.body.Ok? ==> r.body.value == NewResult(req, uuid) && r.db == db.(results := db.results + [r.body.value])
    ensures Consistent(db) && req.fields.rank > 0 ==>
              (r.body.Ok? <==> !HasKey(db.results, ResultKey, GenerateId(RESULT_PREFIX, uuid)) && ResultFits(NewResult(req, uuid)))
    ensures Consistent(db) ==> Consistent(r.db)
  {
    if req.fields.rank <= 0 then Fail(db, UNPROCESSABLE, RANK_INVALID)
    else
      var row := NewResult(req, uuid);
      ResultsNeedOnlyUniqueKeys(db, db.results + [row]);
      UniqueAppend(db.results, ResultKey, row);
      EveryAppend(db.results, ResultFits, row);
      Commit(db, db.(results := db.results + [row]), row)
  }

  /** With the missing fields supplied, a valid result that fits its columns is stored and can
      be read back. */
  lemma CreateResultThenGet(db: Db, req: ResultCreateFull, uuid: nat)
    requires Consistent(db) && req.fields.rank > 0 && ResultFits(NewResult(req, uuid))
    requires !HasKey(db.results, ResultKey, GenerateId(RESULT_PREFIX, uuid))
    ensures var r := CreateResult(db, req, uuid);
            r.body.Ok? && GetResult(r.db, r.body.value.resultId) == Ok(NewResult(req, uuid))
  {
    var r := CreateResult(db, req, uuid);
    var rows := r.db.results;
    assert rows[|rows| - 1] == NewResult(req, uuid);
    assert IndexOf(rows, ResultKey, GenerateId(RESULT_PREFIX, uuid)).value == |rows| - 1;
  }

  // ---------------------------------------------------------------- CSV upload

  /** What `row[name]` finds in a DictReader row: no such column (KeyError), a column the short
      record does not reach (the reader fills it with None), or the text of the cell. */
  datatype Field = Missing | Null | Value(text: string)

  /** The last header position named `name`: with repeated names, the later column wins. */
  function LastIndexOf(header: seq<string>, name: string): (r: Option<nat>)
    ensures r.Some? ==> r.value < |header| && header[r.value] == name
    ensures r.Some? ==> forall j :: r.value < j < |header| ==> header[j] != name
    ensures r.None? ==> forall j :: 0 <= j < |header| ==> header[j] != name
    decreases |header|
  {
    if |header| == 0 then None
    else if header[|header| - 1] == name then Some(|header| - 1)
    else LastIndexOf(header[..|header| - 1], name)
  }

  /** In a header without repeated names, a name is found where it stands. */
  lemma LastIndexOfDistinct(header: seq<string>, k: nat)
    requires k < |header|
    requires forall j :: 0 <= j < |header| && j != k ==> header[j] != header[k]
    ensures LastIndexOf(header, header[k]) == Some(k)
  {
  }

  function FieldOf(header: seq<string>, record: seq<string>, name: string): (f: Field)
    ensures f.Missing? <==> forall j :: 0 <= j < |header| ==> header[j] != name
    ensures f.Value? ==> exists j :: 0 <= j < |header| && j < |record| && header[j] == name && record[j] == f.text
  {
    match LastIndexOf(header, name)
    case None => Missing
    case Some(j) => if j < |record| then Value(record[j]) else Null
  }

  /** `row.get(name)`. */
  function GetField(header: seq<string>, record: seq<string>, name: string): Option<string> {
    match FieldOf(header, record, name)
    case Value(s) => Some(s)
    case _ => None
  }

  /** A row as the Result constructor receives it: text fields may be None. */
  datatype PendingResult = PendingResult(
    name: Option<string>, userId: Option<string>, score: int, category: Option<string>, rank: int, remarks: Option<string>)

  /** One row of the upload loop: a row it accepts, a KeyError or ValueError turned into 400
      (`detail` is the exception's text), or a TypeError (`int(None)`) that escapes as 500. */
  datatype RowOutcome = Parsed(pending: PendingResult) | Rejected(detail: string) | Crashed

  /** `str(KeyError(name))`. */
  function KeyErrorText(name: string): string { "'" + name + "'" }

  /** `str(ValueError)` from `int(s)`, for a value without a single quote. Python's `repr` puts
      a value holding `'` (and no `"`) in double quotes instead, which is not modelled. */
  function ValueErrorText(s: string): string { "invalid literal for int() with base 10: '" + s + "'" }

  function TextField(header: seq<string>, record: seq<string>, name: string): Result<Option<string>, RowOutcome> {
    match FieldOf(header, record, name)
    case Missing => Err(Rejected(KeyErrorText(name)))
    case Null => Ok(None)
    case Value(s) => Ok(Some(s))
  }

  function IntField(header: seq<string>, record: seq<string>, name: string): Result<int, RowOutcome> {
    match FieldOf(header, record, name)
    case Missing => Err(Rejected(KeyErrorText(name)))
    case Null => Err(Crashed)
    case Value(s) =>
      match ParseInt(s)
      case None => Err(Rejected(ValueErrorText(s)))
      case Some(n) => Ok(n)
  }

  /** The keyword arguments of `Result(...)` are evaluated in order: name, user_id, score,
      category, rank, then remarks (which cannot fail). */
  function ParseRecord(header: seq<string>, record: seq<string>): (o: RowOutcome)
    ensures o.Parsed? <==>
      && FieldOf(header, record, "name") != Missing && FieldOf(header, record, "user_id") != Missing
      && FieldOf(header, record, "category") != Missing
      && IntField(header, record, "score").Ok? && IntField(header, record, "rank").Ok?
    ensures o.Parsed? ==>
      && o.pending.score == IntField(header, record, "score").value
      && o.pending.rank == IntField(header, record, "rank").value
      && o.pending.remarks == GetField(header, record, "remarks")
  {
    match TextField(header, record, "name")
    case Err(e) => e
    case Ok(name) =>
      match TextField(header, record, "user_id")
      case Err(e) => e
      case Ok(userId) =>
        match IntField(header, record, "score")
        case Err(e) => e
        case Ok(score) =>
          match TextField(header, record, "category")
          case Err(e) => e
          case Ok(category) =>
            match IntField(header, record, "rank")
            case Err(e) => e
            case Ok(rank) => Parsed(PendingResult(name, userId, score, category, rank, GetField(header, record, "remarks")))
  }

  /** The first row the loop cannot take: its position among the data rows and what happened. */
  datatype RowFailure = RowFailure(index: nat, outcome: RowOutcome)

  /** What the loop body makes of each row, in order. */
  function Outcomes(header: seq<string>, records: seq<seq<string>>): (os: seq<RowOutcome>)
    ensures |os| == |records| && forall i :: 0 <= i < |records| ==> os[i] == ParseRecord(header, records[i])
  {
    seq(|records|, i requires 0 <= i < |records| => ParseRecord(header, records[i]))
  }

  /** The loop over the outcomes: every row taken, or the first one that is not. */
  function Collect(os: seq<RowOutcome>): (r: Result<seq<PendingResult>, RowFailure>)
    ensures r.Ok? ==> |r.value| == |os| && forall i :: 0 <= i < |os| ==> os[i] == Parsed(r.value[i])
    ensures r.Err? ==> && r.error.index < |os| && os[r.error.index] == r.error.outcome
                       && !r.error.outcome.Parsed?
                       && forall j :: 0 <= j < r.error.index ==> os[j].Parsed?
    ensures r.Ok? <==> forall i :: 0 <= i < |os| ==> os[i].Parsed?
    decreases |os|
  {
    if |os| == 0 then Ok([])
    else if !os[0].Parsed? then Err(RowFailure(0, os[0]))
    else
      var rest := Collect(os[1..]);
      assert forall i :: 0 < i < |os| ==> os[i] == os[1..][i - 1];
      match rest
      case Ok(ps) => Ok([os[0].pending] + ps)
      case Err(f) => Err(RowFailure(f.index + 1, f.outcome))
  }

  /** The loop stops at the first row it cannot take. */
  function ParseAll(header: seq<string>, records: seq<seq<string>>): (r: Result<seq<PendingResult>, RowFailure>)
    ensures r.Ok? ==> |r.value| == |records|
                      && forall i :: 0 <= i < |records| ==> ParseRecord(header, records[i]) == Parsed(r.value[i])
    ensures r.Err? ==> && r.error.index < |records|
                       && ParseRecord(header, records[r.error.index]) == r.error.outcome
                       && !r.error.outcome.Parsed?
                       && forall j :: 0 <= j < r.error.index ==> ParseRecord(header, records[j]).Parsed?
    ensures r.Ok? <==> forall i :: 0 <= i < |records| ==> ParseRecord(header, records[i]).Parsed?
  {
    Collect(Outcomes(header, records))
  }

  /** The data rows DictReader yields: everything after the header line except empty records. */
  function DataRecords(table: seq<seq<string>>): (rs: seq<seq<string>>)
    ensures forall i :: 0 <= i < |rs| ==> |rs[i]| > 0
  {
    if |table| == 0 then [] else Where(table[1..], (rec: seq<string>) => |rec| > 0)
  }

  function Header(table: seq<seq<string>>): seq<string> {
    if |table| == 0 then [] else table[0]
  }

  /** The NOT NULL columns all received text. */
  predicate Complete(p: PendingResult) {
    p.name.Some? && p.userId.Some? && p.category.Some?
  }

  /** The rows the session holds at commit: row `i` takes its id from the `i`-th uuid draw. */
  function Materialize(ps: seq<PendingResult>, eventName: string, season: string, uuids: nat -> nat): (rows: seq<ResultRow>)
    requires forall i :: 0 <= i < |ps| ==> Complete(ps[i])
    ensures |rows| == |ps|
    ensures forall i :: 0 <= i < |ps| ==>
      Complete(ps[i]) && rows[i] == ResultRow(GenerateId(RESULT_PREFIX, uuids(i)), ps[i].name.value, ps[i].userId.value, ps[i].score,
                           ps[i].remarks, ps[i].category.value, ps[i].rank, eventName, season)
  {
    seq(|ps|, i requires 0 <= i < |ps| && Complete(ps[i]) =>
      ResultRow(GenerateId(RESULT_PREFIX, uuids(i)), ps[i].name.value, ps[i].userId.value, ps[i].score,
                ps[i].remarks, ps[i].category.value, ps[i].rank, eventName, season))
  }

  /** A stored row read back as the constructor arguments it came from. */
  function Pending(row: ResultRow): PendingResult {
    PendingResult(Some(row.name), Some(row.userId), row.score, Some(row.category), row.rank, row.remarks)
  }

  /** The commit at the end of the upload: a NOT NULL or key violation, or a value too long or
      too large for its column, is a 500, otherwise the pending rows are appended in order. */
  function StoreRows(db: Db, ps: seq<PendingResult>, eventName: string, season: string, uuids: nat -> nat): (r: Response<nat>)
    ensures r.body.Err? ==> r.db == db
    ensures (exists i :: 0 <= i < |ps| && !Complete(ps[i])) ==> r.body.Err?
    ensures r.body.Ok? ==>
      && r.body.value == |ps|
      && |r.db.results| == |db.results| + |ps|
      && r.db.results[..|db.results|] == db.results
      && r.db == db.(results := r.db.results)
      && forall i :: 0 <= i < |ps| ==>
           var row := r.db.results[|db.results| + i];
           && Pending(row) == ps[i]
           && row.resultId == GenerateId(RESULT_PREFIX, uuids(i))
           && row.eventName == eventName && row.season == season
    ensures Consistent(db) && (forall i :: 0 <= i < |ps| ==> Complete(ps[i])) ==>
      var rows := Materialize(ps, eventName, season, uuids);
      (r.body.Ok? <==> UniqueKeys(db.results + rows, ResultKey) && Every(rows, ResultFits))
    ensures Consistent(db) ==> Consistent(r.db)
  {
    if exists i :: 0 <= i < |ps| && !Complete(ps[i]) then Fail(db, SERVER_ERROR, INTEGRITY_ERROR)
    else
      var rows := Materialize(ps, eventName, season, uuids);
      var after := db.(results := db.results + rows);
      EveryConcat(db.results, rows, ResultFits);
      assert forall i :: 0 <= i < |rows| ==> after.results[|db.results| + i] == rows[i];
      ResultsNeedOnlyUniqueKeys(db, after.results);
      Commit(db, after, |rows|)
  }

  /** The answer to the first row the loop cannot take: its 400 with the row's message, or the
      500 of an uncaught error; nothing is written. */
  function RowRefused(db: Db, f: RowFailure): (r: Response<nat>)
    requires !f.outcome.Parsed?
    ensures r.db == db && r.body.Err?
    ensures r.body.error.status == BAD_REQUEST <==> f.outcome.Rejected?
    ensures f.outcome.Rejected? ==> r.body.error.detail == INVALID_CSV + f.outcome.detail
  {
    if f.outcome.Rejected? then Fail(db, BAD_REQUEST, INVALID_CSV + f.outcome.detail)
    else Fail(db, SERVER_ERROR, INTERNAL_ERROR)
  }

  /** The upload after the file-name check, on the file's header and data records: the first
      record the loop cannot take ends it (400, or 500 for an `int(None)`), otherwise the rows are
      stored together. */
  function StoreRecords(db: Db, header: seq<string>, recs: seq<seq<string>>, eventName: string, season: string,
                        uuids: nat -> nat): (r: Response<nat>)
    ensures r.body.Err? ==> r.db == db
    ensures r.body.Ok? ==>
      && r.body.value == |recs|
      && |r.db.results| == |db.results| + |recs|
      && r.db.results[..|db.results|] == db.results
      && r.db == db.(results := r.db.results)
      && forall i :: 0 <= i < |recs| ==>
           var row := r.db.results[|db.results| + i];
           && ParseRecord(header, recs[i]) == Parsed(Pending(row))
           && row.resultId == GenerateId(RESULT_PREFIX, uuids(i))
           && row.eventName == eventName && row.season == season
    ensures r.body.Err? && r.body.error.status == BAD_REQUEST ==>
      exists k :: 0 <= k < |recs| && ParseRecord(header, recs[k]).Rejected?
                  && r.body.error.detail == INVALID_CSV + ParseRecord(header, recs[k]).detail
                  && forall j :: 0 <= j < k ==> ParseRecord(header, recs[j]).Parsed?
    ensures Consistent(db) ==> Consistent(r.db)
  {
    match ParseAll(header, recs)
    case Err(f) => RowRefused(db, f)
    case Ok(ps) => StoreRows(db, ps, eventName, season, uuids)
  }

  /** `upload_results_csv`. `table` is the file as the csv module splits it into records (the
      header first); `uuids(i)` is the id draw for the `i`-th data row. The upload is all or
      nothing: a bad row is 400 (or 500 for an `int(None)`), a NOT NULL or key violation or a
      value too long or too large for its column is 500 at commit, and success stores one row
      per data record, in file order. */
  function UploadResultsCsv(db: Db, filename: string, table: seq<seq<string>>, eventName: string, season: string,
                            uuids: nat -> nat): (r: Response<nat>)
    ensures !EndsWith(filename, ".csv") ==> r == Fail(db, BAD_REQUEST, NOT_CSV)
    ensures r.body.Err? ==> r.db == db
    ensures r.body.Ok? ==>
      var recs := DataRecords(table);
      && r.body.value == |recs|
      && |r.db.results| == |db.results| + |recs|
      && r.db.results[..|db.results|] == db.results
      && r.db == db.(results := r.db.results)
      && forall i :: 0 <= i < |recs| ==>
           var row := r.db.results[|db.results| + i];
           && ParseRecord(Header(table), recs[i]) == Parsed(Pending(row))
           && row.resultId == GenerateId(RESULT_PREFIX, uuids(i))
           && row.eventName == eventName && row.season == season
    ensures EndsWith(filename, ".csv") && r.body.Err? && r.body.error.status == BAD_REQUEST ==>
      var recs := DataRecords(table);
      exists k :: 0 <= k < |recs| && ParseRecord(Header(table), recs[k]).Rejected?
                  && r.body.error.detail == INVALID_CSV + ParseRecord(Header(table), recs[k]).detail
                  && forall j :: 0 <= j < k ==> ParseRecord(Header(table), recs[j]).Parsed?
    ensures Consistent(db) ==> Consistent(r.db)
  {
    if !EndsWith(filename, ".csv") then Fail(db, BAD_REQUEST, NOT_CSV)
    else StoreRecords(db, Header(table), DataRecords(table), eventName, season, uuids)
  }

  // ---------------------------------------------------------------- CSV round trip

  const CSV_HEADER: seq<string> := ["name", "user_id", "score", "category", "rank", "remarks"]

  /** The record a result is exported as, in `CSV_HEADER` order. */
  function CsvRecord(row: ResultRow): (rec: seq<string>)
    requires row.remarks.Some?
    ensures |rec| == |CSV_HEADER|
  {
    [row.name, row.userId, IntToString(row.score), row.category, IntToString(row.rank), row.remarks.value]
  }

  /** Each exported column is found under its own header name. */
  lemma ExportedField(rec: seq<string>, k: nat)
    requires |rec| == |CSV_HEADER| && k < |CSV_HEADER|
    ensures FieldOf(CSV_HEADER, rec, CSV_HEADER[k]) == Value(rec[k])
  {
    LastIndexOfDistinct(CSV_HEADER, k);
  }

  /** Reading an exported record gives back the result it came from. */
  lemma CsvRecordRoundTrip(row: ResultRow)
    requires row.remarks.Some?
    ensures ParseRecord(CSV_HEADER, CsvRecord(row)) == Parsed(Pending(row))
  {
    var rec := CsvRecord(row);
    assert CSV_HEADER[0] == "name" && CSV_HEADER[1] == "user_id" && CSV_HEADER[2] == "score";
    assert CSV_HEADER[3] == "category" && CSV_HEADER[4] == "rank" && CSV_HEADER[5] == "remarks";
    ExportedField(rec, 0);
    ExportedField(rec, 1);
    ExportedField(rec, 2);
    ExportedField(rec, 3);
    ExportedField(rec, 4);
    ExportedField(rec, 5);
    ParseIntOfIntToString(row.score);
    ParseIntOfIntToString(row.rank);
    assert IntField(CSV_HEADER, rec, "score") == Ok(row.score);
    assert IntField(CSV_HEADER, rec, "rank") == Ok(row.rank);
  }

  /** The file an export of `rows` consists of: the header line, then one record per result. */
  function CsvTable(rows: seq<ResultRow>): (table: seq<seq<string>>)
    requires forall i :: 0 <= i < |rows| ==> rows[i].remarks.Some?
    ensures |table| == |rows| + 1 && table[0] == CSV_HEADER
    ensures forall i :: 0 <= i < |rows| ==> table[i + 1] == CsvRecord(rows[i])
  {
    [CSV_HEADER] + seq(|rows|, (i: int) requires 0 <= i < |rows| && rows[i].remarks.Some? => CsvRecord(rows[i]))
  }

  /** Every exported record is a data row: none of them is empty. */
  lemma ExportRecords(rows: seq<ResultRow>)
    requires forall i :: 0 <= i < |rows| ==> rows[i].remarks.Some?
    ensures Header(CsvTable(rows)) == CSV_HEADER
    ensures DataRecords(CsvTable(rows)) == CsvTable(rows)[1..]
  {
    var recs := CsvTable(rows)[1..];
    forall x | x in recs ensures |x| > 0 {
      var k :| 0 <= k < |recs| && recs[k] == x;
      assert recs[k] == CsvRecord(rows[k]);
    }
    WhereAll(recs, (rec: seq<string>) => |rec| > 0);
  }

  /** The constructor arguments the stored results were made from, in order. */
  function PendingOf(rows: seq<ResultRow>): (ps: seq<PendingResult>)
    ensures |ps| == |rows| && forall i :: 0 <= i < |rows| ==> ps[i] == Pending(rows[i])
  {
    seq(|rows|, (i: int) requires 0 <= i < |rows| => Pending(rows[i]))
  }

  /** The export's data rows parse back, in order, to the exported results. */
  lemma ParseExport(rows: seq<ResultRow>)
    requires forall i :: 0 <= i < |rows| ==> rows[i].remarks.Some?
    ensures ParseAll(CSV_HEADER, CsvTable(rows)[1..]) == Ok(PendingOf(rows))
  {
    var recs := CsvTable(rows)[1..];
    forall i | 0 <= i < |rows| ensures ParseRecord(CSV_HEADER, recs[i]) == Parsed(Pending(rows[i])) {
      assert recs[i] == CsvRecord(rows[i]);
      CsvRecordRoundTrip(rows[i]);
    }
    var r := ParseAll(CSV_HEADER, recs);
    assert r.value == PendingOf(rows);
  }

  /** Distinct id draws that are not in the table keep the primary key. */
  lemma FreshDrawsKeepKey(db: Db, ps: seq<PendingResult>, eventName: string, season: string, uuids: nat -> nat)
    requires UniqueKeys(db.results, ResultKey)
    requires forall i :: 0 <= i < |ps| ==> Complete(ps[i])
    requires forall i, j :: 0 <= i < j < |ps| ==> uuids(i) % ID_MODULUS != uuids(j) % ID_MODULUS
    requires forall i :: 0 <= i < |ps| ==> !HasKey(db.results, ResultKey, GenerateId(RESULT_PREFIX, uuids(i)))
    ensures UniqueKeys(db.results + Materialize(ps, eventName, season, uuids), ResultKey)
  {
    var stored := Materialize(ps, eventName, season, uuids);
    forall a, b | 0 <= a < b < |stored| ensures ResultKey(stored[a]) != ResultKey(stored[b]) {
      GenerateIdCollision(RESULT_PREFIX, uuids(a), uuids(b));
    }
    UniqueConcat(db.results, stored, ResultKey);
  }

  /** Uploading an export under a `.csv` name reaches the commit with the exported rows. */
  lemma UploadOfExportCommits(db: Db, rows: seq<ResultRow>, eventName: string, season: string, uuids: nat -> nat)
    requires forall i :: 0 <= i < |rows| ==> rows[i].remarks.Some?
    ensures UploadResultsCsv(db, "results.csv", CsvTable(rows), eventName, season, uuids)
              == StoreRows(db, PendingOf(rows), eventName, season, uuids)
  {
    ExportRecords(rows);
    ParseExport(rows);
    assert EndsWith("results.csv", ".csv");
    UploadOfParsedCommits(db, "results.csv", CsvTable(rows), eventName, season, uuids, PendingOf(rows));
  }

  /** A `.csv` file whose every data row parses goes straight to the commit. */
  lemma UploadOfParsedCommits(db: Db, filename: string, table: seq<seq<string>>, eventName: string, season: string,
                              uuids: nat -> nat, ps: seq<PendingResult>)
    requires EndsWith(filename, ".csv") && ParseAll(Header(table), DataRecords(table)) == Ok(ps)
    ensures UploadResultsCsv(db, filename, table, eventName, season, uuids) == StoreRows(db, ps, eventName, season, uuids)
  {
  }

  /** Uploading an export stores every exported result again, in order, with the upload's event,
      season and fresh ids, provided the id draws are distinct and free and the results fit
      their columns (as every stored result does). */
  lemma ExportThenUpload(db: Db, rows: seq<ResultRow>, eventName: string, season: string, uuids: nat -> nat)
    requires Consistent(db)
    requires forall i :: 0 <= i < |rows| ==> rows[i].remarks.Some? && ResultFits(rows[i])
    requires forall i, j :: 0 <= i < j < |rows| ==> uuids(i) % ID_MODULUS != uuids(j) % ID_MODULUS
    requires forall i :: 0 <= i < |rows| ==> !HasKey(db.results, ResultKey, GenerateId(RESULT_PREFIX, uuids(i)))
    ensures var r := UploadResultsCsv(db, "results.csv", CsvTable(rows), eventName, season, uuids);
            && r.body == Ok(|rows|)
            && |r.db.results| == |db.results| + |rows|
            && forall i :: 0 <= i < |rows| ==>
                 r.db.results[|db.results| + i]
                   == rows[i].(resultId := GenerateId(RESULT_PREFIX, uuids(i)), eventName := eventName, season := season)
  {
    var ps := PendingOf(rows);
    UploadOfExportCommits(db, rows, eventName, season, uuids);
    FreshDrawsKeepKey(db, ps, eventName, season, uuids);
    var stored := Materialize(ps, eventName, season, uuids);
    assert Every(stored, ResultFits) by {
      forall i | 0 <= i < |stored| ensures ResultFits(stored[i]) {
        assert stored[i] == rows[i].(resultId := GenerateId(RESULT_PREFIX, uuids(i)), eventName := eventName, season := season);
      }
    }
    var r := StoreRows(db, ps, eventName, season, uuids);
    forall i | 0 <= i < |rows|
      ensures r.db.results[|db.results| + i]
              == rows[i].(resultId := GenerateId(RESULT_PREFIX, uuids(i)), eventName := eventName, season := season)
    {
      assert Pending(r.db.results[|db.results| + i]) == ps[i];
    }
  }

  // ---------------------------------------------------------------- listing

  /** The query parameters `get_results` looks at. */
  datatype ResultFilters = ResultFilters(
    name: Option<string>, userId: Option<string>, category: Option<string>, rank: Option<string>, score: Option<string>)

  /** Name and category match case-insensitively as substrings, user id exactly, rank and score
      as integers. */
  predicate ResultMatches(row: ResultRow, f: ResultFilters) {
    && (!Given(f.name) || IContains(row.name, f.name.value))
    && (!Given(f.userId) || row.userId == f.userId.value)
    && (!Given(f.category) || IContains(row.category, f.category.value))
    && (!Given(f.rank) || ParseInt(f.rank.value) == Some(row.rank))
    && (!Given(f.score) || ParseInt(f.score.value) == Some(row.score))
  }

  function ResultFilter(f: ResultFilters): ResultRow -> bool {
    (row: ResultRow) => ResultMatches(row, f)
  }

  function ResultConditions(f: ResultFilters): seq<ResultRow -> bool> {
    [ (row: ResultRow) => !Given(f.name) || IContains(row.name, f.name.value),
      (row: ResultRow) => !Given(f.userId) || row.userId == f.userId.value,
      (row: ResultRow) => !Given(f.category) || IContains(row.category, f.category.value),
      (row: ResultRow) => !Given(f.rank) || ParseInt(f.rank.value) == Some(row.rank),
      (row: ResultRow) => !Given(f.score) || ParseInt(f.score.value) == Some(row.score) ]
  }

  lemma ResultConditionsMatch(row: ResultRow, f: ResultFilters)
    ensures Conj(ResultConditions(f))(row) == ResultFilter(f)(row)
  {
    var cs := ResultConditions(f);
    assert cs[0](row) && cs[1](row) && cs[2](row) && cs[3](row) && cs[4](row) <==> ResultMatches(row, f);
  }

  /** `get_results`: a rank or score filter that `int()` rejects escapes as 500 (rank is looked
      at first); otherwise exactly the matching results, in table order. */
  function GetResults(db: Db, f: ResultFilters): (r: Result<seq<ResultRow>, HttpError>)
    ensures r.Err? <==> (Given(f.rank) && ParseInt(f.rank.value).None?) || (Given(f.score) && ParseInt(f.score.value).None?)
    ensures r.Err? ==> r.error == HttpError(SERVER_ERROR, INTERNAL_ERROR)
    ensures r.Ok? ==> r.value == Where(db.results, ResultFilter(f))
    ensures r.Ok? ==> forall i :: 0 <= i < |r.value| ==> r.value[i] in db.results && ResultMatches(r.value[i], f)
    ensures r.Ok? ==> forall i :: 0 <= i < |db.results| && ResultMatches(db.results[i], f) ==> db.results[i] in r.value
  {
    if Given(f.rank) && ParseInt(f.rank.value).None? then Err(HttpError(SERVER_ERROR, INTERNAL_ERROR))
    else if Given(f.score) && ParseInt(f.score.value).None? then Err(HttpError(SERVER_ERROR, INTERNAL_ERROR))
    else
      NarrowIsWhere(db.results, ResultConditions(f));
      forall i | 0 <= i < |db.results|
        ensures Conj(ResultConditions(f))(db.results[i]) == ResultFilter(f)(db.results[i])
      {
        ResultConditionsMatch(db.results[i], f);
      }
      WhereExt(db.results, Conj(ResultConditions(f)), ResultFilter(f));
      Ok(Narrow(db.results, ResultConditions(f)))
  }

  // ---------------------------------------------------------------- by id

  /** `get_result_by_id`. */
  function GetResult(db: Db, id: string): (r: Result<ResultRow, HttpError>)
    ensures r.Ok? <==> HasKey(db.results, ResultKey, id)
    ensures r.Ok? ==> r.value in db.results && r.value.resultId == id
    ensures r.Err? ==> r.error == HttpError(NOT_FOUND, RESULT_NOT_FOUND)
  {
    match Lookup(db.results, ResultKey, id)
    case None => Err(HttpError(NOT_FOUND, RESULT_NOT_FOUND))
    case Some(row) => Ok(row)
  }

  /** The fields a PATCH may carry (ResultUpdate). */
  datatype ResultPatch = ResultPatch(
    name: Option<string>, userId: Option<string>, score: Option<int>, remarks: Option<string>,
    category: Option<string>, rank: Option<int>)

  function ApplyResultPatch(row: ResultRow, p: ResultPatch): (v: ResultRow)
    ensures v.resultId == row.resultId && v.eventName == row.eventName && v.season == row.season
    ensures v.name == p.name.GetOr(row.name) && v.userId == p.userId.GetOr(row.userId)
    ensures v.score == p.score.GetOr(row.score) && v.category == p.category.GetOr(row.category)
    ensures v.rank == p.rank.GetOr(row.rank)
    ensures v.remarks == (if p.remarks.Some? then p.remarks else row.remarks)
  {
    row.(name := p.name.GetOr(row.name), userId := p.userId.GetOr(row.userId), score := p.score.GetOr(row.score),
         remarks := if p.remarks.Some? then p.remarks else row.remarks,
         category := p.category.GetOr(row.category), rank := p.rank.GetOr(row.rank))
  }

  /** `update_result`: a supplied rank below 1 is 422 before the lookup; an unknown id is 404;
      otherwise exactly the supplied fields of that row change, and a value too long or too large
      for its column fails the commit with a 500. */
  function UpdateResult(db: Db, id: string, p: ResultPatch): (r: Response<ResultRow>)
    ensures r.body.Err? ==> r.db == db
    ensures p.rank.Some? && p.rank.value <= 0 ==> r == Fail(db, UNPROCESSABLE, RANK_INVALID)
    ensures (p.rank.None? || p.rank.value > 0) && !HasKey(db.results, ResultKey, id) ==>
              r == Fail(db, NOT_FOUND, RESULT_NOT_FOUND)
    ensures r.body.Ok? ==>
      var i := IndexOf(db.results, ResultKey, id).value;
      && r.body.value == ApplyResultPatch(db.results[i], p)
      && r.db == db.(results := db.results[i := r.body.value])
    ensures Consistent(db) ==>
      (r.body.Ok? <==> && (p.rank.None? || p.rank.value > 0)
                       && HasKey(db.results, ResultKey, id)
                       && ResultFits(ApplyResultPatch(db.results[IndexOf(db.results, ResultKey, id).value], p)))
    ensures Consistent(db) ==> Consistent(r.db)
  {
    if p.rank.Some? && p.rank.value <= 0 then Fail(db, UNPROCESSABLE, RANK_INVALID)
    else
      match IndexOf(db.results, ResultKey, id)
      case None => Fail(db, NOT_FOUND, RESULT_NOT_FOUND)
      case Some(i) =>
        var v := ApplyResultPatch(db.results[i], p);
        ResultsNeedOnlyUniqueKeys(db, db.results[i := v]);
        EveryReplace(db.results, ResultFits, i, v);
        assert Consistent(db) ==> UniqueKeys(db.results[i := v], ResultKey) by {
          if Consistent(db) { ReplaceKeepsUnique(db.results, ResultKey, i, v); }
        }
        Commit(db, db.(results := db.results[i := v]), v)
  }

  /** `delete_result`: 404 for an unknown id; nothing refers to a result, so the delete always
      commits. */
  function DeleteResult(db: Db, id: string): (r: Response<string>)
    ensures r.body.Err? ==> r.db == db
    ensures !HasKey(db.results, ResultKey, id) ==> r == Fail(db, NOT_FOUND, RESULT_NOT_FOUND)
    ensures Consistent(db) && HasKey(db.results, ResultKey, id) ==>
      && r.body.Ok?
      && r.db == db.(results := RemoveAt(db.results, IndexOf(db.results, ResultKey, id).value))
      && !HasKey(r.db.results, ResultKey, id)
    ensures Consistent(db) ==> Consistent(r.db)
  {
    match IndexOf(db.results, ResultKey, id)
    case None => Fail(db, NOT_FOUND, RESULT_NOT_FOUND)
    case Some(i) =>
      var after := db.(results := RemoveAt(db.results, i));
      ResultsNeedOnlyUniqueKeys(db, after.results);
      assert Consistent(db) ==> UniqueKeys(after.results, ResultKey) && !HasKey(after.results, ResultKey, id) by {
        if Consistent(db) {
          EveryRemove(db.results, ResultFits, i);
          UniqueRemove(db.results, ResultKey, i);
          HasKeyRemove(db.results, ResultKey, i, id);
        }
      }
      Commit(db, after, "Result deleted successfully")
  }
}

=== FILE: reviews.dfy ===
/** Visitor reviews, kept in the browser under `kalakriti-reviews`: the submission form
    (components/reviews/ReviewSubmissionForm.tsx) and the moderation panel
    (components/admin/ReviewsManagement.tsx). The stored array is a sequence parameter. */
module Reviews {
  import opened KeyedStore

  datatype Status = Pending | Approved | Rejected

  datatype Review = Review(id: string, name: string, role: string, rating: int, text: string,
                           status: Status, submittedAt: string)

  datatype ReviewForm = ReviewForm(name: string, role: string, rating: int, text: string)

  /** The form as first shown and as reset after a submission. */
  const BLANK_FORM := ReviewForm("", "", 5, "")

  /** The star buttons, in display order. */
  const STARS: seq<int> := [1, 2, 3, 4, 5]

  // ---------------------------------------------------------------- the form

  /** What the user can do to the form before submitting: type into a field or click a star. */
  datatype FormEdit = TypeName(s: string) | TypeRole(s: string) | TypeText(s: string) | ClickStar(button: nat)

  function ApplyEdit(form: ReviewForm, e: FormEdit): ReviewForm {
    match e
    case TypeName(s) => form.(name := s)
    case TypeRole(s) => form.(role := s)
    case TypeText(s) => form.(text := s)
    case ClickStar(b) => if b < |STARS| then form.(rating := STARS[b]) else form
  }

  function ApplyEdits(form: ReviewForm, es: seq<FormEdit>): ReviewForm
    decreases |es|
  {
    if |es| == 0 then form else ApplyEdits(ApplyEdit(form, es[0]), es[1..])
  }

  predicate RatingInRange(form: ReviewForm) { 1 <= form.rating <= 5 }

  /** Whatever the user does, the rating stays between one and five stars. */
  lemma {:induction false} EditsKeepRating(form: ReviewForm, es: seq<FormEdit>)
    requires RatingInRange(form)
    ensures RatingInRange(ApplyEdits(form, es))
    decreases |es|
  {
    if |es| > 0 {
      EditsKeepRating(ApplyEdit(form, es[0]), es[1..]);
    }
  }

  datatype Submitted = Submitted(form: ReviewForm, stored: seq<Review>)

  /** `handleSubmit`: without a name or a review text nothing is stored and the form stays as
      it is; otherwise the review is appended as pending and the form is cleared. `id` is
      `Date.now()` and `submittedAt` the ISO time. */
  function SubmitReview(form: ReviewForm, stored: seq<Review>, id: string, submittedAt: string): (r: Submitted)
    ensures form.name == "" || form.text == "" ==> r == Submitted(form, stored)
    ensures form.name != "" && form.text != "" ==>
      && r.form == BLANK_FORM
      && |r.stored| == |stored| + 1
      && r.stored[..|stored|] == stored
      && r.stored[|stored|] == Review(id, form.name, form.role, form.rating, form.text, Pending, submittedAt)
  {
    if form.name == "" || form.text == "" then Submitted(form, stored)
    else Submitted(BLANK_FORM, stored + [Review(id, form.name, form.role, form.rating, form.text, Pending, submittedAt)])
  }

  /** Every review the form stores has a rating of one to five stars and starts pending. */
  lemma SubmittedRatingInRange(es: seq<FormEdit>, stored: seq<Review>, id: string, submittedAt: string)
    ensures var form := ApplyEdits(BLANK_FORM, es);
            var r := SubmitReview(form, stored, id, submittedAt);
            forall i :: |stored| <= i < |r.stored| ==> 1 <= r.stored[i].rating <= 5 && r.stored[i].status == Pending
  {
    EditsKeepRating(BLANK_FORM, es);
  }

  // ---------------------------------------------------------------- moderation

  /** `reviews.map(review => review.id === id ? { ...review, status } : review)`. */
  function SetStatus(reviews: seq<Review>, id: string, status: Status): (r: seq<Review>)
    ensures |r| == |reviews|
    ensures forall i :: 0 <= i < |r| ==>
              r[i] == if reviews[i].id == id then reviews[i].(status := status) else reviews[i]
    decreases |reviews|
  {
    if |reviews| == 0 then []
    else
      var head := if reviews[0].id == id then reviews[0].(status := status) else reviews[0];
      [head] + SetStatus(reviews[1..], id, status)
  }

  /** `handleApprove`: every review with that id becomes approved; nothing else changes. */
  function Approve(reviews: seq<Review>, id: string): (r: seq<Review>)
    ensures |r| == |reviews|
    ensures forall i :: 0 <= i < |r| ==> r[i].status == (if reviews[i].id == id then Approved else reviews[i].status)
    ensures forall i :: 0 <= i < |r| ==> r[i].(status := reviews[i].status) == reviews[i]
  {
    SetStatus(reviews, id, Approved)
  }

  /** `handleReject`: every review with that id becomes rejected; nothing else changes. */
  function Reject(reviews: seq<Review>, id: string): (r: seq<Review>)
    ensures |r| == |reviews|
    ensures forall i :: 0 <= i < |r| ==> r[i].status == (if reviews[i].id == id then Rejected else reviews[i].status)
    ensures forall i :: 0 <= i < |r| ==> r[i].(status := reviews[i].status) == reviews[i]
  {
    SetStatus(reviews, id, Rejected)
  }

  /** Setting a status twice is the same as setting it once. */
  lemma SetStatusIdempotent(reviews: seq<Review>, id: string, status: Status)
    ensures SetStatus(SetStatus(reviews, id, status), id, status) == SetStatus(reviews, id, status)
  {
  }

  /** The last decision on a review is the one that stands. */
  lemma LastDecisionWins(reviews: seq<Review>, id: string, first: Status, second: Status)
    ensures SetStatus(SetStatus(reviews, id, first), id, second) == SetStatus(reviews, id, second)
  {
  }

  function WithoutId(id: string): Review -> bool { (rv: Review) => rv.id != id }

  /** `handleDelete`: every review with that id goes, the rest keep their order. */
  function DeleteReview(reviews: seq<Review>, id: string): (r: seq<Review>)
    ensures forall i :: 0 <= i < |r| ==> r[i].id != id && r[i] in reviews
    ensures forall i :: 0 <= i < |reviews| && reviews[i].id != id ==> reviews[i] in r
    ensures r == Where(reviews, WithoutId(id)) && Subsequence(r, reviews)
  {
    WhereIsSubsequence(reviews, WithoutId(id));
    Where(reviews, WithoutId(id))
  }

  /** A decision on a review that is then deleted leaves no trace. */
  lemma {:induction false} DecideThenDelete(reviews: seq<Review>, id: string, status: Status)
    ensures DeleteReview(SetStatus(reviews, id, status), id) == DeleteReview(reviews, id)
    decreases |reviews|
  {
    if |reviews| > 0 {
      DecideThenDelete(reviews[1..], id, status);
      var s := SetStatus(reviews, id, status);
      assert s == [s[0]] + SetStatus(reviews[1..], id, status);
      assert reviews == [reviews[0]] + reviews[1..];
      WhereConcat([s[0]], SetStatus(reviews[1..], id, status), WithoutId(id));
      WhereConcat([reviews[0]], reviews[1..], WithoutId(id));
    }
  }

  /** The filter tabs. */
  datatype Tab = All | Only(status: Status)

  function HasStatus(status: Status): Review -> bool { (rv: Review) => rv.status == status }

  /** `filteredReviews`: every review under "all", otherwise exactly those with that status,
      in stored order. */
  function FilteredReviews(reviews: seq<Review>, tab: Tab): (r: seq<Review>)
    ensures tab.All? ==> r == reviews
    ensures tab.Only? ==> r == Where(reviews, HasStatus(tab.status))
  {
    match tab
    case All => reviews
    case Only(s) => Where(reviews, HasStatus(s))
  }

  /** The three status tabs between them count every review once. */
  lemma {:induction false} TabCountsAddUp(reviews: seq<Review>)
    ensures |FilteredReviews(reviews, Only(Pending))| + |FilteredReviews(reviews, Only(Approved))|
            + |FilteredReviews(reviews, Only(Rejected))| == |FilteredReviews(reviews, All)|
    decreases |reviews|
  {
    if |reviews| > 0 {
      TabCountsAddUp(reviews[1..]);
      assert reviews == [reviews[0]] + reviews[1..];
      WhereConcat([reviews[0]], reviews[1..], HasStatus(Pending));
      WhereConcat([reviews[0]], reviews[1..], HasStatus(Approved));
      WhereConcat([reviews[0]], reviews[1..], HasStatus(Rejected));
    }
  }

  /** After approving an id, the approved tab shows every review with that id. */
  lemma ApprovedTabShowsApproved(reviews: seq<Review>, id: string)
    ensures forall i :: 0 <= i < |reviews| && reviews[i].id == id ==>
              reviews[i].(status := Approved) in FilteredReviews(Approve(reviews, id), Only(Approved))
  {
    var after := Approve(reviews, id);
    forall i | 0 <= i < |reviews| && reviews[i].id == id
      ensures reviews[i].(status := Approved) in FilteredReviews(after, Only(Approved))
    {
      assert after[i] == reviews[i].(status := Approved);
    }
  }

  // ---------------------------------------------------------------- offered actions

  datatype Action = ApproveAction | RejectAction | DeleteAction

  /** The buttons shown on a review card for its status. */
  function Offered(s: Status): (r: set<Action>)
    ensures DeleteAction in r
    ensures ApproveAction in r <==> s != Approved
    ensures RejectAction in r <==> s != Rejected
  {
    match s
    case Pending => {ApproveAction, RejectAction, DeleteAction}
    case Rejected => {ApproveAction, DeleteAction}
    case Approved => {RejectAction, DeleteAction}
  }

  /** What a card's button does to the stored list. */
  function Perform(reviews: seq<Review>, id: string, a: Action): (r: seq<Review>)
    ensures a == DeleteAction ==> forall i :: 0 <= i < |r| ==> r[i].id != id && r[i] in reviews
    ensures a != DeleteAction ==> |r| == |reviews| && forall i :: 0 <= i < |r| ==>
              r[i].status == (if reviews[i].id != id then reviews[i].status
                              else if a == ApproveAction then Approved else Rejected)
  {
    match a
    case ApproveAction => Approve(reviews, id)
    case RejectAction => Reject(reviews, id)
    case DeleteAction => DeleteReview(reviews, id)
  }

  /** Every button a card offers changes that review: a status button moves it to a different
      status, and no pending review can be sent back to pending. */
  lemma OfferedActionsChangeStatus(reviews: seq<Review>, i: nat, a: Action)
    requires i < |reviews| && a in Offered(reviews[i].status) && a != DeleteAction
    ensures var after := Perform(reviews, reviews[i].id, a);
            |after| == |reviews| && after[i].status != reviews[i].status && after[i].status != Pending
  {
  }
}

=== FILE: schema.dfy ===
/** The backend's tables (the models package) and the constraints the database enforces at commit:
    primary keys, the unique user e-mail, the foreign keys
    `event_registrations.user_id -> users.user_id` and
    `assets.event_registration_id -> event_registrations.event_registration_id`, the width of
    every `String(n)` column and the 32-bit range of every `Integer` column (PostgreSQL's
    `varchar(n)` and `integer`).
    Every service works on one `Db` value and answers with a `Response`; on an error the
    transaction is rolled back, so the response carries the database it was given, except for a
    value already drawn from a sequence, which a rollback does not return (`Db.contactSeq`). */
module Schema {
  import opened Wrappers
  import opened KeyedStore

  datatype User = User(
    userId: string,
    email: string,
    fullName: string,
    password: string,   // the bcrypt hash, never the plain text
    phoneNumber: string,
    age: string,
    address: string,
    city: string,
    state: string,
    previousExperience: Option<string>,
    active: bool)       // `status`, False after a soft delete

  datatype Registration = Registration(
    registrationId: string,
    userId: string,
    eventName: string,
    season: string,
    artworkCount: int,
    status: string)

  datatype ResultRow = ResultRow(
    resultId: string,
    name: string,
    userId: string,
    score: int,
    remarks: Option<string>,
    category: string,
    rank: int,
    eventName: string,
    season: string)

  /** Dates are day numbers; the service stores whatever the request gives. */
  datatype Event = Event(eventId: string, eventName: string, season: string, startDate: int, endDate: int)

  datatype Asset = Asset(assetId: string, registrationId: string, url: string, name: string)

  /** `createdAt` is the server clock at insertion, in seconds. */
  datatype Contact = Contact(
    id: int,
    name: string,
    email: string,
    phoneNumber: Option<string>,
    subject: string,
    message: string,
    createdAt: int)

  /** `contactSeq` is the last value handed out by the `contact_us.id` sequence. */
  datatype Db = Db(
    users: seq<User>,
    registrations: seq<Registration>,
    results: seq<ResultRow>,
    events: seq<Event>,
    assets: seq<Asset>,
    contacts: seq<Contact>,
    contactSeq: int)

  function UserKey(u: User): string { u.userId }
  function UserEmail(u: User): string { u.email }
  function RegistrationKey(r: Registration): string { r.registrationId }
  function ResultKey(r: ResultRow): string { r.resultId }
  function EventKey(e: Event): string { e.eventId }
  function AssetKey(a: Asset): string { a.assetId }
  function ContactKey(c: Contact): int { c.id }
  /** The foreign-key column of an asset. */
  function AssetOwner(a: Asset): string { a.registrationId }

  /** Every registration belongs to a stored user. */
  predicate RegistrationsReferenceUsers(db: Db) {
    forall i :: 0 <= i < |db.registrations| ==> HasKey(db.users, UserKey, db.registrations[i].userId)
  }

  /** Every asset belongs to a stored registration. */
  predicate AssetsReferenceRegistrations(db: Db) {
    forall i :: 0 <= i < |db.assets| ==>
      HasKey(db.registrations, RegistrationKey, AssetOwner(db.assets[i]))
  }

  /** Every contact id was handed out by the sequence. */
  predicate ContactIdsIssued(db: Db) {
    forall i :: 0 <= i < |db.contacts| ==> db.contacts[i].id <= db.contactSeq
  }

  /** PostgreSQL's `integer`, the type of an `Integer` column. */
  const INT32_MIN: int := -0x8000_0000
  const INT32_MAX: int := 0x7FFF_FFFF

  predicate IsInt32(n: int) { INT32_MIN <= n <= INT32_MAX }

  /** A `String(n)` column holds at most `n` characters. */
  predicate Fits(s: string, n: nat) { |s| <= n }

  /** models/user.py: `user_id` and `phone_number` String(20); `email`, `full_name` and
      `password` String(255). The other text columns are unbounded. */
  predicate UserFits(u: User) {
    && Fits(u.userId, 20) && Fits(u.email, 255) && Fits(u.fullName, 255)
    && Fits(u.password, 255) && Fits(u.phoneNumber, 20)
  }

  /** models/event_registration.py: both ids String(20), `event_name` String(255), `season`
      String(100), `registration_status` String(50), and `artwork_count` an Integer. */
  predicate RegistrationFits(r: Registration) {
    && Fits(r.registrationId, 20) && Fits(r.userId, 20) && Fits(r.eventName, 255)
    && Fits(r.season, 100) && IsInt32(r.artworkCount) && Fits(r.status, 50)
  }

  /** models/result.py: `result_id` and `user_id` String(20), `name` and `category` String(255),
      `score` and `rank` Integers; `event_name` and `season` are unbounded. */
  predicate ResultFits(r: ResultRow) {
    && Fits(r.resultId, 20) && Fits(r.name, 255) && Fits(r.userId, 20)
    && IsInt32(r.score) && Fits(r.category, 255) && IsInt32(r.rank)
  }

  /** models/event.py: `event_id` String(20), `event_name` String(255), `season` String(100). */
  predicate EventFits(e: Event) {
    Fits(e.eventId, 20) && Fits(e.eventName, 255) && Fits(e.season, 100)
  }

  /** models/asset.py: both ids String(20), `asset_url` String(500), `asset_name` String(255). */
  predicate AssetFits(a: Asset) {
    Fits(a.assetId, 20) && Fits(a.registrationId, 20) && Fits(a.url, 500) && Fits(a.name, 255)
  }

  /** models/contact_us.py: `name` and `email` String(255), `phone_number` String(20) when
      given, `subject` String(500). */
  predicate ContactFits(c: Contact) {
    && Fits(c.name, 255) && Fits(c.email, 255)
    && (c.phoneNumber.Some? ==> Fits(c.phoneNumber.value, 20)) && Fits(c.subject, 500)
  }

  /** Every stored value fits its column. */
  predicate ColumnsFit(db: Db) {
    && Every(db.users, UserFits)
    && Every(db.registrations, RegistrationFits)
    && Every(db.results, ResultFits)
    && Every(db.events, EventFits)
    && Every(db.assets, AssetFits)
    && Every(db.contacts, ContactFits)
  }

  /** The constraints the database checks when a transaction commits. */
  predicate Consistent(db: Db) {
    && ColumnsFit(db)
    && UniqueKeys(db.users, UserKey)
    && UniqueKeys(db.users, UserEmail)
    && UniqueKeys(db.registrations, RegistrationKey)
    && UniqueKeys(db.results, ResultKey)
    && UniqueKeys(db.events, EventKey)
    && UniqueKeys(db.assets, AssetKey)
    && UniqueKeys(db.contacts, ContactKey)
    && RegistrationsReferenceUsers(db)
    && AssetsReferenceRegistrations(db)
    && ContactIdsIssued(db)
  }

  /** What a service answers: the database after the request, and either a reply or the
      HTTPException it raised. */
  datatype Response<+T> = Response(db: Db, body: Result<T, HttpError>)

  /** Stands in for the text of the database's exception: an IntegrityError for a key, a
      DataError for a value too long or out of range. */
  const INTEGRITY_ERROR := "IntegrityError"

  /** `db.commit()`: the new state is kept when it satisfies the constraints; otherwise the
      database's error escapes the service, FastAPI answers 500 and the session is rolled back. */
  function Commit<T>(before: Db, after: Db, reply: T): (r: Response<T>)
    ensures r.body.Ok? <==> Consistent(after)
    ensures r.body.Ok? ==> r.db == after && r.body.value == reply
    ensures r.body.Err? ==> r.db == before && r.body.error.status == SERVER_ERROR
  {
    if Consistent(after) then Response(after, Ok(reply))
    else Response(before, Err(HttpError(SERVER_ERROR, INTEGRITY_ERROR)))
  }

  /** An error raised before anything was written. */
  function Fail<T>(db: Db, status: int, detail: string): (r: Response<T>)
    ensures r.db == db && r.body == Err(HttpError(status, detail))
  {
    Response(db, Err(HttpError(status, detail)))
  }

  /** Pydantic's `EmailStr` on a request field: `None` for a string it refuses, and FastAPI then
      answers 422 before the service runs; otherwise the normalised address the service
      receives (email-validator lower-cases the domain part, for one). */
  type EmailStr = string -> Option<string>

  const INVALID_EMAIL := "value is not a valid email address"

  /** An optional `EmailStr` field: `None` when EmailStr refuses the address supplied, otherwise
      the field with the address in normal form. */
  function CheckedEmail(e: Option<string>, emailStr: EmailStr): (r: Option<Option<string>>)
    ensures r.None? <==> e.Some? && emailStr(e.value).None?
    ensures r.Some? ==> (r.value.Some? <==> e.Some?)
    ensures r.Some? && e.Some? ==> r.value == emailStr(e.value)
  {
    match e
    case None => Some(None)
    case Some(a) => if emailStr(a).None? then None else Some(emailStr(a))
  }

  /** The results and events tables have no foreign keys: replacing either keeps the database
      consistent exactly when its primary key still holds and every row fits its columns. */
  lemma ResultsNeedOnlyUniqueKeys(db: Db, rows: seq<ResultRow>)
    ensures Consistent(db) ==>
      (Consistent(db.(results := rows)) <==> UniqueKeys(rows, ResultKey) && Every(rows, ResultFits))
  {
  }

  lemma EventsNeedOnlyUniqueKeys(db: Db, rows: seq<Event>)
    ensures Consistent(db) ==>
      (Consistent(db.(events := rows)) <==> UniqueKeys(rows, EventKey) && Every(rows, EventFits))
  {
  }
}

=== FILE: sign_up.dfy ===
/** pages/auth/SignUp.tsx: account creation from a contestant id. */
module SignUpForm {
  import opened Wrappers
  import opened Text
  import RegistrationWizard
  import EventTypes

  const EVENT_CODES: seq<char> := ['A', 'P', 'M', 'D', 'R', 'S']

  /** `validateContestantId`, the pattern `^S1[APMDRS]\d{5}$`. */
  predicate ValidContestantId(id: string) {
    |id| == 8 && id[0] == 'S' && id[1] == '1' && id[2] in EVENT_CODES && AllDigits(id[3..])
  }

  datatype SignUpFields = SignUpFields(contestantId: string, password: string, confirmPassword: string)

  datatype SignUpError = EmptyField | InvalidContestantId | ShortPassword | PasswordMismatch

  /** `handleSubmit` up to the request: the first failing check. */
  function CheckSignUp(f: SignUpFields): (r: Option<SignUpError>)
    ensures r == Some(EmptyField) <==> f.contestantId == "" || f.password == "" || f.confirmPassword == ""
    ensures r == Some(InvalidContestantId) ==> !ValidContestantId(f.contestantId)
    ensures r == Some(ShortPassword) ==> ValidContestantId(f.contestantId) && Utf16Length(f.password) < 8
    ensures r == Some(PasswordMismatch) ==>
              ValidContestantId(f.contestantId) && Utf16Length(f.password) >= 8 && f.password != f.confirmPassword
    ensures r.None? <==> ValidContestantId(f.contestantId) && Utf16Length(f.password) >= 8 && f.password == f.confirmPassword
  {
    if f.contestantId == "" || f.password == "" || f.confirmPassword == "" then Some(EmptyField)
    else if !ValidContestantId(f.contestantId) then Some(InvalidContestantId)
    else if Utf16Length(f.password) < 8 then Some(ShortPassword)
    else if f.password != f.confirmPassword then Some(PasswordMismatch)
    else None
  }

  /** `password.length` counts UTF-16 code units: four characters above U+FFFF make eight, so a
      password of four emoji is long enough. */
  lemma AstralPasswordLongEnough(id: string)
    requires ValidContestantId(id)
    ensures var pw := "\U{1F600}\U{1F600}\U{1F600}\U{1F600}";
            |pw| == 4 && CheckSignUp(SignUpFields(id, pw, pw)).None?
  {
    var e := "\U{1F600}";
    assert Utf16Length(e) == 2;
    Utf16LengthConcat(e, e);
    Utf16LengthConcat(e + e, e);
    Utf16LengthConcat(e + e + e, e);
    assert e + e + e + e == "\U{1F600}\U{1F600}\U{1F600}\U{1F600}";
  }

  lemma PaddedNumberLength(n: nat)
    ensures |PadStart(Decimal(n), 3, '0')| == 3 <==> n < 1000
    ensures AllDigits(PadStart(Decimal(n), 3, '0'))
  {
    PaddedValue(Decimal(n), 3);
    assert Pow10(3) == 1000;
    if n < 1000 {
      DecimalLength(n, 3);
    } else {
      DecimalLengthAtLeast(n, 3);
    }
  }

  /** A registration id of a known competition passes the sign-up pattern exactly when its
      number has at most three digits; an unknown competition's id never does. */
  lemma ParticipantIdAccepted(t: string, n: nat)
    ensures ValidContestantId(RegistrationWizard.ParticipantId(t, n)) <==> t in EventTypes.TYPE_KEYS && n < 1000
  {
    var id := RegistrationWizard.ParticipantId(t, n);
    var num := PadStart(Decimal(n), 3, '0');
    PaddedNumberLength(n);
    if t in EventTypes.TYPE_KEYS {
      var c := RegistrationWizard.EventCode(t).value;
      assert id == ['S', '1', c, '2', '5'] + num;
      assert id[3..] == ['2', '5'] + num;
      assert c in EVENT_CODES;
    } else {
      assert id[2] == 'u';
    }
  }

  /** The wizard's unused generator can form ids the sign-up page refuses: draw 999 gives
      number 1000 and the nine-character id `S1A251000`. No such id reaches a participant,
      because nothing calls the generator. */
  lemma GeneratedIdRejected()
    ensures RegistrationWizard.GenerateParticipantIdAsWritten("art", 999) == "S1A25" + Decimal(1000)
    ensures !ValidContestantId(RegistrationWizard.GenerateParticipantIdAsWritten("art", 999))
  {
    ParticipantIdAccepted("art", 1000);
    PaddedNumberLength(1000);
    assert Pow10(3) == 1000;
    DecimalLengthAtLeast(1000, 3);
  }
}

=== FILE: sql_like.dfy ===
/** SQL `LIKE` / `ILIKE` as used by the services' listing filters (`col.ilike(f"%{value}%")`).
    The filter value is spliced into the pattern unescaped, so `%` and `_` inside it keep their
    wildcard meaning. */
module SqlLike {
  import opened Text

  /** `s LIKE p`: `%` matches any run of characters, `_` exactly one, anything else itself. */
  predicate Like(s: string, p: string)
    decreases |s| + |p|
  {
    if |p| == 0 then |s| == 0
    else if p[0] == '%' then Like(s, p[1..]) || (|s| > 0 && Like(s[1..], p))
    else |s| > 0 && (p[0] == '_' || s[0] == p[0]) && Like(s[1..], p[1..])
  }

  /** `s ILIKE p`: LIKE after lower-casing both sides. */
  predicate ILike(s: string, p: string) {
    Like(Lower(s), Lower(p))
  }

  /** The pattern SQLAlchemy's filters build from a value: `%value%`. */
  function Surround(v: string): string { "%" + v + "%" }

  /** `col.ilike(f"%{v}%")`. */
  predicate IContains(col: string, v: string) { ILike(col, Surround(v)) }

  predicate NoWildcards(v: string) {
    forall i :: 0 <= i < |v| ==> v[i] != '%' && v[i] != '_'
  }

  lemma {:induction false} PercentMatchesAll(s: string)
    ensures Like(s, "%")
    decreases |s|
  {
    if |s| > 0 {
      PercentMatchesAll(s[1..]);
    }
  }

  /** `v%` matches exactly the strings that start with a wildcard-free `v`. */
  lemma {:induction false} TrailingPercentIsPrefix(s: string, v: string)
    requires NoWildcards(v)
    ensures Like(s, v + "%") <==> v <= s
    decreases |v|
  {
    if |v| == 0 {
      assert v + "%" == "%";
      PercentMatchesAll(s);
    } else {
      assert (v + "%")[1..] == v[1..] + "%";
      if |s| > 0 {
        TrailingPercentIsPrefix(s[1..], v[1..]);
      }
    }
  }

  /** `%v%` matches exactly the strings that contain a wildcard-free `v`. */
  lemma {:induction false} SurroundIsContains(s: string, v: string)
    requires NoWildcards(v)
    ensures Like(s, Surround(v)) <==> Contains(s, v)
    decreases |s|
  {
    assert Surround(v)[1..] == v + "%";
    TrailingPercentIsPrefix(s, v);
    if |s| > 0 {
      SurroundIsContains(s[1..], v);
    }
  }

  lemma LowerKeepsNoWildcards(v: string)
    requires NoWildcards(v)
    ensures NoWildcards(Lower(v))
  {
  }

  /** For a filter value without `%` or `_`, the SQL filter is the frontend's case-insensitive
      substring test. */
  lemma IContainsIsContainsIgnoreCase(col: string, v: string)
    requires NoWildcards(v)
    ensures IContains(col, v) <==> ContainsIgnoreCase(col, v)
  {
    assert Lower(Surround(v)) == Surround(Lower(v));
    LowerKeepsNoWildcards(v);
    SurroundIsContains(Lower(col), Lower(v));
  }

  /** A filter value of `_` is not literal: it matches every non-empty column. */
  lemma UnderscoreMatchesAnyNonEmpty(col: string)
    requires |col| > 0
    ensures IContains(col, "_")
  {
    var l := Lower(col);
    assert Lower(Surround("_")) == "%_%";
    assert Like(l[1..], "%") by { PercentMatchesAll(l[1..]); }
    assert Like(l, "_%");
    assert Like(l, "%_%");
  }
}

=== FILE: submission_form.dfy ===
/** components/forms/SubmissionForm.tsx: the artwork submission form and its file picker. The
    chosen files are a JavaScript array assigned by slot index, so it can have holes (`Empty`)
    and, once copied with a spread, explicit `undefined` entries (`Undef`). */
module SubmissionForm {
  import opened Wrappers
  import opened Text
  import opened Forms

  datatype File = File(name: string, mimeType: string, size: nat)

  datatype FileType = ImageFile | VideoFile

  /** `['dance', 'singing'].includes(eventType) ? 'video' : 'image'`. */
  function FileTypeFor(eventType: string): (r: FileType)
    ensures r == VideoFile <==> eventType == "dance" || eventType == "singing"
  {
    if eventType in ["dance", "singing"] then VideoFile else ImageFile
  }

  /** The largest file the picker takes: 10 MiB. */
  const MAX_FILE_SIZE: nat := 10 * 1024 * 1024

  /** `handleFile`: the MIME type must fit the competition and the size the limit. */
  predicate AcceptsFile(fileType: FileType, f: File) {
    && (fileType == ImageFile ==> StartsWith(f.mimeType, "image/"))
    && (fileType == VideoFile ==> StartsWith(f.mimeType, "video/"))
    && f.size <= MAX_FILE_SIZE
  }

  /** A picked file reaches the form only when accepted; otherwise the slot keeps what it had. */
  function PickFile(fileType: FileType, slot: Option<File>, f: File): (r: Option<File>)
    ensures r == if AcceptsFile(fileType, f) then Some(f) else slot
  {
    if AcceptsFile(fileType, f) then Some(f) else slot
  }

  /** A dance video is never taken for a painting, nor a painting for a dance. */
  lemma PickedFileFitsCompetition(eventType: string, slot: Option<File>, f: File)
    requires slot.Some? ==> AcceptsFile(FileTypeFor(eventType), slot.value)
    ensures var r := PickFile(FileTypeFor(eventType), slot, f);
            r.Some? ==> r.value.size <= MAX_FILE_SIZE
                        && (eventType in {"dance", "singing"} <==> StartsWith(r.value.mimeType, "video/"))
  {
    var r := PickFile(FileTypeFor(eventType), slot, f);
    if r.Some? {
      var m := r.value.mimeType;
      if StartsWith(m, "image/") && StartsWith(m, "video/") {
        assert m[0] == 'i' && m[0] == 'v';
      }
    }
  }

  /** One entry of the chosen-files array. `[...files]` reads a hole as `undefined` and writes
      that value back, so a hole that has been through a copy is no longer skipped. */
  datatype Slot = Empty | Undef | Has(file: File)

  type Slots = seq<Slot>

  function Holes(n: nat): (r: Slots)
    ensures |r| == n && forall i :: 0 <= i < n ==> r[i].Empty?
  {
    seq(n, _ => Empty)
  }

  /** What the spread copy makes of one entry. */
  function Copied(s: Slot): (r: Slot)
    ensures r.Empty? == false && (s.Has? ==> r == s)
  {
    if s.Empty? then Undef else s
  }

  /** `handleFileSelect`: `[...files]` followed by `newFiles[index] = file`. The copy turns every
      hole into an explicit `undefined`; an index past the end lengthens the array with new holes. */
  function HandleFileSelect(files: Slots, index: nat, f: File): (r: Slots)
    ensures |r| == if index < |files| then |files| else index + 1
    ensures r[index] == Has(f)
    ensures forall i :: 0 <= i < |r| && i != index ==> r[i] == if i < |files| then Copied(files[i]) else Empty
  {
    var copy := seq(|files|, i requires 0 <= i < |files| => Copied(files[i]));
    if index < |files| then copy[index := Has(f)] else copy + Holes(index - |files|) + [Has(f)]
  }

  datatype FormFields = FormFields(firstName: string, lastName: string, email: string, phoneNumber: string)

  datatype FormError = MissingFields | InvalidEmail | InvalidPhone | MissingArtworks

  /** The checks before the file check, in order. */
  function CheckFields(f: FormFields): (r: Option<FormError>)
    ensures r.None? <==> f.firstName != "" && f.lastName != "" && EmailPattern(f.email) && TenDigits(f.phoneNumber)
    ensures r == Some(MissingFields) <==> f.firstName == "" || f.lastName == "" || f.email == "" || f.phoneNumber == ""
    ensures r.Some? ==> r.value != MissingArtworks
  {
    if f.firstName == "" || f.lastName == "" || f.email == "" || f.phoneNumber == "" then Some(MissingFields)
    else if !EmailPattern(f.email) then Some(InvalidEmail)
    else if !TenDigits(f.phoneNumber) then Some(InvalidPhone)
    else None
  }

  /** `validateForm` as written: the file check compares the array's length. */
  function ValidateFormAsWritten(f: FormFields, files: Slots, numberOfArtworks: nat): (r: Option<FormError>)
    ensures CheckFields(f).Some? ==> r == CheckFields(f)
    ensures CheckFields(f).None? ==> (r.None? <==> |files| >= numberOfArtworks)
  {
    if CheckFields(f).Some? then CheckFields(f)
    else if |files| < numberOfArtworks then Some(MissingArtworks)
    else None
  }

  /** Every one of the first `n` slots holds a file. */
  predicate SlotsFilled(files: Slots, n: nat) {
    n <= |files| && forall i :: 0 <= i < n ==> files[i].Has?
  }

  /** `validateForm` with the file check the error message asks for: a file in each slot. */
  function ValidateForm(f: FormFields, files: Slots, numberOfArtworks: nat): (r: Option<FormError>)
    ensures CheckFields(f).Some? ==> r == CheckFields(f)
    ensures CheckFields(f).None? ==> (r.None? <==> SlotsFilled(files, numberOfArtworks))
  {
    if CheckFields(f).Some? then CheckFields(f)
    else if !SlotsFilled(files, numberOfArtworks) then Some(MissingArtworks)
    else None
  }

  function ArtworkKey(slot: nat): string { "artwork" + Decimal(slot + 1) }

  /** A value appended to the form data: a file, or a string, which is what `FormData` makes of
      anything that is not a file. */
  datatype FieldValue = FileValue(File) | TextValue(string)

  /** The value `forEach` hands to `append` for an entry it visits: `undefined` becomes the text
      "undefined". */
  function SentValue(s: Slot): (v: FieldValue)
    requires !s.Empty?
    ensures s.Has? <==> v.FileValue?
    ensures s.Undef? ==> v == TextValue("undefined")
  {
    if s.Has? then FileValue(s.file) else TextValue("undefined")
  }

  /** The slots `forEach` visits, in ascending order: every slot that is not a hole. */
  function SentSlots(files: Slots): (slots: seq<nat>)
    ensures forall k :: 0 <= k < |slots| ==> slots[k] < |files| && !files[slots[k]].Empty?
    ensures forall a, b :: 0 <= a < b < |slots| ==> slots[a] < slots[b]
    ensures forall i :: 0 <= i < |files| && !files[i].Empty? ==> i in slots
    decreases |files|
  {
    if |files| == 0 then []
    else
      var front := files[..|files| - 1];
      assert forall i :: 0 <= i < |front| ==> front[i] == files[i];
      if files[|files| - 1].Empty? then SentSlots(front) else SentSlots(front) + [|files| - 1]
  }

  /** The form fields the files are sent under: `artwork1`, `artwork2`, ... by slot. `forEach`
      skips holes but visits an explicit `undefined`. The k-th field comes from the k-th visited
      slot, so the fields follow slot order and no slot is sent twice. */
  function ArtworkFields(files: Slots): (r: seq<(string, FieldValue)>)
    ensures |r| == |SentSlots(files)| <= |files|
    ensures forall k :: 0 <= k < |r| ==>
              r[k] == (ArtworkKey(SentSlots(files)[k]), SentValue(files[SentSlots(files)[k]]))
    ensures forall i :: 0 <= i < |files| && files[i].Has? ==> (ArtworkKey(i), FileValue(files[i].file)) in r
    ensures forall i :: 0 <= i < |files| && files[i].Undef? ==> (ArtworkKey(i), TextValue("undefined")) in r
    ensures forall e :: e in r ==> exists i :: 0 <= i < |files| && !files[i].Empty?
                                              && e == (ArtworkKey(i), SentValue(files[i]))
    decreases |files|
  {
    if |files| == 0 then []
    else
      var front := files[..|files| - 1];
      var earlier := ArtworkFields(front);
      assert forall i :: 0 <= i < |front| ==> front[i] == files[i];
      var last := files[|files| - 1];
      if last.Empty? then earlier else earlier + [(ArtworkKey(|files| - 1), SentValue(last))]
  }

  /** Different slots are sent under different keys. */
  lemma ArtworkKeyInjective(a: nat, b: nat)
    requires ArtworkKey(a) == ArtworkKey(b)
    ensures a == b
  {
    assert ArtworkKey(a)[7..] == Decimal(a + 1);
    assert ArtworkKey(b)[7..] == Decimal(b + 1);
    DecimalRoundTrip(a + 1);
    DecimalRoundTrip(b + 1);
  }

  /** No key is sent twice: the fields' keys are pairwise distinct. */
  lemma ArtworkKeysDistinct(files: Slots)
    ensures var r := ArtworkFields(files);
            forall a, b :: 0 <= a < b < |r| ==> r[a].0 != r[b].0
  {
    var r := ArtworkFields(files);
    var slots := SentSlots(files);
    forall a, b | 0 <= a < b < |r| ensures r[a].0 != r[b].0 {
      if r[a].0 == r[b].0 {
        ArtworkKeyInjective(slots[a], slots[b]);
      }
    }
  }

  /** The number of files actually sent. */
  function FilledCount(files: Slots): (c: nat)
    ensures c <= |files|
    decreases |files|
  {
    if |files| == 0 then 0 else (if files[0].Has? then 1 else 0) + FilledCount(files[1..])
  }

  lemma {:induction false} FilledCountAllFilled(files: Slots)
    requires SlotsFilled(files, |files|)
    ensures FilledCount(files) == |files|
    decreases |files|
  {
    if |files| > 0 {
      FilledCountAllFilled(files[1..]);
    }
  }

  lemma {:induction false} FilledCountSplit(files: Slots, n: nat)
    requires n <= |files|
    ensures FilledCount(files) == FilledCount(files[..n]) + FilledCount(files[n..])
    decreases n
  {
    if n > 0 {
      FilledCountSplit(files[1..], n - 1);
      assert files[1..][..n - 1] == files[..n][1..];
      assert files[1..][n - 1..] == files[n..];
    }
  }

  /** Accepted by the corrected check, the form sends at least the number of files paid for. */
  lemma ValidFormSendsEveryArtwork(f: FormFields, files: Slots, n: nat)
    requires ValidateForm(f, files, n).None?
    ensures FilledCount(files) >= n
    ensures forall i :: 0 <= i < n ==> i < |files| && files[i].Has? && (ArtworkKey(i), FileValue(files[i].file)) in ArtworkFields(files)
  {
    FilledCountSplit(files, n);
    assert SlotsFilled(files[..n], n);
    FilledCountAllFilled(files[..n]);
  }

  /** Picking only the second of two artworks passes the written check although one file is
      sent. */
  lemma HoleSlipsThrough(f: FormFields, x: File)
    requires CheckFields(f).None?
    ensures var files := HandleFileSelect([], 1, x);
            ValidateFormAsWritten(f, files, 2).None? && FilledCount(files) == 1
            && ValidateForm(f, files, 2) == Some(MissingArtworks)
  {
    var files := HandleFileSelect([], 1, x);
    assert files == [Empty, Has(x)];
    assert files[1..] == [Has(x)];
  }

  /** Paying for three artworks and picking the second, then the third: the copy made by the
      second pick turns the first hole into `undefined`, the written check passes, and the first
      artwork goes out as the text "undefined". */
  lemma UndefinedArtworkSent(f: FormFields, x: File, y: File)
    requires CheckFields(f).None?
    ensures var files := HandleFileSelect(HandleFileSelect([], 1, x), 2, y);
            && ValidateFormAsWritten(f, files, 3).None?
            && (ArtworkKey(0), TextValue("undefined")) in ArtworkFields(files)
            && ValidateForm(f, files, 3) == Some(MissingArtworks)
  {
    var once := HandleFileSelect([], 1, x);
    assert once == [Empty, Has(x)];
    var files := HandleFileSelect(once, 2, y);
    assert files == [Undef, Has(x), Has(y)];
  }
}

=== FILE: text.dfy ===
/** String helpers shared by the backend (Python) and the frontend (TypeScript) models.
    Case mapping is ASCII-only; the runtimes map the whole of Unicode. */
module Text {
  import opened Wrappers

  // ---------------------------------------------------------------- characters

  predicate IsUpper(c: char) { 'A' <= c <= 'Z' }
  predicate IsLowerLetter(c: char) { 'a' <= c <= 'z' }
  predicate IsLetter(c: char) { IsUpper(c) || IsLowerLetter(c) }
  predicate IsDigit(c: char) { '0' <= c <= '9' }

  function LowerChar(c: char): char {
    if IsUpper(c) then (c as int + 32) as char else c
  }

  function UpperChar(c: char): char {
    if IsLowerLetter(c) then (c as int - 32) as char else c
  }

  /** `s.toLowerCase()` / `str.lower()` on ASCII letters. */
  function Lower(s: string): (r: string)
    ensures |r| == |s|
    ensures forall i :: 0 <= i < |s| ==> r[i] == LowerChar(s[i])
  {
    seq(|s|, i requires 0 <= i < |s| => LowerChar(s[i]))
  }

  /** `s.toUpperCase()` on ASCII letters. */
  function Upper(s: string): (r: string)
    ensures |r| == |s|
    ensures forall i :: 0 <= i < |s| ==> r[i] == UpperChar(s[i])
  {
    seq(|s|, i requires 0 <= i < |s| => UpperChar(s[i]))
  }

  /** The characters JavaScript's `\s` and `String.prototype.trim` treat as white space. */
  predicate IsJsSpace(c: char) {
    (9 <= c as int <= 13) || c == ' ' || c as int == 0xA0 || c as int == 0x1680
    || (0x2000 <= c as int <= 0x200A) || c as int == 0x2028 || c as int == 0x2029
    || c as int == 0x202F || c as int == 0x205F || c as int == 0x3000 || c as int == 0xFEFF
  }

  /** The ASCII white space Python's `int()` strips around a literal. */
  predicate IsPySpace(c: char) { c == ' ' || (9 <= c as int <= 13) }

  /** `!s.trim()` in JavaScript: the string is empty after trimming. */
  predicate IsBlank(s: string) { forall i :: 0 <= i < |s| ==> IsJsSpace(s[i]) }

  // ---------------------------------------------------------------- prefixes and substrings

  predicate StartsWith(s: string, prefix: string) { prefix <= s }

  predicate EndsWith(s: string, suffix: string) {
    |suffix| <= |s| && s[|s| - |suffix|..] == suffix
  }

  /** `t` occurs in `s` at position `i`. */
  predicate OccursAt(s: string, t: string, i: int) {
    0 <= i && i + |t| <= |s| && s[i..i + |t|] == t
  }

  /** `s.includes(t)` / Python's `t in s`. */
  predicate Contains(s: string, t: string)
    decreases |s|
  {
    t <= s || (|s| > 0 && Contains(s[1..], t))
  }

  lemma {:induction false} ContainsIffOccurs(s: string, t: string)
    ensures Contains(s, t) <==> exists i :: OccursAt(s, t, i)
    decreases |s|
  {
    if t <= s {
      assert OccursAt(s, t, 0);
    } else if |s| == 0 {
      assert forall i :: !OccursAt(s, t, i);
    } else {
      ContainsIffOccurs(s[1..], t);
      PrefixIsOccurrenceAtZero(s, t);
      forall i | OccursAt(s, t, i) && i > 0 ensures OccursAt(s[1..], t, i - 1) {
        assert s[1..][i - 1..i - 1 + |t|] == s[i..i + |t|];
      }
      forall i | OccursAt(s[1..], t, i) ensures OccursAt(s, t, i + 1) {
        assert s[1..][i..i + |t|] == s[i + 1..i + 1 + |t|];
      }
    }
  }

  lemma PrefixIsOccurrenceAtZero(s: string, t: string)
    ensures t <= s <==> OccursAt(s, t, 0)
  {
    if OccursAt(s, t, 0) {
      assert s[..|t|] == t;
    }
  }

  /** The empty string occurs in every string. */
  lemma ContainsEmpty(s: string)
    ensures Contains(s, [])
  {
  }

  /** Every string contains itself. */
  lemma ContainsSelf(s: string)
    ensures Contains(s, s)
  {
  }

  /** Case-insensitive substring test as the frontend writes it:
      `hay.toLowerCase().includes(needle.toLowerCase())`. */
  predicate ContainsIgnoreCase(hay: string, needle: string) {
    Contains(Lower(hay), Lower(needle))
  }

  // ---------------------------------------------------------------- decimal numbers

  predicate AllDigits(s: string) { forall i :: 0 <= i < |s| ==> IsDigit(s[i]) }

  function DigitChar(d: nat): (c: char)
    requires d < 10
    ensures IsDigit(c)
  {
    ('0' as int + d) as char
  }

  function DigitValue(c: char): nat
    requires IsDigit(c)
  {
    c as int - '0' as int
  }

  function Pow10(k: nat): (r: nat)
    ensures r >= 1
  {
    if k == 0 then 1 else 10 * Pow10(k - 1)
  }

  /** Python's `str(n)` / JavaScript's `String(n)` for a natural number. */
  function Decimal(n: nat): (r: string)
    ensures |r| >= 1 && AllDigits(r)
    decreases n
  {
    if n < 10 then [DigitChar(n)] else Decimal(n / 10) + [DigitChar(n % 10)]
  }

  /** The value of a string of decimal digits. */
  function DigitsValue(s: string): nat
    requires AllDigits(s)
  {
    if |s| == 0 then 0 else DigitsValue(s[..|s| - 1]) * 10 + DigitValue(s[|s| - 1])
  }

  lemma {:induction false} DecimalRoundTrip(n: nat)
    ensures DigitsValue(Decimal(n)) == n
    decreases n
  {
    if n >= 10 {
      DecimalRoundTrip(n / 10);
      var d := Decimal(n);
      assert d[..|d| - 1] == Decimal(n / 10);
    }
  }

  lemma {:induction false} DecimalLength(n: nat, k: nat)
    requires k >= 1 && n < Pow10(k)
    ensures |Decimal(n)| <= k
    decreases k
  {
    assert Pow10(1) == 10;
    if n >= 10 {
      DecimalLength(n / 10, k - 1);
    }
  }

  /** A number of at least `k + 1` digits. */
  lemma {:induction false} DecimalLengthAtLeast(n: nat, k: nat)
    requires n >= Pow10(k)
    ensures |Decimal(n)| > k
    decreases k
  {
    if k > 0 {
      assert Pow10(k) == 10 * Pow10(k - 1);
      DecimalLengthAtLeast(n / 10, k - 1);
    }
  }

  /** Leading zeros do not change a number's value. */
  lemma {:induction false} PaddedValue(s: string, width: nat)
    requires AllDigits(s)
    ensures AllDigits(PadStart(s, width, '0')) && DigitsValue(PadStart(s, width, '0')) == DigitsValue(s)
    decreases width - |s|
  {
    if |s| < width {
      var t := ['0'] + s;
      assert AllDigits(t);
      LeadingZeroValue(s);
      PaddedValue(t, width);
    }
  }

  lemma {:induction false} LeadingZeroValue(s: string)
    requires AllDigits(s)
    ensures AllDigits(['0'] + s) && DigitsValue(['0'] + s) == DigitsValue(s)
    decreases |s|
  {
    var t := ['0'] + s;
    assert AllDigits(t);
    if |s| > 0 {
      assert t[..|t| - 1] == ['0'] + s[..|s| - 1];
      LeadingZeroValue(s[..|s| - 1]);
    }
  }

  /** Python's `str(i)` for any integer. */
  function IntToString(i: int): string {
    if i < 0 then "-" + Decimal(-i) else Decimal(i)
  }

  function StripLeft(s: string): (r: string)
    ensures |r| <= |s| && (|r| > 0 ==> !IsPySpace(r[0]))
    decreases |s|
  {
    if |s| > 0 && IsPySpace(s[0]) then StripLeft(s[1..]) else s
  }

  function StripRight(s: string): (r: string)
    ensures |r| <= |s| && (|r| > 0 ==> !IsPySpace(r[|r| - 1]))
    decreases |s|
  {
    if |s| > 0 && IsPySpace(s[|s| - 1]) then StripRight(s[..|s| - 1]) else s
  }

  /** Python's `int(s)` on a string: surrounding white space, an optional sign, then at least one
      ASCII digit; anything else raises `ValueError` (here `None`). */
  function ParseInt(s: string): Option<int> {
    var t := StripRight(StripLeft(s));
    if |t| > 0 && (t[0] == '-' || t[0] == '+') then
      (if |t| > 1 && AllDigits(t[1..]) then
         var magnitude: int := DigitsValue(t[1..]);
         Some(if t[0] == '-' then -magnitude else magnitude)
       else None)
    else if |t| > 0 && AllDigits(t) then Some(DigitsValue(t))
    else None
  }

  lemma StripsOfDigits(s: string)
    requires |s| > 0 && AllDigits(s)
    ensures StripLeft(s) == s && StripRight(s) == s
  {
  }

  /** A minus sign and digits parse to the negated value. */
  lemma ParseNegative(n: nat)
    ensures ParseInt("-" + Decimal(n)) == Some(-(n as int))
  {
    var d := Decimal(n);
    DecimalRoundTrip(n);
    var s := "-" + d;
    assert !IsPySpace(s[0]);
    assert StripLeft(s) == s;
    assert s[|s| - 1] == d[|d| - 1];
    assert StripRight(s) == s;
    assert s[1..] == d;
  }

  /** Parsing what `str()` printed gives the integer back. */
  lemma ParseIntOfIntToString(i: int)
    ensures ParseInt(IntToString(i)) == Some(i)
  {
    if i < 0 {
      ParseNegative(-i);
    } else {
      DecimalRoundTrip(i);
      StripsOfDigits(Decimal(i));
    }
  }

  // ---------------------------------------------------------------- other Python / JS string operations

  /** Python's `str.title()` on ASCII text: a letter is upper-cased when the character before it
      is not a letter, and lower-cased otherwise. */
  function TitleFrom(s: string, afterLetter: bool): (r: string)
    ensures |r| == |s|
    decreases |s|
  {
    if |s| == 0 then []
    else
      var c := s[0];
      [if IsLetter(c) then (if afterLetter then LowerChar(c) else UpperChar(c)) else c]
      + TitleFrom(s[1..], IsLetter(c))
  }

  function Title(s: string): string { TitleFrom(s, false) }

  /** A word of lower-case letters is title-cased by upper-casing its first letter only. */
  lemma {:induction false} TitleOfLowerWordFrom(w: string)
    requires forall i :: 0 <= i < |w| ==> IsLowerLetter(w[i])
    ensures TitleFrom(w, true) == w
    decreases |w|
  {
    if |w| > 0 {
      TitleOfLowerWordFrom(w[1..]);
    }
  }

  lemma TitleOfLowerWord(w: string)
    requires |w| > 0 && forall i :: 0 <= i < |w| ==> IsLowerLetter(w[i])
    ensures Title(w) == [UpperChar(w[0])] + w[1..]
  {
    TitleOfLowerWordFrom(w[1..]);
  }

  /** JavaScript's `s.split(sep)` for a one-character separator. */
  function Split(s: string, sep: char): (r: seq<string>)
    ensures |r| >= 1
    decreases |s|
  {
    if |s| == 0 then [[]]
    else
      var rest := Split(s[1..], sep);
      if s[0] == sep then [[]] + rest else [[s[0]] + rest[0]] + rest[1..]
  }

  /** `lines.join(sep)` for a one-character separator. */
  function Join(lines: seq<string>, sep: char): (r: string)
    requires |lines| >= 1
    decreases |lines|
  {
    if |lines| == 1 then lines[0] else lines[0] + [sep] + Join(lines[1..], sep)
  }

  lemma {:induction false} SplitAfterPlainPrefix(a: string, sep: char, tail: string)
    requires sep !in a
    ensures var t := Split(tail, sep);
            Split(a + tail, sep) == [a + t[0]] + t[1..]
    decreases |a|
  {
    if |a| > 0 {
      SplitAfterPlainPrefix(a[1..], sep, tail);
      assert (a + tail)[1..] == a[1..] + tail;
      assert [a[0]] + (a[1..] + Split(tail, sep)[0]) == a + Split(tail, sep)[0];
    } else {
      var t := Split(tail, sep);
      assert a + tail == tail && a + t[0] == t[0];
      assert t == [t[0]] + t[1..];
    }
  }

  /** Splitting joined lines gives the lines back when none contains the separator. */
  lemma {:induction false} SplitJoin(lines: seq<string>, sep: char)
    requires |lines| >= 1 && forall i :: 0 <= i < |lines| ==> sep !in lines[i]
    ensures Split(Join(lines, sep), sep) == lines
    decreases |lines|
  {
    if |lines| == 1 {
      SplitAfterPlainPrefix(lines[0], sep, []);
      assert lines[0] + [] == lines[0];
    } else {
      SplitJoin(lines[1..], sep);
      var rest := [sep] + Join(lines[1..], sep);
      assert Split(rest, sep) == [[]] + lines[1..];
      SplitAfterPlainPrefix(lines[0], sep, rest);
      assert lines[0] + [sep] + Join(lines[1..], sep) == lines[0] + rest;
      assert lines[0] + [] == lines[0];
    }
  }

  /** JavaScript's `s.length`: UTF-16 code units, one for a character up to U+FFFF and a
      surrogate pair for any character above it. */
  function Utf16Length(s: string): (n: nat)
    ensures |s| <= n <= 2 * |s|
    ensures n == |s| <==> forall i :: 0 <= i < |s| ==> s[i] as int < 0x1_0000
    decreases |s|
  {
    if |s| == 0 then 0
    else
      assert forall i :: 1 <= i < |s| ==> s[i] == s[1..][i - 1];
      (if s[0] as int < 0x1_0000 then 1 else 2) + Utf16Length(s[1..])
  }

  /** Code units add up over concatenation. */
  lemma {:induction false} Utf16LengthConcat(a: string, b: string)
    ensures Utf16Length(a + b) == Utf16Length(a) + Utf16Length(b)
    decreases |a|
  {
    if |a| > 0 {
      assert (a + b)[1..] == a[1..] + b;
      Utf16LengthConcat(a[1..], b);
    } else {
      assert a + b == b;
    }
  }

  /** JavaScript's `s.replace(c, d)` with a string pattern: only the first occurrence. */
  function ReplaceFirst(s: string, c: char, d: char): (r: string)
    ensures |r| == |s|
    decreases |s|
  {
    if |s| == 0 then []
    else if s[0] == c then [d] + s[1..]
    else [s[0]] + ReplaceFirst(s[1..], c, d)
  }

  /** `s.substring(0, n)` / Python's `s[:n]` for n >= 0. */
  function Take(s: string, n: nat): (r: string)
    ensures |r| == if n <= |s| then n else |s|
    ensures r <= s
  {
    if n <= |s| then s[..n] else s
  }

  /** `String(n).padStart(width, '0')`. */
  function PadStart(s: string, width: nat, pad: char): (r: string)
    ensures |r| == if |s| >= width then |s| else width
    decreases width - |s|
  {
    if |s| >= width then s else PadStart([pad] + s, width, pad)
  }
}

=== FILE: user_dashboard.dfy ===
/** components/dashboard/UserDashboard.tsx: the participant's profile editor and certificate
    download. The user record is an untyped JSON object, modelled as a map from keys to
    JavaScript values. */
module UserDashboard {
  import opened Wrappers
  import opened EventResults

  /** The JavaScript values the profile holds. */
  datatype JsVal = Undefined | Null | Str(s: string) | Num(n: int) | Bool(b: bool)

  /** JavaScript truthiness (the model has no NaN). */
  predicate Truthy(v: JsVal) {
    match v
    case Undefined => false
    case Null => false
    case Str(s) => |s| > 0
    case Num(n) => n != 0
    case Bool(b) => b
  }

  type JsObject = map<string, JsVal>

  /** `obj[key]`: `undefined` for a key the object does not have. */
  function Field(obj: JsObject, key: string): JsVal {
    if key in obj then obj[key] else Undefined
  }

  /** `v || ''`. */
  function OrEmpty(v: JsVal): (r: JsVal)
    ensures Truthy(v) ==> r == v
    ensures !Truthy(v) ==> r == Str("")
  {
    if Truthy(v) then v else Str("")
  }

  // ---------------------------------------------------------------- profile editing

  /** The fields the profile form lets a participant change. */
  const EDITABLE: set<string> := {"full_name", "phone_number", "age", "address", "city", "state", "previous_experience"}

  /** The body of the PATCH request: every editable field whose value differs from the one
      loaded, with an empty value sent as the empty string. */
  function Diff(user: JsObject, original: JsObject): (d: JsObject)
    ensures forall k :: k in d <==> k in EDITABLE && Field(user, k) != Field(original, k)
    ensures forall k :: k in d ==> d[k] == OrEmpty(Field(user, k))
  {
    map k | k in EDITABLE && Field(user, k) != Field(original, k) :: OrEmpty(Field(user, k))
  }

  /** The e-mail address and the participant id are never part of a profile update. */
  lemma DiffLeavesIdentityAlone(user: JsObject, original: JsObject)
    ensures "email" !in Diff(user, original) && "user_id" !in Diff(user, original)
  {
    assert "email" !in EDITABLE && "user_id" !in EDITABLE;
  }

  /** Applying the update to the loaded record gives every non-empty editable field the value
      the participant typed, and leaves every other field as it was. */
  lemma DiffRestoresEdits(user: JsObject, original: JsObject)
    ensures var merged := original + Diff(user, original);
            && (forall k :: k in EDITABLE && Truthy(Field(user, k)) ==> Field(merged, k) == Field(user, k))
            && (forall k :: k !in EDITABLE ==> Field(merged, k) == Field(original, k))
  {
    var d := Diff(user, original);
    var merged := original + d;
    forall k | k in EDITABLE && Truthy(Field(user, k)) ensures Field(merged, k) == Field(user, k) {
      if k in d {
        assert merged[k] == d[k];
      } else {
        assert Field(user, k) == Field(original, k);
      }
    }
  }

  /** The dashboard's editing state: the record shown, the record loaded, and edit mode. */
  datatype Profile = Profile(user: JsObject, original: JsObject, isEditing: bool)

  datatype Patch = Patch(userId: JsVal, body: JsObject)

  /** `handleSaveProfile` up to the request: with nothing changed, edit mode ends and no request
      is sent; otherwise the update goes to the participant's own id. */
  function SaveProfile(p: Profile): (r: (Profile, Option<Patch>))
    ensures r.1.None? <==> forall k :: k in EDITABLE ==> Field(p.user, k) == Field(p.original, k)
    ensures r.1.None? ==> r.0 == p.(isEditing := false)
    ensures r.1.Some? ==> r.0 == p && r.1.value.userId == Field(p.user, "user_id")
                          && |r.1.value.body| > 0
                          && forall k :: k in r.1.value.body ==> k in EDITABLE
    ensures r.1.Some? ==> r.1.value.body == Diff(p.user, p.original)
  {
    var d := Diff(p.user, p.original);
    if d == map[] then (p.(isEditing := false), None)
    else
      assert exists k :: k in d;
      (p, Some(Patch(Field(p.user, "user_id"), d)))
  }

  /** `handleCancelEdit`. */
  function CancelEdit(p: Profile): (q: Profile)
    ensures q.user == p.original && q.original == p.original && !q.isEditing
  {
    p.(user := p.original, isEditing := false)
  }

  /** After a cancel, saving sends nothing. */
  lemma CancelThenSaveSendsNothing(p: Profile)
    ensures SaveProfile(CancelEdit(p)).1.None?
  {
  }

  /** `!!user.user_id || user.hasParticipated`. */
  predicate HasParticipated(user: JsObject) {
    Truthy(Field(user, "user_id")) || Truthy(Field(user, "hasParticipated"))
  }

  // ---------------------------------------------------------------- certificate

  datatype Certificate = Certificate(result: EventResult, position: int, category: string)

  predicate EntryOf(e: ResultEntry, contestantId: JsVal) { contestantId == Str(e.participantId) }

  /** The first entry, list by list, whose participant id is the contestant's. */
  function FindInLists(lists: seq<NamedEntries>, contestantId: JsVal): (r: Option<(string, ResultEntry)>)
    ensures r.None? <==> forall k, e :: 0 <= k < |lists| && e in lists[k].entries ==> !EntryOf(e, contestantId)
    ensures r.Some? ==> EntryOf(r.value.1, contestantId)
                        && exists k :: 0 <= k < |lists| && lists[k].category == r.value.0 && r.value.1 in lists[k].entries
                                       && forall m, e :: 0 <= m < k && e in lists[m].entries ==> !EntryOf(e, contestantId)
    decreases |lists|
  {
    if |lists| == 0 then None
    else
      var es := lists[0].entries;
      match FindFirst(es, contestantId)
      case Some(e) => Some((lists[0].category, e))
      case None =>
        var rest := FindInLists(lists[1..], contestantId);
        assert forall k :: 0 < k < |lists| ==> lists[k] == lists[1..][k - 1];
        match rest
        case None => None
        case Some(v) =>
          var k :| 0 <= k < |lists[1..]| && lists[1..][k].category == v.0 && v.1 in lists[1..][k].entries
                   && forall m, e :: 0 <= m < k && e in lists[1..][m].entries ==> !EntryOf(e, contestantId);
          assert lists[k + 1] == lists[1..][k];
          rest
  }

  function FindFirst(es: seq<ResultEntry>, contestantId: JsVal): (r: Option<ResultEntry>)
    ensures r.None? <==> forall e :: e in es ==> !EntryOf(e, contestantId)
    ensures r.Some? ==> r.value in es && EntryOf(r.value, contestantId)
    decreases |es|
  {
    if |es| == 0 then None
    else if EntryOf(es[0], contestantId) then Some(es[0])
    else
      assert forall e :: e in es ==> e == es[0] || e in es[1..];
      FindFirst(es[1..], contestantId)
  }

  /** The lists a certificate lookup walks through in one stored result. */
  type ListsOf = EventResult -> seq<NamedEntries>

  /** What the lookup finds in each stored result, in order. */
  function Lookups(rs: seq<EventResult>, contestantId: JsVal, lists: ListsOf): (hs: seq<Option<(string, ResultEntry)>>)
    ensures |hs| == |rs| && forall i :: 0 <= i < |rs| ==> hs[i] == FindInLists(lists(rs[i]), contestantId)
  {
    seq(|rs|, (i: int) requires 0 <= i < |rs| => FindInLists(lists(rs[i]), contestantId))
  }

  /** The walk over the stored results: the certificate from the first one with a hit. */
  function FirstFound(rs: seq<EventResult>, hs: seq<Option<(string, ResultEntry)>>): (r: Option<Certificate>)
    requires |hs| == |rs|
    ensures r.None? <==> forall i :: 0 <= i < |hs| ==> hs[i].None?
    ensures r.Some? ==> exists i :: 0 <= i < |rs| && rs[i] == r.value.result && hs[i].Some?
                          && r.value.category == hs[i].value.0 && r.value.position == hs[i].value.1.position
                          && forall j :: 0 <= j < i ==> hs[j].None?
    decreases |rs|
  {
    if |rs| == 0 then None
    else
      match hs[0]
      case Some(hit) => Some(Certificate(rs[0], hit.1.position, hit.0))
      case None =>
        var rest := FirstFound(rs[1..], hs[1..]);
        assert forall i :: 0 < i < |rs| ==> rs[i] == rs[1..][i - 1] && hs[i] == hs[1..][i - 1];
        match rest
        case None => None
        case Some(c) =>
          var i :| 0 <= i < |rs[1..]| && rs[1..][i] == c.result && hs[1..][i].Some?
                   && c.category == hs[1..][i].value.0 && c.position == hs[1..][i].value.1.position
                   && forall j :: 0 <= j < i ==> hs[1..][j].None?;
          assert rs[i + 1] == rs[1..][i] && hs[i + 1] == hs[1..][i];
          rest
  }

  /** The stored results in order, the first one with a matching entry. */
  function CertificateFrom(rs: seq<EventResult>, contestantId: JsVal, lists: ListsOf): (r: Option<Certificate>)
    ensures r.None? <==> forall i :: 0 <= i < |rs| ==> FindInLists(lists(rs[i]), contestantId).None?
    ensures r.Some? ==> exists i :: 0 <= i < |rs| && rs[i] == r.value.result
                          && FindInLists(lists(rs[i]), contestantId).Some?
                          && r.value.category == FindInLists(lists(rs[i]), contestantId).value.0
                          && r.value.position == FindInLists(lists(rs[i]), contestantId).value.1.position
                          && forall j :: 0 <= j < i ==> FindInLists(lists(rs[j]), contestantId).None?
  {
    FirstFound(rs, Lookups(rs, contestantId, lists))
  }

  /** `handleDownloadCertificate` as written: it walks `result.results`. */
  function CertificateAsWritten(rs: seq<EventResult>, user: JsObject): Option<Certificate> {
    CertificateFrom(rs, Field(user, "contestantId"), (r: EventResult) => r.results)
  }

  /** The stored results never carry `results`, so no participant ever gets a certificate. */
  lemma CertificateAsWrittenNeverIssued(rs: seq<EventResult>, user: JsObject)
    requires NoResultsKey(rs)
    ensures CertificateAsWritten(rs, user).None?
  {
    forall i | 0 <= i < |rs| ensures FindInLists(rs[i].results, Field(user, "contestantId")).None? {
      assert rs[i].results == [];
    }
  }

  /** The top positions as named lists, under their JSON keys. */
  function TopLists(r: EventResult): (ls: seq<NamedEntries>)
    ensures |ls| == 3
    ensures ls[0] == NamedEntries("adult", r.topPositions.adult)
    ensures ls[1] == NamedEntries("children", r.topPositions.children)
    ensures ls[2] == NamedEntries("preschool", r.topPositions.preschool)
  {
    [NamedEntries("adult", r.topPositions.adult), NamedEntries("children", r.topPositions.children),
     NamedEntries("preschool", r.topPositions.preschool)]
  }

  /** The lookup over the lists the results actually store. */
  function CertificateFor(rs: seq<EventResult>, user: JsObject): Option<Certificate> {
    CertificateFrom(rs, Field(user, "contestantId"), TopLists)
  }

  /** The lookup in one result's top positions hits exactly when the contestant is placed
      there. */
  lemma TopListsHit(r: EventResult, id: JsVal)
    ensures FindInLists(TopLists(r), id).Some? <==>
            exists e :: EntryOf(e, id) && (e in r.topPositions.adult || e in r.topPositions.children
                                          || e in r.topPositions.preschool)
  {
    var ls := TopLists(r);
    if FindInLists(ls, id).Some? {
      var hit := FindInLists(ls, id).value;
      var k :| 0 <= k < 3 && hit.1 in ls[k].entries;
      assert EntryOf(hit.1, id);
    } else {
      forall e | EntryOf(e, id)
        ensures !(e in r.topPositions.adult || e in r.topPositions.children || e in r.topPositions.preschool)
      {
        assert e !in ls[0].entries && e !in ls[1].entries && e !in ls[2].entries;
      }
    }
  }

  /** Every participant placed in a stored result's top positions gets a certificate, and a
      certificate is only issued for such a placing. */
  lemma CertificateForWinners(rs: seq<EventResult>, user: JsObject)
    ensures CertificateFor(rs, user).Some? <==>
            exists i, e :: 0 <= i < |rs| && EntryOf(e, Field(user, "contestantId"))
                           && (e in rs[i].topPositions.adult || e in rs[i].topPositions.children
                               || e in rs[i].topPositions.preschool)
  {
    var id := Field(user, "contestantId");
    if CertificateFor(rs, user).None? {
      forall i, e | 0 <= i < |rs| && EntryOf(e, id)
        ensures !(e in rs[i].topPositions.adult || e in rs[i].topPositions.children || e in rs[i].topPositions.preschool)
      {
        TopListsHit(rs[i], id);
      }
    } else {
      var i :| 0 <= i < |rs| && FindInLists(TopLists(rs[i]), id).Some?;
      TopListsHit(rs[i], id);
    }
  }
}

=== FILE: users.dfy ===
/** Resources/User/UserService.py: sign-up, sign-in, listing, update and soft delete of users.
    bcrypt is a parameter: `hash(password, salt)` with a fresh salt per call, and `verify`.
    The `EmailStr` fields of UserCreate, UserLogin and UserUpdate are the parameter `emailStr`:
    a refused address is 422 before the service runs, and the service sees the normal form. */
module UserService {
  import opened Wrappers
  import opened Text
  import opened KeyedStore
  import opened SqlLike
  import opened Schema
  import opened Ids
  import opened Auth

  datatype Hasher = Hasher(hash: (string, nat) -> string, verify: (string, string) -> bool)

  /** bcrypt's promise: a password verifies against every hash made from it. */
  ghost predicate Sound(h: Hasher) {
    forall p, salt :: h.verify(p, h.hash(p, salt))
  }

  const EMAIL_REGISTERED := "Email already registered"
  const EMAIL_EXISTS := "Email already exists"
  const INVALID_LOGIN := "Invalid email or password"
  const NOT_AUTHORIZED_UPDATE := "Not authorized to update this user"
  const NOT_AUTHORIZED_DELETE := "Not authorized to delete this user"

  datatype UserCreate = UserCreate(
    email: string, password: string, fullName: string, phoneNumber: string, age: string,
    address: string, city: string, state: string, previousExperience: Option<string>)

  /** What sign-up and sign-in answer. */
  datatype AuthReply = AuthReply(user: User, accessToken: Token, tokenType: string)

  /** The row sign-up stores: a fresh id, the normalised e-mail, the hashed password, active. */
  function NewUser(req: UserCreate, email: string, hashed: string, uuid: nat): (u: User)
    ensures u.userId == GenerateId(USER_PREFIX, uuid) && u.password == hashed && u.active
    ensures u.email == email && u.fullName == req.fullName && u.phoneNumber == req.phoneNumber
    ensures u.age == req.age && u.address == req.address && u.city == req.city && u.state == req.state
    ensures u.previousExperience == req.previousExperience
    ensures UserFits(u) <==>
      Fits(email, 255) && Fits(req.fullName, 255) && Fits(hashed, 255) && Fits(req.phoneNumber, 20)
  {
    User(GenerateId(USER_PREFIX, uuid), email, req.fullName, hashed, req.phoneNumber, req.age,
         req.address, req.city, req.state, req.previousExperience, true)
  }

  /** `signup`: an address EmailStr refuses is 422; an e-mail already on file (active or not)
      is refused; otherwise the user is stored with the normalised e-mail and the bcrypt hash of
      the password, and receives a bearer token. A value too long for its column fails the
      commit with a 500. */
  function Signup(db: Db, req: UserCreate, emailStr: EmailStr, h: Hasher, salt: nat, uuid: nat, now: int): (r: Response<AuthReply>)
    ensures emailStr(req.email).None? ==> r == Fail(db, UNPROCESSABLE, INVALID_EMAIL)
    ensures emailStr(req.email).Some? && HasKey(db.users, UserEmail, emailStr(req.email).value) ==>
              r == Fail(db, BAD_REQUEST, EMAIL_REGISTERED)
    ensures r.body.Err? ==> r.db == db
    ensures r.body.Ok? ==> emailStr(req.email).Some?
    ensures r.body.Ok? ==>
      var u := r.body.value.user;
      && u == NewUser(req, emailStr(req.email).value, h.hash(req.password, salt), uuid)
      && r.db == db.(users := db.users + [u])
      && r.body.value.accessToken == CreateAccessToken(u.userId, "user", None, now).value
      && r.body.value.tokenType == "bearer"
    ensures Consistent(db) && emailStr(req.email).Some? && !HasKey(db.users, UserEmail, emailStr(req.email).value) ==>
      (r.body.Ok? <==> !HasKey(db.users, UserKey, GenerateId(USER_PREFIX, uuid))
                       && UserFits(NewUser(req, emailStr(req.email).value, h.hash(req.password, salt), uuid)))
    ensures Consistent(db) ==> Consistent(r.db)
    ensures IssuedUserIds(db) ==> IssuedUserIds(r.db)
    ensures NormalisedEmails(db, emailStr) && Canonical(emailStr) ==> NormalisedEmails(r.db, emailStr)
  {
    match emailStr(req.email)
    case None => Fail(db, UNPROCESSABLE, INVALID_EMAIL)
    case Some(email) =>
      if IndexOf(db.users, UserEmail, email).Some? then Fail(db, BAD_REQUEST, EMAIL_REGISTERED)
      else
        var u := NewUser(req, email, h.hash(req.password, salt), uuid);
        var token := CreateAccessToken(u.userId, "user", None, now).value;
        var after := db.(users := db.users + [u]);
        AppendUserConsistent(db, u);
        Commit(db, after, AuthReply(u, token, "bearer"))
  }

  /** EmailStr's normal form is a fixed point: normalising it again changes nothing. */
  ghost predicate Canonical(emailStr: EmailStr) {
    forall s :: emailStr(s).Some? ==> emailStr(emailStr(s).value) == emailStr(s)
  }

  /** Every stored e-mail is in the normal form EmailStr gives it. */
  ghost predicate NormalisedEmails(db: Db, emailStr: EmailStr) {
    forall i :: 0 <= i < |db.users| ==> emailStr(db.users[i].email) == Some(db.users[i].email)
  }

  /** Adding a user whose id and e-mail are both new keeps the database consistent when the row
      fits its columns, and only then. */
  lemma AppendUserConsistent(db: Db, u: User)
    ensures Consistent(db) && !HasKey(db.users, UserEmail, u.email) ==>
      (Consistent(db.(users := db.users + [u])) <==> !HasKey(db.users, UserKey, u.userId) && UserFits(u))
  {
    var after := db.(users := db.users + [u]);
    EveryAppend(db.users, UserFits, u);
    if !Consistent(db) || HasKey(db.users, UserEmail, u.email) {
    } else if !UserFits(u) {
    } else if !HasKey(db.users, UserKey, u.userId) {
      assert UniqueKeys(after.users, UserKey);
      assert UniqueKeys(after.users, UserEmail);
      forall i | 0 <= i < |after.registrations|
        ensures HasKey(after.users, UserKey, after.registrations[i].userId)
      {
        var j :| 0 <= j < |db.users| && UserKey(db.users[j]) == db.registrations[i].userId;
        assert after.users[j] == db.users[j];
      }
    } else {
      var j :| 0 <= j < |db.users| && UserKey(db.users[j]) == u.userId;
      assert after.users[j].userId == after.users[|db.users|].userId;
    }
  }

  /** The row `filter(<column> == v, User.status == True).first()` selects, for the column
      `key` reads. */
  function ActiveBy(db: Db, key: User -> string, v: string): (r: Option<nat>)
    ensures r.Some? ==> r.value < |db.users| && key(db.users[r.value]) == v && db.users[r.value].active
    ensures r.None? ==> forall j :: 0 <= j < |db.users| ==> !(key(db.users[j]) == v && db.users[j].active)
  {
    FindFirst(db.users, (u: User) => key(u) == v && u.active)
  }

  /** The first active user with that e-mail. */
  function ActiveByEmail(db: Db, email: string): (r: Option<nat>)
    ensures r.Some? ==> r.value < |db.users| && db.users[r.value].email == email && db.users[r.value].active
    ensures r.None? ==> forall j :: 0 <= j < |db.users| ==> !(db.users[j].email == email && db.users[j].active)
  {
    ActiveBy(db, (u: User) => u.email, email)
  }

  /** Every stored user id has the form sign-up gives it. */
  predicate IssuedUserIds(db: Db) {
    forall i :: 0 <= i < |db.users| ==> StartsWith(db.users[i].userId, USER_PREFIX)
  }

  /** `signin`: an address EmailStr refuses is 422; an unknown or deactivated e-mail and a wrong
      password get the same 401. The lookup uses the normalised address. */
  function Signin(db: Db, email: string, password: string, emailStr: EmailStr, h: Hasher, now: int): (r: Result<AuthReply, HttpError>)
    ensures emailStr(email).None? ==> r == Err(HttpError(UNPROCESSABLE, INVALID_EMAIL))
    ensures r.Err? && emailStr(email).Some? && IssuedUserIds(db) ==> r.error == HttpError(UNAUTHORIZED, INVALID_LOGIN)
    ensures r.Ok? ==> emailStr(email).Some?
    ensures r.Ok? ==> r.value.user in db.users && r.value.user.active && r.value.user.email == emailStr(email).value
                      && h.verify(password, r.value.user.password)
    ensures r.Ok? ==> StartsWith(r.value.user.userId, USER_PREFIX)
                      && r.value.accessToken == CreateAccessToken(r.value.user.userId, "user", None, now).value
    ensures UniqueKeys(db.users, UserEmail) && IssuedUserIds(db) ==>
      (r.Ok? <==> emailStr(email).Some? &&
                  exists j :: 0 <= j < |db.users| && db.users[j].email == emailStr(email).value && db.users[j].active
                              && h.verify(password, db.users[j].password))
  {
    match emailStr(email)
    case None => Err(HttpError(UNPROCESSABLE, INVALID_EMAIL))
    case Some(normal) =>
    match ActiveByEmail(db, normal)
    case None => Err(HttpError(UNAUTHORIZED, INVALID_LOGIN))
    case Some(i) =>
      var u := db.users[i];
      if !h.verify(password, u.password) then Err(HttpError(UNAUTHORIZED, INVALID_LOGIN))
      else match CreateAccessToken(u.userId, "user", None, now)
        case Err(e) => Err(HttpError(SERVER_ERROR, e))
        case Ok(token) => Ok(AuthReply(u, token, "bearer"))
  }

  /** The filters `get_users` reads from the query string; an absent or empty one is ignored. */
  datatype UserFilters = UserFilters(
    userId: Option<string>, email: Option<string>, city: Option<string>, state: Option<string>, age: Option<string>)

  /** One filter on the conjunction of all the given conditions. */
  predicate UserMatches(u: User, f: UserFilters) {
    && u.active
    && (Given(f.userId) ==> u.userId == f.userId.value)
    && (Given(f.email) ==> IContains(u.email, f.email.value))
    && (Given(f.city) ==> IContains(u.city, f.city.value))
    && (Given(f.state) ==> IContains(u.state, f.state.value))
    && (Given(f.age) ==> u.age == f.age.value)
  }

  function UserFilter(f: UserFilters): User -> bool {
    u => UserMatches(u, f)
  }

  /** The query filters of `get_users` in the order it applies them; a filter whose parameter is
      absent keeps every row, which is the same as not applying it. */
  function UserConditions(f: UserFilters): seq<User -> bool> {
    [ (u: User) => u.active,
      (u: User) => !Given(f.userId) || u.userId == f.userId.value,
      (u: User) => !Given(f.email) || IContains(u.email, f.email.value),
      (u: User) => !Given(f.city) || IContains(u.city, f.city.value),
      (u: User) => !Given(f.state) || IContains(u.state, f.state.value),
      (u: User) => !Given(f.age) || u.age == f.age.value ]
  }

  lemma UserConditionsMatch(u: User, f: UserFilters)
    ensures Conj(UserConditions(f))(u) == UserFilter(f)(u)
  {
    var cs := UserConditions(f);
    assert cs[0](u) && cs[1](u) && cs[2](u) && cs[3](u) && cs[4](u) && cs[5](u) <==> UserMatches(u, f);
  }

  /** `get_users`: the chain of query filters selects, in table order, exactly the active users
      matching every given filter. */
  function GetUsers(db: Db, f: UserFilters): (r: seq<User>)
    ensures r == Where(db.users, UserFilter(f))
    ensures forall i :: 0 <= i < |r| ==> r[i] in db.users && UserMatches(r[i], f)
    ensures forall i :: 0 <= i < |db.users| && UserMatches(db.users[i], f) ==> db.users[i] in r
  {
    NarrowIsWhere(db.users, UserConditions(f));
    forall i | 0 <= i < |db.users|
      ensures Conj(UserConditions(f))(db.users[i]) == UserFilter(f)(db.users[i])
    {
      UserConditionsMatch(db.users[i], f);
    }
    WhereExt(db.users, Conj(UserConditions(f)), UserFilter(f));
    Narrow(db.users, UserConditions(f))
  }

  /** The fields a PATCH may carry (UserUpdate has no address). */
  datatype UserPatch = UserPatch(
    email: Option<string>, password: Option<string>, fullName: Option<string>,
    phoneNumber: Option<string>, age: Option<string>, city: Option<string>, state: Option<string>,
    previousExperience: Option<string>)

  /** `setattr` for every supplied field; the password arrives already hashed. */
  function ApplyUserPatch(u: User, p: UserPatch, hashed: string): (v: User)
    ensures v.userId == u.userId && v.address == u.address && v.active == u.active
    ensures v.email == p.email.GetOr(u.email) && v.fullName == p.fullName.GetOr(u.fullName)
    ensures v.phoneNumber == p.phoneNumber.GetOr(u.phoneNumber) && v.age == p.age.GetOr(u.age)
    ensures v.city == p.city.GetOr(u.city) && v.state == p.state.GetOr(u.state)
    ensures v.password == (if p.password.Some? then hashed else u.password)
    ensures v.previousExperience == (if p.previousExperience.Some? then p.previousExperience else u.previousExperience)
  {
    u.(email := p.email.GetOr(u.email),
       password := if p.password.Some? then hashed else u.password,
       fullName := p.fullName.GetOr(u.fullName),
       phoneNumber := p.phoneNumber.GetOr(u.phoneNumber),
       age := p.age.GetOr(u.age),
       city := p.city.GetOr(u.city),
       state := p.state.GetOr(u.state),
       previousExperience := if p.previousExperience.Some? then p.previousExperience else u.previousExperience)
  }

  /** The first active user with that id. */
  function ActiveById(db: Db, userId: string): (r: Option<nat>)
    ensures r.Some? ==> r.value < |db.users| && db.users[r.value].userId == userId && db.users[r.value].active
    ensures r.None? ==> forall j :: 0 <= j < |db.users| ==> !(db.users[j].userId == userId && db.users[j].active)
  {
    ActiveBy(db, (u: User) => u.userId, userId)
  }

  /** The patch the handler receives: EmailStr has put a supplied e-mail in normal form, or
      refused it (`None`). */
  function CheckedPatch(p: UserPatch, emailStr: EmailStr): (q: Option<UserPatch>)
    ensures q.None? <==> p.email.Some? && emailStr(p.email.value).None?
    ensures q.Some? ==> q.value == p.(email := q.value.email)
    ensures q.Some? && p.email.Some? ==> q.value.email == emailStr(p.email.value)
    ensures q.Some? && p.email.None? ==> q.value == p
  {
    match CheckedEmail(p.email, emailStr)
    case None => None
    case Some(e) => Some(p.(email := e))
  }

  /** `update_user`: a new address EmailStr refuses is 422; 404 for a missing or deactivated
      user, 403 unless the caller is that user, 400 when the new e-mail belongs to any other
      user; otherwise exactly the supplied fields of that one row change, the e-mail to its
      normal form, and a value too long for its column fails the commit with a 500. */
  function UpdateUser(db: Db, current: User, userId: string, p: UserPatch, emailStr: EmailStr, h: Hasher, salt: nat): (r: Response<User>)
    ensures r.body.Err? ==> r.db == db
    ensures CheckedPatch(p, emailStr).None? ==> r == Fail(db, UNPROCESSABLE, INVALID_EMAIL)
    ensures CheckedPatch(p, emailStr).Some? && ActiveById(db, userId).None? ==> r == Fail(db, NOT_FOUND, USER_NOT_FOUND)
    ensures CheckedPatch(p, emailStr).Some? && ActiveById(db, userId).Some? && current.userId != userId ==>
              r == Fail(db, FORBIDDEN, NOT_AUTHORIZED_UPDATE)
    ensures r.body.Ok? ==> CheckedPatch(p, emailStr).Some? && ActiveById(db, userId).Some?
    ensures r.body.Ok? ==>
      var q := CheckedPatch(p, emailStr).value;
      var i := ActiveById(db, userId).value;
      && current.userId == userId
      && r.body.value == ApplyUserPatch(db.users[i], q, h.hash(p.password.GetOr(""), salt))
      && r.db == db.(users := db.users[i := r.body.value])
    ensures r.body.Ok? && p.email.Some? ==> emailStr(p.email.value) == Some(r.body.value.email)
    ensures Consistent(db) && CheckedPatch(p, emailStr).Some? && ActiveById(db, userId).Some? && current.userId == userId ==>
      var q := CheckedPatch(p, emailStr).value;
      var i := ActiveById(db, userId).value;
      (r.body.Err? <==> || (q.email.Some? && q.email.value != db.users[i].email && HasKey(db.users, UserEmail, q.email.value))
                        || !UserFits(ApplyUserPatch(db.users[i], q, h.hash(p.password.GetOr(""), salt))))
    ensures Consistent(db) ==> Consistent(r.db)
    ensures NormalisedEmails(db, emailStr) && Canonical(emailStr) ==> NormalisedEmails(r.db, emailStr)
  {
    match CheckedPatch(p, emailStr)
    case None => Fail(db, UNPROCESSABLE, INVALID_EMAIL)
    case Some(q) =>
    match ActiveById(db, userId)
    case None => Fail(db, NOT_FOUND, USER_NOT_FOUND)
    case Some(i) =>
      if current.userId != userId && RoleOf(None) != "admin" then Fail(db, FORBIDDEN, NOT_AUTHORIZED_UPDATE)
      else
        var u := db.users[i];
        var hashed := h.hash(q.password.GetOr(""), salt);
        if q.email.Some? && q.email.value != u.email && IndexOf(db.users, UserEmail, q.email.value).Some? then
          Fail(db, BAD_REQUEST, EMAIL_EXISTS)
        else
          var v := ApplyUserPatch(u, q, hashed);
          ReplaceUserConsistent(db, i, v);
          Commit(db, db.(users := db.users[i := v]), v)
  }

  /** Replacing a user by one with the same id and an e-mail no other user has keeps the
      database consistent when the row fits its columns, and only then. */
  lemma ReplaceUserConsistent(db: Db, i: nat, v: User)
    requires i < |db.users| && v.userId == db.users[i].userId
    ensures Consistent(db) && (v.email == db.users[i].email || !HasKey(db.users, UserEmail, v.email)) ==>
      (Consistent(db.(users := db.users[i := v])) <==> UserFits(v))
  {
    EveryReplace(db.users, UserFits, i, v);
    if !Consistent(db) || !(v.email == db.users[i].email || !HasKey(db.users, UserEmail, v.email)) || !UserFits(v) {
      return;
    }
    var after := db.(users := db.users[i := v]);
    forall k | 0 <= k < |after.registrations|
      ensures HasKey(after.users, UserKey, after.registrations[k].userId)
    {
      var j :| 0 <= j < |db.users| && UserKey(db.users[j]) == db.registrations[k].userId;
      assert UserKey(after.users[j]) == UserKey(db.users[j]);
    }
    forall a, b | 0 <= a < b < |after.users| ensures UserEmail(after.users[a]) != UserEmail(after.users[b]) {
      if v.email != db.users[i].email {
        if a == i { assert UserEmail(db.users[b]) != v.email; }
        if b == i { assert UserEmail(db.users[a]) != v.email; }
      }
    }
  }

  /** `remove_user`: a soft delete of the caller's own active row. */
  function RemoveUser(db: Db, current: User, userId: string): (r: Response<string>)
    ensures r.body.Err? ==> r.db == db
    ensures ActiveById(db, userId).None? ==> r == Fail(db, NOT_FOUND, USER_NOT_FOUND)
    ensures ActiveById(db, userId).Some? && current.userId != userId ==>
              r == Fail(db, FORBIDDEN, NOT_AUTHORIZED_DELETE)
    ensures Consistent(db) && ActiveById(db, userId).Some? && current.userId == userId ==>
      var i := ActiveById(db, userId).value;
      r.body.Ok? && r.db == db.(users := db.users[i := db.users[i].(active := false)])
    ensures Consistent(db) ==> Consistent(r.db)
  {
    match ActiveById(db, userId)
    case None => Fail(db, NOT_FOUND, USER_NOT_FOUND)
    case Some(i) =>
      if current.userId != userId && RoleOf(None) != "admin" then Fail(db, FORBIDDEN, NOT_AUTHORIZED_DELETE)
      else
        var v := db.users[i].(active := false);
        ReplaceUserConsistent(db, i, v);
        assert Consistent(db) ==> UserFits(v) by {
          if Consistent(db) { assert UserFits(db.users[i]); }
        }
        Commit(db, db.(users := db.users[i := v]), "User deleted successfully")
  }

  // ---------------------------------------------------------------- properties

  /** With a sound bcrypt, the password chosen at sign-up signs the new user in, under any
      address EmailStr puts in the same normal form as the one signed up with. */
  lemma SignupThenSignin(db: Db, req: UserCreate, login: string, emailStr: EmailStr, h: Hasher, salt: nat, uuid: nat, now: int, later: int)
    requires Sound(h) && Consistent(db)
    requires Signup(db, req, emailStr, h, salt, uuid, now).body.Ok?
    requires emailStr(login) == emailStr(req.email)
    ensures var r := Signup(db, req, emailStr, h, salt, uuid, now);
            var s := Signin(r.db, login, req.password, emailStr, h, later);
            s.Ok? && s.value.user == r.body.value.user
  {
    var r := Signup(db, req, emailStr, h, salt, uuid, now);
    var u := r.body.value.user;
    var email := emailStr(req.email).value;
    assert h.verify(req.password, h.hash(req.password, salt));
    assert !HasKey(db.users, UserEmail, email);
    assert r.db.users[|db.users|] == u;
    assert forall j :: 0 <= j < |db.users| ==> r.db.users[j].email != email;
    assert ActiveByEmail(r.db, email) == Some(|db.users|);
  }

  /** A soft-deleted user can no longer sign in under any address that normalises to theirs,
      and a second removal finds nothing. */
  lemma RemoveThenSignin(db: Db, current: User, login: string, password: string, emailStr: EmailStr, h: Hasher, now: int)
    requires Consistent(db)
    requires ActiveById(db, current.userId).Some?
    requires emailStr(login) == Some(db.users[ActiveById(db, current.userId).value].email)
    ensures var r := RemoveUser(db, current, current.userId);
      && r.body.Ok?
      && Signin(r.db, login, password, emailStr, h, now) == Err(HttpError(UNAUTHORIZED, INVALID_LOGIN))
      && RemoveUser(r.db, current, current.userId) == Fail(r.db, NOT_FOUND, USER_NOT_FOUND)
  {
    var i := ActiveById(db, current.userId).value;
    var email := db.users[i].email;
    var r := RemoveUser(db, current, current.userId);
    assert r.db.users == db.users[i := db.users[i].(active := false)];
    forall j | 0 <= j < |r.db.users| ensures !(r.db.users[j].email == email && r.db.users[j].active) {
      if j != i { assert UserEmail(db.users[j]) != UserEmail(db.users[i]); }
    }
    forall j | 0 <= j < |r.db.users| ensures !(r.db.users[j].userId == current.userId && r.db.users[j].active) {
      if j != i { assert UserKey(db.users[j]) != UserKey(db.users[i]); }
    }
  }

  /** A deactivated user's e-mail still blocks a new sign-up with any address that normalises
      to it. */
  lemma RemovedEmailStaysRegistered(db: Db, current: User, req: UserCreate, emailStr: EmailStr, h: Hasher, salt: nat, uuid: nat, now: int)
    requires Consistent(db)
    requires ActiveById(db, current.userId).Some?
    requires emailStr(req.email) == Some(db.users[ActiveById(db, current.userId).value].email)
    ensures var r := RemoveUser(db, current, current.userId);
            Signup(r.db, req, emailStr, h, salt, uuid, now).body == Err(HttpError(BAD_REQUEST, EMAIL_REGISTERED))
  {
    var i := ActiveById(db, current.userId).value;
    var r := RemoveUser(db, current, current.userId);
    assert UserEmail(r.db.users[i]) == emailStr(req.email).value;
  }

  /** After a password change, the new password signs the user in under the stored address,
      when every stored address is in normal form and the fields the patch sets fit their
      columns. */
  lemma PasswordChangeThenSignin(db: Db, current: User, p: UserPatch, emailStr: EmailStr, h: Hasher, salt: nat, now: int)
    requires Sound(h) && Consistent(db) && IssuedUserIds(db) && NormalisedEmails(db, emailStr)
    requires p.password.Some? && p.email.None? && Fits(h.hash(p.password.value, salt), 255)
    requires p.fullName.Some? ==> Fits(p.fullName.value, 255)
    requires p.phoneNumber.Some? ==> Fits(p.phoneNumber.value, 20)
    requires ActiveById(db, current.userId).Some?
    ensures var r := UpdateUser(db, current, current.userId, p, emailStr, h, salt);
      && r.body.Ok?
      && Signin(r.db, r.body.value.email, p.password.value, emailStr, h, now).Ok?
  {
    var i := ActiveById(db, current.userId).value;
    assert UserFits(db.users[i]);
    assert CheckedPatch(p, emailStr) == Some(p);
    assert UserFits(ApplyUserPatch(db.users[i], p, h.hash(p.password.GetOr(""), salt)));
    var r := UpdateUser(db, current, current.userId, p, emailStr, h, salt);
    var v := r.body.value;
    assert h.verify(p.password.value, h.hash(p.password.value, salt));
    assert r.db.users[i] == v;
    assert emailStr(v.email) == Some(v.email) by {
      assert v.email == db.users[i].email;
    }
    assert IssuedUserIds(r.db) by {
      forall j | 0 <= j < |r.db.users| ensures StartsWith(r.db.users[j].userId, USER_PREFIX) {
        assert r.db.users[j].userId == db.users[j].userId;
      }
    }
    assert exists j :: 0 <= j < |r.db.users| && r.db.users[j].email == v.email && r.db.users[j].active
                       && h.verify(p.password.value, r.db.users[j].password);
  }
}

=== FILE: wrappers.dfy ===
/** Option, Result and the HTTP error that every backend service raises. */
module Wrappers {

  datatype Option<+T> = None | Some(value: T) {
    function GetOr(default: T): T {
      match this
      case Some(v) => v
      case None => default
    }
  }

  datatype Result<+T, +E> = Ok(value: T) | Err(error: E)

  /** FastAPI's HTTPException: a status code and a detail message. */
  datatype HttpError = HttpError(status: int, detail: string)

  /** Status codes the services raise. */
  const BAD_REQUEST := 400
  const UNAUTHORIZED := 401
  const FORBIDDEN := 403
  const NOT_FOUND := 404
  const UNPROCESSABLE := 422
  const SERVER_ERROR := 500
  /** FastAPI's answer to an exception nothing catches. */
  const INTERNAL_ERROR := "Internal Server Error"

  /** A Python string is "truthy" exactly when it is non-empty. */
  predicate Truthy(s: string) { |s| > 0 }

  /** An optional request filter is applied only when present and non-empty
      (`if filters.get('x'):`). */
  predicate Given(f: Option<string>) { f.Some? && Truthy(f.value) }
}
